=== FILE: README.md ===
# Sales reporting pipeline, modelled in Dafny

The repository loads Ingram and Sage (IPS) book sales into SQL Server and
builds reporting tables from them. This project models the pure logic between
the database reads and the table writes. The model keeps the code's group-by
keys, joins, fills, column names and orders. Where the code has a bug (see
"## Findings"), the as-written behaviour is modelled and shown wrong, and the
pipelines are then built on the corrected definition; "## Left out" names
every member that rests on such a correction. The current
date is a parameter `(year, month)`, and tables are Dafny sequences of
records.

It models these parts:

- **The calendar**, in `calendar.dfy`:
  - the YEARMONTH key `YEAR*100+MONTH` and its decoding with `//` and `%`;
  - the trailing twelve-month window with its year borrow, and the four-month window;
  - the prior-year lists;
  - the month-abbreviation table;
  - the column labels (`%b_%y`, `NET_UNITS_{Mon}_{year}`, `{y}_ACTUAL`, `UNITS_{y}`);
  - the parsers that read those labels back when the columns are sorted.
- **The window pattern**, in `windows.dfy`: filter to a window, group and sum, left-join onto the base rows, fill nulls with 0.
  - Every report column is tied to one reference definition, `Windows.Window`.
- **Targets and tagging**, in `targets.dfy` and `tagging.dfy`:
  - the target-table filter;
  - the ratio join with its default of 1.0;
  - the signed and absolute `TARGET_NETAMT`;
  - the `~` / `*` marking of customers present in both sources.
- **The five reports**:
  - `report_three.dfy` models `report_three_combined` in `src/pipelines`;
  - `legacy_report.dfy` models the older `report_three_combined`;
  - `combined_sales.dfy` and `combined_columns.dfy` model `combined_sales_report`;
  - `revenue.dfy` models `revenue_report`;
  - `ingram_only.dfy` models the Ingram-only pipeline.
  - Each report's column order is in `columns.dfy`, `combined_columns.dfy`, `revenue.dfy` or `ingram_only.dfy`.
- **The loaders of ING_SALES**, in `ingest.dfy`:
  - `clean_isbn`;
  - the `Date` slicing and `to_datetime` parsing;
  - `prev_month`;
  - null filling and half-to-even rounding;
  - the title fill;
  - the pandas group-bys with `sum` and `first`.
- **The column labels of `monthly_sales_upload.py`**, in `upload_columns.dfy`:
  - the two merges with pandas' `_x`/`_y` suffixes, the renames, the drops and the select, on the frame's labels;
  - the type the sheet's EAN column is read with, numeric or text;
  - as written, a numeric EAN stops the script at the title merge, and a text EAN brings it to `clean_isbn` with two ISBN columns.
- **The backorder merge**, in `backorders.dfy`.
- **Shared pieces**: `tables.dfy` holds sums, filters, group-by, left join and sort. `text.dfy` holds digits, `zfill`, `replace`, `split`, `strip` and string order.

The model's choices:

- Money and unit columns are `real`. The per-sale `NETAMT` and `NETUNITS` `Int64` casts of the two target reports are folded into their inputs: the sale records hold whole numbers, the figures after the cast. The final `Int64` cast of the older report is written out (`LegacyReport.Trunc`).
- Group order is first-occurrence order. No property depends on it except after an explicit sort.
- A query that raises is an `Option`/`Result` parameter.

## Model

| member | source | states |
|---|---|---|
| Calendar.DecodeEncode | src/ingram_only_pipeline/ingram_only_pipeline.py:111-114 | `(y*100+m)//100 == y` and `(y*100+m)%100 == m` for every year whenever `1 <= m <= 12` |
| Calendar.EncodeDecode | src/run_all_book_reports/run_all_book_reports.py:76-77 | every key is `year*100+month` of its own `//100` and `%100`, with the month part in 0..99 |
| Calendar.KeyOrder | src/pipelines/combined_sales_report.py:138-139 | on calendar months, the order of YEARMONTH keys is the calendar order (both directions) |
| Calendar.MonthsBack | src/pipelines/report_three_combined.py:163-169 | `month - i` with the add-12-and-borrow rule gives a calendar month exactly `i` months before the current one |
| Calendar.TrailingKeysShape | src/pipelines/report_three_combined.py:163-170 | 12 keys, every month in 1..12, strictly decreasing and one calendar month apart, the current month excluded, and in January the first key is `(year-1)*100+12` |
| Calendar.TrailingKeysMembers | src/ingram_only_pipeline/ingram_only_pipeline.py:118-125 | a key is in the window exactly when it names a calendar month from 12 to 1 months before the current month |
| Calendar.FourMonthKeysMembers | src/pipelines/combined_sales_report.py:180-181 | `twelve_months_prior[:4]` holds exactly the four calendar months before the current month |
| Calendar.PriorYearsMembers | src/pipelines/combined_sales_report.py:195-197 | `range(curr_year-n, curr_year)` and the descending loop both hold exactly the n prior years, strictly ordered, each the reverse of the other |
| Calendar.MonthNamesDistinct | src/ingram_only_pipeline/ingram_only_pipeline.py:96-109 | the twelve month abbreviations are pairwise distinct |
| Calendar.AbbrRoundTrip | src/report_three_combined/report_three_combined.py:271 | `strptime(abbr, '%b').month` returns the month of its abbreviation; in the case-sensitive C-locale table, exactly that spelling parses to that month (Python's parser would also accept other letter cases) |
| Calendar.AbbrInjective | src/pipelines/report_three_combined.py:171-173 | months with equal abbreviations are equal |
| Calendar.UnitsColumn | src/ingram_only_pipeline/ingram_only_pipeline.py:111-114 | `yyyymm_to_units_col` returns a name exactly when `key % 100` is a calendar month (otherwise `months_dict` raises KeyError) |
| Calendar.UnitsColumnOfKey | src/ingram_only_pipeline/ingram_only_pipeline.py:124-126 | the column name computed from the loop's key is `NET_UNITS_{Mon}_{year}` of the loop's own month and year, for every year |
| Calendar.ShortLabelInjective | src/pipelines/report_three_combined.py:171-173 | two `%b_%y` labels are equal only for the same month and the same year modulo 100 |
| Calendar.ParseShortLabel | src/pipelines/report_three_combined.py:404-411 | a column name the sort key reads gives a calendar month and a year of at least 2000; any failing step is an error |
| Calendar.ParseShortLabelRoundTrip | src/pipelines/report_three_combined.py:404-414 | an ` Actual` or ` Target` column reads back as `(2000 + year % 100, month)`, which is `(year, month)` exactly for years 2000-2099 |
| Calendar.ParseUnitsLabel | src/pipelines/combined_sales_report.py:345-347 | the monthly sort key parses only to a calendar month and a year in 0..9999 |
| Calendar.ParseUnitsLabelRoundTrip | src/pipelines/combined_sales_report.py:345-347 | a `NET_UNITS_{Mon}_{year}` column (built at line 143) parses back to `(year, month)` exactly when the year has four digits; shorter years fail to parse |
| Calendar.YearLabelsOrder | src/pipelines/combined_sales_report.py:348-349 | for four-digit years, string order on `UNITS_{y}` and on `{y}_ACTUAL` is year order, so `sorted(reverse=True)` puts the newest year first |
| Calendar.SliceYearKey | src/pipelines/report_three_combined.py:143 | casting the key to text, slicing four characters and casting back gives the year, equal to `key // 100`, for four-digit years |
| Calendar.BackKeyIndex | src/pipelines/report_three_combined.py:163-169 | the key `i` months back has a calendar month and lies exactly `i` months before the current one |
| Calendar.KeyIndexInjective | src/pipelines/report_three_combined.py:163-169 | two keys with calendar months and the same month count are the same key |
| Calendar.FindMonth | src/report_three_combined/report_three_combined.py:271 | the month table search finds the first matching abbreviation after `from`, and fails exactly when none matches |
| Calendar.MonthAbbr | src/ingram_only_pipeline/ingram_only_pipeline.py:96-109 | every month abbreviation is three letters |
| Calendar.ShortLabel | src/run_all_book_reports/run_all_book_reports.py:96-99 | a `%b-%y` or `%b_%y` label is six characters |
| Calendar.ParseNat | src/pipelines/report_three_combined.py:410 | `int()` of a label part succeeds exactly on a non-empty digit string |
| Calendar.ShortLabelStripped | src/pipelines/report_three_combined.py:407 | removing ` Actual` and then ` Target` from an ` Actual` or ` Target` column leaves its `%b_%y` label |
| Calendar.ShortLabelParts | src/pipelines/report_three_combined.py:407-408 | splitting a `%b_%y` label at `_` gives the abbreviation and the two-digit year |
| Calendar.ParseShortName | src/pipelines/report_three_combined.py:404-411 | a name that strips to a `%b_%y` label sorts under `(2000 + year % 100, month)` |
| Calendar.UnitsLabelParts | src/pipelines/combined_sales_report.py:143 | splitting `NET_UNITS_<Mon>_<year>` at `_` gives NET, UNITS, the abbreviation and the year |
| Calendar.CenturyYear | src/pipelines/report_three_combined.py:410 | `2000 + yy` gives the year back exactly for years 2000-2099 |
| Text.ZFillDigits | src/monthly_sales_upload/monthly_sales_upload.py:58 | `zfill(9)` of a digit string: all digits, the original as suffix, only zeros before it, and the same numeric value |
| Text.ZFill | src/monthly_sales_upload/monthly_sales_upload.py:58 | `zfill(width)` pads to `width` when shorter and keeps the length otherwise |
| Text.NatToStringRoundTrip | src/pipelines/combined_sales_report.py:143-347 | a year written in decimal reads back as itself |
| Text.PadTwoRoundTrip | src/run_all_book_reports/run_all_book_reports.py:99 | a two-digit `%y` year reads back as itself |
| Text.NatToStringHundreds | src/ingram_only_pipeline/ingram_only_pipeline.py:124 | the decimal text of `year*100+month` is the year's text followed by the two-digit month |
| Text.RemoveAll | src/create_ing_sales/create_ing_sales.py:123-126 | `str.replace(p, '')` never lengthens a string nor adds a character |
| Text.RemoveAllAbsent | src/create_ing_sales/create_ing_sales.py:123-126 | `str.replace(p, '')` leaves a string without `p` unchanged |
| Text.RemoveAllChar | src/create_ing_sales/create_ing_sales.py:123-126 | after `str.replace(c, '')` the character `c` no longer occurs |
| Text.RemoveFirst | src/pipelines/combined_sales_report.py:265 | replacing the first hyphen removes one character when there is one and nothing otherwise |
| Text.Trim | src/pipelines/combined_sales_report.py:55 | `strip_chars()` returns the middle of the string, with no blank at either end |
| Text.TrimIdempotent | src/pipelines/combined_sales_report.py:55 | stripping twice is stripping once |
| Text.TrimIdentity | src/pipelines/combined_sales_report.py:55 | a string without blank ends is unchanged by stripping |
| Text.SplitJoin | src/run_all_book_reports/run_all_book_reports.py:145 | splitting a comma-joined list of comma-free parts gives the parts back |
| Windows.Cell | src/pipelines/combined_sales_report.py:148-157 | the zero-filled window column of a base row is the reference window sum of its join key |
| Windows.NullableCell | src/pipelines/report_three_combined.py:142-156 | a window column without `fill_null` is null exactly when no fact of the window has the key, and otherwise is the window sum |
| Windows.FilledCell | src/run_all_book_reports/run_all_book_reports.py:189-191 | a window column left null and filled with 0 later equals the zero-filled column |
| Windows.MonthCells | src/pipelines/combined_sales_report.py:132-157 | the twelve monthly columns, in loop order, are the one-month windows of the trailing keys |
| Windows.SpanIsSumOfMonths | src/pipelines/combined_sales_report.py:167-178 | over distinct month keys, the multi-month window of a row equals the sum of its monthly columns |
| Windows.WindowOverKeys | src/pipelines/report_three_combined.py:206-222 | summing a window column over distinct join keys that cover every fact gives the window's total |
| Windows.TrailingNoDup | src/pipelines/combined_sales_report.py:132-181 | the twelve keys and the four keys have no repetition |
| Windows.FilteredWindow | src/pipelines/report_three_combined.py:206-222 | filtering the facts keeps a key's window when all its facts are kept and empties it when none are |
| Windows.FilteredTotal | src/pipelines/report_three_combined.py:206-222 | the total of a window over filtered facts is the total over the facts both in range and kept |
| Windows.WindowTotalOne | src/pipelines/combined_sales_report.py:166-174 | a window over one fact in range holds that fact's value |
| Tagging.InBoth | src/pipelines/report_three_combined.py:344-346 | `customers_in_both` holds exactly the names found in both sources |
| Tagging.TagIff | src/pipelines/report_three_combined.py:348-352 | `add_tilda` changes a name exactly when it is in both sources, and then appends the marker; every other name is unchanged |
| Tagging.TagInjective | src/pipelines/report_three_combined.py:348-359 | distinct names that do not already end in the marker stay distinct after tagging |
| Targets.CleanTargets | src/pipelines/report_three_combined.py:49-59 | the surviving targets are exactly the cleaned rows with a BILLTO, a ratio, `BILLTO != ''` and `MUL_RATIO != 0`; every survivor has a non-zero ratio |
| Targets.BlankBillToSurvives | src/pipelines/report_three_combined.py:49-56 | a BILLTO of blanks only passes the `!= ''` filter and is stripped to `''` afterwards, because the filter runs before the strip |
| Targets.AbsTarget | src/pipelines/report_three_combined.py:90-97 | `TARGET_NETAMT = abs(NETAMT * ratio)` is never negative, and equals `abs(NETAMT)` for an unmatched account |
| Targets.SignedTarget | src/report_three_combined/report_three_combined.py:92-99 | without `abs`, an unmatched account keeps NETAMT, and a positive ratio keeps NETAMT's sign and zeroness |
| Targets.MatchUnique | src/pipelines/report_three_combined.py:90-97 | with unique BILLTOs the left join keeps the sales one for one, each with its first matching target |
| Targets.DuplicateBillToRepeats | src/pipelines/report_three_combined.py:90-97 | a BILLTO listed twice repeats the matching sale |
| Ingest.CleanIsbn | src/create_ing_sales/create_ing_sales.py:123-126 | `clean_isbn` is None exactly for a missing ISBN; otherwise the result has no '.' and is no longer than the input |
| Ingest.CleanDigits | src/create_ing_sales/create_ing_sales.py:123-126 | a digit string is returned unchanged |
| Ingest.CleanPlain | src/create_ing_sales/create_ing_sales.py:123-126 | any text without '.', "E+" or "e+" is returned unchanged |
| Ingest.CleanFloatText | src/create_ing_sales/create_ing_sales.py:123-126 | digits followed by ".0" (an ISBN that went through a float) come back as the digits |
| Ingest.CleanScientific | src/create_ing_sales/create_ing_sales.py:123-132 | scientific notation `a.bE+e` becomes `a+b+e`: the exponent's digits are appended instead of being undone |
| Ingest.DateTextParts | src/create_ing_sales/create_ing_sales.py:103-104 | on an `mm/dd/yyyy` text, `Date.str[6:]` is the year's digits and `Date.str[0:2]` is the two-digit month |
| Ingest.ParseDateText | src/database_uploads/monthly_sales_upload_ing.py:95-98 | `to_datetime(format='%m/%d/%Y', errors='coerce')` yields `(year, month)` exactly for calendar dates a nanosecond timestamp holds, and null otherwise |
| Ingest.TextAndParseAgree | src/database_uploads/monthly_sales_upload_ing.py:95-98 | on such dates the sliced text columns and the parsed columns carry the same numbers |
| Ingest.PrevMonth | src/database_uploads/monthly_sales_upload_ing.py:30-33 | `prev_month` is in 1..12 and is one month before the current month modulo 12 |
| Ingest.PrevMonthIsNewest | src/database_uploads/monthly_sales_upload_ing.py:30-33 | `prev_month` is the month of the newest key of the trailing window |
| Ingest.RoundHalfEven | src/create_ing_sales/create_ing_sales.py:121 | `round().astype(int)` is within one half of the value, and on a tie it is even |
| Ingest.RoundUnique | src/create_ing_sales/create_ing_sales.py:121 | only one integer satisfies that rule |
| Ingest.FillTitle | src/create_ing_sales/create_ing_sales.py:84 | `fillna` changes only the title, and a present title is kept |
| Ingest.FillTitlesUnique | src/create_ing_sales/create_ing_sales.py:83-85 | against an item table with one line per ISBN the merge keeps the rows one for one, and a missing title is taken from the table |
| Ingest.FillTitlesRepeats | src/create_ing_sales/create_ing_sales.py:83-85 | an EAN listed under several titles repeats its sheet row once per line, everything but the title unchanged |
| Text.StripCell | src/create_ing_sales/create_ing_sales.py:77-78 | `str.strip()` keeps a null cell null and trims a text cell |
| Ingest.StripIdempotent | src/create_ing_sales/create_ing_sales.py:77-78 | a second strip changes nothing, and stripping keeps which title and date cells are null |
| Ingest.NetUnits | src/create_ing_sales/create_ing_sales.py:119-121 | NETUNITS is 0 for a null cell and otherwise within one half of the sheet value |
| Ingest.TextRow | src/create_ing_sales/create_ing_sales.py:103-121 | a prepared row carries the filled units and amount; its ISBN is null exactly when the EAN is, and YEAR/MONTH exactly when the Date is |
| Ingest.ParsedRow | src/database_uploads/monthly_sales_upload_ing.py:95-119 | the prepared row has a non-null ISBN (the cast writes text for null), and YEAR/MONTH are present exactly when the date parses, with MONTH in 1..12 |
| Ingest.Merge | src/create_ing_sales/create_ing_sales.py:149-153 | a group's row sums NETUNITS and NETAMT, and its class of trade is a member's, null only when all members' are |
| Ingest.GroupBy | src/create_ing_sales/create_ing_sales.py:149-153 | output keys are distinct and complete and come from input rows; every row with a complete key has its group |
| Ingest.GroupByTotals | src/create_ing_sales/create_ing_sales.py:134-178 | the totals after the group-by equal the totals before it, over the rows with a complete key |
| Ingest.GroupByLossless | src/create_ing_sales/create_ing_sales.py:134-178 | with no null key cell the logged before and after totals are equal |
| Ingest.GroupByDrops | src/create_ing_sales/create_ing_sales.py:149 | a row with a null key cell contributes to no output row |
| Ingest.GroupByTrade | src/create_ing_sales/create_ing_sales.py:152 | an output row's class of trade comes from an input row with its key, and is null only when every such row's is |
| Ingest.MissingEanKept | src/create_ing_sales/create_ing_sales.py:81 | a missing EAN is cast to the text "nan", which `clean_isbn` keeps, so the row is not dropped |
| Ingest.CreateIngSales | src/create_ing_sales/create_ing_sales.py:149-153 | ING_SALES rows have distinct, complete eight-column keys |
| Ingest.CreateIngFrameShape | src/create_ing_sales/create_ing_sales.py:69-121 | with one item line per ISBN the frame keeps every sheet row, with filled units and amount; ISBN and accounts are never null; a row is grouped exactly when date, title, customer and IPS flag are present |
| Ingest.CreateIngBalance | src/create_ing_sales/create_ing_sales.py:134-178 | with those cells present, the NETUNITS and NETAMT written equal the sheet's totals |
| Ingest.WithCategories | src/monthly_sales_upload/monthly_sales_upload.py:58-61 | the SL-only category merge never loses a sheet row |
| Ingest.WithCategoriesUnique | src/monthly_sales_upload/monthly_sales_upload.py:58-61 | when the category table lists each zero-filled SL number once, the merge leaves the sheet exactly as it was |
| Ingest.WithCategoriesRepeats | src/monthly_sales_upload/monthly_sales_upload.py:50-61 | an SL number with n category lines (the table is deduplicated on SL and HQ, not on SL) turns its sheet row into n identical rows |
| Ingest.MonthlyDoubleCount | src/monthly_sales_upload/monthly_sales_upload.py:50-130 | in the script with the ISBN fault corrected, a complete row whose SL number has two category lines is appended with twice its units and twice its amount |
| Ingest.MonthlySalesUpload | src/monthly_sales_upload/monthly_sales_upload.py:126-130 | the appended rows have distinct, complete six-column keys |
| Ingest.MonthlyFrameShape | src/monthly_sales_upload/monthly_sales_upload.py:50-107 | with the category table listing each zero-filled SL number once and the item table each ISBN once, the frame keeps every sheet row with its units and amount; a row is grouped exactly when EAN, date, title, customer and IPS flag are present |
| Ingest.MonthlyBalance | src/monthly_sales_upload/monthly_sales_upload.py:50-138 | with each SL number once in the category table, each ISBN once in the item table and those cells present, the appended totals equal the sheet's |
| Ingest.MonthlySalesUploadIng | src/database_uploads/monthly_sales_upload_ing.py:132-136 | appended rows have distinct, complete eight-column keys with MONTH in 1..12 |
| UploadColumns.Width | src/monthly_sales_upload/monthly_sales_upload.py:114 | the number of columns carrying a label is at most the frame's width and is 0 exactly when the label is absent |
| UploadColumns.Merged | src/monthly_sales_upload/monthly_sales_upload.py:61-64 | a merge keeps every left label and adds the right labels other than the shared keys |
| UploadColumns.MergedWidth | src/monthly_sales_upload/monthly_sales_upload.py:61-64 | after a merge, an unsuffixed label carries the left frame's columns unless the right frame clashes with it, plus the right frame's unless the left one clashes or it is a shared key |
| UploadColumns.Select | src/monthly_sales_upload/monthly_sales_upload.py:102-103 | the select succeeds exactly when every wanted label is present |
| UploadColumns.SelectWidth | src/monthly_sales_upload/monthly_sales_upload.py:102-103 | a label named once in the select keeps all its columns, and one not named keeps none |
| UploadColumns.ThroughMerges | src/monthly_sales_upload/monthly_sales_upload.py:61-64 | each sheet label the script reads keeps its width through both merges |
| UploadColumns.MergedIsbn | src/monthly_sales_upload/monthly_sales_upload.py:61-64 | on a sheet without ISBN, the title merge leaves exactly one ISBN column, the item table's, and EAN keeps its width |
| UploadColumns.MergesOk | src/monthly_sales_upload/monthly_sales_upload.py:33-66 | on a sheet header whose EAN column was read as text, both merges and the title fill succeed, and every sheet label, the category and the item title survive them; with a numeric EAN the title merge raises on the key types |
| UploadColumns.PreparedWidth | src/monthly_sales_upload/monthly_sales_upload.py:72-90 | the category rename, the drop and the new YEAR and MONTH leave the EAN and ISBN widths unchanged |
| UploadColumns.FinishedIsbn | src/monthly_sales_upload/monthly_sales_upload.py:72-103 | after the rename of EAN to ISBN and the select, the ISBN columns are the EAN columns plus the ISBN columns that reached line 72 |
| UploadColumns.FinishedOk | src/monthly_sales_upload/monthly_sales_upload.py:72-103 | with every sheet label and the category present, the select finds every output label |
| UploadColumns.IsbnWidthAsWritten | src/monthly_sales_upload/monthly_sales_upload.py:64-103 | as written, the frame at line 114 has one ISBN column per sheet EAN column plus the item table's |
| UploadColumns.IsbnWidth | src/monthly_sales_upload/monthly_sales_upload.py:64-103 | with the item table's ISBN dropped after the merge, the ISBN columns at line 114 are exactly the sheet's EAN columns |
| UploadColumns.UploadFails | src/monthly_sales_upload/monthly_sales_upload.py:33-114 | as written, no sheet without an ISBN column yields appended rows, whether its EAN column was read as text or as numbers |
| UploadColumns.UploadFailsAtClean | src/monthly_sales_upload/monthly_sales_upload.py:33-114 | as written, a sheet header whose EAN column was read as numbers fails at the title merge of line 64; one whose EAN was read as text passes every step up to line 114 and fails there on the two ISBN columns |
| UploadColumns.UploadRuns | src/monthly_sales_upload/monthly_sales_upload.py:33-130 | with EAN read as text and the item table's ISBN dropped, a sheet header passes every step and the script appends the grouped rows of `Ingest.MonthlySalesUpload` |
| Ingest.IngFrameShape | src/database_uploads/monthly_sales_upload_ing.py:64-119 | the frame keeps every sheet row with a non-null ISBN; a row is grouped exactly when its stripped date parses and title, customer, both accounts and IPS flag are present |
| Ingest.IngBalance | src/database_uploads/monthly_sales_upload_ing.py:126-144 | with those cells present, the appended totals equal the sheet's |
| Ingest.MonthText | src/create_ing_sales/create_ing_sales.py:104 | the corrected MONTH text is at most two characters |
| Ingest.MonthTextRoundTrip | src/create_ing_sales/create_ing_sales.py:103-104 | corrected, the MONTH text of an `mm/dd/yyyy` date is the month written without a leading zero, and reads back as that month |
| Ingest.MonthAsWrittenExceptOctober | src/create_ing_sales/create_ing_sales.py:104 | `str[0:2].str.replace('0','')` as written gives the intended MONTH text for every month except October |
| Ingest.OctoberReadsAsJanuary | src/create_ing_sales/create_ing_sales.py:103-104 | as written, "10/01/2024" gets MONTH "1" where "10" was meant, while YEAR is "2024" |
| Backorders.IngramRows | src/database_uploads/upload_backorders.py:35-43 | the kept Ingram lines all have an ISBN and a non-zero QTY |
| Backorders.GroupLines | src/database_uploads/upload_backorders.py:72-77 | one row per complete (TITLE, ISBN), holding the QTY sum of the lines with that key; keys are exactly the complete keys of the input |
| Backorders.GroupedKeyTotal | src/database_uploads/upload_backorders.py:72-77 | grouping keeps each complete key's QTY total |
| Backorders.IngramRowsTotal | src/database_uploads/upload_backorders.py:35-43 | per key, the kept rows hold the open backorders of the sheet lines with that title and a present EAN |
| Backorders.SageRowsTotal | src/database_uploads/upload_backorders.py:53-77 | per key, the Sage rows hold the Sage quantities, a null SUM counted as 0 |
| Backorders.BackorderReport | src/database_uploads/upload_backorders.py:52-83 | the run fails exactly when the Sage query raised; otherwise the keys are distinct and never null |
| Backorders.BackorderQuantities | src/database_uploads/upload_backorders.py:79-83 | each row's QTY is the key's open Ingram backorders plus its Sage backorders |
| Backorders.BackorderKeys | src/database_uploads/upload_backorders.py:35-83 | a complete key is listed exactly when an open Ingram line with an EAN, or a Sage line, carries it |
| Backorders.BackorderTotal | src/database_uploads/upload_backorders.py:79-83 | total QTY is the Ingram total plus the Sage total, over lines with complete keys |
| Backorders.GroupTotal | src/database_uploads/upload_backorders.py:72-77 | one grouping keeps the total of the lines without a null key |
| ReportThree.IngramFact | src/pipelines/report_three_combined.py:60-97 | an Ingram sale's TARGET_NETAMT is `abs(NETAMT * ratio)`, never negative; its YEARMONTH decodes to the sale's YEAR and MONTH; its account is the stripped HQ_NUMBER and its annual target is the matched `2025` |
| ReportThree.SageFact | src/pipelines/report_three_combined.py:75-106 | the same for a Sage sale keyed by the stripped SAGE_ID, with no SL_NUMBER |
| ReportThree.PriceIngram | src/pipelines/report_three_combined.py:90-97 | the join never loses a sale, every target amount is non-negative, and with unique BILLTOs each sale is priced one for one against its first matching target |
| ReportThree.PriceSage | src/pipelines/report_three_combined.py:100-106 | the same for the Sage sales joined on SAGE_ID |
| ReportThree.PriceIngramKeepsAmounts | src/pipelines/report_three_combined.py:90-97 | with unique BILLTOs, pricing keeps the NETAMT of every YEARMONTH window |
| ReportThree.PriceSageKeepsAmounts | src/pipelines/report_three_combined.py:100-106 | the same for the Sage sales |
| ReportThree.Combine | src/pipelines/report_three_combined.py:125-139 | one row per distinct six-column key, in first-occurrence order, carrying the sums of NETUNITS, NETAMT and TARGET_NETAMT of its group |
| ReportThree.CombineTotals | src/pipelines/report_three_combined.py:125-139 | the group-by keeps the NETAMT, NETUNITS and TARGET_NETAMT totals |
| ReportThree.CombineKeys | src/pipelines/report_three_combined.py:125-139 | a key appears after the group-by exactly when some sale carries it |
| ReportThree.CombineWindowEmpty | src/pipelines/report_three_combined.py:141-156 | after the group-by, a window holds no row of an account exactly when it held no sale of it before, so null YTD cells are the same either way |
| ReportThree.CombinedWindows | src/pipelines/report_three_combined.py:186-222 | every window column computed from the grouped frame equals the one computed from the raw sales, for NETAMT and TARGET_NETAMT |
| ReportThree.InYearIsCalendarYear | src/pipelines/report_three_combined.py:141-143 | for four-digit years the string-slice filter selects exactly the months of the given calendar year |
| ReportThree.BuildLine | src/pipelines/report_three_combined.py:134-239 | a base row gets 12 month actuals, 12 month targets and 2 year columns; 12M_ROLLING_ACTUAL and 12M_ROLLING_TARGET equal the sums of its month columns; YTD_ACTUAL and YTD_TARGET are null together |
| ReportThree.Lines | src/pipelines/report_three_combined.py:134 | one line per distinct base key (account, name, category, `2025_Target`), in first-occurrence order |
| ReportThree.LineMonths | src/pipelines/report_three_combined.py:163-204 | the j-th month actual and target of a line are the NETAMT and TARGET_NETAMT of its account in the j-th trailing month |
| ReportThree.LineTotals | src/pipelines/report_three_combined.py:141-239 | the rolling columns are the twelve-month windows, the year columns are the two previous calendar years, and the YTD columns are null exactly when the account has no sale this year, otherwise the year's sums |
| ReportThree.SageNameShare | src/pipelines/report_three_combined.py:245-337 | Sage windows are joined on (NAMECUST, category) only, so two Sage base rows with the same name and category get identical month, rolling, year and YTD cells |
| ReportThree.IngramOneBase | src/pipelines/report_three_combined.py:134 | with unique BILLTOs every Ingram account has one base row, because all its sales carry the same `2025_Target` |
| ReportThree.SideKeys | src/pipelines/report_three_combined.py:134-222 | the join keys of the base rows cover every sale, and are distinct when each key has one base row |
| ReportThree.RollingConserved | src/pipelines/report_three_combined.py:206-222 | when each join key has one base row, the lines' 12M_ROLLING_ACTUAL and 12M_ROLLING_TARGET add up to the frame's trailing-twelve-month totals |
| ReportThree.BuildLineAsWritten | src/pipelines/report_three_combined.py:141-239 | as written, a base row with a category gets exactly the corrected line; one without a category matches no window join, so its month, rolling and year cells are 0 and its YTD cells null |
| ReportThree.LinesAsWritten | src/pipelines/report_three_combined.py:134-239 | the as-written lines are the corrected ones, one for one, except that every base row without a category has zero windows and null YTD |
| ReportThree.CategorizedWindow | src/pipelines/report_three_combined.py:141-222 | dropping the uncategorised facts keeps the window of a categorised join key and empties that of an uncategorised one |
| ReportThree.RollingConservedAsWritten | src/pipelines/report_three_combined.py:206-222 | as written, with one base row per join key, 12M_ROLLING_ACTUAL adds up to the trailing-twelve-month NETAMT of the categorised facts only |
| ReportThree.NullCategoryLost | src/pipelines/report_three_combined.py:141-222 | one uncategorised Sage sale of 5.0 last month: as written its line shows 0 in the month and 12M cells and a null YTD, corrected 5.0 in all three |
| ReportThree.TagLines | src/pipelines/report_three_combined.py:354-359 | tagging changes only NAMECUST, and keeps the number and order of rows |
| ReportThree.TaggedNames | src/pipelines/report_three_combined.py:344-359 | a name gets `~` exactly when the other source has a line with that name |
| ReportThree.CaptureRate | src/pipelines/report_three_combined.py:390-392 | Capture_Rate is null exactly when YTD_TARGET is 0, and otherwise times YTD_TARGET gives 100 times YTD_ACTUAL |
| ReportThree.MergeLines | src/pipelines/report_three_combined.py:361-392 | a merged row has its customer and category, 12 month actuals, 2 years, `Target_Remaining = 2025_Target - YTD_ACTUAL` and the capture rate of its YTD sums |
| ReportThree.Merge | src/pipelines/report_three_combined.py:361-392 | one row per distinct (Customer, Category) of the stacked lines, in first-occurrence order, each with those derived columns |
| ReportThree.MergeCustomers | src/pipelines/report_three_combined.py:361-377 | merged customers are distinct, every stacked line's customer is present, and no other appears |
| ReportThree.MergeRow | src/pipelines/report_three_combined.py:361-384 | each merged column is the sum of that column over the lines with the row's customer, with nulls counted as 0 and only the previous month's target kept |
| ReportThree.MergeTotals | src/pipelines/report_three_combined.py:361-377 | merging keeps the totals of 12M_ROLLING_ACTUAL, `2025_Target`, YTD_ACTUAL and YTD_TARGET |
| ReportThree.TargetReport | src/pipelines/report_three_combined.py:361-442 | the report is a permutation of the merged rows, sorted by 12M_ROLLING_ACTUAL descending, with distinct (Customer, Category) |
| ReportThree.ReportSumsLines | src/pipelines/report_three_combined.py:344-442 | tagging, merging and sorting keep the 12M_ROLLING_ACTUAL total of both sides' lines |
| ReportThree.IngramLinesRolling | src/pipelines/report_three_combined.py:90-222 | with unique BILLTOs the Ingram lines' 12M_ROLLING_ACTUAL adds up to the Ingram NETAMT of the trailing twelve months |
| ReportThree.SageLinesRolling | src/pipelines/report_three_combined.py:100-337 | the same for the Sage lines, when each Sage name and category has one base row |
| ReportThree.ReportRollingTotal | src/pipelines/report_three_combined.py:49-442 | under those conditions the report's 12M_ROLLING_ACTUAL column adds up to all Ingram and Sage NETAMT of the trailing twelve months |
| LegacyReport.PricedFact | src/report_three_combined/report_three_combined.py:92-109 | the older report's TARGET_NETAMT, for an Ingram and a Sage sale alike, is `NETAMT * ratio` with its sign kept, and equals NETAMT for an unmatched account |
| LegacyReport.TargetSigns | src/report_three_combined/report_three_combined.py:92-109 | the current report's target is the absolute value of the older one's, so a refund with a positive ratio has a negative target here and a positive one there |
| LegacyReport.PriceIngram | src/report_three_combined/report_three_combined.py:92-99 | the join never loses a sale, and with unique BILLTOs each sale is priced one for one against its first matching target |
| LegacyReport.PriceSage | src/report_three_combined/report_three_combined.py:102-109 | the same for the Sage sales |
| LegacyReport.PriceKeepsAmounts | src/report_three_combined/report_three_combined.py:92-109 | with unique BILLTOs, pricing keeps the NETAMT of every YEARMONTH window on both sides |
| LegacyReport.Star | src/report_three_combined/report_three_combined.py:130-135 | marking changes only NAMECUST and keeps the number and order of the sales |
| LegacyReport.StarIff | src/report_three_combined/report_three_combined.py:119-135 | a sale's name gets `*` exactly when the other source has a sale with that name |
| LegacyReport.StackedAmounts | src/report_three_combined/report_three_combined.py:119-137 | with unique BILLTOs the stacked Sage-then-Ingram sales keep the NETAMT of every window |
| LegacyReport.StarAmounts | src/report_three_combined/report_three_combined.py:128-137 | marking and stacking keep the NETAMT of every window |
| LegacyReport.Combine | src/report_three_combined/report_three_combined.py:138-146 | one row per distinct (NAMECUST, category, YEARMONTH), in first-occurrence order, with the sums of NETUNITS, NETAMT and TARGET_NETAMT |
| LegacyReport.MergeMonth | src/report_three_combined/report_three_combined.py:138-146 | a grouped row takes the `2025_Target` of the first sale of its group |
| LegacyReport.CombineTotals | src/report_three_combined/report_three_combined.py:138-146 | the group-by keeps the NETAMT, NETUNITS and TARGET_NETAMT totals |
| LegacyReport.CombineFirst | src/report_three_combined/report_three_combined.py:143-147 | each grouped row's `2025_Target` is that of the first sale carrying its key |
| LegacyReport.CombineKeys | src/report_three_combined/report_three_combined.py:138-146 | a key appears after the group-by exactly when some sale carries it |
| LegacyReport.CombineWindowEmpty | src/report_three_combined/report_three_combined.py:150-159 | a window holds no grouped row of a customer exactly when it held no sale of it |
| LegacyReport.CombinedWindows | src/report_three_combined/report_three_combined.py:186-239 | every window column computed from the grouped frame equals the one computed from the raw sales |
| LegacyReport.LegacyCaptureRate | src/report_three_combined/report_three_combined.py:252-255 | Capture_Rate is YTD_TARGET over `2025_Target` times 100: null with a null YTD_TARGET or a zero `2025_Target` (no finite value), otherwise the ratio |
| LegacyReport.Remaining | src/report_three_combined/report_three_combined.py:252-255 | Target_Remaining is null exactly when YTD_ACTUAL is, and otherwise adds back to `2025_Target` |
| LegacyReport.BuildRow | src/report_three_combined/report_three_combined.py:147-255 | a base row keeps its customer and category, gets 404.404 for a missing `2025_Target`, 12 month actuals and 2 years, a rolling actual equal to the sum of its months, YTD cells null together, and the derived Capture_Rate and Target_Remaining |
| LegacyReport.Rows | src/report_three_combined/report_three_combined.py:147 | one row per distinct (NAMECUST, category, `2025_Target`) of the grouped frame, in first-occurrence order |
| LegacyReport.RowWindows | src/report_three_combined/report_three_combined.py:150-239 | a row's month actuals, previous-month target, rolling pair, year columns and YTD cells are the windows of its (Customer, Category) over the sales; YTD is null exactly when the customer has no sale this year |
| LegacyReport.SplitTargetShares | src/report_three_combined/report_three_combined.py:147-239 | a customer whose sales carry two different `2025_Target`s gets two base rows, and both carry the same full window cells |
| LegacyReport.RollingConserved | src/report_three_combined/report_three_combined.py:202-220 | when each customer has one `2025_Target`, the rows' 12M_ROLLING_ACTUAL adds up to the trailing-twelve-month NETAMT |
| LegacyReport.BuildRowAsWritten | src/report_three_combined/report_three_combined.py:147-255 | as written, a categorised base row gets exactly the corrected row; an uncategorised one keeps its customer, category and target but has zero windows and null YTD, capture rate and remaining |
| LegacyReport.RowsAsWrittenAt | src/report_three_combined/report_three_combined.py:147-255 | row by row, the as-written rows equal the corrected ones on categorised base rows; an uncategorised one has a 0 rolling actual and null YTD and remaining |
| LegacyReport.CombineKnown | src/report_three_combined/report_three_combined.py:138-146 | the monthly group-by keeps the trailing-window NETAMT of the categorised facts |
| LegacyReport.RollingConservedAsWritten | src/report_three_combined/report_three_combined.py:202-220 | as written, with one target per customer, 12M_ROLLING_ACTUAL adds up to the trailing-twelve-month NETAMT of the categorised facts only |
| LegacyReport.NullCategoryLost | src/report_three_combined/report_three_combined.py:150-220 | one uncategorised sale of 5.0 last month: as written the rolling column adds up to 0, corrected to 5.0 |
| LegacyReport.Report | src/report_three_combined/report_three_combined.py:242-304 | the report is a permutation of the rows, sorted by 12M_ROLLING_ACTUAL descending |
| LegacyReport.ReportRollingTotal | src/report_three_combined/report_three_combined.py:51-304 | with unique BILLTOs and one `2025_Target` per customer, the report's 12M_ROLLING_ACTUAL adds up to all Ingram and Sage NETAMT of the trailing twelve months |
| LegacyReport.Trunc | src/report_three_combined/report_three_combined.py:307-313 | `cast(pl.Int64)` truncates toward zero |
| LegacyReport.CastCell | src/report_three_combined/report_three_combined.py:307-313 | a null cell becomes 404 (`fill_null(404.404)` then the cast), and any other cell is truncated |
| LegacyReport.CastRow | src/report_three_combined/report_three_combined.py:307-313 | the cast keeps customer, category, Capture_Rate and the number of month and year cells |
| LegacyReport.Sentinels | src/report_three_combined/report_three_combined.py:307-313 | a missing `2025_Target` and a customer with no sale this year both come out as 404 in the written report, the same as a real 404 |
| TargetColumns.MonthColumn | src/pipelines/report_three_combined.py:171-173 | the i-th month's column is the `%b_%y` label of the month i back, followed by the suffix |
| TargetColumns.SortMonthColumns | src/pipelines/report_three_combined.py:404-414 | `sort_month_columns` fails exactly when a name cannot be parsed; otherwise it returns a permutation of its input, latest (year, month) first |
| TargetColumns.YearlyColumns | src/pipelines/report_three_combined.py:417-418 | the yearly columns are a permutation of the names ending in `_ACTUAL` other than YTD_ACTUAL and 12M_ROLLING_ACTUAL, in descending string order |
| TargetColumns.FinalColumns | src/pipelines/report_three_combined.py:422-439 | every selected name is a non-empty column of the frame |
| TargetColumns.CurrentTarget | src/pipelines/report_three_combined.py:163-184 | the previous month's target column as the month loop names it is a column of both frames |
| TargetColumns.PairGreaterIndex | src/pipelines/report_three_combined.py:411-412 | comparing (year, month) tuples is comparing calendar months |
| TargetColumns.MonthSortKeepsOrder | src/pipelines/report_three_combined.py:404-414 | for years 2001-2099 the twelve actual columns, built latest first, are already in the order the sort produces |
| TargetColumns.YearlyKeepsOrder | src/pipelines/report_three_combined.py:417-418 | the two yearly columns sort to the previous year first |
| TargetColumns.FrameWhere | src/pipelines/report_three_combined.py:399-418 | in the current frame the ` Actual` filter finds exactly the twelve month actuals, and the yearly filter exactly the two year columns |
| TargetColumns.LegacyFrameWhere | src/report_three_combined/report_three_combined.py:262-280 | in the older frame the ` Acutual` filter finds exactly the twelve month actuals, and the yearly filter the two year columns |
| TargetColumns.FinalColumnsOf | src/pipelines/report_three_combined.py:422-439 | on a frame with those columns, the selection is Category, Customer, the target column if present, the month actuals latest first, the fixed trailer and the years |
| TargetColumns.ReportColumnsOrder | src/pipelines/report_three_combined.py:396-439 | for years 2001-2099 and every month, the current report's columns are Category, Customer, the previous month's target, the twelve month actuals latest first, 12M_ROLLING_ACTUAL, 2025_Target, YTD_TARGET, YTD_ACTUAL, Capture_Rate, Target_Remaining and the two prior years |
| TargetColumns.LegacyReportColumnsOrder | src/report_three_combined/report_three_combined.py:258-298 | the same order for the older report, with its ` Acutual` names |
| TargetColumns.CurrentTargetAsWritten | src/pipelines/report_three_combined.py:396-397 | after February, `current_target_col` as written is the previous month's target column |
| TargetColumns.TargetColumnAsWritten | src/pipelines/report_three_combined.py:396-439 | with `current_target_col` as written, both reports have the intended order in February to December, and in January they lose the target column |
| TargetColumns.JanuaryLabelAbsent | src/pipelines/report_three_combined.py:396-397 | in January `current_target_col` names December of the current year, which neither frame has |
| SalesColumns.SortMonths | src/pipelines/combined_sales_report.py:345-347 | the monthly sort fails exactly when a name cannot be parsed as `%b %Y`; otherwise it returns a permutation of its input, latest month first |
| SalesColumns.SortYears | src/pipelines/combined_sales_report.py:348-349 | the yearly columns come back as a permutation in descending string order |
| SalesColumns.FinalColumns | src/pipelines/combined_sales_report.py:345-373 | the selection fails exactly when a monthly name cannot be parsed; otherwise it holds exactly the frame's columns, so none is lost and none invented |
| SalesColumns.MonthName | src/pipelines/combined_sales_report.py:143-145 | every monthly column passes the `NET_UNITS_` filter and fails the yearly one |
| SalesColumns.YearName | src/pipelines/combined_sales_report.py:195-197 | every `UNITS_{y}` column of a four-digit year passes the yearly filter and fails the monthly one |
| SalesColumns.FrameBlocks | src/pipelines/combined_sales_report.py:345-349 | on the report frame the two filters find exactly the twelve monthly columns and the three yearly columns |
| SalesColumns.MonthSortKeepsOrder | src/pipelines/combined_sales_report.py:345-347 | for four-digit years the twelve monthly columns, built latest first, are already in the sorted order |
| SalesColumns.YearSortReverses | src/pipelines/combined_sales_report.py:348-349 | the three yearly columns, built oldest first, sort to the most recent first |
| SalesColumns.OrderCoversFrame | src/pipelines/combined_sales_report.py:351-373 | the intended order lists exactly the frame's columns |
| SalesColumns.SelectAll | src/pipelines/combined_sales_report.py:365-370 | when the wished-for order lists exactly the frame's columns, the selection is that order and nothing is appended |
| SalesColumns.FinalColumnsOrder | src/pipelines/combined_sales_report.py:345-373 | for four-digit years after 1002 the report's columns are the leading columns, the twelve months latest first, the three prior years latest first, then 4M_UNITS and 4M_DOLLARS |
| CombinedSales.Stacked | src/pipelines/combined_sales_report.py:82 | `pl.concat` has as many rows as the Ingram and Sage frames together |
| CombinedSales.NormalizeTotals | src/pipelines/combined_sales_report.py:54-74 | selecting and casting the eight columns keeps a frame's NETUNITS and NETAMT totals |
| CombinedSales.StackedTotals | src/pipelines/combined_sales_report.py:76-82 | the stacked frame's NETUNITS and NETAMT totals are the sums of the two sources' |
| CombinedSales.MergeMonth | src/pipelines/combined_sales_report.py:85-88 | a grouped row carries its group's key |
| CombinedSales.Combine | src/pipelines/combined_sales_report.py:85-88 | one row per distinct (ISBN, YEAR, MONTH, TITLE, NAMECUST, category), in first-occurrence order, carrying its group's NETUNITS and NETAMT sums |
| CombinedSales.ConcatTotals | src/pipelines/combined_sales_report.py:76-111 | after the concat and the group-by, the NETUNITS and NETAMT totals are those of the two sources together, so the "Diff" log line reports zero |
| CombinedSales.CombineUnique | src/pipelines/combined_sales_report.py:85-88 | the grouped keys are distinct |
| CombinedSales.CombineKeys | src/pipelines/combined_sales_report.py:85-88 | a key appears after the group-by exactly when some stacked row carries it |
| CombinedSales.CombineWindow | src/pipelines/combined_sales_report.py:85-88 | any window total of a column the group-by sums is the same on the grouped rows as on the stacked rows |
| CombinedSales.CombinedWindows | src/pipelines/combined_sales_report.py:85-88 | every NETUNITS and NETAMT window of a base key is the same on the grouped frame as on the stacked one |
| CombinedSales.LoggedDollarsAsWrittenIff | src/pipelines/combined_sales_report.py:104-111 | the "Totals before concat" dollars as written equal the true total exactly when the Sage NETUNITS total equals the Sage NETAMT total |
| CombinedSales.LoggedDollarsCounterexample | src/pipelines/combined_sales_report.py:104-111 | one Sage sale of 2 units for 25.0 is logged as 2.0 dollars before the concat instead of 25.0 |
| CombinedSales.LoggedDollars | src/pipelines/combined_sales_report.py:104-111 | the corrected dollars before the concat equal the grouped NETAMT total |
| CombinedSales.BuildRow | src/pipelines/combined_sales_report.py:115-205 | a base row gets 12 months and 3 years; 12M_UNITS is the sum of its months and 4M_UNITS the sum of the first four; year j is the units of year `curr_year-3+j` |
| CombinedSales.YearCells | src/pipelines/combined_sales_report.py:194-205 | UNITS_<y> for y from `curr_year-3` to `curr_year-1` is the key's units in that calendar year |
| CombinedSales.Rows | src/pipelines/combined_sales_report.py:94-205 | one row per distinct (ISBN, TITLE, NAMECUST, category) of the grouped frame, in first-occurrence order |
| CombinedSales.BaseRows | src/pipelines/combined_sales_report.py:94 | the base keys are distinct, and a key is a base key exactly when some row carries it |
| CombinedSales.BaseCovers | src/pipelines/combined_sales_report.py:94 | every row's (ISBN, TITLE, NAMECUST, category) is a base key |
| CombinedSales.RowMonths | src/pipelines/combined_sales_report.py:132-157 | each monthly column of a row is the units of its key in that trailing month |
| CombinedSales.BuildRowSpans | src/pipelines/combined_sales_report.py:115-192 | YTD is the key's units and dollars in `curr_year`, 12M over the twelve trailing year-months and 4M over the four most recent |
| CombinedSales.BuildRowYears | src/pipelines/combined_sales_report.py:194-205 | the three year columns are the key's units in `curr_year-3`, `curr_year-2` and `curr_year-1` |
| CombinedSales.RowWindows | src/pipelines/combined_sales_report.py:115-205 | YTD, 12M, 4M and year columns of a row are the windows of its key over the stacked sales, on YEAR for YTD and years and on YEARMONTH for 12M and 4M |
| CombinedSales.RowsConserve | src/pipelines/combined_sales_report.py:115-205 | a column that holds each row's window adds up over the rows to the frame's window total |
| CombinedSales.RowsTotals | src/pipelines/combined_sales_report.py:115-178 | the rows' 12M and YTD units and dollars add up to the frame's totals over the same windows |
| CombinedSales.BuildRowAsWritten | src/pipelines/combined_sales_report.py:115-205 | as written, a categorised base row gets exactly the corrected row; an uncategorised one has 0 in every YTD, month, 12M, 4M and year cell |
| CombinedSales.RowsAsWritten | src/pipelines/combined_sales_report.py:94-205 | the as-written report has one row per base key, in the same order as the corrected report |
| CombinedSales.RowsAsWrittenAt | src/pipelines/combined_sales_report.py:115-205 | row by row, the as-written rows equal the corrected ones on categorised keys; an uncategorised key has 0 in its 12M and YTD units and dollars |
| CombinedSales.RowsConserveAsWritten | src/pipelines/combined_sales_report.py:115-205 | a column that holds its window on categorised rows and 0 elsewhere adds up to the window's total over the categorised sales only |
| CombinedSales.RowsTotalsAsWritten | src/pipelines/combined_sales_report.py:115-178 | as written, the 12M and YTD units and dollars add up to those of the categorised sales only |
| CombinedSales.NullCategoryLost | src/pipelines/combined_sales_report.py:115-178 | one uncategorised sale of 5.0 dollars last month: as written 12M_DOLLARS adds up to 0, corrected to 5.0 |
| CombinedSales.OneSaleDollarsAsWritten | src/pipelines/combined_sales_report.py:166-174 | as written, a single uncategorised sale adds nothing to 12M_DOLLARS |
| CombinedSales.OneSaleDollars | src/pipelines/combined_sales_report.py:166-174 | a single sale in the trailing window is the whole 12M_DOLLARS total |
| CombinedSales.StandardIsbnAsWritten | src/pipelines/combined_sales_report.py:263-266 | `str.replace('-', '')` as written returns the stripped ISBN when it has no hyphen, and otherwise removes at most one character |
| CombinedSales.StandardIsbnAsWrittenFirstOnly | src/pipelines/combined_sales_report.py:263-266 | for an ISBN without blanks whose first hyphen follows `a`, as written only that hyphen is removed |
| CombinedSales.StandardIsbnAsWrittenKeepsHyphens | src/pipelines/combined_sales_report.py:263-266 | as written, "1-2-3" becomes "12-3", which still has a hyphen |
| CombinedSales.StandardIsbn | src/pipelines/combined_sales_report.py:263-266 | the corrected standard ISBN has no hyphen, is no longer than the stripped input, and is the stripped input when that has no hyphen |
| CombinedSales.StandardIsbnMeets | src/pipelines/combined_sales_report.py:263-266 | corrected, removing the first hyphen before standardising changes nothing, so ISBNs that differ in hyphens meet in the joins |
| CombinedSales.StandardIsbnOfPlain | src/pipelines/combined_sales_report.py:263-266 | without blanks, the corrected standardising deletes exactly the hyphens |
| CombinedSales.HyphenDropped | src/pipelines/combined_sales_report.py:263-266 | deleting every hyphen gives the same text whether or not one hyphen was removed first |
| CombinedSales.Standardize | src/pipelines/combined_sales_report.py:263-266 | standardising a row changes only its ISBN |
| CombinedSales.Fill | src/pipelines/combined_sales_report.py:270-283 | with no ALL_ACCOUNTS match both 12M account columns are 0; with no BOOK_DETAILS match the text attributes are "", RETAIL 0 and PUB_STATUS stays null; a match's present TYPE and account totals and its PUB_STATUS are kept |
| CombinedSales.Widen | src/pipelines/combined_sales_report.py:270-271 | the two left joins never drop a report row |
| CombinedSales.WidenUnique | src/pipelines/combined_sales_report.py:270-283 | with distinct ISBNs in both lookup tables, the two left joins keep the rows one for one, each with its standardised ISBN and the filled attributes of its match |
| CombinedSales.WidenRepeats | src/pipelines/combined_sales_report.py:270 | an ISBN listed n times in ALL_ACCOUNTS repeats its report row n times |
| CombinedSales.WidenRows | src/pipelines/combined_sales_report.py:270-271 | every joined row is a standardised report row |
| CombinedSales.MergeFinal | src/pipelines/combined_sales_report.py:300-330 | a final row has its key, 12 months and 3 years, and the attributes of the first row of its group |
| CombinedSales.Final | src/pipelines/combined_sales_report.py:300-330 | one row per distinct (ISBN, TITLE, NAMECUST, category) with distinct keys, attributes from the first row of the group, and 12M, YTD, 4M and month columns summed over the group |
| CombinedSales.FinalTotals | src/pipelines/combined_sales_report.py:287-342 | the final group-by keeps the 12M and YTD totals, so the logged differences are zero |
| CombinedSales.RowsSpan | src/pipelines/combined_sales_report.py:132-192 | every row, before and after ISBN standardising, has 12M_UNITS equal to the sum of its months and 4M_UNITS to the first four's |
| CombinedSales.GroupSpans | src/pipelines/combined_sales_report.py:312-330 | summing a group of such rows keeps 12M_UNITS equal to the sum of the summed months, and 4M_UNITS to the first four's |
| CombinedSales.FinalSpans | src/pipelines/combined_sales_report.py:300-330 | after the final group-by, 12M_UNITS is still the sum of the twelve monthly columns and 4M_UNITS of the first four |
| CombinedSales.StackedWindow | src/pipelines/combined_sales_report.py:82 | a window total of the stacked frame is the Ingram one plus the Sage one |
| CombinedSales.NormalizedWindow | src/pipelines/combined_sales_report.py:54-74 | casting keeps every window total of a frame |
| CombinedSales.Report | src/pipelines/combined_sales_report.py:300-330 | the report's (ISBN, TITLE, NAMECUST, category) keys are distinct |
| CombinedSales.ReportSpans | src/pipelines/combined_sales_report.py:132-330 | every report row has 12 monthly columns, 12M_UNITS equal to their sum and 4M_UNITS to the first four's |
| CombinedSales.ReportTotals | src/pipelines/combined_sales_report.py:76-342 | with distinct ISBNs in the lookup tables, the report's 12M and YTD units and dollars add up to the Ingram and Sage sales of those windows |
| IngramOnly.Base | src/ingram_only_pipeline/ingram_only_pipeline.py:82 | the base rows are the distinct seven-key accounts of the sales: each once, every sale's account among them and none without a sale |
| IngramOnly.MonthCells | src/ingram_only_pipeline/ingram_only_pipeline.py:118-138 | each month cell is the units of the row's six-key outlet, NAMECUST left out, in that trailing year-month |
| IngramOnly.YearCells | src/ingram_only_pipeline/ingram_only_pipeline.py:180-193 | the three year cells are the account's units in `curr_year-1`, `curr_year-2` and `curr_year-3`, in that order |
| IngramOnly.BuildRow | src/ingram_only_pipeline/ingram_only_pipeline.py:118-193 | with a category: 12 month cells per outlet, ALL_ACCTS_12M per (ISBN, TITLE), 12M per account over the twelve trailing year-months, and 3 year cells per account |
| IngramOnly.Rows | src/ingram_only_pipeline/ingram_only_pipeline.py:82-193 | one row per base account, built from the sales in the same order |
| IngramOnly.RowsAsWritten | src/ingram_only_pipeline/ingram_only_pipeline.py:82-193 | as written, one such row per base account |
| IngramOnly.MonthColumnNames | src/ingram_only_pipeline/ingram_only_pipeline.py:111-126 | the loop's `NET_UNITS_<Mon>_<year>` labels are the column names of the twelve trailing months, newest first |
| IngramOnly.MonthsShared | src/ingram_only_pipeline/ingram_only_pipeline.py:128-138 | two rows of the same outlet carry the same month cells, whatever their NAMECUST |
| IngramOnly.AllAccountsShared | src/ingram_only_pipeline/ingram_only_pipeline.py:141-154 | two rows of the same (ISBN, TITLE) carry the same ALL_ACCTS_12M units and dollars |
| IngramOnly.CustomersOf | src/ingram_only_pipeline/ingram_only_pipeline.py:128-138 | the customers of an outlet are exactly the base accounts with that outlet, each once |
| IngramOnly.MonthSumsCustomers | src/ingram_only_pipeline/ingram_only_pipeline.py:128-133 | an outlet's window units are the sum of its customers' window units |
| IngramOnly.RowMonthsSumCustomers | src/ingram_only_pipeline/ingram_only_pipeline.py:128-138 | a row's month cell adds up the units of every customer name of its outlet in that month |
| IngramOnly.RowsSpanTotals | src/ingram_only_pipeline/ingram_only_pipeline.py:157-170 | the rows' 12M_UNITS and 12M_DOLLARS add up to the units and dollars of every sale in the twelve trailing year-months |
| IngramOnly.RowsYearTotals | src/ingram_only_pipeline/ingram_only_pipeline.py:180-193 | the rows' year column j adds up to the units of every sale in year `curr_year-1-j` |
| IngramOnly.CategorizedWindow | src/ingram_only_pipeline/ingram_only_pipeline.py:128-193 | keeping only categorised sales leaves a categorised account's window as it is and empties an uncategorised one's |
| IngramOnly.RowsAsWrittenSpanTotals | src/ingram_only_pipeline/ingram_only_pipeline.py:157-170 | as written, the rows' 12M_UNITS add up only to the categorised sales of the twelve trailing year-months |
| IngramOnly.NullCategoryLost | src/ingram_only_pipeline/ingram_only_pipeline.py:128-138 | one uncategorised sale of 5 units last month gives, as written, 0 in its month and 12M cells instead of 5 |
| IngramOnly.Finish | src/ingram_only_pipeline/ingram_only_pipeline.py:211-215 | a joined line keeps its report row |
| IngramOnly.ReportRows | src/ingram_only_pipeline/ingram_only_pipeline.py:211-215 | every line of the book-detail join carries one of the report rows |
| IngramOnly.ReportUnique | src/ingram_only_pipeline/ingram_only_pipeline.py:211-259 | with one BOOK_DETAILS row per ISBN, the join keeps the rows one for one, each carrying its book's details with RETAIL_PRICE 0 when missing, and the 12M units still add up to the window's total |
| IngramOnly.ReportRepeats | src/ingram_only_pipeline/ingram_only_pipeline.py:211-215 | a row whose ISBN occurs n times in BOOK_DETAILS becomes n lines with the row's figures |
| IngramOnly.OutputColumns | src/ingram_only_pipeline/ingram_only_pipeline.py:246-257 | the final select keeps exactly the frame's columns |
| IngramOnly.NetNames | src/ingram_only_pipeline/ingram_only_pipeline.py:111-126 | every month column and every `NET_UNITS_<year>` column starts with "NET_UNITS_" |
| IngramOnly.FrameBlocks | src/ingram_only_pipeline/ingram_only_pipeline.py:246-248 | the "NET_UNITS_" columns of the frame are the twelve months followed by the three years, and none is taken for a `UNITS_<digits>` column |
| IngramOnly.YtdAbsent | src/ingram_only_pipeline/ingram_only_pipeline.py:172-178 | YTD_UNITS and YTD_DOLLARS are computed but never joined, so they are not in the frame |
| IngramOnly.WishedSelect | src/ingram_only_pipeline/ingram_only_pipeline.py:217-257 | of `final_order` the frame keeps the leading, 12M and all-accounts columns |
| IngramOnly.OutputOrder | src/ingram_only_pipeline/ingram_only_pipeline.py:217-257 | the report's columns are the leading ones, 12M, ALL_ACCTS_12M, the twelve months newest first and the three years newest first; there are no YTD columns |
| IngramOnly.OutputShape | src/ingram_only_pipeline/ingram_only_pipeline.py:246-257 | when the frame has no extra column, the output is the wished columns, then the "NET_UNITS_" ones, filtered to the frame's |
| RevenueReport.Stacked | src/run_all_book_reports/run_all_book_reports.py:48 | the vertical concat has as many rows as the Ingram and Sage frames together |
| RevenueReport.ToFactStamp | src/run_all_book_reports/run_all_book_reports.py:57-64 | YEARMONTH `YEAR*100+MONTH` gives back the sale's year and month |
| RevenueReport.ToFactTotals | src/run_all_book_reports/run_all_book_reports.py:27-64 | selecting, casting and stamping keep a frame's NETUNITS and NETAMT totals |
| RevenueReport.MergeMonth | src/run_all_book_reports/run_all_book_reports.py:67-70 | a grouped row carries its group's (ISBN, TITLE, YEARMONTH) |
| RevenueReport.Combine | src/run_all_book_reports/run_all_book_reports.py:67-70 | one row per distinct (ISBN, TITLE, YEARMONTH), in first-occurrence order, carrying its group's NETUNITS and NETAMT sums |
| RevenueReport.CombineTotals | src/run_all_book_reports/run_all_book_reports.py:48-70 | after the concat and the group-by the NETUNITS and NETAMT totals are the two sources' together |
| RevenueReport.CombineEmpty | src/run_all_book_reports/run_all_book_reports.py:67-70 | the grouped frame is empty exactly when no sale was stacked |
| RevenueReport.Zeroed | src/run_all_book_reports/run_all_book_reports.py:191 | `fillna(0)` keeps every present value and turns every null into 0 |
| RevenueReport.YearCells | src/run_all_book_reports/run_all_book_reports.py:114-127 | the `<year>-UNITS` cells are the book's nullable units in `curr_year-1`, `curr_year-2` and `curr_year-3`, in that order |
| RevenueReport.BuildRow | src/run_all_book_reports/run_all_book_reports.py:72-137 | a row has 12 month and 3 year cells; 12M_UNITS is null exactly when every month cell is, and once filled it is the sum of the filled month cells |
| RevenueReport.BuildRowRolling | src/run_all_book_reports/run_all_book_reports.py:89-137 | over distinct keys, the rolling cell is null exactly when every month cell is, and once filled it is their sum |
| RevenueReport.Rows | src/run_all_book_reports/run_all_book_reports.py:72-137 | one row per distinct (ISBN, TITLE) of the grouped frame, in first-occurrence order |
| RevenueReport.BaseRows | src/run_all_book_reports/run_all_book_reports.py:72 | the base keys are distinct, and a book is a base key exactly when some sale carries it |
| RevenueReport.CombineWindow | src/run_all_book_reports/run_all_book_reports.py:67-70 | any window total of a column the group-by sums is the same on the grouped rows as on the stacked rows |
| RevenueReport.FilledWindow | src/run_all_book_reports/run_all_book_reports.py:67-137 | a nullable window cell of the grouped frame, filled with 0, is the window total over the stacked sales |
| RevenueReport.RowWindows | src/run_all_book_reports/run_all_book_reports.py:75-137 | once filled, YTD is the book's units and dollars in `curr_year`, each month cell its units in that month, the year cells its units in the three previous years and 12M its units and dollars over the twelve trailing months |
| RevenueReport.BuildRowSpans | src/run_all_book_reports/run_all_book_reports.py:75-84 | once filled, YTD and 12M of a built row are its book's window totals |
| RevenueReport.BuildRowMonths | src/run_all_book_reports/run_all_book_reports.py:89-112 | once filled, each month cell of a built row is its book's units in that trailing month |
| RevenueReport.BuildRowYears | src/run_all_book_reports/run_all_book_reports.py:114-127 | once filled, each year cell of a built row is its book's units in that previous year |
| RevenueReport.IsbnListSplits | src/run_all_book_reports/run_all_book_reports.py:140-145 | the `IN (...)` list, split at its commas, gives each ISBN back quoted, in order, when no ISBN holds a comma |
| RevenueReport.QuoteShape | src/run_all_book_reports/run_all_book_reports.py:145 | a quoted ISBN is the ISBN between two quotes and adds no comma |
| RevenueReport.FillText | src/run_all_book_reports/run_all_book_reports.py:191 | a text column is 0 after `fillna(0)` exactly when it was null |
| RevenueReport.Finish | src/run_all_book_reports/run_all_book_reports.py:190-191 | a merged line keeps its row's TITLE and ISBN |
| RevenueReport.FinishFigures | src/run_all_book_reports/run_all_book_reports.py:190-191 | filling a row whose cells are its windows gives a line whose figures are those windows |
| RevenueReport.BeforeAsymmetric | src/run_all_book_reports/run_all_book_reports.py:202 | the descending order on (CATEGORY, 12M_DOLLARS) never puts two lines before each other |
| RevenueReport.LinesAsymmetric | src/run_all_book_reports/run_all_book_reports.py:202 | that order is asymmetric on every frame |
| RevenueReport.Revenue | src/run_all_book_reports/run_all_book_reports.py:140-202 | the report stops with no ISBN exactly when both sources are empty, with a failed query exactly when that query raises, and with no details exactly when it returns no rows; otherwise it is a permutation of the merged lines, sorted so that no line must precede the one before it |
| RevenueReport.RowsEmpty | src/run_all_book_reports/run_all_book_reports.py:140-143 | the report has no ISBN exactly when the grouped frame is empty |
| RevenueReport.RevenueLines | src/run_all_book_reports/run_all_book_reports.py:72-202 | every written line's figures are its book's windows over the stacked sales, and some sale carries its book |
| RevenueReport.LineFigure | src/run_all_book_reports/run_all_book_reports.py:72-191 | every merged line's figures are its book's windows, and some sale carries its book |
| RevenueReport.UniqueLines | src/run_all_book_reports/run_all_book_reports.py:190-191 | with one details row per ISBN, the merge keeps the rows one for one, in order, each with its own details |
| RevenueReport.RevenueBooks | src/run_all_book_reports/run_all_book_reports.py:72-202 | with one details row per ISBN, the report has one line per distinct book, each book once, every sold book present, and each line carrying its ISBN's details |
| RevenueReport.SortedBooks | src/run_all_book_reports/run_all_book_reports.py:202 | sorting keeps the number of lines and the books distinct |
| RevenueReport.LinesBooks | src/run_all_book_reports/run_all_book_reports.py:72-191 | with one details row per ISBN, the merged frame has one line per distinct book, each once, every sold book present, each carrying its details |
| RevenueReport.LinesCount | src/run_all_book_reports/run_all_book_reports.py:72-191 | with one details row per ISBN, the merged frame has one line per distinct book and no book twice |
| RevenueReport.LinesCover | src/run_all_book_reports/run_all_book_reports.py:72-191 | every sold book has a line |
| RevenueReport.LinesCarry | src/run_all_book_reports/run_all_book_reports.py:190-191 | with one details row per ISBN, every line carries its ISBN's details |
| RevenueReport.FinishCarries | src/run_all_book_reports/run_all_book_reports.py:190-191 | a line made from a row and its first details match keeps the ISBN and carries that match |
| RevenueReport.SameBooks | src/run_all_book_reports/run_all_book_reports.py:67-72 | grouping by YEARMONTH keeps the number of distinct books |
| RevenueReport.LinesConserve | src/run_all_book_reports/run_all_book_reports.py:72-191 | a line column that holds each book's window adds up to the frame's window total |
| RevenueReport.RevenueTotals | src/run_all_book_reports/run_all_book_reports.py:75-202 | with one details row per ISBN, the report's 12M and YTD units and dollars add up to the stacked sales of those windows |
| RevenueReport.LinesFigures | src/run_all_book_reports/run_all_book_reports.py:72-191 | every merged line's figures are its book's windows |
| RevenueReport.LinesRepeat | src/run_all_book_reports/run_all_book_reports.py:190 | a row whose ISBN occurs n times in the details becomes n lines with the row's book and 12M units |
| RevenueReport.FinishUnits | src/run_all_book_reports/run_all_book_reports.py:191 | a missing 12M_UNITS is written as 0 |
| RevenueReport.YearWindowTotals | src/run_all_book_reports/run_all_book_reports.py:48-81 | the stacked sales of a year are the Ingram and Sage sales of that year |
| RevenueReport.SalesInYear | src/run_all_book_reports/run_all_book_reports.py:57-81 | `YEARMONTH // 100 == year` selects exactly the sales of that year |
| RevenueReport.ColumnNamesMean | src/run_all_book_reports/run_all_book_reports.py:89-124 | each `%b-%y` month name is the label of the trailing month its window selects, and each `<year>-UNITS` name reads back as the year its window selects |
| RevenueReport.FinalOrderDistinct | src/run_all_book_reports/run_all_book_reports.py:196-199 | `final_order` has 29 distinct names |
| RevenueReport.MonthNamesDistinct | src/run_all_book_reports/run_all_book_reports.py:89-100 | the twelve month names are distinct |
| RevenueReport.YearNamesDistinct | src/run_all_book_reports/run_all_book_reports.py:114-124 | the three year names are distinct |
| Tables.Where | src/pipelines/combined_sales_report.py:115 | `filter` keeps exactly the accepted rows, in order, and never adds one |
| Tables.WhereAppend | src/run_all_book_reports/run_all_book_reports.py:48 | filtering a vertical concat is concatenating the filtered parts |
| Tables.SumAppend | src/run_all_book_reports/run_all_book_reports.py:48 | a column total of a vertical concat is the sum of the parts' totals |
| Tables.SumWhere | src/pipelines/combined_sales_report.py:115-120 | the total of a filtered column is the total over the accepted rows |
| Tables.Keys | src/pipelines/combined_sales_report.py:94 | `unique()` keeps each key once, and exactly the keys present |
| Tables.GroupsPartition | src/pipelines/combined_sales_report.py:85-88 | the groups of a `group_by` split the rows: their totals add up to the frame's |
| Tables.CollapseTotal | src/pipelines/combined_sales_report.py:85-88 | a `group_by().agg(sum)` keeps the column's total |
| Tables.GroupsShape | src/pipelines/combined_sales_report.py:85-88 | every group is non-empty and holds only rows with its key |
| Tables.GroupSumLookup | src/pipelines/combined_sales_report.py:200-205 | a left join onto a grouped sum finds a key exactly when some row has it, and `fill_null(0)` then gives the key's total |
| Tables.WindowSum | src/pipelines/combined_sales_report.py:115-126 | filtering, grouping and joining back with `fill_null(0)` gives the total of the key's rows that pass the filter |
| Tables.FindRow | src/pipelines/combined_sales_report.py:307 | `first` picks a row of the group with that key, and finds none exactly when the key is absent |
| Tables.GroupOfFirst | src/pipelines/combined_sales_report.py:307 | the first row of a group is the one `first` picks |
| Tables.LeftJoinUnique | src/pipelines/combined_sales_report.py:270-271 | with distinct keys on the right, a left join keeps the left rows one for one, each with its match or nothing |
| Tables.LeftJoinRepeats | src/pipelines/combined_sales_report.py:270 | a left row whose key occurs n times on the right comes out n times |
| Tables.LeftJoinLeft | src/pipelines/combined_sales_report.py:270-271 | every joined row carries a row of the left frame |
| Tables.SortBy | src/run_all_book_reports/run_all_book_reports.py:202 | sorting is a permutation of the frame |
| Tables.SortByInOrder | src/run_all_book_reports/run_all_book_reports.py:202 | under an asymmetric order, no sorted row must precede the one before it |
| Tables.SortByIdentity | src/run_all_book_reports/run_all_book_reports.py:202 | sorting a frame already in order leaves it as it is |
| Tables.SortByKeepsDistinct | src/run_all_book_reports/run_all_book_reports.py:202 | sorting keeps a column's values distinct |
| Tables.SumPerm | src/run_all_book_reports/run_all_book_reports.py:202 | reordering the rows keeps every column total |
| Tables.ColumnSums | src/pipelines/combined_sales_report.py:319-321 | summing each column of a group gives, column by column, the group's totals |
| Tables.SumOfTotals | src/pipelines/combined_sales_report.py:312-321 | summing the rows' totals of the first k columns equals the total of the first k summed columns |

## Left out

- Database and spreadsheet I/O: every `read_sql`, `to_sql`, `read_excel` and xlwings call, and the SQL query texts, including their `TRIM`, joins, `WHERE` filters and `GROUP BY`. Their results are the input sequences, and a query that raises is an `Option`/`Result` parameter.
- Logging and `print`: the logged totals appear only as the lemmas that relate them.
- The city/state enrichment after line 451 of src/pipelines/report_three_combined.py: it is a database read plus a merge.
- Orchestration, the Excel-to-SQL copy scripts, the database diagnostics and the unfinished stubs (`src/pipelines/book_level_reports.py`, `report_a`, `report_b`, `run_all_book_reports`): they hold no reporting logic.
- Floating point: NETAMT, ratios and `Float32`/`Float64` columns are exact `real`s. So `.round(1)` of `Capture_Rate` is not applied, and sums carry no rounding error.
- ReportThree.TargetReport: does not model the final `Int64` cast of src/pipelines/report_three_combined.py:445-451. After the final group-by's sums no numeric cell except `Capture_Rate` is null, so the only effect left out is truncation toward zero, which `LegacyReport.Trunc` models for the older report.
- The order of `group_by` and `unique` results, which polars leaves unspecified: groups come out in first-occurrence order. Only the reports with an explicit sort state an order.
- `strftime` and `strptime` are read through the C-locale English month table, case-sensitively. Python's `%b` parsing also accepts other letter cases (`"feb"`, `"FEB"`); the code only parses labels it wrote itself, so only the table's own spelling is modelled.
- `to_datetime` coercion is modelled only for the `mm/dd/yyyy` text the sheets hold (`Ingest.ParseDateText`).
- Column dtypes are taken as the code casts them. `str.strip` of a cell that is not text, and the effects of a failed cast, are not modelled.
- Calendar.ParseNat: it and `Text.StringToNat` accept only plain digit strings, while Python's `int()` also accepts a sign and surrounding blanks. Every string they read is one the code itself formatted.
- RevenueReport.Revenue: the pandas sort of a CATEGORY column mixing text with the 0 written by `fillna` is modelled with every 0 below every name, and as an order only (no stability claim).
- RevenueReport.FinalOrderDistinct: stated for four-digit years, the only ones `%b-%y` and `{year}-UNITS` names are built for.
- ReportThree.SageLinesRolling: needs each Sage (NAMECUST, category) to have one base row. `ReportThree.SageNameShare` shows why: with two SAGE_IDs under one name, the name's window totals appear on both rows and are counted twice.
- ReportThree.ReportRollingTotal: holds under the same condition, and with unique BILLTOs in the target table.
- CombinedSales.ReportTotals: needs distinct ISBNs in ALL_ACCOUNTS and BOOK_DETAILS. `CombinedSales.WidenRepeats` states what a repeated ISBN does instead.
- IngramOnly.ReportUnique: needs distinct ISBNs in BOOK_DETAILS, and `IngramOnly.ReportRepeats` covers repeats. Its 12M total also states the corrected window joins, in which a null TUTTLE_SALES_CATEGORY matches itself. As written a join never matches a null key, so an account whose TUTTLE_SALES_CATEGORY is null (the SQL LEFT JOIN of src/ingram_only_pipeline/ingram_only_pipeline.py:51-60 found no master category) gets 0 in every window cell: `IngramOnly.RowsAsWritten`, `IngramOnly.RowsAsWrittenSpanTotals` and `IngramOnly.NullCategoryLost` state that behaviour.
- IngramOnly.BuildRow: states the corrected window joins of src/ingram_only_pipeline/ingram_only_pipeline.py:128-193, in which a null TUTTLE_SALES_CATEGORY matches itself. As written a join never matches a null key, so an account whose TUTTLE_SALES_CATEGORY is null (the SQL LEFT JOIN of src/ingram_only_pipeline/ingram_only_pipeline.py:51-60 found no master category) gets 0 in every window cell: `IngramOnly.RowsAsWritten`, `IngramOnly.RowsAsWrittenSpanTotals` and `IngramOnly.NullCategoryLost` state that behaviour.
- IngramOnly.MonthCells: states the corrected window joins of src/ingram_only_pipeline/ingram_only_pipeline.py:128-193, in which a null TUTTLE_SALES_CATEGORY matches itself. As written a join never matches a null key, so an account whose TUTTLE_SALES_CATEGORY is null (the SQL LEFT JOIN of src/ingram_only_pipeline/ingram_only_pipeline.py:51-60 found no master category) gets 0 in every window cell: `IngramOnly.RowsAsWritten`, `IngramOnly.RowsAsWrittenSpanTotals` and `IngramOnly.NullCategoryLost` state that behaviour.
- IngramOnly.YearCells: states the corrected window joins of src/ingram_only_pipeline/ingram_only_pipeline.py:128-193, in which a null TUTTLE_SALES_CATEGORY matches itself. As written a join never matches a null key, so an account whose TUTTLE_SALES_CATEGORY is null (the SQL LEFT JOIN of src/ingram_only_pipeline/ingram_only_pipeline.py:51-60 found no master category) gets 0 in every window cell: `IngramOnly.RowsAsWritten`, `IngramOnly.RowsAsWrittenSpanTotals` and `IngramOnly.NullCategoryLost` state that behaviour.
- IngramOnly.RowMonthsSumCustomers: states the corrected window joins of src/ingram_only_pipeline/ingram_only_pipeline.py:128-193, in which a null TUTTLE_SALES_CATEGORY matches itself. As written a join never matches a null key, so an account whose TUTTLE_SALES_CATEGORY is null (the SQL LEFT JOIN of src/ingram_only_pipeline/ingram_only_pipeline.py:51-60 found no master category) gets 0 in every window cell: `IngramOnly.RowsAsWritten`, `IngramOnly.RowsAsWrittenSpanTotals` and `IngramOnly.NullCategoryLost` state that behaviour.
- IngramOnly.RowsSpanTotals: states the corrected window joins of src/ingram_only_pipeline/ingram_only_pipeline.py:128-193, in which a null TUTTLE_SALES_CATEGORY matches itself. As written a join never matches a null key, so an account whose TUTTLE_SALES_CATEGORY is null (the SQL LEFT JOIN of src/ingram_only_pipeline/ingram_only_pipeline.py:51-60 found no master category) gets 0 in every window cell: `IngramOnly.RowsAsWritten`, `IngramOnly.RowsAsWrittenSpanTotals` and `IngramOnly.NullCategoryLost` state that behaviour.
- IngramOnly.RowsYearTotals: states the corrected window joins of src/ingram_only_pipeline/ingram_only_pipeline.py:128-193, in which a null TUTTLE_SALES_CATEGORY matches itself. As written a join never matches a null key, so an account whose TUTTLE_SALES_CATEGORY is null (the SQL LEFT JOIN of src/ingram_only_pipeline/ingram_only_pipeline.py:51-60 found no master category) gets 0 in every window cell: `IngramOnly.RowsAsWritten`, `IngramOnly.RowsAsWrittenSpanTotals` and `IngramOnly.NullCategoryLost` state that behaviour.
- RevenueReport.RevenueTotals: needs distinct ISBNs in the details. `RevenueReport.LinesRepeat` covers repeats.
- The `prev_month` computed in src/database_uploads/monthly_sales_upload_ing.py is modelled (`Ingest.PrevMonth`), but nothing downstream of it is, because the code never uses its value.
- pandas `groupby` drops rows whose key holds a NaN. Totals are conserved over the rows with complete keys, and `Ingest.GroupByDrops` states what is lost.
- ReportThree.BuildLine: states the corrected window joins, in which a null TUTTLE_SALES_CATEGORY matches itself. As written a polars join never matches a null key, so an uncategorised line gets 0 windows and a null YTD: `ReportThree.LinesAsWritten`, `ReportThree.RollingConservedAsWritten` and `ReportThree.NullCategoryLost` state that behaviour.
- ReportThree.LineMonths: states the corrected window joins, in which a null TUTTLE_SALES_CATEGORY matches itself. As written a polars join never matches a null key, so an uncategorised line gets 0 windows and a null YTD: `ReportThree.LinesAsWritten`, `ReportThree.RollingConservedAsWritten` and `ReportThree.NullCategoryLost` state that behaviour.
- ReportThree.LineTotals: states the corrected window joins, in which a null TUTTLE_SALES_CATEGORY matches itself. As written a polars join never matches a null key, so an uncategorised line gets 0 windows and a null YTD: `ReportThree.LinesAsWritten`, `ReportThree.RollingConservedAsWritten` and `ReportThree.NullCategoryLost` state that behaviour.
- ReportThree.RollingConserved: states the corrected window joins, in which a null TUTTLE_SALES_CATEGORY matches itself. As written a polars join never matches a null key, so an uncategorised line gets 0 windows and a null YTD: `ReportThree.LinesAsWritten`, `ReportThree.RollingConservedAsWritten` and `ReportThree.NullCategoryLost` state that behaviour.
- ReportThree.IngramLinesRolling: states the corrected window joins, in which a null TUTTLE_SALES_CATEGORY matches itself. As written a polars join never matches a null key, so an uncategorised line gets 0 windows and a null YTD: `ReportThree.LinesAsWritten`, `ReportThree.RollingConservedAsWritten` and `ReportThree.NullCategoryLost` state that behaviour.
- ReportThree.SageLinesRolling: states the corrected window joins, in which a null TUTTLE_SALES_CATEGORY matches itself. As written a polars join never matches a null key, so an uncategorised line gets 0 windows and a null YTD: `ReportThree.LinesAsWritten`, `ReportThree.RollingConservedAsWritten` and `ReportThree.NullCategoryLost` state that behaviour.
- ReportThree.ReportRollingTotal: states the corrected window joins, in which a null TUTTLE_SALES_CATEGORY matches itself. As written a polars join never matches a null key, so an uncategorised line gets 0 windows and a null YTD: `ReportThree.LinesAsWritten`, `ReportThree.RollingConservedAsWritten` and `ReportThree.NullCategoryLost` state that behaviour.
- LegacyReport.BuildRow: states the corrected window joins, in which a null TUTTLE_SALES_CATEGORY matches itself. As written an uncategorised row gets 0 windows and null YTD: `LegacyReport.RowsAsWritten`, `LegacyReport.RollingConservedAsWritten` and `LegacyReport.NullCategoryLost` state that behaviour.
- LegacyReport.RowWindows: states the corrected window joins, in which a null TUTTLE_SALES_CATEGORY matches itself. As written an uncategorised row gets 0 windows and null YTD: `LegacyReport.RowsAsWritten`, `LegacyReport.RollingConservedAsWritten` and `LegacyReport.NullCategoryLost` state that behaviour.
- LegacyReport.RollingConserved: states the corrected window joins, in which a null TUTTLE_SALES_CATEGORY matches itself. As written an uncategorised row gets 0 windows and null YTD: `LegacyReport.RowsAsWritten`, `LegacyReport.RollingConservedAsWritten` and `LegacyReport.NullCategoryLost` state that behaviour.
- LegacyReport.ReportRollingTotal: states the corrected window joins, in which a null TUTTLE_SALES_CATEGORY matches itself. As written an uncategorised row gets 0 windows and null YTD: `LegacyReport.RowsAsWritten`, `LegacyReport.RollingConservedAsWritten` and `LegacyReport.NullCategoryLost` state that behaviour.
- CombinedSales.BuildRow: states the corrected window joins, in which a null TUTTLE_SALES_CATEGORY matches itself. As written an uncategorised row gets 0 in every window cell: `CombinedSales.RowsAsWritten`, `CombinedSales.RowsTotalsAsWritten` and `CombinedSales.NullCategoryLost` state that behaviour.
- CombinedSales.YearCells: states the corrected window joins, in which a null TUTTLE_SALES_CATEGORY matches itself. As written an uncategorised row gets 0 in every window cell: `CombinedSales.RowsAsWritten`, `CombinedSales.RowsTotalsAsWritten` and `CombinedSales.NullCategoryLost` state that behaviour.
- CombinedSales.RowMonths: states the corrected window joins, in which a null TUTTLE_SALES_CATEGORY matches itself. As written an uncategorised row gets 0 in every window cell: `CombinedSales.RowsAsWritten`, `CombinedSales.RowsTotalsAsWritten` and `CombinedSales.NullCategoryLost` state that behaviour.
- CombinedSales.BuildRowSpans: states the corrected window joins, in which a null TUTTLE_SALES_CATEGORY matches itself. As written an uncategorised row gets 0 in every window cell: `CombinedSales.RowsAsWritten`, `CombinedSales.RowsTotalsAsWritten` and `CombinedSales.NullCategoryLost` state that behaviour.
- CombinedSales.BuildRowYears: states the corrected window joins, in which a null TUTTLE_SALES_CATEGORY matches itself. As written an uncategorised row gets 0 in every window cell: `CombinedSales.RowsAsWritten`, `CombinedSales.RowsTotalsAsWritten` and `CombinedSales.NullCategoryLost` state that behaviour.
- CombinedSales.RowWindows: states the corrected window joins, in which a null TUTTLE_SALES_CATEGORY matches itself. As written an uncategorised row gets 0 in every window cell: `CombinedSales.RowsAsWritten`, `CombinedSales.RowsTotalsAsWritten` and `CombinedSales.NullCategoryLost` state that behaviour.
- CombinedSales.RowsTotals: states the corrected window joins, in which a null TUTTLE_SALES_CATEGORY matches itself. As written an uncategorised row gets 0 in every window cell: `CombinedSales.RowsAsWritten`, `CombinedSales.RowsTotalsAsWritten` and `CombinedSales.NullCategoryLost` state that behaviour.
- CombinedSales.ReportTotals: rests on the corrected window joins (see `CombinedSales.RowsTotals`) and on the corrected ISBN key `CombinedSales.StandardIsbn`, which removes every hyphen. As written only the first hyphen goes (`CombinedSales.StandardIsbnAsWritten`), so ISBNs written with two hyphens in one frame and fewer in another do not meet. Its earlier condition, distinct ISBNs in ALL_ACCOUNTS and BOOK_DETAILS, still applies.
- CombinedSales.Standardize: built on the corrected ISBN key `CombinedSales.StandardIsbn` (every hyphen removed). The code removes only the first hyphen, which `CombinedSales.StandardIsbnAsWritten` models.
- CombinedSales.AccountIsbn: built on the corrected ISBN key `CombinedSales.StandardIsbn` (every hyphen removed). The code removes only the first hyphen, which `CombinedSales.StandardIsbnAsWritten` models.
- CombinedSales.BookIsbn: built on the corrected ISBN key `CombinedSales.StandardIsbn` (every hyphen removed). The code removes only the first hyphen, which `CombinedSales.StandardIsbnAsWritten` models.
- CombinedSales.Widen: built on the corrected ISBN key `CombinedSales.StandardIsbn` (every hyphen removed). The code removes only the first hyphen, which `CombinedSales.StandardIsbnAsWritten` models.
- CombinedSales.WidenUnique: built on the corrected ISBN key `CombinedSales.StandardIsbn` (every hyphen removed). The code removes only the first hyphen, which `CombinedSales.StandardIsbnAsWritten` models.
- CombinedSales.Final: built on the corrected ISBN key `CombinedSales.StandardIsbn` (every hyphen removed). The code removes only the first hyphen, which `CombinedSales.StandardIsbnAsWritten` models.
- CombinedSales.Report: built on the corrected ISBN key `CombinedSales.StandardIsbn` (every hyphen removed). The code removes only the first hyphen, which `CombinedSales.StandardIsbnAsWritten` models.
- Ingest.TextRow: MONTH comes from the corrected `Ingest.MonthText`, which drops only a leading zero. The code deletes every '0' (`Ingest.MonthTextAsWritten`), so October is written as "1" (`Ingest.OctoberReadsAsJanuary`).
- Ingest.CreateIngFrame: MONTH comes from the corrected `Ingest.MonthText`, which drops only a leading zero. The code deletes every '0' (`Ingest.MonthTextAsWritten`), so October is written as "1" (`Ingest.OctoberReadsAsJanuary`).
- Ingest.CreateIngSales: MONTH comes from the corrected `Ingest.MonthText`, which drops only a leading zero. The code deletes every '0' (`Ingest.MonthTextAsWritten`), so October is written as "1" (`Ingest.OctoberReadsAsJanuary`).
- Ingest.CreateIngFrameShape: MONTH comes from the corrected `Ingest.MonthText`, which drops only a leading zero. The code deletes every '0' (`Ingest.MonthTextAsWritten`), so October is written as "1" (`Ingest.OctoberReadsAsJanuary`).
- Ingest.CreateIngBalance: MONTH comes from the corrected `Ingest.MonthText`, which drops only a leading zero. The code deletes every '0' (`Ingest.MonthTextAsWritten`), so October is written as "1" (`Ingest.OctoberReadsAsJanuary`).
- Ingest.MonthlyFrame: MONTH comes from the corrected `Ingest.MonthText`, which drops only a leading zero. The code deletes every '0' (`Ingest.MonthTextAsWritten`), so October is written as "1" (`Ingest.OctoberReadsAsJanuary`). It also describes the script with the item table's ISBN dropped after the title merge, as src/database_uploads/monthly_sales_upload_ing.py:72 does. It also reads EAN as text, as line 37 of that file does. As written, a sheet whose EAN column holds only numbers fails at the title merge of line 64 of src/monthly_sales_upload/monthly_sales_upload.py; one whose EAN is read as text reaches line 114 with two ISBN columns, where `clean_isbn` raises. Either way nothing is appended (`UploadColumns.UploadFails`, `UploadColumns.UploadFailsAtClean`).
- Ingest.MonthlySalesUpload: MONTH comes from the corrected `Ingest.MonthText`, which drops only a leading zero. The code deletes every '0' (`Ingest.MonthTextAsWritten`), so October is written as "1" (`Ingest.OctoberReadsAsJanuary`). It also describes the script with the item table's ISBN dropped after the title merge, as src/database_uploads/monthly_sales_upload_ing.py:72 does. It also reads EAN as text, as line 37 of that file does. As written, a sheet whose EAN column holds only numbers fails at the title merge of line 64 of src/monthly_sales_upload/monthly_sales_upload.py; one whose EAN is read as text reaches line 114 with two ISBN columns, where `clean_isbn` raises. Either way nothing is appended (`UploadColumns.UploadFails`, `UploadColumns.UploadFailsAtClean`).
- Ingest.MonthlyFrameShape: MONTH comes from the corrected `Ingest.MonthText`, which drops only a leading zero. The code deletes every '0' (`Ingest.MonthTextAsWritten`), so October is written as "1" (`Ingest.OctoberReadsAsJanuary`). It also describes the script with the item table's ISBN dropped after the title merge, as src/database_uploads/monthly_sales_upload_ing.py:72 does. It also reads EAN as text, as line 37 of that file does. As written, a sheet whose EAN column holds only numbers fails at the title merge of line 64 of src/monthly_sales_upload/monthly_sales_upload.py; one whose EAN is read as text reaches line 114 with two ISBN columns, where `clean_isbn` raises. Either way nothing is appended (`UploadColumns.UploadFails`, `UploadColumns.UploadFailsAtClean`).
- Ingest.MonthlyBalance: MONTH comes from the corrected `Ingest.MonthText`, which drops only a leading zero. The code deletes every '0' (`Ingest.MonthTextAsWritten`), so October is written as "1" (`Ingest.OctoberReadsAsJanuary`). It also describes the script with the item table's ISBN dropped after the title merge, as src/database_uploads/monthly_sales_upload_ing.py:72 does. It also reads EAN as text, as line 37 of that file does. As written, a sheet whose EAN column holds only numbers fails at the title merge of line 64 of src/monthly_sales_upload/monthly_sales_upload.py; one whose EAN is read as text reaches line 114 with two ISBN columns, where `clean_isbn` raises. Either way nothing is appended (`UploadColumns.UploadFails`, `UploadColumns.UploadFailsAtClean`).
- UploadColumns.MergesOk: the type of the EAN column is a parameter (`UploadColumns.EanType`), not derived from the sheet's cells. `read_excel` at src/monthly_sales_upload/monthly_sales_upload.py:33 has no dtype, so a column holding only numbers is numeric and the title merge at line 64 raises; the lemma states success for a text EAN and the failure for a numeric one.
- UploadColumns.UploadFailsAtClean: the failure at line 114 is stated for a sheet whose EAN column was read as text; with a numeric EAN the run stops earlier, at line 64, which the lemma also states. Which type `read_excel` gives a column is not modelled.
- UploadColumns.UploadRuns: the corrected script reads EAN as text, as src/database_uploads/monthly_sales_upload_ing.py:37 does; without that, a numeric EAN still fails at line 64 of src/monthly_sales_upload/monthly_sales_upload.py, even with the item table's ISBN dropped.
- Ingest.MonthlyDoubleCount: states what the corrected script would append. As written, src/monthly_sales_upload/monthly_sales_upload.py appends nothing, so the double count cannot occur until the ISBN fault is corrected (`UploadColumns.UploadFails`, `UploadColumns.UploadRuns`).
- ReportThree.IngramFact: NETUNITS and NETAMT arrive as whole numbers, the values after the `cast(pl.Int64)` of src/pipelines/report_three_combined.py:69-70. The truncation of a fractional sheet value toward zero is not modelled.
- ReportThree.SageFact: NETUNITS and NETAMT arrive as whole numbers, the values after the `cast(pl.Int64)` of src/pipelines/report_three_combined.py:83-84. The truncation of a fractional value toward zero is not modelled.
- LegacyReport.PricedFact: NETUNITS and NETAMT arrive as whole numbers, the values after the `cast(pl.Int64)` of src/report_three_combined/report_three_combined.py:71-72 and 85-86. The truncation of a fractional value toward zero is not modelled.
- The category merges of src/create_ing_sales/create_ing_sales.py:74 and src/database_uploads/monthly_sales_upload_ing.py:67 join on SL and HQ together, the columns the category table was just deduplicated on, so they keep the rows one for one. The category they bring is dropped before the output, so the model leaves both merges out. The SL-only merge of src/monthly_sales_upload/monthly_sales_upload.py:61 is modelled (`Ingest.WithCategories`).
- The `drop_duplicates` of the category table is not modelled: the table is a parameter, taken after that step.
- ISBN, TITLE and NAMECUST are never null in the report models; only TUTTLE_SALES_CATEGORY is nullable. IngramOnly.Sale also types `hq`, `sl` and `ips` as non-null text, though they are keys of every window join at src/ingram_only_pipeline/ingram_only_pipeline.py:130-191: the eight-column uploads (`Ingest.CreateIngSales`, `Ingest.MonthlySalesUploadIng`) write them complete. Only src/monthly_sales_upload/monthly_sales_upload.py appends rows without HQ and SL numbers, and as written it appends none (`UploadColumns.UploadFails`); the loss such rows would suffer in those joins is not modelled.

## Findings

| source | as written | input that shows it | evidently intended | confidence | as-written member | corrected member |
|---|---|---|---|---|---|---|
| src/pipelines/report_three_combined.py:396-397 | in January the previous-month Target column is named with `curr_year`, while the window loop named it with `curr_year - 1`, so the select drops it | `(year, month) = (2025, 1)`: the loop creates `Dec-24 Target`, the order asks for `Dec-25 Target` | the Target column of the previous month is always kept | not executed | TargetColumns.TargetColumnAsWritten | TargetColumns.ReportColumnsOrder |
| src/monthly_sales_upload/monthly_sales_upload.py:33-114 | the sheet is read without a dtype (line 33), so an EAN column of numbers makes the title merge at line 64 raise on a numeric key against the text ISBN; when EAN is read as text, the title merge joins it to the item table's ISBN and keeps that ISBN column (line 66 drops only TITLE_Itemflat); the rename of EAN to ISBN at lines 93-99 gives the frame a second ISBN column, the select at lines 102-103 keeps both, and at line 114 `clean_isbn` receives a column instead of a cell, so `if pd.isna(...)` raises | any sheet with the columns the script reads: its EAN column is numeric and line 64 raises, or it is text and line 114 raises | EAN is read as text, as src/database_uploads/monthly_sales_upload_ing.py:37 does, and the item table's ISBN is dropped after the merge, as line 72 of that file does, so the month's grouped rows are appended | not executed | UploadColumns.UploadFailsAtClean | UploadColumns.UploadRuns |
| src/create_ing_sales/create_ing_sales.py:104 | MONTH is the first two characters of `Date` with every `'0'` deleted | `Date = "10/01/2024"` gives MONTH `"1"` | only a leading zero is dropped, so October stays `"10"` | not executed | Ingest.OctoberReadsAsJanuary | Ingest.MonthTextRoundTrip |
| src/pipelines/combined_sales_report.py:108 | the "Totals before concat" dollars add the Sage NETUNITS total to the Ingram NETAMT total | one Sage sale of 2 units for 25.0 is logged as 2.0 dollars | Ingram NETAMT plus Sage NETAMT | not executed | CombinedSales.LoggedDollarsAsWrittenIff | CombinedSales.LoggedDollars |
| src/pipelines/combined_sales_report.py:265 | `str.replace(r'-', '')` in polars replaces only the first match, so an ISBN with two hyphens keeps one | `"1-2-3"` becomes `"12-3"` | every hyphen removed, so the three frames' ISBNs meet in the joins | not executed | CombinedSales.StandardIsbnAsWrittenKeepsHyphens | CombinedSales.StandardIsbnMeets |
| src/ingram_only_pipeline/ingram_only_pipeline.py:128-138 | the month, 12M and year joins include TUTTLE_SALES_CATEGORY, and a join never matches a null key, so an account without a master category gets 0 everywhere | one uncategorised sale of 5 units last month gives 0 in its month and 12M cells | the account's own units, 5 | not executed | IngramOnly.NullCategoryLost | IngramOnly.RowsSpanTotals |
| src/pipelines/report_three_combined.py:141-222 | every window join includes TUTTLE_SALES_CATEGORY, which comes with the Ingram and Sage sales frames (lines 71 and 85) and is null when the sales query's category join found no match; a polars join never matches a null key, so an uncategorised customer gets 0 windows | one uncategorised Sage sale of 5.0 last month, reported in March 2024, gives 0 in its month and 12M cells and a null YTD | the customer's own NETAMT, 5.0 | not executed | ReportThree.NullCategoryLost | ReportThree.RollingConserved |
| src/report_three_combined/report_three_combined.py:150-220 | the same joins on TUTTLE_SALES_CATEGORY in the older report | one uncategorised sale of 5.0 last month gives a 12M_ROLLING_ACTUAL total of 0 | 5.0 | not executed | LegacyReport.NullCategoryLost | LegacyReport.RollingConserved |
| src/pipelines/combined_sales_report.py:115-205 | the window joins include TUTTLE_SALES_CATEGORY, so a book sold to an uncategorised customer gets 0 in every window cell | one uncategorised sale of 5.0 dollars last month gives a 12M_DOLLARS total of 0 | 5.0 | not executed | CombinedSales.NullCategoryLost | CombinedSales.RowsTotals |

=== FILE: backorders.dfy ===
/** upload_backorders.py: the open backorders Ingram reports in its sheet and
    the ones Sage records, summed per (TITLE, ISBN) into BACKORDER_REPORT.
    The Ingram sheet loses its zero lines and its lines without an EAN, each
    side is grouped by (TITLE, ISBN), the two results are stacked and grouped
    again. The group-bys drop lines with a null TITLE or ISBN. */
module Backorders {
  import opened Wrappers
  import opened Tables

  /** A line of the Ingram backorder sheet: 'EAN', 'Title' and
      'Open Backorder', which is read as an integer. */
  datatype IngramLine = IngramLine(ean: Option<string>, title: Option<string>, open: int)

  /** A line of the Sage query: `TRIM(ITEMNO)`, `TRIM(TITLE)` and
      `SUM(QTYREC)`, which is null when every QTYREC of the item is. */
  datatype SageLine = SageLine(isbn: Option<string>, title: Option<string>, qty: Option<real>)

  /** A row with the columns TITLE, ISBN and QTY. */
  datatype Line = Line(title: Option<string>, isbn: Option<string>, qty: real)

  /** The group-by key (TITLE, ISBN). */
  datatype Key = Key(title: Option<string>, isbn: Option<string>)

  function KeyOf(l: Line): Key { Key(l.title, l.isbn) }

  function QtyOf(l: Line): real { l.qty }

  /** A key without a null cell: the only ones a pandas group-by keeps. */
  predicate Full(k: Key) { k.title.Some? && k.isbn.Some? }

  /** `ing_backorders['Open Backorder'] != 0` and `dropna(subset=['EAN'])`. */
  predicate Pending(l: IngramLine) { l.open != 0 && l.ean.Some? }

  /** The rename to ISBN, QTY and TITLE. */
  function IngramRow(l: IngramLine): Line { Line(l.title, l.ean, l.open as real) }

  /** The Sage rows; a null QTY counts as nothing in a pandas sum. */
  function SageRow(l: SageLine): Line { Line(l.title, l.isbn, l.qty.GetOr(0.0)) }

  /** The Ingram sheet after the two filters and the rename. */
  function IngramRows(ingram: seq<IngramLine>): (rows: seq<Line>)
    ensures forall l <- rows :: l.isbn.Some? && l.qty != 0.0
  {
    var kept := Where(ingram, Pending);
    var rows := Project(kept, IngramRow);
    forall l <- rows ensures l.isbn.Some? && l.qty != 0.0 {
      var i :| 0 <= i < |rows| && rows[i] == l;
      var k := kept[i];
      assert k in kept;
      assert Pending(k);
      assert l == IngramRow(k);
      assert l.qty == k.open as real;
    }
    rows
  }

  /** `groupby(['TITLE', 'ISBN']).agg({'QTY': 'sum'}).reset_index()`: one row
      per key without nulls, carrying the QTY total of the rows with that
      key. */
  function GroupLines(lines: seq<Line>): (out: seq<Line>)
    ensures NoDup(Project(out, KeyOf))
    ensures forall o <- out :: Full(KeyOf(o)) && o.qty == SumIf(lines, HasKey(KeyOf, KeyOf(o)), QtyOf)
    ensures forall o <- out :: exists l <- lines :: KeyOf(l) == KeyOf(o)
    ensures forall l <- lines :: Full(KeyOf(l)) ==> exists o <- out :: KeyOf(o) == KeyOf(l)
  {
    GroupingKeys(lines);
    GroupingRows(lines);
    GroupingCovers(lines);
    Grouping(lines)
  }

  function Grouping(lines: seq<Line>): seq<Line>
  {
    var kept := Where(lines, Selects(Full, KeyOf));
    var ks := Keys(kept, KeyOf);
    seq(|ks|, i requires 0 <= i < |ks| => Line(ks[i].title, ks[i].isbn, Sum(GroupOf(kept, KeyOf, ks[i]), QtyOf)))
  }

  lemma GroupingKeys(lines: seq<Line>)
    ensures Project(Grouping(lines), KeyOf) == Keys(Where(lines, Selects(Full, KeyOf)), KeyOf)
    ensures NoDup(Project(Grouping(lines), KeyOf))
  {
    var out := Grouping(lines);
    var ks := Keys(Where(lines, Selects(Full, KeyOf)), KeyOf);
    assert forall i | 0 <= i < |ks| :: KeyOf(out[i]) == ks[i];
  }

  lemma GroupingRows(lines: seq<Line>)
    ensures forall o <- Grouping(lines) :: Full(KeyOf(o)) && o.qty == SumIf(lines, HasKey(KeyOf, KeyOf(o)), QtyOf)
    ensures forall o <- Grouping(lines) :: exists l <- lines :: KeyOf(l) == KeyOf(o)
  {
    var kept := Where(lines, Selects(Full, KeyOf));
    var ks := Keys(kept, KeyOf);
    var out := Grouping(lines);
    forall o <- out
      ensures Full(KeyOf(o)) && o.qty == SumIf(lines, HasKey(KeyOf, KeyOf(o)), QtyOf)
      ensures exists l <- lines :: KeyOf(l) == KeyOf(o)
    {
      var i :| 0 <= i < |out| && out[i] == o;
      var k := ks[i];
      assert KeyOf(o) == k;
      ProjectMember(kept, KeyOf, k);
      var j :| 0 <= j < |kept| && KeyOf(kept[j]) == k;
      assert kept[j] in kept;
      GroupOfSumIf(kept, KeyOf, k, QtyOf);
      WhereSumIfAs(lines, Selects(Full, KeyOf), HasKey(KeyOf, k), HasKey(KeyOf, k), QtyOf);
    }
  }

  lemma GroupingCovers(lines: seq<Line>)
    ensures forall l <- lines :: Full(KeyOf(l)) ==> exists o <- Grouping(lines) :: KeyOf(o) == KeyOf(l)
  {
    var kept := Where(lines, Selects(Full, KeyOf));
    var ks := Keys(kept, KeyOf);
    var out := Grouping(lines);
    KeysCover(kept, KeyOf);
    forall l <- lines | Full(KeyOf(l)) ensures exists o <- out :: KeyOf(o) == KeyOf(l) {
      assert l in kept;
      var i :| 0 <= i < |ks| && ks[i] == KeyOf(l);
      assert KeyOf(out[i]) == ks[i];
      assert out[i] in out;
    }
  }

  /** What grouping keeps: for every key without nulls, the grouped rows with
      that key total what the rows with that key totalled. */
  lemma GroupedKeyTotal(lines: seq<Line>, k: Key)
    requires Full(k)
    ensures SumIf(GroupLines(lines), HasKey(KeyOf, k), QtyOf) == SumIf(lines, HasKey(KeyOf, k), QtyOf)
  {
    var out := GroupLines(lines);
    SumIfUniqueKey(out, KeyOf, k, QtyOf);
    if forall o <- out :: KeyOf(o) != k {
      assert forall l <- lines :: !HasKey(KeyOf, k)(l);
      SumIfNone(lines, HasKey(KeyOf, k), QtyOf);
    }
  }

  /** Dropping the zero lines changes no total: per key, the Ingram rows
      carry exactly the open backorders of the sheet's lines with an EAN. */
  lemma {:induction false} IngramRowsTotal(ingram: seq<IngramLine>, k: Key)
    ensures SumIf(IngramRows(ingram), HasKey(KeyOf, k), QtyOf)
         == SumIf(ingram, IngramFor(k), IngramOpen)
    decreases |ingram|
  {
    if ingram != [] {
      IngramRowsTotal(ingram[1..], k);
      var head := if Pending(ingram[0]) then [ingram[0]] else [];
      assert Where(ingram, Pending) == head + Where(ingram[1..], Pending);
      var rest := IngramRows(ingram[1..]);
      assert IngramRows(ingram) == Project(head, IngramRow) + rest;
      SumIfAppend(Project(head, IngramRow), rest, HasKey(KeyOf, k), QtyOf);
    }
  }

  /** The sheet lines with an EAN whose (Title, EAN) is `k`. */
  function IngramFor(k: Key): IngramLine -> bool { (l: IngramLine) => l.ean.Some? && Key(l.title, l.ean) == k }

  function IngramOpen(l: IngramLine): real { l.open as real }

  function SageFor(k: Key): SageLine -> bool { (l: SageLine) => Key(l.title, l.isbn) == k }

  function SageQty(l: SageLine): real { l.qty.GetOr(0.0) }

  lemma {:induction false} SageRowsTotal(sage: seq<SageLine>, k: Key)
    ensures SumIf(Project(sage, SageRow), HasKey(KeyOf, k), QtyOf) == SumIf(sage, SageFor(k), SageQty)
    decreases |sage|
  {
    if sage != [] {
      SageRowsTotal(sage[1..], k);
      var rows := Project(sage, SageRow);
      assert rows[1..] == Project(sage[1..], SageRow);
      assert rows[0] == SageRow(sage[0]);
      assert HasKey(KeyOf, k)(rows[0]) == SageFor(k)(sage[0]);
    }
  }

  /** Why the run stops before writing: the Sage query raised, so the name
      it would have bound is used unbound. */
  datatype Failure = SageUnavailable

  /** `backorder_report()`: `sage` is None when the Sage query raised. */
  function BackorderReport(ingram: seq<IngramLine>, sage: Option<seq<SageLine>>): (r: Result<seq<Line>, Failure>)
    ensures r.Err? <==> sage.None?
    ensures r.Ok? ==> NoDup(Project(r.value, KeyOf)) && forall o <- r.value :: Full(KeyOf(o))
  {
    match sage
    case None => Err(SageUnavailable)
    case Some(s) =>
      Ok(GroupLines(GroupLines(IngramRows(ingram)) + GroupLines(Project(s, SageRow))))
  }

  /** Each row of BACKORDER_REPORT holds, for its title and ISBN, the open
      Ingram backorders plus the Sage backorders. */
  lemma BackorderQuantities(ingram: seq<IngramLine>, sage: seq<SageLine>)
    ensures forall o <- BackorderReport(ingram, Some(sage)).value ::
              o.qty == SumIf(ingram, IngramFor(KeyOf(o)), IngramOpen) + SumIf(sage, SageFor(KeyOf(o)), SageQty)
  {
    var a, b := GroupLines(IngramRows(ingram)), GroupLines(Project(sage, SageRow));
    forall o <- BackorderReport(ingram, Some(sage)).value
      ensures o.qty == SumIf(ingram, IngramFor(KeyOf(o)), IngramOpen) + SumIf(sage, SageFor(KeyOf(o)), SageQty)
    {
      var k := KeyOf(o);
      SumIfAppend(a, b, HasKey(KeyOf, k), QtyOf);
      GroupedKeyTotal(IngramRows(ingram), k);
      GroupedKeyTotal(Project(sage, SageRow), k);
      IngramRowsTotal(ingram, k);
      SageRowsTotal(sage, k);
    }
  }

  /** The report lists a (title, ISBN) exactly when an open Ingram line
      with an EAN or a Sage line carries it, with no null. */
  lemma BackorderKeys(ingram: seq<IngramLine>, sage: seq<SageLine>, k: Key)
    requires Full(k)
    ensures (exists o <- BackorderReport(ingram, Some(sage)).value :: KeyOf(o) == k)
        <==> (exists l <- ingram :: Pending(l) && Key(l.title, l.ean) == k)
             || (exists l <- sage :: Key(l.title, l.isbn) == k)
  {
    var rows, srows := IngramRows(ingram), Project(sage, SageRow);
    IngramRowsKeys(ingram, k);
    SageRowsKeys(sage, k);
    StackedKeys(rows, srows, k);
  }

  /** Grouping the stacked groupings keeps exactly the keys of either side. */
  lemma StackedKeys(rows: seq<Line>, srows: seq<Line>, k: Key)
    requires Full(k)
    ensures (exists o <- GroupLines(GroupLines(rows) + GroupLines(srows)) :: KeyOf(o) == k)
        <==> (exists r <- rows :: KeyOf(r) == k) || (exists r <- srows :: KeyOf(r) == k)
  {
    var a, b := GroupLines(rows), GroupLines(srows);
    GroupLinesKey(rows, k);
    GroupLinesKey(srows, k);
    GroupLinesKey(a + b, k);
    KeyInAppend(a, b, k);
  }

  /** A full key is a key of the grouped lines exactly when some line has it. */
  lemma GroupLinesKey(lines: seq<Line>, k: Key)
    requires Full(k)
    ensures (exists o <- GroupLines(lines) :: KeyOf(o) == k) <==> (exists l <- lines :: KeyOf(l) == k)
  {
    if exists l <- lines :: KeyOf(l) == k {
      var l :| l in lines && KeyOf(l) == k;
      assert Full(KeyOf(l));
    }
  }

  lemma KeyInAppend(a: seq<Line>, b: seq<Line>, k: Key)
    ensures (exists l <- a + b :: KeyOf(l) == k) <==> (exists l <- a :: KeyOf(l) == k) || (exists l <- b :: KeyOf(l) == k)
  {
    if exists l <- a :: KeyOf(l) == k {
      var l :| l in a && KeyOf(l) == k;
      assert l in a + b;
    }
    if exists l <- b :: KeyOf(l) == k {
      var l :| l in b && KeyOf(l) == k;
      assert l in a + b;
    }
  }


  lemma IngramRowsKeys(ingram: seq<IngramLine>, k: Key)
    ensures (exists r <- IngramRows(ingram) :: KeyOf(r) == k)
        <==> exists l <- ingram :: Pending(l) && Key(l.title, l.ean) == k
  {
    var kept := Where(ingram, Pending);
    var rows := IngramRows(ingram);
    assert rows == Project(kept, IngramRow);
    if exists r <- rows :: KeyOf(r) == k {
      var r :| r in rows && KeyOf(r) == k;
      var i :| 0 <= i < |rows| && rows[i] == r;
      assert r == IngramRow(kept[i]);
      assert kept[i] in kept;
    }
    if exists l <- ingram :: Pending(l) && Key(l.title, l.ean) == k {
      var l :| l in ingram && Pending(l) && Key(l.title, l.ean) == k;
      assert l in kept;
      var i :| 0 <= i < |kept| && kept[i] == l;
      assert rows[i] == IngramRow(l);
      assert KeyOf(rows[i]) == k;
      assert rows[i] in rows;
    }
  }

  lemma SageRowsKeys(sage: seq<SageLine>, k: Key)
    ensures (exists r <- Project(sage, SageRow) :: KeyOf(r) == k) <==> exists l <- sage :: Key(l.title, l.isbn) == k
  {
    var srows := Project(sage, SageRow);
    if exists r <- srows :: KeyOf(r) == k {
      var r :| r in srows && KeyOf(r) == k;
      var i :| 0 <= i < |srows| && srows[i] == r;
      assert r == SageRow(sage[i]);
      assert sage[i] in sage;
    }
    if exists l <- sage :: Key(l.title, l.isbn) == k {
      var l :| l in sage && Key(l.title, l.isbn) == k;
      var i :| 0 <= i < |sage| && sage[i] == l;
      assert srows[i] == SageRow(l);
      assert KeyOf(srows[i]) == k;
      assert srows[i] in srows;
    }
  }

  /** The report's QTY total is the open Ingram backorders with an EAN and a
      title plus the Sage backorders with a title and an ISBN. */
  lemma BackorderTotal(ingram: seq<IngramLine>, sage: seq<SageLine>)
    ensures Sum(BackorderReport(ingram, Some(sage)).value, QtyOf)
         == SumIf(IngramRows(ingram), Selects(Full, KeyOf), QtyOf) + SumIf(Project(sage, SageRow), Selects(Full, KeyOf), QtyOf)
  {
    var a, b := GroupLines(IngramRows(ingram)), GroupLines(Project(sage, SageRow));
    GroupTotal(a + b);
    SumAppend(a, b, QtyOf);
    GroupTotal(IngramRows(ingram));
    GroupTotal(Project(sage, SageRow));
    assert forall l <- a + b :: Full(KeyOf(l));
    SumIfAll(a + b, Selects(Full, KeyOf), QtyOf);
  }

  /** One grouping keeps the total of the rows without a null key. */
  lemma GroupTotal(lines: seq<Line>)
    ensures Sum(GroupLines(lines), QtyOf) == SumIf(lines, Selects(Full, KeyOf), QtyOf)
  {
    var kept := Where(lines, Selects(Full, KeyOf));
    var out := GroupLines(lines);
    assert out == Grouping(lines);
    CollapseTotal(kept, KeyOf, out, QtyOf, QtyOf);
    SumWhere(lines, Selects(Full, KeyOf), QtyOf);
  }
}

=== FILE: calendar.dfy ===
/** Calendar arithmetic shared by every report: the YEARMONTH key, the
    trailing twelve-month window, the prior-year lists, and the month labels
    that become column names (together with the parsers that read them back
    when the columns are ordered). The current date is a parameter. */
module Calendar {
  import opened Wrappers
  import opened Text

  predicate ValidMonth(m: int) { 1 <= m <= 12 }

  // ---------------------------------------------------------------------------
  // YEARMONTH
  // ---------------------------------------------------------------------------

  /** `YEAR * 100 + MONTH`. */
  function YearMonth(year: int, month: int): int { year * 100 + month }

  /** `yyyymm // 100`: Python's floor division, which Dafny's division matches
      for a positive divisor. */
  function KeyYear(key: int): int { key / 100 }

  /** `yyyymm % 100`. */
  function KeyMonth(key: int): int { key % 100 }

  /** Months counted from year 0: consecutive calendar months differ by one. */
  function MonthIndex(year: int, month: int): int { 12 * year + month - 1 }

  function KeyIndex(key: int): int { MonthIndex(KeyYear(key), KeyMonth(key)) }

  /** Decoding an encoded key gives back the year and the month, for every
      year, whenever the month is a calendar month. */
  lemma DecodeEncode(year: int, month: int)
    requires ValidMonth(month)
    ensures KeyYear(YearMonth(year, month)) == year
    ensures KeyMonth(YearMonth(year, month)) == month
  {
  }

  /** Every integer is the encoding of its decoded parts. */
  lemma EncodeDecode(key: int)
    ensures YearMonth(KeyYear(key), KeyMonth(key)) == key
    ensures 0 <= KeyMonth(key) < 100
  {
  }

  /** On calendar months the key order is the calendar order. */
  lemma {:induction false} KeyOrder(y1: int, m1: int, y2: int, m2: int)
    requires ValidMonth(m1) && ValidMonth(m2)
    ensures YearMonth(y1, m1) < YearMonth(y2, m2) <==> MonthIndex(y1, m1) < MonthIndex(y2, m2)
  {
    if y1 < y2 {
      assert (y2 - y1) * 100 >= 100;
      assert (y2 - y1) * 12 >= 12;
    } else if y1 > y2 {
      assert (y1 - y2) * 100 >= 100;
      assert (y1 - y2) * 12 >= 12;
    }
  }

  // ---------------------------------------------------------------------------
  // The trailing window
  // ---------------------------------------------------------------------------

  /** The `i`-th month before (year, month) as the report loops compute it:
      `month - i`, and when that is not positive, add 12 and borrow a year. */
  function MonthsBack(year: int, month: int, i: int): (r: (int, int))
    requires ValidMonth(month) && 1 <= i <= 12
    ensures ValidMonth(r.1)
    ensures MonthIndex(r.0, r.1) == MonthIndex(year, month) - i
  {
    var m := month - i;
    if m <= 0 then (year - 1, m + 12) else (year, m)
  }

  /** The YEARMONTH key of the `i`-th month back. */
  function BackKey(year: int, month: int, i: int): int
    requires ValidMonth(month) && 1 <= i <= 12
  {
    var (y, m) := MonthsBack(year, month, i);
    YearMonth(y, m)
  }

  /** The twelve keys of `for i in range(1, 13)`, newest first. */
  function TrailingKeys(year: int, month: int): (keys: seq<int>)
    requires ValidMonth(month)
    ensures |keys| == 12
  {
    seq(12, i requires 0 <= i < 12 => BackKey(year, month, i + 1))
  }

  lemma BackKeyIndex(year: int, month: int, i: int)
    requires ValidMonth(month) && 1 <= i <= 12
    ensures ValidMonth(KeyMonth(BackKey(year, month, i)))
    ensures KeyIndex(BackKey(year, month, i)) == MonthIndex(year, month) - i
  {
    var (y, m) := MonthsBack(year, month, i);
    DecodeEncode(y, m);
  }

  /** The window's shape: every key names a calendar month; the keys are
      strictly decreasing and exactly one month apart; the current month is
      not among them; in January the first key is December of last year. */
  lemma TrailingKeysShape(year: int, month: int)
    requires ValidMonth(month)
    ensures var keys := TrailingKeys(year, month);
      && (forall i :: 0 <= i < 12 ==> ValidMonth(KeyMonth(keys[i])))
      && (forall i, j :: 0 <= i < j < 12 ==> keys[i] > keys[j])
      && (forall i :: 0 <= i < 11 ==> KeyIndex(keys[i + 1]) == KeyIndex(keys[i]) - 1)
      && YearMonth(year, month) !in keys
      && (month == 1 ==> keys[0] == (year - 1) * 100 + 12)
  {
    var keys := TrailingKeys(year, month);
    forall i | 0 <= i < 12
      ensures ValidMonth(KeyMonth(keys[i]))
      ensures KeyIndex(keys[i]) == MonthIndex(year, month) - (i + 1)
      ensures YearMonth(KeyYear(keys[i]), KeyMonth(keys[i])) == keys[i]
    {
      BackKeyIndex(year, month, i + 1);
      EncodeDecode(keys[i]);
    }
    forall i, j | 0 <= i < j < 12 ensures keys[i] > keys[j] {
      KeyOrder(KeyYear(keys[j]), KeyMonth(keys[j]), KeyYear(keys[i]), KeyMonth(keys[i]));
    }
    forall i | 0 <= i < 12 ensures keys[i] != YearMonth(year, month) {
      DecodeEncode(year, month);
    }
  }

  /** Membership in the window, stated without the loop: a key is in the
      window exactly when it names a calendar month between twelve and one
      months before the current one. */
  lemma TrailingKeysMembers(year: int, month: int, key: int)
    requires ValidMonth(month)
    ensures key in TrailingKeys(year, month) <==>
      (ValidMonth(KeyMonth(key)) && MonthIndex(year, month) - 12 <= KeyIndex(key) <= MonthIndex(year, month) - 1)
  {
    var keys := TrailingKeys(year, month);
    TrailingKeysShape(year, month);
    if key in keys {
      var i :| 0 <= i < 12 && keys[i] == key;
      BackKeyIndex(year, month, i + 1);
    }
    if ValidMonth(KeyMonth(key)) && MonthIndex(year, month) - 12 <= KeyIndex(key) <= MonthIndex(year, month) - 1 {
      var i := MonthIndex(year, month) - KeyIndex(key) - 1;
      BackKeyIndex(year, month, i + 1);
      var k := keys[i];
      EncodeDecode(k);
      EncodeDecode(key);
      assert KeyIndex(k) == KeyIndex(key);
      KeyIndexInjective(k, key);
    }
  }

  /** Two keys naming calendar months with the same month index are equal. */
  lemma KeyIndexInjective(a: int, b: int)
    requires ValidMonth(KeyMonth(a)) && ValidMonth(KeyMonth(b))
    requires KeyIndex(a) == KeyIndex(b)
    ensures a == b
  {
    EncodeDecode(a);
    EncodeDecode(b);
    var ya, ma, yb, mb := KeyYear(a), KeyMonth(a), KeyYear(b), KeyMonth(b);
    var d := ya - yb;
    assert 12 * d == mb - ma;
  }

  /** The four-month window is the four newest keys of the twelve. */
  function FourMonthKeys(year: int, month: int): (keys: seq<int>)
    requires ValidMonth(month)
    ensures |keys| == 4
  {
    TrailingKeys(year, month)[..4]
  }

  /** The four-month window is the stretch of four months before the current
      one. */
  lemma FourMonthKeysMembers(year: int, month: int, key: int)
    requires ValidMonth(month)
    ensures key in FourMonthKeys(year, month) <==>
      (ValidMonth(KeyMonth(key)) && MonthIndex(year, month) - 4 <= KeyIndex(key) <= MonthIndex(year, month) - 1)
  {
    var keys := TrailingKeys(year, month);
    TrailingKeysShape(year, month);
    TrailingKeysMembers(year, month, key);
    forall i | 0 <= i < 12 ensures KeyIndex(keys[i]) == MonthIndex(year, month) - (i + 1) {
      BackKeyIndex(year, month, i + 1);
    }
    if key in keys[..4] {
      var i :| 0 <= i < 4 && keys[..4][i] == key;
      assert keys[i] == key;
    }
    if key in keys && KeyIndex(key) >= MonthIndex(year, month) - 4 {
      var i :| 0 <= i < 12 && keys[i] == key;
      assert i < 4;
      assert keys[..4][i] == key;
    }
  }

  // ---------------------------------------------------------------------------
  // Prior years
  // ---------------------------------------------------------------------------

  /** `curr_year - 1, curr_year - 2, ...`, `n` of them, newest first. */
  function PriorYearsDesc(year: int, n: nat): (ys: seq<int>)
    ensures |ys| == n
  {
    seq(n, i requires 0 <= i < n => year - 1 - i)
  }

  /** `range(curr_year - n, curr_year)`: the same years, oldest first. */
  function PriorYearsAsc(year: int, n: nat): (ys: seq<int>)
    ensures |ys| == n
  {
    seq(n, i requires 0 <= i < n => year - n + i)
  }

  /** Both lists hold exactly the `n` years before the current one, without
      repetition, in opposite orders. */
  lemma PriorYearsMembers(year: int, n: nat, y: int)
    ensures y in PriorYearsDesc(year, n) <==> year - n <= y < year
    ensures y in PriorYearsAsc(year, n) <==> year - n <= y < year
    ensures forall i, j :: 0 <= i < j < n ==> PriorYearsDesc(year, n)[i] > PriorYearsDesc(year, n)[j]
    ensures forall i, j :: 0 <= i < j < n ==> PriorYearsAsc(year, n)[i] < PriorYearsAsc(year, n)[j]
    ensures forall i :: 0 <= i < n ==> PriorYearsAsc(year, n)[i] == PriorYearsDesc(year, n)[n - 1 - i]
  {
    if year - n <= y < year {
      assert PriorYearsDesc(year, n)[year - 1 - y] == y;
      assert PriorYearsAsc(year, n)[y - year + n] == y;
    }
  }

  // ---------------------------------------------------------------------------
  // Month names and labels
  // ---------------------------------------------------------------------------

  /** The month-abbreviation table (`%b` in the C locale; `months_dict`). */
  const MonthNames: seq<string> :=
    ["Jan", "Feb", "Mar", "Apr", "May", "Jun", "Jul", "Aug", "Sep", "Oct", "Nov", "Dec"]

  predicate IsLetter(c: char) { ('a' <= c <= 'z') || ('A' <= c <= 'Z') }

  predicate AllLetters(s: string) { forall i :: 0 <= i < |s| ==> IsLetter(s[i]) }

  function MonthAbbr(month: int): (s: string)
    requires ValidMonth(month)
    ensures |s| == 3 && AllLetters(s)
  {
    MonthNames[month - 1]
  }

  /** `strptime(s, '%b').month`, or None where strptime raises. */
  function AbbrToMonth(s: string): (r: Option<int>)
    ensures r.Some? ==> ValidMonth(r.value)
  {
    FindMonth(s, 0)
  }

  function FindMonth(s: string, from: nat): (r: Option<int>)
    requires from <= 12
    ensures r.Some? ==> from < r.value <= 12 && MonthNames[r.value - 1] == s
    ensures r.None? ==> forall i :: from <= i < 12 ==> MonthNames[i] != s
    decreases 12 - from
  {
    if from == 12 then None
    else if MonthNames[from] == s then Some(from + 1)
    else FindMonth(s, from + 1)
  }

  lemma MonthNamesDistinct()
    ensures forall i, j :: 0 <= i < j < 12 ==> MonthNames[i] != MonthNames[j]
  {
  }

  /** The month table read both ways: a name parses exactly when it is the
      abbreviation of the month it parses to. */
  lemma AbbrRoundTrip(month: int, s: string)
    requires ValidMonth(month)
    ensures AbbrToMonth(MonthAbbr(month)) == Some(month)
    ensures AbbrToMonth(s) == Some(month) <==> s == MonthAbbr(month)
  {
    MonthNamesDistinct();
    var r := AbbrToMonth(MonthAbbr(month));
    assert r.Some?;
  }

  /** Months whose abbreviations agree are the same month. */
  lemma AbbrInjective(m1: int, m2: int)
    requires ValidMonth(m1) && ValidMonth(m2) && MonthAbbr(m1) == MonthAbbr(m2)
    ensures m1 == m2
  {
    MonthNamesDistinct();
  }

  /** A datetime's year: `datetime(year, month, 1)` raises outside 1..9999. */
  predicate DatetimeYear(year: int) { 1 <= year <= 9999 }

  /** `strftime('%b' + [sep] + '%y')`: abbreviation, separator, the year's
      last two digits. */
  function ShortLabel(year: int, month: int, sep: char): (s: string)
    requires DatetimeYear(year) && ValidMonth(month)
    ensures |s| == 6
  {
    MonthAbbr(month) + [sep] + PadTwo(year % 100)
  }

  /** `f"NET_UNITS_{%b}_{year}"`. */
  function UnitsLabel(year: int, month: int): string
    requires ValidMonth(month)
  {
    "NET_UNITS_" + MonthAbbr(month) + "_" + IntToString(year)
  }

  /** `yyyymm_to_units_col`: split the key with `//` and `%`, look the month
      up in the month table; a month outside 1..12 is a KeyError (None). */
  function UnitsColumn(key: int): (r: Option<string>)
    ensures r.Some? <==> ValidMonth(KeyMonth(key))
  {
    var year := KeyYear(key);
    var month := KeyMonth(key);
    if ValidMonth(month) then Some(UnitsLabel(year, month)) else None
  }

  /** The key-to-column helper names the same column as the loop's own
      name, for every year. */
  lemma UnitsColumnOfKey(year: int, month: int)
    requires ValidMonth(month)
    ensures UnitsColumn(YearMonth(year, month)) == Some(UnitsLabel(year, month))
  {
    DecodeEncode(year, month);
  }

  /** Two-digit labels determine the month and the year modulo 100. */
  lemma ShortLabelInjective(y1: int, m1: int, y2: int, m2: int, sep: char)
    requires DatetimeYear(y1) && ValidMonth(m1) && DatetimeYear(y2) && ValidMonth(m2)
    ensures ShortLabel(y1, m1, sep) == ShortLabel(y2, m2, sep) ==> m1 == m2 && y1 % 100 == y2 % 100
  {
    var a, b := ShortLabel(y1, m1, sep), ShortLabel(y2, m2, sep);
    assert a[..3] == MonthAbbr(m1) && b[..3] == MonthAbbr(m2);
    assert a[4..] == PadTwo(y1 % 100) && b[4..] == PadTwo(y2 % 100);
    PadTwoRoundTrip(y1 % 100);
    PadTwoRoundTrip(y2 % 100);
    if a == b {
      AbbrInjective(m1, m2);
    }
  }

  // ---------------------------------------------------------------------------
  // Reading labels back
  // ---------------------------------------------------------------------------

  /** `int(s)` restricted to plain digit strings; anything else raises (None). */
  function ParseNat(s: string): (r: Option<nat>)
    ensures r.Some? <==> (s != [] && AllDigits(s))
  {
    if s != [] && AllDigits(s) then Some(StringToNat(s)) else None
  }

  /** The month-column sort key of the target reports: delete the Actual
      suffix and " Target", split on '_', read the abbreviation with
      `strptime('%b')` and the year as `2000 + int(yy)`. An exception in any
      step is None. */
  function ParseShortLabel(col: string, actualSuffix: string): (r: Option<(int, int)>)
    requires |actualSuffix| > 0
    ensures r.Some? ==> ValidMonth(r.value.1) && 2000 <= r.value.0
  {
    var parts := Split(RemoveAll(RemoveAll(col, actualSuffix), " Target"), '_');
    if |parts| < 2 then None
    else
      match (AbbrToMonth(parts[0]), ParseNat(parts[1]))
      case (Some(m), Some(yy)) => Some((2000 + yy, m))
      case _ => None
  }

  /** A name has no blank and no underscore apart from its separator. */
  lemma ShortLabelChars(year: int, month: int, sep: char)
    requires DatetimeYear(year) && ValidMonth(month)
    ensures ' ' !in ShortLabel(year, month, sep) || sep == ' '
    ensures sep == '_' ==> ShortLabel(year, month, sep) == Join([MonthAbbr(month), PadTwo(year % 100)], '_')
    ensures '_' !in MonthAbbr(month) && '_' !in PadTwo(year % 100)
  {
    var a := MonthAbbr(month);
    var d := PadTwo(year % 100);
    assert forall i :: 0 <= i < 3 ==> IsLetter(a[i]);
    assert forall i :: 0 <= i < 2 ==> IsDigit(d[i]);
    var s := ShortLabel(year, month, sep);
    assert forall i :: 0 <= i < 6 ==> s[i] == (if i < 3 then a[i] else if i == 3 then sep else d[i - 4]);
  }

  /** Reading back a generated month column recovers its month, and its year
      as 2000 plus the last two digits: the year itself exactly for the years
      2000 to 2099 (1999 reads back as 2099). */
  lemma ParseShortLabelRoundTrip(year: int, month: int, kind: string, actualSuffix: string)
    requires DatetimeYear(year) && ValidMonth(month)
    requires kind == actualSuffix || kind == " Target"
    requires |actualSuffix| >= 2 && actualSuffix[0] == ' ' && actualSuffix[1] != 'T'
    ensures ParseShortLabel(ShortLabel(year, month, '_') + kind, actualSuffix) == Some((2000 + year % 100, month))
    ensures ParseShortLabel(ShortLabel(year, month, '_') + kind, actualSuffix) == Some((year, month))
            <==> 2000 <= year <= 2099
  {
    var name := ShortLabel(year, month, '_');
    ShortLabelStripped(year, month, kind, actualSuffix);
    ParseShortName(name + kind, actualSuffix, year, month);
    CenturyYear(year);
  }

  /** A column that strips down to a short name parses as that name's month. */
  lemma ParseShortName(col: string, actualSuffix: string, year: int, month: int)
    requires |actualSuffix| > 0 && DatetimeYear(year) && ValidMonth(month)
    requires RemoveAll(RemoveAll(col, actualSuffix), " Target") == ShortLabel(year, month, '_')
    ensures ParseShortLabel(col, actualSuffix) == Some((2000 + year % 100, month))
  {
    ShortLabelParts(year, month);
    AbbrRoundTrip(month, MonthAbbr(month));
    PadTwoRoundTrip(year % 100);
  }

  lemma CenturyYear(year: int)
    ensures 2000 + year % 100 == year <==> 2000 <= year <= 2099
  {
  }

  /** Both suffixes are stripped off a short name, whichever it carries. */
  lemma ShortLabelStripped(year: int, month: int, kind: string, actualSuffix: string)
    requires DatetimeYear(year) && ValidMonth(month)
    requires kind == actualSuffix || kind == " Target"
    requires |actualSuffix| >= 2 && actualSuffix[0] == ' ' && actualSuffix[1] != 'T'
    ensures RemoveAll(RemoveAll(ShortLabel(year, month, '_') + kind, actualSuffix), " Target") == ShortLabel(year, month, '_')
  {
    var name := ShortLabel(year, month, '_');
    ShortLabelChars(year, month, '_');
    if kind == actualSuffix {
      RemoveAllSuffix(name, actualSuffix);
      RemoveAllSuffix(name, " Target");
    } else {
      BlankOnlyBeforeTarget(name, actualSuffix);
      RemoveAllAbsent(name + kind, actualSuffix);
      RemoveAllSuffix(name, " Target");
    }
  }

  /** The `_`-separated parts of a short name. */
  lemma ShortLabelParts(year: int, month: int)
    requires DatetimeYear(year) && ValidMonth(month)
    ensures Split(ShortLabel(year, month, '_'), '_') == [MonthAbbr(month), PadTwo(year % 100)]
  {
    var a, yy := MonthAbbr(month), PadTwo(year % 100);
    assert '_' !in a by {
      assert forall i :: 0 <= i < 3 ==> IsLetter(a[i]);
    }
    assert '_' !in yy by {
      assert forall i :: 0 <= i < 2 ==> IsDigit(yy[i]);
    }
    SplitPiece(a, '_', yy, true);
    SplitPiece(yy, '_', "", false);
  }

  /** In `name + " Target"` with a blank-free name, the only blank is the one
      opening " Target", so a pattern that starts with a blank and does not
      continue with 'T' does not occur. */
  lemma BlankOnlyBeforeTarget(name: string, p: string)
    requires ' ' !in name
    requires |p| >= 2 && p[0] == ' ' && p[1] != 'T'
    ensures !Occurs(p, name + " Target")
  {
    var s := name + " Target";
    forall i | 0 <= i <= |s| - |p| ensures !OccursAt(p, s, i) {
      if i < |name| {
        assert s[i] == name[i];
        assert s[i..i + |p|][0] == s[i];
      } else {
        assert s[i + 1] == " Target"[i + 1 - |name|];
        assert s[i..i + |p|][1] == s[i + 1];
      }
    }
  }

  /** The monthly-column sort key of the combined sales report: split on '_'
      and read parts 2 and 3 with `strptime(..., "%b %Y")`, whose `%Y` takes
      exactly four digits. A missing part or a failed parse raises (None). */
  function ParseUnitsLabel(col: string): (r: Option<(int, int)>)
    ensures r.Some? ==> ValidMonth(r.value.1) && 0 <= r.value.0 <= 9999
  {
    var parts := Split(col, '_');
    if |parts| < 4 then None
    else
      match (AbbrToMonth(parts[2]), ParseNat(parts[3]))
      case (Some(m), Some(y)) =>
        if |parts[3]| == 4 then (StringToNatBound(parts[3]); Some((y, m))) else None
      case _ => None
  }

  /** A monthly units column reads back as the month it was made for, for
      every four-digit year; a year written with fewer digits does not parse. */
  lemma ParseUnitsLabelRoundTrip(year: int, month: int)
    requires 1 <= year <= 9999 && ValidMonth(month)
    ensures ParseUnitsLabel(UnitsLabel(year, month)) == Some((year, month)) <==> 1000 <= year
    ensures year < 1000 ==> ParseUnitsLabel(UnitsLabel(year, month)) == None
  {
    var a, ys := MonthAbbr(month), NatToString(year);
    UnitsLabelParts(year, month);
    var parts := Split(UnitsLabel(year, month), '_');
    AbbrRoundTrip(month, a);
    NatToStringRoundTrip(year);
    if 1000 <= year {
      FourDigitYear(year);
    } else {
      ShortYear(year);
    }
  }

  /** The `_`-separated parts of a monthly units column. */
  lemma UnitsLabelParts(year: int, month: int)
    requires 1 <= year && ValidMonth(month)
    ensures Split(UnitsLabel(year, month), '_') == ["NET", "UNITS", MonthAbbr(month), NatToString(year)]
  {
    var a, ys := MonthAbbr(month), NatToString(year);
    assert '_' !in a by {
      assert forall i :: 0 <= i < 3 ==> IsLetter(a[i]);
    }
    assert '_' !in ys by {
      assert forall i :: 0 <= i < |ys| ==> IsDigit(ys[i]);
    }
    NetUnitsSplit(a, ys);
  }

  /** The parts of `"NET_UNITS_" + a + "_" + ys` when neither `a` nor `ys`
      holds an underscore. */
  lemma NetUnitsSplit(a: string, ys: string)
    requires '_' !in a && '_' !in ys
    ensures Split("NET_UNITS_" + a + "_" + ys, '_') == ["NET", "UNITS", a, ys]
  {
    var rest := a + "_" + ys;
    assert "NET_UNITS_" + a + "_" + ys == "NET" + ['_'] + ("UNITS" + ['_'] + rest);
    SplitPiece("NET", '_', "UNITS" + ['_'] + rest, true);
    SplitPiece("UNITS", '_', rest, true);
    SplitPiece(a, '_', ys, true);
    SplitPiece(ys, '_', "", false);
  }

  /** A year below 1000 is written with fewer than four digits. */
  lemma ShortYear(y: nat)
    requires y < 1000
    ensures |NatToString(y)| < 4
  {
    if y >= 10 {
      assert |NatToString(y / 10)| <= 2 by {
        if y / 10 >= 10 { assert |NatToString(y / 10 / 10)| == 1; }
      }
    }
  }

  // ---------------------------------------------------------------------------
  // Yearly column names and their string order
  // ---------------------------------------------------------------------------

  /** `f"{year}_ACTUAL"` (target reports). */
  function YearActualLabel(year: nat): string { NatToString(year) + "_ACTUAL" }

  /** `f"UNITS_{year}"` (combined sales report). */
  function YearUnitsLabel(year: nat): string { "UNITS_" + NatToString(year) }

  /** For four-digit years, Python's string order on the yearly column names
      is the order of the years, so `sorted(..., reverse=True)` puts the most
      recent year first. */
  lemma YearLabelsOrder(y1: nat, y2: nat)
    requires 1000 <= y1 <= 9999 && 1000 <= y2 <= 9999
    ensures StrLess(YearActualLabel(y1), YearActualLabel(y2)) <==> y1 < y2
    ensures StrLess(YearUnitsLabel(y1), YearUnitsLabel(y2)) <==> y1 < y2
  {
    var a, b := NatToString(y1), NatToString(y2);
    FourDigitYear(y1);
    FourDigitYear(y2);
    NatToStringRoundTrip(y1);
    NatToStringRoundTrip(y2);
    DigitsOrder(a, b);
    StrLessConcat(a, "_ACTUAL", b, "_ACTUAL");
    StrLessIrreflexive("_ACTUAL");
    StrLessConcat("UNITS_", a, "UNITS_", b);
    StrLessIrreflexive("UNITS_");
  }

  // ---------------------------------------------------------------------------
  // The year read off the key's text
  // ---------------------------------------------------------------------------

  /** `pl.col('YEARMONTH').cast(pl.Utf8).str.slice(0, 4).cast(pl.Int64)`: the
      first four characters of the key's decimal text, read back as a number
      (a leading minus sign counts as one of the four). */
  function SliceYear(key: int): int
  {
    if key >= 0 then
      var t := NatToString(key);
      StringToNat(t[..if |t| < 4 then |t| else 4])
    else
      var t := NatToString(-key);
      -(StringToNat(t[..if |t| < 3 then |t| else 3]) as int)
  }

  /** For four-digit years, slicing the key's text agrees with `key // 100`:
      the year of every well-formed key is recovered. */
  lemma SliceYearKey(year: int, month: int)
    requires 1000 <= year <= 9999 && ValidMonth(month)
    ensures SliceYear(YearMonth(year, month)) == year == KeyYear(YearMonth(year, month))
  {
    NatToStringHundreds(year, month);
    FourDigitYear(year);
    assert (NatToString(year) + PadTwo(month))[..4] == NatToString(year);
    NatToStringRoundTrip(year);
    DecodeEncode(year, month);
  }
}

=== FILE: columns.dfy ===
/** The column names of the two combined target reports and the order they
    are selected in (src/pipelines/report_three_combined.py:396-436 and
    src/report_three_combined/report_three_combined.py:258-298): the previous
    month's target, the month actuals from the latest back, the rolling and
    year-to-date figures, then the prior years, most recent first. Only names
    present in the frame are kept. */
module TargetColumns {
  import opened Wrappers
  import opened Text
  import opened Calendar
  import opened Tables

  /** The actual-column suffix of the current report and of the older one
      (spelled " Acutual" there). */
  const ActualSuffix: string := " Actual"
  const LegacyActualSuffix: string := " Acutual"
  const TargetSuffix: string := " Target"

  /** The years a run can have: every month label needs `datetime(year - 1,
      ...)` to exist. */
  predicate RunYear(year: int) { 2 <= year <= 9999 }

  /** The `%b_%y` label of the `i`-th month back, followed by `kind`. */
  function MonthColumn(year: int, month: int, i: int, kind: string): (c: string)
    requires RunYear(year) && ValidMonth(month) && 1 <= i <= 12
    ensures |c| == 6 + |kind|
  {
    var (y, m) := MonthsBack(year, month, i);
    ShortLabel(y, m, '_') + kind
  }

  /** The twelve actual columns, latest month first. */
  function ActualColumns(year: int, month: int, suffix: string): (cs: seq<string>)
    requires RunYear(year) && ValidMonth(month)
    ensures |cs| == 12
  {
    seq(12, i requires 0 <= i < 12 => MonthColumn(year, month, i + 1, suffix))
  }

  /** `f"{year - 1}_ACTUAL"` and `f"{year - 2}_ACTUAL"`. */
  function YearColumns(year: int): seq<string>
    requires RunYear(year)
  {
    [YearActualLabel(year - 1), YearActualLabel(year - 2)]
  }

  /** The month columns left once the targets other than the latest month's
      are dropped. */
  function MonthBlock(year: int, month: int, suffix: string): seq<string>
    requires RunYear(year) && ValidMonth(month)
  {
    var a := ActualColumns(year, month, suffix);
    [a[0], MonthColumn(year, month, 1, TargetSuffix)] + a[1..]
  }

  /** The fixed columns both frames share: the keys, the target and the
      year-to-date figures; the rolling pair; the two derived columns. */
  const Head: seq<string> := ["Customer", "Category", "2025_Target", "YTD_ACTUAL", "YTD_TARGET"]
  const Rolling: seq<string> := ["12M_ROLLING_ACTUAL", "12M_ROLLING_TARGET"]
  const Tail: seq<string> := ["Capture_Rate", "Target_Remaining"]

  /** The frame's columns in the current report, in the order the final
      group-by and the two derived columns produce them. */
  function FrameColumns(year: int, month: int): seq<string>
    requires RunYear(year) && ValidMonth(month)
  {
    Head + Rolling + YearColumns(year) + MonthBlock(year, month, ActualSuffix) + Tail
  }

  /** The frame's columns in the older report, in the order its joins produce
      them. */
  function LegacyFrameColumns(year: int, month: int): seq<string>
    requires RunYear(year) && ValidMonth(month)
  {
    Head + MonthBlock(year, month, LegacyActualSuffix) + Rolling + YearColumns(year) + Tail
  }

  // ---------------------------------------------------------------------------
  // The selection code
  // ---------------------------------------------------------------------------

  /** `suffix in col`. */
  function IsMonthActual(suffix: string): string -> bool { (c: string) => Occurs(suffix, c) }

  /** Python's tuple order, `a > b`. */
  predicate PairGreater(a: (int, int), b: (int, int)) { a.0 > b.0 || (a.0 == b.0 && a.1 > b.1) }

  /** `month_sort_key(a) > month_sort_key(b)`; only used once every name has
      parsed. */
  function LaterMonth(suffix: string): (string, string) -> bool
    requires |suffix| > 0
  {
    (a: string, b: string) =>
      PairGreater(ParseShortLabel(a, suffix).GetOr((0, 0)), ParseShortLabel(b, suffix).GetOr((0, 0)))
  }

  /** `sort_month_columns`: the names sorted by (year, month), latest first.
      A name the key cannot read raises, here None. */
  function SortMonthColumns(cs: seq<string>, suffix: string): (r: Option<seq<string>>)
    requires |suffix| > 0
    ensures r.Some? <==> forall c <- cs :: ParseShortLabel(c, suffix).Some?
    ensures r.Some? ==> multiset(r.value) == multiset(cs) && InOrder(r.value, LaterMonth(suffix))
  {
    if forall c <- cs :: ParseShortLabel(c, suffix).Some? then
      SortByInOrder(cs, LaterMonth(suffix));
      Some(SortBy(cs, LaterMonth(suffix)))
    else None
  }

  /** `col.endswith('_ACTUAL') and col not in ['YTD_ACTUAL', '12M_ROLLING_ACTUAL']`. */
  predicate IsYearly(c: string) { EndsWith(c, "_ACTUAL") && c != "YTD_ACTUAL" && c != "12M_ROLLING_ACTUAL" }

  function StrGreater(a: string, b: string): bool { StrLess(b, a) }

  /** The yearly columns in reverse string order. */
  function YearlyColumns(cols: seq<string>): (r: seq<string>)
    ensures multiset(r) == multiset(Where(cols, IsYearly))
    ensures InOrder(r, StrGreater)
  {
    var ys := Where(cols, IsYearly);
    forall a <- ys, b <- ys ensures StrGreater(a, b) ==> !StrGreater(b, a) {
      StrLessAsymmetric(b, a);
    }
    SortByInOrder(ys, StrGreater);
    SortBy(ys, StrGreater)
  }

  /** The fixed columns between the month actuals and the yearly columns. */
  const Trailer: seq<string> :=
    ["12M_ROLLING_ACTUAL", "2025_Target", "YTD_TARGET", "YTD_ACTUAL", "Capture_Rate", "Target_Remaining"]

  /** `col in report_df.columns and col != ''`. */
  function PresentIn(cols: seq<string>): string -> bool { (c: string) => c in cols && c != "" }

  /** `final_columns`: the wished-for order filtered to the frame's columns.
      None when a month name cannot be read. */
  function FinalColumns(cols: seq<string>, currentTarget: string, suffix: string): (r: Option<seq<string>>)
    requires |suffix| > 0
    ensures r.Some? ==> forall c <- r.value :: c in cols && c != ""
  {
    match SortMonthColumns(Where(cols, IsMonthActual(suffix)), suffix)
    case None => None
    case Some(sorted) =>
      var head := if sorted != [] then sorted[0] else "";
      var rest := if sorted != [] then sorted[1..] else [];
      Some(Where(["Category", "Customer", currentTarget, head] + rest + Trailer + YearlyColumns(cols), PresentIn(cols)))
  }

  /** `current_target_col` as written: the previous month's label, but with
      the current year even in January. */
  function CurrentTargetAsWritten(year: int, month: int): (c: string)
    requires RunYear(year) && ValidMonth(month)
    ensures month > 1 ==> c == MonthColumn(year, month, 1, TargetSuffix)
  {
    ShortLabel(year, if month > 1 then month - 1 else 12, '_') + TargetSuffix
  }

  /** The previous month's target column, named the way the month loop named
      it (December of the previous year in January). */
  function CurrentTarget(year: int, month: int): (c: string)
    requires RunYear(year) && ValidMonth(month)
    ensures c in FrameColumns(year, month) && c in LegacyFrameColumns(year, month)
  {
    var c := MonthColumn(year, month, 1, TargetSuffix);
    assert FrameColumns(year, month)[10] == c;
    assert LegacyFrameColumns(year, month)[6] == c;
    c
  }

  /** The column order both reports are meant to have. */
  function Expected(year: int, month: int, suffix: string, withTarget: bool): seq<string>
    requires RunYear(year) && ValidMonth(month)
  {
    ["Category", "Customer"] + (if withTarget then [MonthColumn(year, month, 1, TargetSuffix)] else [])
    + ActualColumns(year, month, suffix) + Trailer + YearColumns(year)
  }

  /** The current report's columns. */
  function ReportColumns(year: int, month: int): Option<seq<string>>
    requires RunYear(year) && ValidMonth(month)
  {
    FinalColumns(FrameColumns(year, month), CurrentTarget(year, month), ActualSuffix)
  }

  /** The older report's columns. */
  function LegacyReportColumns(year: int, month: int): Option<seq<string>>
    requires RunYear(year) && ValidMonth(month)
  {
    FinalColumns(LegacyFrameColumns(year, month), CurrentTarget(year, month), LegacyActualSuffix)
  }
  // ---------------------------------------------------------------------------
  // What the selection produces
  // ---------------------------------------------------------------------------

  /** A suffix that starts with a blank not followed by 'T' (so " Target"
      never contains it) and whose seventh character from the end is not an
      underscore (so no month name ends in "_ACTUAL"). */
  predicate SuffixShape(suffix: string)
  {
    |suffix| >= 7 && suffix[0] == ' ' && suffix[1] != 'T' && suffix[|suffix| - 7] != '_'
  }

  lemma SuffixesShaped()
    ensures SuffixShape(ActualSuffix) && SuffixShape(LegacyActualSuffix) && !SuffixShape(TargetSuffix)
  {
  }

  /** For real months, Python's tuple order on (year, month) is the order of
      the months. */
  lemma PairGreaterIndex(a: (int, int), b: (int, int))
    requires ValidMonth(a.1) && ValidMonth(b.1)
    ensures PairGreater(a, b) <==> MonthIndex(a.0, a.1) > MonthIndex(b.0, b.1)
  {
    if a.0 > b.0 {
      assert (a.0 - b.0) * 12 >= 12;
    } else if a.0 < b.0 {
      assert (b.0 - a.0) * 12 >= 12;
    }
  }

  /** Every month actual reads back as its own month, and the twelve are
      already latest first, so `sort_month_columns` returns them unchanged
      (for runs in 2001 to 2099, where the two-digit year reads back). */
  lemma MonthSortKeepsOrder(year: int, month: int, suffix: string)
    requires 2001 <= year <= 2099 && ValidMonth(month) && SuffixShape(suffix)
    ensures SortMonthColumns(ActualColumns(year, month, suffix), suffix) == Some(ActualColumns(year, month, suffix))
  {
    var a := ActualColumns(year, month, suffix);
    forall i | 0 <= i < 12
      ensures ParseShortLabel(a[i], suffix) == Some(MonthsBack(year, month, i + 1))
    {
      var (y, m) := MonthsBack(year, month, i + 1);
      ParseShortLabelRoundTrip(y, m, suffix, suffix);
    }
    forall i | 0 <= i < 11
      ensures !LaterMonth(suffix)(a[i + 1], a[i])
    {
      PairGreaterIndex(MonthsBack(year, month, i + 2), MonthsBack(year, month, i + 1));
    }
    SortByIdentity(a, LaterMonth(suffix));
  }

  /** The two yearly columns are already in reverse string order. */
  lemma YearlyKeepsOrder(cols: seq<string>, year: int)
    requires 1002 <= year <= 9999
    requires Where(cols, IsYearly) == YearColumns(year)
    ensures YearlyColumns(cols) == YearColumns(year)
  {
    YearLabelsOrder(year - 1, year - 2);
    SortByIdentity(YearColumns(year), StrGreater);
  }

  /** What the selection needs to know about a frame. */
  ghost predicate ColumnsFit(cols: seq<string>, year: int, month: int, suffix: string)
    requires RunYear(year) && ValidMonth(month)
  {
    && Where(cols, IsMonthActual(suffix)) == ActualColumns(year, month, suffix)
    && Where(cols, IsYearly) == YearColumns(year)
    && (forall c <- Trailer :: c in cols)
    && "Category" in cols && "Customer" in cols
  }

  /** Filtering five blocks of which only the single middle name may fail. */
  lemma KeepBlocks(keep: string -> bool, front: seq<string>, cur: string, a: seq<string>, tr: seq<string>, ys: seq<string>)
    requires forall c <- front :: keep(c)
    requires forall c <- a :: keep(c)
    requires forall c <- tr :: keep(c)
    requires forall c <- ys :: keep(c)
    ensures Where(front + [cur] + a + tr + ys, keep) == front + (if keep(cur) then [cur] else []) + a + tr + ys
  {
    var mid := if keep(cur) then [cur] else [];
    WhereAll(front, keep);
    assert Where([cur], keep) == mid by {
      if keep(cur) { WhereAll([cur], keep); } else { WhereNone([cur], keep); }
    }
    WhereAppend(front, [cur], keep);
    WhereAll(a, keep);
    WhereAppend(front + [cur], a, keep);
    WhereAll(tr, keep);
    WhereAppend(front + [cur] + a, tr, keep);
    WhereAll(ys, keep);
    WhereAppend(front + [cur] + a + tr, ys, keep);
  }

  /** The wished-for order filtered to a frame that has every month actual,
      trailer and yearly column: only the target column can drop out. */
  lemma SelectOrder(cols: seq<string>, cur: string, a: seq<string>, ys: seq<string>)
    requires |a| > 0 && "Category" in cols && "Customer" in cols
    requires forall c <- a :: c in cols && c != ""
    requires forall c <- Trailer :: c in cols
    requires forall c <- ys :: c in cols && c != ""
    ensures Where(["Category", "Customer", cur, a[0]] + a[1..] + Trailer + ys, PresentIn(cols)) ==
      ["Category", "Customer"] + (if cur in cols && cur != "" then [cur] else []) + a + Trailer + ys
  {
    var front := ["Category", "Customer"];
    assert ["Category", "Customer", cur, a[0]] + a[1..] == front + [cur] + a;
    KeepBlocks(PresentIn(cols), front, cur, a, Trailer, ys);
  }

  /** No month actual or yearly column is the empty name. */
  lemma NamesNonEmpty(year: int, month: int, suffix: string)
    requires RunYear(year) && ValidMonth(month)
    ensures forall c <- ActualColumns(year, month, suffix) :: c != ""
    ensures forall c <- YearColumns(year) :: c != ""
  {
    var a := ActualColumns(year, month, suffix);
    forall c <- a ensures c != "" {
      var i :| 0 <= i < 12 && a[i] == c;
      assert |c| == 6 + |suffix|;
    }
  }

  /** The order `final_columns` has for a frame that fits: the target column
      appears exactly when the frame has a column of that name. */
  lemma FinalColumnsOf(cols: seq<string>, cur: string, year: int, month: int, suffix: string)
    requires 2001 <= year <= 2099 && ValidMonth(month) && SuffixShape(suffix)
    requires ColumnsFit(cols, year, month, suffix) && cur != ""
    ensures FinalColumns(cols, cur, suffix) ==
      Some(["Category", "Customer"] + (if cur in cols then [cur] else [])
           + ActualColumns(year, month, suffix) + Trailer + YearColumns(year))
  {
    var a, ys := ActualColumns(year, month, suffix), YearColumns(year);
    MonthSortKeepsOrder(year, month, suffix);
    YearlyKeepsOrder(cols, year);
    NamesNonEmpty(year, month, suffix);
    SelectOrder(cols, cur, a, ys);
  }

  // ---------------------------------------------------------------------------
  // The two frames fit
  // ---------------------------------------------------------------------------

  /** A name without blanks contains no pattern that starts with one. */
  lemma BlankFree(c: string, p: string)
    requires ' ' !in c && |p| > 0 && p[0] == ' '
    ensures !Occurs(p, c)
  {
    forall i | 0 <= i <= |c| - |p| ensures !OccursAt(p, c, i) {
      assert c[i..i + |p|][0] == c[i];
    }
  }

  /** Fixed names: neither month actuals nor yearly columns. */
  lemma FixedBlock(names: seq<string>, suffix: string)
    requires SuffixShape(suffix)
    requires forall c <- names :: ' ' !in c && !IsYearly(c)
    ensures Where(names, IsMonthActual(suffix)) == [] && Where(names, IsYearly) == []
  {
    forall c <- names ensures !IsMonthActual(suffix)(c) {
      BlankFree(c, suffix);
    }
    WhereNone(names, IsMonthActual(suffix));
    WhereNone(names, IsYearly);
  }

  /** The yearly columns are yearly and not month actuals. */
  lemma YearBlock(year: int, suffix: string)
    requires 1002 <= year <= 9999 && SuffixShape(suffix)
    ensures Where(YearColumns(year), IsMonthActual(suffix)) == []
    ensures Where(YearColumns(year), IsYearly) == YearColumns(year)
  {
    var ys := YearColumns(year);
    FourDigitYear(year - 1);
    FourDigitYear(year - 2);
    forall c <- ys ensures ' ' !in c && IsYearly(c) {
      var d := if c == ys[0] then NatToString(year - 1) else NatToString(year - 2);
      assert c == d + "_ACTUAL";
      assert forall k :: 0 <= k < |d| ==> IsDigit(d[k]);
      assert c[|c| - 7..] == "_ACTUAL";
    }
    forall c <- ys ensures !IsMonthActual(suffix)(c) {
      BlankFree(c, suffix);
    }
    WhereNone(ys, IsMonthActual(suffix));
    WhereAll(ys, IsYearly);
  }

  /** A month label followed by `kind`: blank-free up to the suffix. */
  lemma LabelShape(year: int, month: int, i: int, kind: string)
    requires RunYear(year) && ValidMonth(month) && 1 <= i <= 12
    ensures var c, (y, m) := MonthColumn(year, month, i, kind), MonthsBack(year, month, i);
      c == ShortLabel(y, m, '_') + kind && ' ' !in ShortLabel(y, m, '_')
      && c[4..6] == PadTwo(y % 100) && c[6..] == kind
  {
    var (y, m) := MonthsBack(year, month, i);
    ShortLabelChars(y, m, '_');
  }

  /** A name ending in `kind` does not end in "_ACTUAL" when the seventh
      character from the end of `kind` is not an underscore. */
  lemma NotYearlyName(name: string, kind: string)
    requires |kind| >= 7 && kind[|kind| - 7] != '_'
    ensures !IsYearly(name + kind)
  {
    var c := name + kind;
    assert c[|c| - 7] == kind[|kind| - 7];
    assert c[|c| - 7..][0] == c[|c| - 7];
  }

  /** A month actual mentions the suffix and is not yearly. */
  lemma ActualColumnShape(year: int, month: int, i: int, suffix: string)
    requires RunYear(year) && ValidMonth(month) && 1 <= i <= 12 && SuffixShape(suffix)
    ensures IsMonthActual(suffix)(MonthColumn(year, month, i, suffix))
    ensures !IsYearly(MonthColumn(year, month, i, suffix))
  {
    var (y, m) := MonthsBack(year, month, i);
    var name := ShortLabel(y, m, '_');
    var c := name + suffix;
    assert c[6..6 + |suffix|] == suffix;
    assert OccursAt(suffix, c, 6);
    NotYearlyName(name, suffix);
  }

  /** The previous month's target neither mentions the suffix nor is yearly. */
  lemma TargetColumnShape(year: int, month: int, suffix: string)
    requires RunYear(year) && ValidMonth(month) && SuffixShape(suffix)
    ensures !IsMonthActual(suffix)(MonthColumn(year, month, 1, TargetSuffix))
    ensures !IsYearly(MonthColumn(year, month, 1, TargetSuffix))
  {
    var (y, m) := MonthsBack(year, month, 1);
    var name := ShortLabel(y, m, '_');
    ShortLabelChars(y, m, '_');
    BlankOnlyBeforeTarget(name, suffix);
    NotYearlyName(name, TargetSuffix);
  }

  /** Filtering a block of one name followed by another name and a tail. */
  lemma WhereSplice<T>(x: T, t: T, rest: seq<T>, p: T -> bool)
    requires p(x) && !p(t) && forall c <- rest :: p(c)
    ensures Where([x, t] + rest, p) == [x] + rest
  {
    WhereAppend([x, t], rest, p);
    WhereAll(rest, p);
    assert [x, t][1..] == [t];
    assert [t][1..] == [];
    assert Where([t], p) == [];
    assert Where([x, t], p) == [x];
  }

  /** The month block holds the twelve actuals and one target: only the
      actuals mention the suffix, and none is yearly. */
  lemma MonthBlockFacts(year: int, month: int, suffix: string)
    requires RunYear(year) && ValidMonth(month) && SuffixShape(suffix)
    ensures Where(MonthBlock(year, month, suffix), IsMonthActual(suffix)) == ActualColumns(year, month, suffix)
    ensures Where(MonthBlock(year, month, suffix), IsYearly) == []
  {
    var a, t := ActualColumns(year, month, suffix), MonthColumn(year, month, 1, TargetSuffix);
    forall i | 0 <= i < |a| ensures IsMonthActual(suffix)(a[i]) && !IsYearly(a[i]) {
      ActualColumnShape(year, month, i + 1, suffix);
    }
    TargetColumnShape(year, month, suffix);
    SpliceFilters(a, t, IsMonthActual(suffix), IsYearly);
  }

  /** A block made of the first of `a`, then `t`, then the rest of `a`,
      where every element of `a` and not `t` passes `p`, and nothing passes
      `q`: `p` keeps `a`, `q` keeps nothing. */
  lemma SpliceFilters<T>(a: seq<T>, t: T, p: T -> bool, q: T -> bool)
    requires |a| >= 1
    requires forall i :: 0 <= i < |a| ==> p(a[i]) && !q(a[i])
    requires !p(t) && !q(t)
    ensures Where([a[0], t] + a[1..], p) == a
    ensures Where([a[0], t] + a[1..], q) == []
  {
    var mb := [a[0], t] + a[1..];
    forall c <- a[1..] ensures p(c) {
      var i :| 0 <= i < |a| - 1 && a[1..][i] == c;
      assert c == a[i + 1];
    }
    WhereSplice(a[0], t, a[1..], p);
    assert [a[0]] + a[1..] == a;
    forall c <- mb ensures !q(c) {
      var i :| 0 <= i < |mb| && mb[i] == c;
      if i >= 2 { assert c == a[i - 1]; }
    }
    WhereNone(mb, q);
  }

  /** Two filters over five blocks, each keeping one block. */
  lemma TwoFilters<T>(b0: seq<T>, b1: seq<T>, b2: seq<T>, b3: seq<T>, b4: seq<T>,
                      p: T -> bool, i: int, r: seq<T>, q: T -> bool, j: int, u: seq<T>)
    requires 1 <= i <= 3 && 1 <= j <= 3
    requires Where(b0, p) == [] && Where(b4, p) == []
    requires Where(b1, p) == (if i == 1 then r else [])
    requires Where(b2, p) == (if i == 2 then r else [])
    requires Where(b3, p) == (if i == 3 then r else [])
    requires Where(b0, q) == [] && Where(b4, q) == []
    requires Where(b1, q) == (if j == 1 then u else [])
    requires Where(b2, q) == (if j == 2 then u else [])
    requires Where(b3, q) == (if j == 3 then u else [])
    ensures Where(b0 + b1 + b2 + b3 + b4, p) == r
    ensures Where(b0 + b1 + b2 + b3 + b4, q) == u
  {
    WhereOnlyBlock(b0, b1, b2, b3, b4, p, i, r);
    WhereOnlyBlock(b0, b1, b2, b3, b4, q, j, u);
  }

  /** Filtering five blocks of which only the `i`-th keeps anything. */
  lemma WhereOnlyBlock<T>(b0: seq<T>, b1: seq<T>, b2: seq<T>, b3: seq<T>, b4: seq<T>, p: T -> bool, i: int, r: seq<T>)
    requires 1 <= i <= 3
    requires Where(b0, p) == [] && Where(b4, p) == []
    requires Where(b1, p) == (if i == 1 then r else [])
    requires Where(b2, p) == (if i == 2 then r else [])
    requires Where(b3, p) == (if i == 3 then r else [])
    ensures Where(b0 + b1 + b2 + b3 + b4, p) == r
  {
    WhereFive(b0, b1, b2, b3, b4, p);
    OnlyOne(Where(b1, p), Where(b2, p), Where(b3, p), i, r);
  }

  /** Three pieces of which only the `i`-th is not empty, between two empty
      ones. */
  lemma OnlyOne<T>(w1: seq<T>, w2: seq<T>, w3: seq<T>, i: int, r: seq<T>)
    requires 1 <= i <= 3
    requires w1 == (if i == 1 then r else [])
    requires w2 == (if i == 2 then r else [])
    requires w3 == (if i == 3 then r else [])
    ensures [] + w1 + w2 + w3 + [] == r
  {
    if i == 1 {
      assert [] + r + [] + [] + [] == r;
    } else if i == 2 {
      assert [] + [] + r + [] + [] == r;
    } else {
      assert [] + [] + [] + r + [] == r;
    }
  }


  /** The blocks of both frames, filtered by both tests. */
  lemma BlockFacts(year: int, month: int, suffix: string)
    requires 2001 <= year <= 2099 && ValidMonth(month) && SuffixShape(suffix)
    ensures Where(Head, IsMonthActual(suffix)) == [] && Where(Head, IsYearly) == []
    ensures Where(Rolling, IsMonthActual(suffix)) == [] && Where(Rolling, IsYearly) == []
    ensures Where(Tail, IsMonthActual(suffix)) == [] && Where(Tail, IsYearly) == []
    ensures Where(YearColumns(year), IsMonthActual(suffix)) == []
    ensures Where(YearColumns(year), IsYearly) == YearColumns(year)
    ensures Where(MonthBlock(year, month, suffix), IsMonthActual(suffix)) == ActualColumns(year, month, suffix)
    ensures Where(MonthBlock(year, month, suffix), IsYearly) == []
  {
    HeadFixed(suffix);
    RollingFixed(suffix);
    TailFixed(suffix);
    YearBlock(year, suffix);
    MonthBlockFacts(year, month, suffix);
  }

  lemma HeadFixed(suffix: string)
    requires SuffixShape(suffix)
    ensures Where(Head, IsMonthActual(suffix)) == [] && Where(Head, IsYearly) == []
  {
    FixedBlock(Head, suffix);
  }

  lemma RollingFixed(suffix: string)
    requires SuffixShape(suffix)
    ensures Where(Rolling, IsMonthActual(suffix)) == [] && Where(Rolling, IsYearly) == []
  {
    FixedBlock(Rolling, suffix);
  }

  lemma TailFixed(suffix: string)
    requires SuffixShape(suffix)
    ensures Where(Tail, IsMonthActual(suffix)) == [] && Where(Tail, IsYearly) == []
  {
    FixedBlock(Tail, suffix);
  }

  /** The current report's frame fits. */
  lemma FrameFits(year: int, month: int)
    requires 2001 <= year <= 2099 && ValidMonth(month)
    ensures ColumnsFit(FrameColumns(year, month), year, month, ActualSuffix)
  {
    FrameWhere(year, month);
    InBlocks(Head, Rolling, YearColumns(year), MonthBlock(year, month, ActualSuffix), Tail);
    FixedIn(FrameColumns(year, month));
  }

  lemma FrameWhere(year: int, month: int)
    requires 2001 <= year <= 2099 && ValidMonth(month)
    ensures Where(FrameColumns(year, month), IsMonthActual(ActualSuffix)) == ActualColumns(year, month, ActualSuffix)
    ensures Where(FrameColumns(year, month), IsYearly) == YearColumns(year)
  {
    var ys, mb := YearColumns(year), MonthBlock(year, month, ActualSuffix);
    SuffixesShaped();
    BlockFacts(year, month, ActualSuffix);
    TwoFilters(Head, Rolling, ys, mb, Tail, IsMonthActual(ActualSuffix), 3, ActualColumns(year, month, ActualSuffix), IsYearly, 2, ys);
  }

  /** The older report's frame fits. */
  lemma LegacyFrameFits(year: int, month: int)
    requires 2001 <= year <= 2099 && ValidMonth(month)
    ensures ColumnsFit(LegacyFrameColumns(year, month), year, month, LegacyActualSuffix)
  {
    LegacyFrameWhere(year, month);
    InBlocks(Head, MonthBlock(year, month, LegacyActualSuffix), Rolling, YearColumns(year), Tail);
    FixedIn(LegacyFrameColumns(year, month));
  }

  lemma LegacyFrameWhere(year: int, month: int)
    requires 2001 <= year <= 2099 && ValidMonth(month)
    ensures Where(LegacyFrameColumns(year, month), IsMonthActual(LegacyActualSuffix)) == ActualColumns(year, month, LegacyActualSuffix)
    ensures Where(LegacyFrameColumns(year, month), IsYearly) == YearColumns(year)
  {
    var ys, mb := YearColumns(year), MonthBlock(year, month, LegacyActualSuffix);
    SuffixesShaped();
    BlockFacts(year, month, LegacyActualSuffix);
    TwoFilters(Head, mb, Rolling, ys, Tail, IsMonthActual(LegacyActualSuffix), 1, ActualColumns(year, month, LegacyActualSuffix), IsYearly, 3, ys);
  }

  /** Every block's names are names of the concatenation. */
  lemma InBlocks<T>(a: seq<T>, b: seq<T>, c: seq<T>, d: seq<T>, e: seq<T>)
    ensures var all := a + b + c + d + e;
      && (forall x <- a :: x in all) && (forall x <- b :: x in all) && (forall x <- c :: x in all)
      && (forall x <- d :: x in all) && (forall x <- e :: x in all)
  {
  }

  /** A frame holding the head, rolling and tail names holds the trailer and
      the two key columns. */
  lemma FixedIn(cols: seq<string>)
    requires forall c <- Head :: c in cols
    requires forall c <- Rolling :: c in cols
    requires forall c <- Tail :: c in cols
    ensures (forall c <- Trailer :: c in cols) && "Category" in cols && "Customer" in cols
  {
    assert Head[0] in Head && Head[1] in Head && Head[2] in Head && Head[3] in Head && Head[4] in Head;
    assert Rolling[0] in Rolling && Tail[0] in Tail && Tail[1] in Tail;
    forall c <- Trailer ensures c in cols {
      var i :| 0 <= i < 6 && Trailer[i] == c;
      if i == 0 { assert c == Rolling[0]; }
      else if i == 1 { assert c == Head[2]; }
      else if i == 2 { assert c == Head[4]; }
      else if i == 3 { assert c == Head[3]; }
      else if i == 4 { assert c == Tail[0]; }
      else { assert c == Tail[1]; }
    }
  }

  // ---------------------------------------------------------------------------
  // The reports' column order
  // ---------------------------------------------------------------------------

  /** The current report selects Category, Customer, the previous month's
      target, the twelve month actuals from the latest back, the rolling,
      target and year-to-date columns, Capture_Rate, Target_Remaining and the
      two prior years, most recent first. */
  lemma ReportColumnsOrder(year: int, month: int)
    requires 2001 <= year <= 2099 && ValidMonth(month)
    ensures ReportColumns(year, month) == Some(Expected(year, month, ActualSuffix, true))
  {
    FrameFits(year, month);
    SuffixesShaped();
    FinalColumnsOf(FrameColumns(year, month), CurrentTarget(year, month), year, month, ActualSuffix);
  }

  /** The older report selects the same order, with its own actual suffix. */
  lemma LegacyReportColumnsOrder(year: int, month: int)
    requires 2001 <= year <= 2099 && ValidMonth(month)
    ensures LegacyReportColumns(year, month) == Some(Expected(year, month, LegacyActualSuffix, true))
  {
    LegacyFrameFits(year, month);
    SuffixesShaped();
    FinalColumnsOf(LegacyFrameColumns(year, month), CurrentTarget(year, month), year, month, LegacyActualSuffix);
  }

  /** With the label as written, the previous month's target is selected in
      every month but January; in January the label names December of the
      current year, which no column has, and the target column is silently
      left out of both reports. */
  lemma TargetColumnAsWritten(year: int, month: int)
    requires 2001 <= year <= 2099 && ValidMonth(month)
    ensures FinalColumns(FrameColumns(year, month), CurrentTargetAsWritten(year, month), ActualSuffix)
            == Some(Expected(year, month, ActualSuffix, month > 1))
    ensures FinalColumns(LegacyFrameColumns(year, month), CurrentTargetAsWritten(year, month), LegacyActualSuffix)
            == Some(Expected(year, month, LegacyActualSuffix, month > 1))
  {
    var cur := CurrentTargetAsWritten(year, month);
    TargetPlacement(year, month);
    SuffixesShaped();
    FrameFits(year, month);
    FrameSelects(FrameColumns(year, month), cur, year, month, ActualSuffix, month > 1);
    LegacyFrameFits(year, month);
    FrameSelects(LegacyFrameColumns(year, month), cur, year, month, LegacyActualSuffix, month > 1);
  }

  /** Where the as-written label lands: on the frames' target column after
      January, on no column in January. */
  lemma TargetPlacement(year: int, month: int)
    requires 2001 <= year <= 2099 && ValidMonth(month)
    ensures var cur := CurrentTargetAsWritten(year, month);
      cur != "" &&
      (month > 1 ==> cur == MonthColumn(year, month, 1, TargetSuffix) && cur in FrameColumns(year, month) && cur in LegacyFrameColumns(year, month)) &&
      (month == 1 ==> cur !in FrameColumns(year, month) && cur !in LegacyFrameColumns(year, month))
  {
    var cur := CurrentTargetAsWritten(year, month);
    if month > 1 {
      assert cur == CurrentTarget(year, month);
      LabelShape(year, month, 1, TargetSuffix);
    } else {
      JanuaryLabelAbsent(year);
      JanuaryTargetFacts(year);
    }
  }

  /** The selection over a fitting frame, given whether the label is its
      target column or missing from it. */
  lemma FrameSelects(cols: seq<string>, cur: string, year: int, month: int, suffix: string, withTarget: bool)
    requires 2001 <= year <= 2099 && ValidMonth(month) && SuffixShape(suffix)
    requires ColumnsFit(cols, year, month, suffix) && cur != ""
    requires withTarget ==> cur == MonthColumn(year, month, 1, TargetSuffix) && cur in cols
    requires !withTarget ==> cur !in cols
    ensures FinalColumns(cols, cur, suffix) == Some(Expected(year, month, suffix, withTarget))
  {
    FinalColumnsOf(cols, cur, year, month, suffix);
  }

  /** January: the as-written label differs from every column of both
      frames. */
  lemma JanuaryLabelAbsent(year: int)
    requires 2001 <= year <= 2099
    ensures CurrentTargetAsWritten(year, 1) !in FrameColumns(year, 1)
    ensures CurrentTargetAsWritten(year, 1) !in LegacyFrameColumns(year, 1)
  {
    JanuaryTargetFacts(year);
    FixedColumnsLengths(year);
    ActualsMarked(year, ActualSuffix);
    ActualsMarked(year, LegacyActualSuffix);
    LabelAbsentFromBlocks(Head, Rolling, YearColumns(year), Tail,
      ActualColumns(year, 1, ActualSuffix), ActualColumns(year, 1, LegacyActualSuffix),
      MonthColumn(year, 1, 1, TargetSuffix), CurrentTargetAsWritten(year, 1));
  }

  /** The block reasoning behind `JanuaryLabelAbsent`, over the frames'
      layouts with their blocks left abstract. */
  lemma LabelAbsentFromBlocks(h: seq<string>, r: seq<string>, y: seq<string>, tl: seq<string>,
                              a: seq<string>, b: seq<string>, t: string, cur: string)
    requires |a| >= 1 && |b| >= 1
    requires forall c <- h + r + y + tl :: |c| != 13
    requires forall c <- a :: |c| > 7 && c[7] == 'A'
    requires forall c <- b :: |c| > 7 && c[7] == 'A'
    requires |cur| == 13 && cur[7] == 'T' && t != cur
    ensures cur !in h + r + y + ([a[0], t] + a[1..]) + tl
    ensures cur !in h + ([b[0], t] + b[1..]) + r + y + tl
  {
    assert cur !in h + r + y + tl;
    assert cur !in a && cur !in b;
    assert cur !in a[1..] && cur !in b[1..];
  }

  /** In January the label the code builds is 13 characters long with a `T`
      after the `%b_%y` label, and differs from the frame's own target
      column in its year digits. */
  lemma JanuaryTargetFacts(year: int)
    requires 2001 <= year <= 2099
    ensures var cur := CurrentTargetAsWritten(year, 1);
      |cur| == 13 && cur[7] == 'T' && MonthColumn(year, 1, 1, TargetSuffix) != cur
  {
    var cur := CurrentTargetAsWritten(year, 1);
    var t := MonthColumn(year, 1, 1, TargetSuffix);
    LabelShape(year, 1, 1, TargetSuffix);
    ShortLabelChars(year, 12, '_');
    assert cur[4..6] == PadTwo(year % 100);
    PadTwoRoundTrip(year % 100);
    PadTwoRoundTrip((year - 1) % 100);
    assert StringToNat(t[4..6]) != StringToNat(cur[4..6]);
  }

  /** None of the fixed and yearly columns is 13 characters long. */
  lemma FixedColumnsLengths(year: int)
    requires 2001 <= year <= 2099
    ensures forall c <- Head + Rolling + YearColumns(year) + Tail :: |c| != 13
  {
    FourDigitYear(year - 1);
    FourDigitYear(year - 2);
  }

  /** Every month actual carries the `A` of its suffix right after the
      `%b_%y` label. */
  lemma ActualsMarked(year: int, suffix: string)
    requires RunYear(year) && (suffix == ActualSuffix || suffix == LegacyActualSuffix)
    ensures forall c <- ActualColumns(year, 1, suffix) :: |c| > 7 && c[7] == 'A'
  {
    var a := ActualColumns(year, 1, suffix);
    forall i | 0 <= i < 12 ensures |a[i]| > 7 && a[i][7] == 'A' {
      LabelShape(year, 1, i + 1, suffix);
      assert a[i][6..] == suffix;
    }
  }

}


=== FILE: combined_columns.dfy ===
/** The column names and the final column order of the combined sales report
    (src/pipelines/combined_sales_report.py): which columns the final
    group-by leaves, how the monthly and yearly unit columns are sorted, and
    the order the report is written in. */
module SalesColumns {
  import opened Wrappers
  import opened Text
  import opened Calendar
  import opened Tables
  import TargetColumns

  // ---------------------------------------------------------------------------
  // The frame after the final group-by
  // ---------------------------------------------------------------------------

  /** The group keys. */
  const KeyColumns: seq<string> := ["ISBN", "TITLE", "NAMECUST", "TUTTLE_SALES_CATEGORY"]

  /** The attribute columns aggregated with `first`, in aggregation order. */
  const FirstColumns: seq<string> :=
    ["TYPE", "PROD", "SUB", "RETAIL", "SEAS", "ALL_ACCTS_12M_UNITS", "ALL_ACCTS_12M_DOLLARS",
     "WEBCAT2", "WEBCAT2_DESCR", "PUB_STATUS"]

  /** The metric columns aggregated with `sum`, in aggregation order. */
  const SumColumns: seq<string> := ["12M_UNITS", "12M_DOLLARS", "YTD_UNITS", "YTD_DOLLARS", "4M_UNITS", "4M_DOLLARS"]

  const FixedColumns: seq<string> := KeyColumns + FirstColumns + SumColumns

  /** The twelve `NET_UNITS_{%b}_{year}` columns in the order the loop adds
      them, the latest month first. */
  function MonthColumns(year: int, month: int): (cs: seq<string>)
    requires ValidMonth(month)
    ensures |cs| == 12
  {
    seq(12, i requires 0 <= i < 12 => var (y, m) := MonthsBack(year, month, i + 1); UnitsLabel(y, m))
  }

  /** The `UNITS_{year}` columns of `range(curr_year - 3, curr_year)`, oldest
      first. */
  function YearColumns(year: int): (cs: seq<string>)
    requires year >= 3
    ensures |cs| == 3
  {
    [YearUnitsLabel(year - 3), YearUnitsLabel(year - 2), YearUnitsLabel(year - 1)]
  }

  /** The columns of the regrouped frame: the keys, then the aggregations in
      the order they were listed. */
  function FrameColumns(year: int, month: int): seq<string>
    requires year >= 3 && ValidMonth(month)
  {
    FixedColumns + MonthColumns(year, month) + YearColumns(year)
  }

  // ---------------------------------------------------------------------------
  // The ordering code
  // ---------------------------------------------------------------------------

  /** `col.startswith('NET_UNITS_')`. */
  predicate IsMonthly(c: string) { StartsWith(c, "NET_UNITS_") }

  /** `col.startswith('UNITS_') and col[-4:].isdigit()`. */
  predicate IsYearlyUnits(c: string) { StartsWith(c, "UNITS_") && AllDigits(c[|c| - 4..]) }

  /** The sort key `strptime(parts[2] + ' ' + parts[3], '%b %Y')` compared
      with `>`; only used once every name has parsed. */
  function LaterLabel(a: string, b: string): bool
  {
    TargetColumns.PairGreater(ParseUnitsLabel(a).GetOr((0, 0)), ParseUnitsLabel(b).GetOr((0, 0)))
  }

  /** `sorted(monthly, key=..., reverse=True)`: latest month first. A name
      `strptime` cannot read raises, here None. */
  function SortMonths(cs: seq<string>): (r: Option<seq<string>>)
    ensures r.Some? <==> forall c <- cs :: ParseUnitsLabel(c).Some?
    ensures r.Some? ==> multiset(r.value) == multiset(cs) && InOrder(r.value, LaterLabel)
  {
    if forall c <- cs :: ParseUnitsLabel(c).Some? then
      SortByInOrder(cs, LaterLabel);
      Some(SortBy(cs, LaterLabel))
    else None
  }

  /** `sorted(yearly, reverse=True)`: reverse string order. */
  function SortYears(cs: seq<string>): (r: seq<string>)
    ensures multiset(r) == multiset(cs)
    ensures InOrder(r, TargetColumns.StrGreater)
  {
    forall a <- cs, b <- cs ensures TargetColumns.StrGreater(a, b) ==> !TargetColumns.StrGreater(b, a) {
      StrLessAsymmetric(b, a);
    }
    SortByInOrder(cs, TargetColumns.StrGreater);
    SortBy(cs, TargetColumns.StrGreater)
  }

  /** The wished-for columns before the month block. */
  const Leading: seq<string> :=
    ["TITLE", "ISBN", "NAMECUST", "TUTTLE_SALES_CATEGORY", "TYPE", "PROD", "WEBCAT2", "WEBCAT2_DESCR",
     "SUB", "PUB_STATUS", "RETAIL", "SEAS", "ALL_ACCTS_12M_UNITS", "ALL_ACCTS_12M_DOLLARS",
     "12M_UNITS", "12M_DOLLARS", "YTD_UNITS", "YTD_DOLLARS"]

  /** The wished-for columns after the yearly block. */
  const Trailing: seq<string> := ["4M_UNITS", "4M_DOLLARS"]

  function InFrame(cols: seq<string>): string -> bool { (c: string) => c in cols }
  function NotIn(cs: seq<string>): string -> bool { (c: string) => c !in cs }

  /** `final_columns`: the wished-for order filtered to the frame's columns,
      then every other column of the frame in frame order. The result holds
      exactly the frame's columns. */
  function FinalColumns(cols: seq<string>): (r: Option<seq<string>>)
    ensures r.Some? <==> forall c <- Where(cols, IsMonthly) :: ParseUnitsLabel(c).Some?
    ensures r.Some? ==> (forall c <- r.value :: c in cols) && (forall c <- cols :: c in r.value)
  {
    match SortMonths(Where(cols, IsMonthly))
    case None => None
    case Some(months) =>
      var order := Leading + months + SortYears(Where(cols, IsYearlyUnits)) + Trailing;
      var final := Where(order, InFrame(cols));
      var rest := Where(cols, NotIn(final));
      assert forall c <- cols :: c in final || c in rest;
      Some(final + rest)
  }

  /** The order the report is written in: the fixed leading columns, the
      twelve months from the latest back, the three prior years from the most
      recent back, and the four-month columns. */
  function Expected(year: int, month: int): seq<string>
    requires year >= 3 && ValidMonth(month)
  {
    Leading + MonthColumns(year, month) + [YearUnitsLabel(year - 1), YearUnitsLabel(year - 2), YearUnitsLabel(year - 3)] + Trailing
  }

  // ---------------------------------------------------------------------------
  // The blocks of the frame
  // ---------------------------------------------------------------------------

  /** No fixed name is a monthly or a yearly units column. */
  lemma FixedBlock()
    ensures Where(FixedColumns, IsMonthly) == [] && Where(FixedColumns, IsYearlyUnits) == []
  {
    FixedPlain();
    PlainBlock(FixedColumns);
  }

  lemma FixedPlain()
    ensures forall c <- FixedColumns :: !IsMonthly(c) && !IsYearlyUnits(c)
  {
    PlainHeads();
    forall c <- FixedColumns ensures !IsMonthly(c) && !IsYearlyUnits(c) {
      assert c in KeyColumns || c in FirstColumns || c in SumColumns;
      PlainName(c);
    }
  }

  /** A name whose head is neither 'U' nor "NE" is no units column. */
  predicate PlainHead(c: string) { |c| > 1 && c[0] != 'U' && (c[0] != 'N' || c[1] != 'E') }

  lemma PlainHeads()
    ensures forall c <- KeyColumns :: PlainHead(c)
    ensures forall c <- FirstColumns :: PlainHead(c)
    ensures forall c <- SumColumns :: PlainHead(c)
  {
  }

  lemma PlainName(c: string)
    requires PlainHead(c)
    ensures !IsMonthly(c) && !IsYearlyUnits(c)
  {
    if |c| >= 10 {
      assert c[..10][0] == c[0] && c[..10][1] == c[1];
    }
    if |c| >= 6 {
      assert c[..6][0] == c[0];
    }
  }

  /** A block of names none of which is a monthly or yearly units column. */
  lemma PlainBlock(names: seq<string>)
    requires forall c <- names :: !IsMonthly(c) && !IsYearlyUnits(c)
    ensures Where(names, IsMonthly) == [] && Where(names, IsYearlyUnits) == []
  {
    WhereNone(names, IsMonthly);
    WhereNone(names, IsYearlyUnits);
  }

  /** The fixed names are the wished-for leading and trailing names. */
  lemma FixedSame()
    ensures forall c <- FixedColumns :: c in Leading + Trailing
    ensures forall c <- Leading + Trailing :: c in FixedColumns
  {
  }

  /** A monthly units column starts with "NET_UNITS_". */
  lemma MonthName(y: int, m: int)
    requires ValidMonth(m)
    ensures IsMonthly(UnitsLabel(y, m)) && !IsYearlyUnits(UnitsLabel(y, m))
  {
    NetUnitsPrefixed(MonthAbbr(m), IntToString(y));
  }

  /** Any name behind "NET_UNITS_" is monthly and not yearly. */
  lemma NetUnitsPrefixed(abbr: string, year: string)
    ensures IsMonthly("NET_UNITS_" + abbr + "_" + year) && !IsYearlyUnits("NET_UNITS_" + abbr + "_" + year)
  {
    var c := "NET_UNITS_" + abbr + "_" + year;
    assert c[..10] == "NET_UNITS_";
    assert c[0] == 'N';
  }

  lemma MonthBlock(year: int, month: int)
    requires ValidMonth(month)
    ensures Where(MonthColumns(year, month), IsMonthly) == MonthColumns(year, month)
    ensures Where(MonthColumns(year, month), IsYearlyUnits) == []
  {
    MonthNames(year, month);
    WhereAll(MonthColumns(year, month), IsMonthly);
    WhereNone(MonthColumns(year, month), IsYearlyUnits);
  }

  /** Every month column is monthly and not yearly. */
  lemma MonthNames(year: int, month: int)
    requires ValidMonth(month)
    ensures forall c <- MonthColumns(year, month) :: IsMonthly(c) && !IsYearlyUnits(c)
  {
    var ms := MonthColumns(year, month);
    forall i | 0 <= i < 12 ensures IsMonthly(ms[i]) && !IsYearlyUnits(ms[i]) {
      var (y, m) := MonthsBack(year, month, i + 1);
      MonthName(y, m);
    }
  }

  /** A yearly units column of a four-digit year. */
  lemma YearName(y: nat)
    requires 1000 <= y <= 9999
    ensures !IsMonthly(YearUnitsLabel(y)) && IsYearlyUnits(YearUnitsLabel(y))
  {
    var c, d := YearUnitsLabel(y), NatToString(y);
    FourDigitYear(y);
    assert c[0] == 'U';
    assert c[..6] == "UNITS_";
    assert c[|c| - 4..] == d;
  }

  lemma YearBlock(year: int)
    requires 1003 <= year <= 9999
    ensures Where(YearColumns(year), IsMonthly) == []
    ensures Where(YearColumns(year), IsYearlyUnits) == YearColumns(year)
  {
    YearName(year - 3);
    YearName(year - 2);
    YearName(year - 1);
    WhereThree(YearUnitsLabel(year - 3), YearUnitsLabel(year - 2), YearUnitsLabel(year - 1), IsMonthly, IsYearlyUnits);
  }

  /** Filtering three blocks of which the `i`-th is kept whole and the others
      lose everything. */
  lemma WhereOneOfThree<T>(b0: seq<T>, b1: seq<T>, b2: seq<T>, p: T -> bool, i: int)
    requires 1 <= i <= 2
    requires Where(b0, p) == []
    requires Where(b1, p) == (if i == 1 then b1 else [])
    requires Where(b2, p) == (if i == 2 then b2 else [])
    ensures Where(b0 + b1 + b2, p) == (if i == 1 then b1 else b2)
  {
    WhereAppend(b0 + b1, b2, p);
    WhereAppend(b0, b1, p);
  }

  /** The monthly and the yearly selections of the frame. */
  lemma FrameBlocks(year: int, month: int)
    requires 1003 <= year <= 9999 && ValidMonth(month)
    ensures Where(FrameColumns(year, month), IsMonthly) == MonthColumns(year, month)
    ensures Where(FrameColumns(year, month), IsYearlyUnits) == YearColumns(year)
  {
    FixedBlock();
    MonthBlock(year, month);
    YearBlock(year);
    WhereOneOfThree(FixedColumns, MonthColumns(year, month), YearColumns(year), IsMonthly, 1);
    WhereOneOfThree(FixedColumns, MonthColumns(year, month), YearColumns(year), IsYearlyUnits, 2);
  }

  // ---------------------------------------------------------------------------
  // The sorts leave the months alone and reverse the years
  // ---------------------------------------------------------------------------

  /** Every monthly name reads back as its month and the twelve are already
      latest first, so the sort returns them unchanged (for four-digit
      years). */
  lemma MonthSortKeepsOrder(year: int, month: int)
    requires 1001 <= year <= 9999 && ValidMonth(month)
    ensures SortMonths(MonthColumns(year, month)) == Some(MonthColumns(year, month))
  {
    MonthLabelsParse(year, month);
    MonthLabelsInOrder(year, month);
    SortByIdentity(MonthColumns(year, month), LaterLabel);
  }

  /** Each monthly name reads back as the month it was written for. */
  lemma MonthLabelsParse(year: int, month: int)
    requires 1001 <= year <= 9999 && ValidMonth(month)
    ensures forall i :: 0 <= i < 12 ==> ParseUnitsLabel(MonthColumns(year, month)[i]) == Some(MonthsBack(year, month, i + 1))
  {
    forall i | 0 <= i < 12 ensures ParseUnitsLabel(MonthColumns(year, month)[i]) == Some(MonthsBack(year, month, i + 1)) {
      MonthLabelParses(year, month, i);
    }
  }

  lemma MonthLabelParses(year: int, month: int, i: int)
    requires 1001 <= year <= 9999 && ValidMonth(month) && 0 <= i < 12
    ensures ParseUnitsLabel(MonthColumns(year, month)[i]) == Some(MonthsBack(year, month, i + 1))
  {
    var ym := MonthsBack(year, month, i + 1);
    assert year - 1 <= ym.0 <= year;
    MonthColumnAt(year, month, i);
    ParseUnitsLabelRoundTrip(ym.0, ym.1);
  }

  lemma MonthColumnAt(year: int, month: int, i: int)
    requires ValidMonth(month) && 0 <= i < 12
    ensures MonthColumns(year, month)[i] == UnitsLabel(MonthsBack(year, month, i + 1).0, MonthsBack(year, month, i + 1).1)
  {
  }

  /** The twelve monthly names are latest first under the sort's test. */
  lemma MonthLabelsInOrder(year: int, month: int)
    requires 1001 <= year <= 9999 && ValidMonth(month)
    ensures InOrder(MonthColumns(year, month), LaterLabel)
  {
    var ms := MonthColumns(year, month);
    MonthLabelsParse(year, month);
    forall i | 0 <= i < 11 ensures !LaterLabel(ms[i + 1], ms[i]) {
      TargetColumns.PairGreaterIndex(MonthsBack(year, month, i + 2), MonthsBack(year, month, i + 1));
    }
  }

  lemma InsertFront<T>(x: T, s: seq<T>, before: (T, T) -> bool)
    requires s == [] || !before(s[0], x)
    ensures Insert(x, s, before) == [x] + s
  {
  }

  lemma InsertPast<T>(x: T, s: seq<T>, before: (T, T) -> bool)
    requires s != [] && before(s[0], x)
    ensures Insert(x, s, before) == [s[0]] + Insert(x, s[1..], before)
  {
  }

  lemma SortTwo<T>(b: T, c: T, before: (T, T) -> bool)
    requires before(c, b)
    ensures SortBy([b, c], before) == [c, b]
  {
    assert [b, c][1..] == [c] && [c][1..] == [];
    assert SortBy([c], before) == [c] by { InsertFront(c, [], before); }
    InsertPast(b, [c], before);
    InsertFront(b, [], before);
  }

  lemma InsertLast<T>(a: T, b: T, c: T, before: (T, T) -> bool)
    requires before(b, a) && before(c, a)
    ensures Insert(a, [c, b], before) == [c, b, a]
  {
    InsertPast(a, [c, b], before);
    assert [c, b][1..] == [b];
    InsertPast(a, [b], before);
    InsertFront(a, [], before);
  }

  /** Sorting three values that must come in the reverse of their order
      reverses them. */
  lemma SortThree<T>(a: T, b: T, c: T, before: (T, T) -> bool)
    requires before(c, b) && before(b, a) && before(c, a)
    ensures SortBy([a, b, c], before) == [c, b, a]
  {
    assert [a, b, c][1..] == [b, c];
    SortTwo(b, c, before);
    InsertLast(a, b, c, before);
  }

  /** Reverse string order puts the three prior years most recent first. */
  lemma YearSortReverses(year: int)
    requires 1003 <= year <= 9999
    ensures SortYears(YearColumns(year)) == [YearUnitsLabel(year - 1), YearUnitsLabel(year - 2), YearUnitsLabel(year - 3)]
  {
    var a, b, c := YearUnitsLabel(year - 3), YearUnitsLabel(year - 2), YearUnitsLabel(year - 1);
    YearLabelsOrder(year - 3, year - 2);
    YearLabelsOrder(year - 2, year - 1);
    YearLabelsOrder(year - 3, year - 1);
    SortThree(a, b, c, TargetColumns.StrGreater);
  }

  // ---------------------------------------------------------------------------
  // The final order
  // ---------------------------------------------------------------------------

  /** Every wished-for name is a frame column, and every frame column is
      wished for. */
  lemma OrderCoversFrame(year: int, month: int)
    requires 1003 <= year <= 9999 && ValidMonth(month)
    ensures forall c <- Expected(year, month) :: c in FrameColumns(year, month)
    ensures forall c <- FrameColumns(year, month) :: c in Expected(year, month)
  {
    FixedSame();
    var ms, ys := MonthColumns(year, month), YearColumns(year);
    var desc := [YearUnitsLabel(year - 1), YearUnitsLabel(year - 2), YearUnitsLabel(year - 3)];
    forall c <- Expected(year, month) ensures c in FrameColumns(year, month) {
      assert c in Leading || c in ms || c in desc || c in Trailing;
    }
    forall c <- FrameColumns(year, month) ensures c in Expected(year, month) {
      assert c in FixedColumns || c in ms || c in ys;
    }
  }

  /** For runs in the years 1003 to 9999 the report's columns are the leading
      names, the twelve monthly units columns from the latest month back, the
      three prior years from the most recent back and the four-month columns:
      nothing is dropped and nothing is left over. */
  lemma FinalColumnsOrder(year: int, month: int)
    requires 1003 <= year <= 9999 && ValidMonth(month)
    ensures FinalColumns(FrameColumns(year, month)) == Some(Expected(year, month))
  {
    var cols := FrameColumns(year, month);
    var ms := MonthColumns(year, month);
    var desc := [YearUnitsLabel(year - 1), YearUnitsLabel(year - 2), YearUnitsLabel(year - 3)];
    FrameBlocks(year, month);
    MonthSortKeepsOrder(year, month);
    YearSortReverses(year);
    OrderCoversFrame(year, month);
    SelectAll(cols, ms, desc);
  }

  /** When the sorted blocks and the fixed names together are exactly the
      frame's columns, the selection keeps the wished-for order whole and
      leaves nothing over. */
  lemma SelectAll(cols: seq<string>, ms: seq<string>, desc: seq<string>)
    requires SortMonths(Where(cols, IsMonthly)) == Some(ms)
    requires SortYears(Where(cols, IsYearlyUnits)) == desc
    requires forall c <- Leading + ms + desc + Trailing :: c in cols
    requires forall c <- cols :: c in Leading + ms + desc + Trailing
    ensures FinalColumns(cols) == Some(Leading + ms + desc + Trailing)
  {
    SelectWhole(Leading + ms + desc + Trailing, cols);
  }

  /** Filtering an order to a frame with the same columns, then appending
      the frame's columns the order misses, gives the order back. */
  lemma SelectWhole(order: seq<string>, cols: seq<string>)
    requires forall c <- order :: c in cols
    requires forall c <- cols :: c in order
    ensures var final := Where(order, InFrame(cols));
      final + Where(cols, NotIn(final)) == order
  {
    WhereAll(order, InFrame(cols));
    WhereNone(cols, NotIn(order));
    assert order + [] == order;
  }
}

=== FILE: combined_sales.dfy ===
/** The combined sales report (`combined_sales_report` in
    src/pipelines/combined_sales_report.py): Ingram and Sage sales are stacked
    and summed per book, customer, category and month, spread into
    year-to-date, month, trailing-twelve-month, four-month and prior-year
    columns for every book and customer, joined to the all-accounts totals and
    the book attributes, and regrouped per book and customer with `first` for
    the attributes and `sum` for the figures.

    The value columns are modelled here; the names and the order of the
    columns are in `SalesColumns`. */
module CombinedSales {
  import opened Wrappers
  import opened Text
  import opened Calendar
  import opened Tables
  import opened Windows

  // ---------------------------------------------------------------------------
  // Inputs and the stacked frame
  // ---------------------------------------------------------------------------

  /** One sales row of either source, in the column order both frames are
      selected to. NETUNITS is an Int64 column, NETAMT a Float64 one, and
      TUTTLE_SALES_CATEGORY, from a left join on the master category tables,
      is null for an account without a category. */
  datatype Sale = Sale(isbn: string, year: int, month: int, title: string, name: string,
                       units: int, amount: real, category: Option<string>)

  function SaleUnits(s: Sale): real { s.units as real }
  function SaleAmount(s: Sale): real { s.amount }

  /** A row of the stacked frame: text columns stripped, the figures as
      numbers. */
  datatype Fact = Fact(isbn: string, year: int, month: int, title: string, name: string, category: Option<string>,
                       units: real, amount: real)

  function UnitsOf(f: Fact): real { f.units }
  function AmountOf(f: Fact): real { f.amount }

  /** `strip_chars()` on ISBN, TITLE, NAMECUST and the category. */
  function Normalize(s: Sale): Fact
  {
    Fact(Trim(s.isbn), s.year, s.month, Trim(s.title), Trim(s.name), StripCell(s.category), s.units as real, s.amount)
  }

  /** `pl.concat([ingram, sage])`. */
  function Stacked(ingram: seq<Sale>, sage: seq<Sale>): (facts: seq<Fact>)
    ensures |facts| == |ingram| + |sage|
  {
    Project(ingram, Normalize) + Project(sage, Normalize)
  }

  /** Stacking keeps every sale: the stacked totals are the two sources'
      totals added. */
  lemma StackedTotals(ingram: seq<Sale>, sage: seq<Sale>)
    ensures Sum(Stacked(ingram, sage), UnitsOf) == Sum(ingram, SaleUnits) + Sum(sage, SaleUnits)
    ensures Sum(Stacked(ingram, sage), AmountOf) == Sum(ingram, SaleAmount) + Sum(sage, SaleAmount)
  {
    var a, b := Project(ingram, Normalize), Project(sage, Normalize);
    SumAppend(a, b, UnitsOf);
    SumAppend(a, b, AmountOf);
    NormalizeTotals(ingram);
    NormalizeTotals(sage);
  }

  /** Normalising a frame keeps its figures row by row. */
  lemma NormalizeTotals(sales: seq<Sale>)
    ensures Sum(Project(sales, Normalize), UnitsOf) == Sum(sales, SaleUnits)
    ensures Sum(Project(sales, Normalize), AmountOf) == Sum(sales, SaleAmount)
  {
    var a := Project(sales, Normalize);
    forall i | 0 <= i < |a| ensures UnitsOf(a[i]) == SaleUnits(sales[i]) && AmountOf(a[i]) == SaleAmount(sales[i]) {
    }
    SumMatches(a, UnitsOf, sales, SaleUnits);
    SumMatches(a, AmountOf, sales, SaleAmount);
  }

  // ---------------------------------------------------------------------------
  // The per-month group-by
  // ---------------------------------------------------------------------------

  /** The key of `group_by(['ISBN','YEAR','MONTH','TITLE','NAMECUST',
      'TUTTLE_SALES_CATEGORY'])`. */
  datatype MonthKey = MonthKey(isbn: string, year: int, month: int, title: string, name: string, category: Option<string>)

  function MonthKeyOf(f: Fact): MonthKey { MonthKey(f.isbn, f.year, f.month, f.title, f.name, f.category) }

  /** One group summed into a row carrying the group's key. */
  function MergeMonth(k: MonthKey, g: seq<Fact>): (f: Fact)
    ensures MonthKeyOf(f) == k
  {
    Fact(k.isbn, k.year, k.month, k.title, k.name, k.category, Sum(g, UnitsOf), Sum(g, AmountOf))
  }

  /** The group-by summing NETUNITS and NETAMT. */
  function Combine(facts: seq<Fact>): (combined: seq<Fact>)
    ensures |combined| == |Keys(facts, MonthKeyOf)|
    ensures forall i :: 0 <= i < |combined| ==> MonthKeyOf(combined[i]) == Keys(facts, MonthKeyOf)[i]
    ensures forall i :: 0 <= i < |combined| ==>
              combined[i].units == Sum(Groups(facts, MonthKeyOf)[i], UnitsOf) &&
              combined[i].amount == Sum(Groups(facts, MonthKeyOf)[i], AmountOf)
  {
    var ks, gs := Keys(facts, MonthKeyOf), Groups(facts, MonthKeyOf);
    seq(|ks|, i requires 0 <= i < |ks| => MergeMonth(ks[i], gs[i]))
  }

  /** The concat and the group-by lose nothing: the combined frame's NETUNITS
      and NETAMT totals are the Ingram totals plus the Sage totals, so both
      differences logged after the concat are 0. */
  lemma ConcatTotals(ingram: seq<Sale>, sage: seq<Sale>)
    ensures Sum(Combine(Stacked(ingram, sage)), UnitsOf) == Sum(ingram, SaleUnits) + Sum(sage, SaleUnits)
    ensures Sum(Combine(Stacked(ingram, sage)), AmountOf) == Sum(ingram, SaleAmount) + Sum(sage, SaleAmount)
  {
    var facts := Stacked(ingram, sage);
    var out := Combine(facts);
    CollapseTotal(facts, MonthKeyOf, out, UnitsOf, UnitsOf);
    CollapseTotal(facts, MonthKeyOf, out, AmountOf, AmountOf);
    StackedTotals(ingram, sage);
  }

  /** The combined frame holds one row per key. */
  lemma CombineUnique(facts: seq<Fact>)
    ensures NoDup(Project(Combine(facts), MonthKeyOf))
  {
    assert Project(Combine(facts), MonthKeyOf) == Keys(facts, MonthKeyOf);
  }

  // ---------------------------------------------------------------------------
  // The dollars logged before the concat
  // ---------------------------------------------------------------------------

  /** The "Totals before concat" dollars as logged: the Ingram NETAMT total
      plus the Sage NETUNITS total. */
  function LoggedDollarsAsWritten(ingram: seq<Sale>, sage: seq<Sale>): real
  {
    Sum(ingram, SaleAmount) + Sum(sage, SaleUnits)
  }

  /** The dollars before the concat, the Ingram NETAMT total plus the Sage
      NETAMT total; it is what the combined frame holds afterwards. */
  function LoggedDollars(ingram: seq<Sale>, sage: seq<Sale>): (d: real)
    ensures d == Sum(Combine(Stacked(ingram, sage)), AmountOf)
  {
    ConcatTotals(ingram, sage);
    Sum(ingram, SaleAmount) + Sum(sage, SaleAmount)
  }

  /** The logged figure agrees with the dollars after the concat exactly when
      the Sage units happen to add up to the Sage dollars. */
  lemma LoggedDollarsAsWrittenIff(ingram: seq<Sale>, sage: seq<Sale>)
    ensures LoggedDollarsAsWritten(ingram, sage) == Sum(Combine(Stacked(ingram, sage)), AmountOf)
            <==> Sum(sage, SaleUnits) == Sum(sage, SaleAmount)
  {
    ConcatTotals(ingram, sage);
  }

  /** One Sage sale of two copies for 25.00 is logged as 2.00 dollars before
      the concat and 25.00 after it. */
  lemma LoggedDollarsCounterexample()
    ensures var sage := [Sale("9780804851234", 2025, 3, "Title", "Shop", 2, 25.0, Some("RETAIL"))];
      LoggedDollarsAsWritten([], sage) == 2.0 &&
      LoggedDollars([], sage) == 25.0
  {
    var sage := [Sale("9780804851234", 2025, 3, "Title", "Shop", 2, 25.0, Some("RETAIL"))];
    assert Sum(sage, SaleUnits) == 2.0 + Sum(sage[1..], SaleUnits);
    assert Sum(sage, SaleAmount) == 25.0 + Sum(sage[1..], SaleAmount);
  }

  // ---------------------------------------------------------------------------
  // Base rows and window columns
  // ---------------------------------------------------------------------------

  /** The report's row key: (ISBN, TITLE, NAMECUST, TUTTLE_SALES_CATEGORY). */
  datatype BaseKey = BaseKey(isbn: string, title: string, name: string, category: Option<string>)

  function BaseKeyOf(f: Fact): BaseKey { BaseKey(f.isbn, f.title, f.name, f.category) }

  function BaseOfMonthKey(k: MonthKey): BaseKey { BaseKey(k.isbn, k.title, k.name, k.category) }

  /** The YEARMONTH and YEAR stamps, read off the group key so that combined
      rows and facts are stamped by the same function. */
  function YmOfKey(k: MonthKey): int { YearMonth(k.year, k.month) }
  function YearOfKey(k: MonthKey): int { k.year }
  function Stamp(t: MonthKey -> int): Fact -> int { (f: Fact) => t(MonthKeyOf(f)) }

  /** One base row with its window columns, each zero-filled after its left
      join: YTD_UNITS and YTD_DOLLARS, the twelve NET_UNITS month columns from
      the latest month back, 12M_DOLLARS and 12M_UNITS, 4M_DOLLARS and
      4M_UNITS, and the unit totals of the three previous years, oldest
      first. */
  datatype Row = Row(key: BaseKey, ytdUnits: real, ytdDollars: real, months: seq<real>,
                     units12: real, dollars12: real, units4: real, dollars4: real, years: seq<real>)

  /** The window columns of one base row, read from the combined rows. */
  function BuildRow(combined: seq<Fact>, b: BaseKey, year: int, month: int): (r: Row)
    requires ValidMonth(month)
    ensures r.key == b
    ensures |r.months| == 12 && |r.years| == 3
    ensures r.units12 == Total(r.months)
    ensures r.units4 == Total(r.months[..4])
    ensures forall j :: 0 <= j < 3 ==>
              r.years[j] == Window(combined, Stamp(YearOfKey), IsKey(year - 3 + j), BaseKeyOf, b, UnitsOf)
  {
    var keys, four := TrailingKeys(year, month), FourMonthKeys(year, month);
    var ym, yr := Stamp(YmOfKey), Stamp(YearOfKey);
    var months := MonthCells(combined, ym, BaseKeyOf, UnitsOf, keys, b);
    TrailingNoDup(year, month);
    SpanIsSumOfMonths(combined, ym, BaseKeyOf, UnitsOf, keys, b);
    SpanIsSumOfMonths(combined, ym, BaseKeyOf, UnitsOf, four, b);
    assert MonthCells(combined, ym, BaseKeyOf, UnitsOf, four, b) == months[..4];
    Row(b,
        Cell(combined, yr, IsKey(year), BaseKeyOf, UnitsOf, b),
        Cell(combined, yr, IsKey(year), BaseKeyOf, AmountOf, b),
        months,
        Cell(combined, ym, InKeys(keys), BaseKeyOf, UnitsOf, b),
        Cell(combined, ym, InKeys(keys), BaseKeyOf, AmountOf, b),
        Cell(combined, ym, InKeys(four), BaseKeyOf, UnitsOf, b),
        Cell(combined, ym, InKeys(four), BaseKeyOf, AmountOf, b),
        YearCells(combined, b, year))
  }

  /** The `UNITS_{year}` columns for the three previous years, oldest
      first. */
  function YearCells(combined: seq<Fact>, b: BaseKey, year: int): (r: seq<real>)
    ensures |r| == 3
    ensures forall j :: 0 <= j < 3 ==> r[j] == Window(combined, Stamp(YearOfKey), IsKey(year - 3 + j), BaseKeyOf, b, UnitsOf)
  {
    var r := seq(3, j requires 0 <= j < 3 => Cell(combined, Stamp(YearOfKey), IsKey(year - 3 + j), BaseKeyOf, UnitsOf, b));
    assert forall j :: 0 <= j < 3 ==> r[j] == Cell(combined, Stamp(YearOfKey), IsKey(year - 3 + j), BaseKeyOf, UnitsOf, b);
    r
  }

  /** One row per distinct (ISBN, TITLE, NAMECUST, category) of the combined
      frame; every later left join keeps this row set. */
  function Rows(facts: seq<Fact>, year: int, month: int): (rows: seq<Row>)
    requires ValidMonth(month)
    ensures |rows| == |Keys(Combine(facts), BaseKeyOf)|
    ensures forall i :: 0 <= i < |rows| ==>
              rows[i] == BuildRow(Combine(facts), Keys(Combine(facts), BaseKeyOf)[i], year, month)
  {
    var combined := Combine(facts);
    var base := Keys(combined, BaseKeyOf);
    seq(|base|, i requires 0 <= i < |base| => BuildRow(combined, base[i], year, month))
  }

  /** The combined rows carry exactly the month keys of the facts. */
  lemma CombineKeys(facts: seq<Fact>, k: MonthKey)
    ensures (exists c <- Combine(facts) :: MonthKeyOf(c) == k) <==> (exists f <- facts :: MonthKeyOf(f) == k)
  {
    if exists f <- facts :: MonthKeyOf(f) == k {
      CombineKeysFromFacts(facts, k);
    }
    if exists c <- Combine(facts) :: MonthKeyOf(c) == k {
      CombineKeysToFacts(facts, k);
    }
  }

  lemma CombineKeysFromFacts(facts: seq<Fact>, k: MonthKey)
    requires exists f <- facts :: MonthKeyOf(f) == k
    ensures exists c <- Combine(facts) :: MonthKeyOf(c) == k
  {
    var out, ks := Combine(facts), Keys(facts, MonthKeyOf);
    var f :| f in facts && MonthKeyOf(f) == k;
    KeysCover(facts, MonthKeyOf);
    assert k in ks;
    var i :| 0 <= i < |ks| && ks[i] == k;
    assert MonthKeyOf(out[i]) == k;
    assert out[i] in out;
  }

  lemma CombineKeysToFacts(facts: seq<Fact>, k: MonthKey)
    requires exists c <- Combine(facts) :: MonthKeyOf(c) == k
    ensures exists f <- facts :: MonthKeyOf(f) == k
  {
    var out, ks := Combine(facts), Keys(facts, MonthKeyOf);
    var c :| c in out && MonthKeyOf(c) == k;
    var i :| 0 <= i < |out| && out[i] == c;
    assert ks[i] == k;
    assert k in Project(facts, MonthKeyOf);
    ProjectMember(facts, MonthKeyOf, k);
    var j :| 0 <= j < |facts| && MonthKeyOf(facts[j]) == k;
    assert facts[j] in facts;
  }

  /** The base rows are exactly the distinct (ISBN, TITLE, NAMECUST,
      category) tuples of the stacked sales, each once. */
  lemma BaseRows(facts: seq<Fact>, b: BaseKey)
    ensures NoDup(Keys(Combine(facts), BaseKeyOf))
    ensures b in Keys(Combine(facts), BaseKeyOf) <==> exists f <- facts :: BaseKeyOf(f) == b
  {
    var out := Combine(facts);
    ProjectMember(out, BaseKeyOf, b);
    if exists f <- facts :: BaseKeyOf(f) == b {
      var f :| f in facts && BaseKeyOf(f) == b;
      CombineKeys(facts, MonthKeyOf(f));
      var c :| c in out && MonthKeyOf(c) == MonthKeyOf(f);
      var i :| 0 <= i < |out| && out[i] == c;
      assert BaseKeyOf(out[i]) == b;
    }
    if b in Keys(out, BaseKeyOf) {
      var i :| 0 <= i < |out| && BaseKeyOf(out[i]) == b;
      assert out[i] in out;
      CombineKeys(facts, MonthKeyOf(out[i]));
      var f :| f in facts && MonthKeyOf(f) == MonthKeyOf(out[i]);
      assert BaseKeyOf(f) == b;
    }
  }

  /** Every fact's base key has a row. */
  lemma BaseCovers(facts: seq<Fact>)
    ensures forall f <- facts :: BaseKeyOf(f) in Keys(Combine(facts), BaseKeyOf)
  {
    forall f <- facts ensures BaseKeyOf(f) in Keys(Combine(facts), BaseKeyOf) {
      BaseRows(facts, BaseKeyOf(f));
    }
  }

  /** A window read through the combined rows is the window over the stacked
      facts: the group-by only merges facts of one book, customer, category
      and month. */
  lemma CombineWindow(facts: seq<Fact>, t: MonthKey -> int, p: int -> bool, k: BaseKey, val: Fact -> real)
    requires forall i :: 0 <= i < |Combine(facts)| ==> val(Combine(facts)[i]) == Sum(Groups(facts, MonthKeyOf)[i], val)
    ensures Window(Combine(facts), Stamp(t), p, BaseKeyOf, k, val) == Window(facts, Stamp(t), p, BaseKeyOf, k, val)
  {
    var out := Combine(facts);
    var s := (mk: MonthKey) => p(t(mk)) && BaseOfMonthKey(mk) == k;
    RegroupSumIf(facts, MonthKeyOf, val, out, MonthKeyOf, val, s);
    WindowAsSumIf(out, Stamp(t), p, BaseKeyOf, k, val, Selects(s, MonthKeyOf));
    WindowAsSumIf(facts, Stamp(t), p, BaseKeyOf, k, val, Selects(s, MonthKeyOf));
  }

  lemma CombinedWindows(facts: seq<Fact>, t: MonthKey -> int, p: int -> bool, k: BaseKey)
    ensures Window(Combine(facts), Stamp(t), p, BaseKeyOf, k, UnitsOf) == Window(facts, Stamp(t), p, BaseKeyOf, k, UnitsOf)
    ensures Window(Combine(facts), Stamp(t), p, BaseKeyOf, k, AmountOf) == Window(facts, Stamp(t), p, BaseKeyOf, k, AmountOf)
  {
    CombineWindow(facts, t, p, k, UnitsOf);
    CombineWindow(facts, t, p, k, AmountOf);
  }

  /** Every month column of a row is that month's NETUNITS total over the
      stacked sales of the row's book and customer. */
  lemma RowMonths(facts: seq<Fact>, year: int, month: int, i: int)
    requires ValidMonth(month) && 0 <= i < |Rows(facts, year, month)|
    ensures var r, keys := Rows(facts, year, month)[i], TrailingKeys(year, month);
      forall j :: 0 <= j < 12 ==> r.months[j] == Window(facts, Stamp(YmOfKey), IsKey(keys[j]), BaseKeyOf, r.key, UnitsOf)
  {
    var r, keys := Rows(facts, year, month)[i], TrailingKeys(year, month);
    forall j | 0 <= j < 12 {
      CombinedWindows(facts, YmOfKey, IsKey(keys[j]), r.key);
    }
  }

  /** The year-to-date, rolling, four-month and prior-year columns of a row
      are the matching window totals over the stacked sales of its book and
      customer. */
  lemma RowWindows(facts: seq<Fact>, year: int, month: int, i: int)
    requires ValidMonth(month) && 0 <= i < |Rows(facts, year, month)|
    ensures var r, keys, four := Rows(facts, year, month)[i], TrailingKeys(year, month), FourMonthKeys(year, month);
      var ym, yr := Stamp(YmOfKey), Stamp(YearOfKey);
      && r.ytdUnits == Window(facts, yr, IsKey(year), BaseKeyOf, r.key, UnitsOf)
      && r.ytdDollars == Window(facts, yr, IsKey(year), BaseKeyOf, r.key, AmountOf)
      && r.units12 == Window(facts, ym, InKeys(keys), BaseKeyOf, r.key, UnitsOf)
      && r.dollars12 == Window(facts, ym, InKeys(keys), BaseKeyOf, r.key, AmountOf)
      && r.units4 == Window(facts, ym, InKeys(four), BaseKeyOf, r.key, UnitsOf)
      && r.dollars4 == Window(facts, ym, InKeys(four), BaseKeyOf, r.key, AmountOf)
      && r.years[0] == Window(facts, yr, IsKey(year - 3), BaseKeyOf, r.key, UnitsOf)
      && r.years[1] == Window(facts, yr, IsKey(year - 2), BaseKeyOf, r.key, UnitsOf)
      && r.years[2] == Window(facts, yr, IsKey(year - 1), BaseKeyOf, r.key, UnitsOf)
  {
    var b := Keys(Combine(facts), BaseKeyOf)[i];
    assert Rows(facts, year, month)[i] == BuildRow(Combine(facts), b, year, month);
    BuildRowSpans(facts, b, year, month);
    BuildRowYears(facts, b, year, month);
  }

  lemma BuildRowSpans(facts: seq<Fact>, b: BaseKey, year: int, month: int)
    requires ValidMonth(month)
    ensures var r, keys, four := BuildRow(Combine(facts), b, year, month), TrailingKeys(year, month), FourMonthKeys(year, month);
      var ym, yr := Stamp(YmOfKey), Stamp(YearOfKey);
      && r.ytdUnits == Window(facts, yr, IsKey(year), BaseKeyOf, b, UnitsOf)
      && r.ytdDollars == Window(facts, yr, IsKey(year), BaseKeyOf, b, AmountOf)
      && r.units12 == Window(facts, ym, InKeys(keys), BaseKeyOf, b, UnitsOf)
      && r.dollars12 == Window(facts, ym, InKeys(keys), BaseKeyOf, b, AmountOf)
      && r.units4 == Window(facts, ym, InKeys(four), BaseKeyOf, b, UnitsOf)
      && r.dollars4 == Window(facts, ym, InKeys(four), BaseKeyOf, b, AmountOf)
  {
    CombinedWindows(facts, YearOfKey, IsKey(year), b);
    CombinedWindows(facts, YmOfKey, InKeys(TrailingKeys(year, month)), b);
    CombinedWindows(facts, YmOfKey, InKeys(FourMonthKeys(year, month)), b);
  }

  lemma BuildRowYears(facts: seq<Fact>, b: BaseKey, year: int, month: int)
    requires ValidMonth(month)
    ensures var r, yr := BuildRow(Combine(facts), b, year, month), Stamp(YearOfKey);
      && r.years[0] == Window(facts, yr, IsKey(year - 3), BaseKeyOf, b, UnitsOf)
      && r.years[1] == Window(facts, yr, IsKey(year - 2), BaseKeyOf, b, UnitsOf)
      && r.years[2] == Window(facts, yr, IsKey(year - 1), BaseKeyOf, b, UnitsOf)
  {
    var r, yr := BuildRow(Combine(facts), b, year, month), Stamp(YearOfKey);
    forall j | 0 <= j < 3
      ensures r.years[j] == Window(facts, yr, IsKey(year - 3 + j), BaseKeyOf, b, UnitsOf)
    {
      BuildRowYear(facts, b, year, month, j);
    }
  }

  lemma BuildRowYear(facts: seq<Fact>, b: BaseKey, year: int, month: int, j: int)
    requires ValidMonth(month) && 0 <= j < 3
    ensures BuildRow(Combine(facts), b, year, month).years[j]
         == Window(facts, Stamp(YearOfKey), IsKey(year - 3 + j), BaseKeyOf, b, UnitsOf)
  {
    BuildRowYearCell(Combine(facts), b, year, month, j);
    CombinedWindows(facts, YearOfKey, IsKey(year - 3 + j), b);
  }

  lemma BuildRowYearCell(combined: seq<Fact>, b: BaseKey, year: int, month: int, j: int)
    requires ValidMonth(month) && 0 <= j < 3
    ensures BuildRow(combined, b, year, month).years[j]
         == Window(combined, Stamp(YearOfKey), IsKey(year - 3 + j), BaseKeyOf, b, UnitsOf)
  {
  }

  // ---------------------------------------------------------------------------
  // Column totals of the rows
  // ---------------------------------------------------------------------------

  function Units12Of(r: Row): real { r.units12 }
  function Dollars12Of(r: Row): real { r.dollars12 }
  function YtdUnitsOf(r: Row): real { r.ytdUnits }
  function YtdDollarsOf(r: Row): real { r.ytdDollars }

  /** Each base row reports its book and customer once, so a column of the
      rows adds up to its window's total over all the stacked sales. */
  lemma RowsConserve(facts: seq<Fact>, year: int, month: int, t: MonthKey -> int, p: int -> bool,
                     val: Fact -> real, col: Row -> real)
    requires ValidMonth(month)
    requires forall i :: 0 <= i < |Rows(facts, year, month)| ==>
               col(Rows(facts, year, month)[i]) == Window(facts, Stamp(t), p, BaseKeyOf, Rows(facts, year, month)[i].key, val)
    ensures Sum(Rows(facts, year, month), col) == WindowTotal(facts, Stamp(t), p, val)
  {
    var rows, base := Rows(facts, year, month), Keys(Combine(facts), BaseKeyOf);
    forall i | 0 <= i < |rows| ensures col(rows[i]) == WindowBy(facts, Stamp(t), p, BaseKeyOf, val)(base[i]) {
    }
    SumMatches(rows, col, base, WindowBy(facts, Stamp(t), p, BaseKeyOf, val));
    BaseRows(facts, BaseKeyOf(Fact("", 0, 0, "", "", None, 0.0, 0.0)));
    BaseCovers(facts);
    WindowOverKeys(facts, Stamp(t), p, BaseKeyOf, val, base);
  }

  /** The 12M and YTD columns of the rows add up to the units and dollars of
      all stacked sales in the trailing twelve months and in the current
      year. */
  lemma RowsTotals(facts: seq<Fact>, year: int, month: int)
    requires ValidMonth(month)
    ensures var keys := TrailingKeys(year, month);
      && Sum(Rows(facts, year, month), Units12Of) == WindowTotal(facts, Stamp(YmOfKey), InKeys(keys), UnitsOf)
      && Sum(Rows(facts, year, month), Dollars12Of) == WindowTotal(facts, Stamp(YmOfKey), InKeys(keys), AmountOf)
      && Sum(Rows(facts, year, month), YtdUnitsOf) == WindowTotal(facts, Stamp(YearOfKey), IsKey(year), UnitsOf)
      && Sum(Rows(facts, year, month), YtdDollarsOf) == WindowTotal(facts, Stamp(YearOfKey), IsKey(year), AmountOf)
  {
    var rows, keys := Rows(facts, year, month), TrailingKeys(year, month);
    forall i | 0 <= i < |rows| {
      RowWindows(facts, year, month, i);
    }
    RowsConserve(facts, year, month, YmOfKey, InKeys(keys), UnitsOf, Units12Of);
    RowsConserve(facts, year, month, YmOfKey, InKeys(keys), AmountOf, Dollars12Of);
    RowsConserve(facts, year, month, YearOfKey, IsKey(year), UnitsOf, YtdUnitsOf);
    RowsConserve(facts, year, month, YearOfKey, IsKey(year), AmountOf, YtdDollarsOf);
  }

  // ---------------------------------------------------------------------------
  // Joins on a null category, as written
  // ---------------------------------------------------------------------------

  /** A polars join matches no key holding a null, and every window join
      includes TUTTLE_SALES_CATEGORY: a base row without a category finds
      nothing in any of them. */
  predicate Joinable(b: BaseKey) { b.category.Some? }

  /** The row as the joins build it: every window column is zero-filled, so a
      base row without a category shows 0 everywhere, whatever it sold. */
  function BuildRowAsWritten(combined: seq<Fact>, b: BaseKey, year: int, month: int): (r: Row)
    requires ValidMonth(month)
    ensures r.key == b && |r.months| == 12 && |r.years| == 3
    ensures Joinable(b) ==> r == BuildRow(combined, b, year, month)
    ensures !Joinable(b) ==>
              && r.ytdUnits == 0.0 && r.ytdDollars == 0.0 && r.units12 == 0.0 && r.dollars12 == 0.0
              && r.units4 == 0.0 && r.dollars4 == 0.0
              && (forall j :: 0 <= j < 12 ==> r.months[j] == 0.0) && (forall j :: 0 <= j < 3 ==> r.years[j] == 0.0)
  {
    if Joinable(b) then BuildRow(combined, b, year, month)
    else Row(b, 0.0, 0.0, seq(12, j => 0.0), 0.0, 0.0, 0.0, 0.0, seq(3, j => 0.0))
  }

  /** The rows as written: one per base row of `Rows`, in the same order,
      built by `BuildRowAsWritten`. */
  function RowsAsWritten(facts: seq<Fact>, year: int, month: int): (rows: seq<Row>)
    requires ValidMonth(month)
    ensures |rows| == |Rows(facts, year, month)|
    ensures forall i :: 0 <= i < |rows| ==> rows[i].key == Keys(Combine(facts), BaseKeyOf)[i]
  {
    var combined := Combine(facts);
    var base := Keys(combined, BaseKeyOf);
    seq(|base|, i requires 0 <= i < |base| => BuildRowAsWritten(combined, base[i], year, month))
  }

  /** Row by row, the as-written rows are those of `Rows` for a categorised
      key; a key without a category has 0 in its 12M and YTD columns. */
  lemma RowsAsWrittenAt(facts: seq<Fact>, year: int, month: int, i: int)
    requires ValidMonth(month) && 0 <= i < |Rows(facts, year, month)|
    ensures var r := RowsAsWritten(facts, year, month)[i];
      && (Joinable(r.key) ==> r == Rows(facts, year, month)[i])
      && (!Joinable(r.key) ==> r.units12 == 0.0 && r.dollars12 == 0.0 && r.ytdUnits == 0.0 && r.ytdDollars == 0.0)
  {
    var b := Keys(Combine(facts), BaseKeyOf)[i];
    assert RowsAsWritten(facts, year, month)[i] == BuildRowAsWritten(Combine(facts), b, year, month);
  }

  function Categorized(f: Fact): bool { f.category.Some? }

  /** A fact in the window, stamped by `t`, whose category is known. */
  function KnownIn(t: MonthKey -> int, p: int -> bool): Fact -> bool { (f: Fact) => p(Stamp(t)(f)) && f.category.Some? }

  /** As written, a column of the rows that holds its window for every
      categorised base row and 0 for the others adds up to the window's total
      over the categorised facts only. */
  lemma RowsConserveAsWritten(facts: seq<Fact>, year: int, month: int, t: MonthKey -> int, p: int -> bool,
                              val: Fact -> real, col: Row -> real)
    requires ValidMonth(month)
    requires forall i :: 0 <= i < |RowsAsWritten(facts, year, month)| ==>
               col(RowsAsWritten(facts, year, month)[i]) ==
                 if Joinable(RowsAsWritten(facts, year, month)[i].key)
                 then Window(facts, Stamp(t), p, BaseKeyOf, RowsAsWritten(facts, year, month)[i].key, val) else 0.0
    ensures Sum(RowsAsWritten(facts, year, month), col) == SumIf(facts, KnownIn(t, p), val)
  {
    var rows, base, kept := RowsAsWritten(facts, year, month), Keys(Combine(facts), BaseKeyOf), Where(facts, Categorized);
    forall i | 0 <= i < |rows| ensures col(rows[i]) == WindowBy(kept, Stamp(t), p, BaseKeyOf, val)(base[i]) {
      FilteredWindow(facts, Categorized, Stamp(t), p, BaseKeyOf, base[i], val);
    }
    SumMatches(rows, col, base, WindowBy(kept, Stamp(t), p, BaseKeyOf, val));
    BaseRows(facts, BaseKeyOf(Fact("", 0, 0, "", "", None, 0.0, 0.0)));
    BaseCovers(facts);
    WindowOverKeys(kept, Stamp(t), p, BaseKeyOf, val, base);
    FilteredTotal(facts, Categorized, Stamp(t), p, val, KnownIn(t, p));
  }

  /** As written, the 12M and YTD columns add up to the units and dollars of
      the categorised sales only: the sales of every book and customer
      without a category vanish from the report. */
  lemma RowsTotalsAsWritten(facts: seq<Fact>, year: int, month: int)
    requires ValidMonth(month)
    ensures var keys := TrailingKeys(year, month);
      && Sum(RowsAsWritten(facts, year, month), Units12Of) == SumIf(facts, KnownIn(YmOfKey, InKeys(keys)), UnitsOf)
      && Sum(RowsAsWritten(facts, year, month), Dollars12Of) == SumIf(facts, KnownIn(YmOfKey, InKeys(keys)), AmountOf)
      && Sum(RowsAsWritten(facts, year, month), YtdUnitsOf) == SumIf(facts, KnownIn(YearOfKey, IsKey(year)), UnitsOf)
      && Sum(RowsAsWritten(facts, year, month), YtdDollarsOf) == SumIf(facts, KnownIn(YearOfKey, IsKey(year)), AmountOf)
  {
    var rows, keys := RowsAsWritten(facts, year, month), TrailingKeys(year, month);
    forall i | 0 <= i < |rows|
      ensures var r, ym, yr := rows[i], Stamp(YmOfKey), Stamp(YearOfKey);
        && r.units12 == (if Joinable(r.key) then Window(facts, ym, InKeys(keys), BaseKeyOf, r.key, UnitsOf) else 0.0)
        && r.dollars12 == (if Joinable(r.key) then Window(facts, ym, InKeys(keys), BaseKeyOf, r.key, AmountOf) else 0.0)
        && r.ytdUnits == (if Joinable(r.key) then Window(facts, yr, IsKey(year), BaseKeyOf, r.key, UnitsOf) else 0.0)
        && r.ytdDollars == (if Joinable(r.key) then Window(facts, yr, IsKey(year), BaseKeyOf, r.key, AmountOf) else 0.0)
    {
      RowsAsWrittenAt(facts, year, month, i);
      if Joinable(rows[i].key) {
        RowWindows(facts, year, month, i);
      }
    }
    RowsConserveAsWritten(facts, year, month, YmOfKey, InKeys(keys), UnitsOf, Units12Of);
    RowsConserveAsWritten(facts, year, month, YmOfKey, InKeys(keys), AmountOf, Dollars12Of);
    RowsConserveAsWritten(facts, year, month, YearOfKey, IsKey(year), UnitsOf, YtdUnitsOf);
    RowsConserveAsWritten(facts, year, month, YearOfKey, IsKey(year), AmountOf, YtdDollarsOf);
  }

  /** One sale of a book without a master category, 5.0 dollars last month,
      reported in March 2024: as written the report's 12M_DOLLARS column adds
      up to 0, corrected to 5. */
  lemma NullCategoryLost()
    ensures var facts := [Fact("I", 2024, 2, "T", "N", None, 1.0, 5.0)];
      && Sum(RowsAsWritten(facts, 2024, 3), Dollars12Of) == 0.0
      && Sum(Rows(facts, 2024, 3), Dollars12Of) == 5.0
  {
    var x := Fact("I", 2024, 2, "T", "N", None, 1.0, 5.0);
    assert TrailingKeys(2024, 3)[0] == 202402 == YmOfKey(MonthKeyOf(x));
    OneSaleDollarsAsWritten(x, 2024, 3);
    OneSaleDollars(x, 2024, 3);
  }

  /** As written, a single uncategorised sale adds nothing to 12M_DOLLARS. */
  lemma OneSaleDollarsAsWritten(x: Fact, year: int, month: int)
    requires ValidMonth(month) && x.category.None?
    ensures Sum(RowsAsWritten([x], year, month), Dollars12Of) == 0.0
  {
    RowsTotalsAsWritten([x], year, month);
    assert SumIf([x], KnownIn(YmOfKey, InKeys(TrailingKeys(year, month))), AmountOf) == 0.0;
  }

  /** A single sale in the trailing window is the whole of 12M_DOLLARS. */
  lemma OneSaleDollars(x: Fact, year: int, month: int)
    requires ValidMonth(month) && YmOfKey(MonthKeyOf(x)) in TrailingKeys(year, month)
    ensures Sum(Rows([x], year, month), Dollars12Of) == x.amount
  {
    RowsTotals([x], year, month);
    WindowTotalOne(x, Stamp(YmOfKey), InKeys(TrailingKeys(year, month)), AmountOf);
  }

  // ---------------------------------------------------------------------------
  // ISBN standardisation
  // ---------------------------------------------------------------------------

  /** The ISBN standardisation as written: `strip_chars()` and then
      `str.replace('-', '')`, which in polars replaces the first hyphen
      only. */
  function StandardIsbnAsWritten(isbn: string): (r: string)
    ensures '-' !in Trim(isbn) ==> r == Trim(isbn)
    ensures |r| >= |Trim(isbn)| - 1
  {
    RemoveFirst(Trim(isbn), '-')
  }

  /** Only the first hyphen goes: the text after it is kept as it is, later
      hyphens included. */
  lemma StandardIsbnAsWrittenFirstOnly(a: string, b: string)
    requires forall c <- a + "-" + b :: !IsSpace(c)
    requires '-' !in a
    ensures StandardIsbnAsWritten(a + "-" + b) == a + b
  {
    var s := a + "-" + b;
    if s != [] { assert s[0] in s && s[|s| - 1] in s; }
    TrimIdentity(s);
    RemoveFirstSplits(a, '-', b);
  }

  /** A hyphenated ISBN keeps its second hyphen, so it never meets the same
      book written without hyphens. */
  lemma StandardIsbnAsWrittenKeepsHyphens()
    ensures StandardIsbnAsWritten("1-2-3") == "12-3"
  {
    StandardIsbnAsWrittenSplit();
    assert "1" + "-" + "2-3" == "1-2-3";
    assert "1" + "2-3" == "12-3";
  }

  lemma StandardIsbnAsWrittenSplit()
    ensures StandardIsbnAsWritten("1" + "-" + "2-3") == "1" + "2-3"
  {
    var a, b := "1", "2-3";
    assert forall c <- a + "-" + b :: !IsSpace(c) by {
      assert forall c <- a + "-" + b :: c == '1' || c == '2' || c == '3' || c == '-';
    }
    StandardIsbnAsWrittenFirstOnly(a, b);
  }

  /** The ISBN standardisation as evidently intended: stripped, with every
      hyphen removed, so that the three frames' ISBNs meet in the joins. The
      code removes only the first hyphen (`StandardIsbnAsWritten`); the
      pipeline below is built on this corrected key. */
  function StandardIsbn(isbn: string): (r: string)
    ensures '-' !in r
    ensures |r| <= |Trim(isbn)|
    ensures '-' !in Trim(isbn) ==> r == Trim(isbn)
  {
    RemoveAllChar(Trim(isbn), '-');
    if '-' !in Trim(isbn) then RemoveAllAbsent(Trim(isbn), "-"); RemoveAll(Trim(isbn), "-")
    else RemoveAll(Trim(isbn), "-")
  }

  /** With every hyphen removed, the hyphenated and the plain spelling of an
      ISBN meet. */
  lemma StandardIsbnMeets(a: string, b: string)
    requires forall c <- a + b :: !IsSpace(c)
    requires '-' !in a
    ensures StandardIsbn(a + "-" + b) == StandardIsbn(a + b)
  {
    HyphenUnblanked(a, b);
    StandardIsbnOfPlain(a + "-" + b);
    StandardIsbnOfPlain(a + b);
    HyphenDropped(a, b);
  }

  /** Without blanks, standardising only deletes the hyphens. */
  lemma StandardIsbnOfPlain(s: string)
    requires forall c <- s :: !IsSpace(c)
    ensures StandardIsbn(s) == RemoveAll(s, "-")
  {
    Unblanked(s);
  }

  lemma HyphenUnblanked(a: string, b: string)
    requires forall c <- a + b :: !IsSpace(c)
    ensures forall c <- a + "-" + b :: !IsSpace(c)
  {
    forall c <- a + "-" + b ensures !IsSpace(c) {
      if c in a { assert c in a + b; } else if c in b { assert c in a + b; }
    }
  }

  /** A string without blanks is its own strip. */
  lemma Unblanked(s: string)
    requires forall c <- s :: !IsSpace(c)
    ensures Trim(s) == s
  {
    if s != [] { assert s[0] in s && s[|s| - 1] in s; }
    TrimIdentity(s);
  }

  /** Deleting every hyphen: the hyphen after a hyphen-free prefix goes. */
  lemma HyphenDropped(a: string, b: string)
    requires '-' !in a
    ensures RemoveAll(a + "-" + b, "-") == RemoveAll(a + b, "-")
  {
    assert a + "-" + b == a + ("-" + b);
    RemoveAllKeepsPrefix(a, "-" + b, "-");
    RemoveAllKeepsPrefix(a, b, "-");
    assert ("-" + b)[..1] == "-" && ("-" + b)[1..] == b;
  }

  // ---------------------------------------------------------------------------
  // Joining the all-accounts totals and the book details
  // ---------------------------------------------------------------------------

  /** A row of ALL_ACCOUNTS_12M_ROLL as read: ITEMNO, NETQTY and NETSALES. */
  datatype AccountTotals = AccountTotals(isbn: string, units: Option<real>, dollars: Option<real>)

  /** A row of BOOK_DETAILS as read; every attribute may be null. */
  datatype Book = Book(isbn: string, kind: Option<string>, prod: Option<string>, pubStatus: Option<string>,
                       seas: Option<string>, sub: Option<string>, retail: Option<real>,
                       webcat2: Option<string>, webcat2Descr: Option<string>)

  /** The attribute columns after the joins and `fill_null`: numbers default
      to 0, text to the empty string, and PUB_STATUS is left nullable. */
  datatype Attributes = Attributes(kind: string, prod: string, sub: string, retail: real, seas: string,
                                   allUnits: real, allDollars: real, webcat2: string, webcat2Descr: string,
                                   pubStatus: Option<string>)

  /** A report row after both joins. */
  datatype Wide = Wide(row: Row, attrs: Attributes)

  function AccountIsbn(a: AccountTotals): string { StandardIsbn(a.isbn) }
  function BookIsbn(b: Book): string { StandardIsbn(b.isbn) }
  function RowIsbn(r: Row): string { r.key.isbn }
  function JoinedIsbn(p: (Row, Option<AccountTotals>)): string { p.0.key.isbn }

  /** The report row with its ISBN standardised like the lookup tables'. */
  function Standardize(r: Row): (s: Row)
    ensures s.key.isbn == StandardIsbn(r.key.isbn)
    ensures s.key.title == r.key.title && s.key.name == r.key.name && s.key.category == r.key.category
    ensures s.months == r.months && s.years == r.years
  {
    r.(key := r.key.(isbn := StandardIsbn(r.key.isbn)))
  }

  /** The `fill_null` defaults applied to whatever the joins found. */
  function Fill(a: Option<AccountTotals>, b: Option<Book>): (t: Attributes)
    ensures a.None? ==> t.allUnits == 0.0 && t.allDollars == 0.0
    ensures b.None? ==> t.kind == "" && t.prod == "" && t.seas == "" && t.sub == "" && t.retail == 0.0 &&
                        t.webcat2 == "" && t.webcat2Descr == "" && t.pubStatus.None?
    ensures b.Some? ==> t.pubStatus == b.value.pubStatus
    ensures b.Some? && b.value.kind.Some? ==> t.kind == b.value.kind.value
    ensures a.Some? && a.value.units.Some? ==> t.allUnits == a.value.units.value
    ensures a.Some? && a.value.dollars.Some? ==> t.allDollars == a.value.dollars.value
  {
    var units := if a.Some? then a.value.units else None;
    var dollars := if a.Some? then a.value.dollars else None;
    if b.None? then
      Attributes("", "", "", 0.0, "", units.GetOr(0.0), dollars.GetOr(0.0), "", "", None)
    else
      var d := b.value;
      Attributes(d.kind.GetOr(""), d.prod.GetOr(""), d.sub.GetOr(""), d.retail.GetOr(0.0), d.seas.GetOr(""),
                 units.GetOr(0.0), dollars.GetOr(0.0), d.webcat2.GetOr(""), d.webcat2Descr.GetOr(""), d.pubStatus)
  }

  function MakeWide(e: ((Row, Option<AccountTotals>), Option<Book>)): Wide
  {
    Wide(e.0.0, Fill(e.0.1, e.1))
  }

  /** The two left joins on the standardised ISBN, then `fill_null`. */
  function Widen(rows: seq<Row>, accounts: seq<AccountTotals>, books: seq<Book>): (wide: seq<Wide>)
    ensures |wide| >= |rows|
  {
    Project(Joined(rows, accounts, books), MakeWide)
  }

  function Joined(rows: seq<Row>, accounts: seq<AccountTotals>, books: seq<Book>): (joined: seq<((Row, Option<AccountTotals>), Option<Book>)>)
    ensures |joined| >= |rows|
  {
    LeftJoin(LeftJoin(Project(rows, Standardize), accounts, RowIsbn, AccountIsbn), books, JoinedIsbn, BookIsbn)
  }

  /** When each standardised ISBN occurs at most once in each lookup table,
      the joins keep the report rows one for one and attach the first match
      of each table, or the defaults. */
  lemma WidenUnique(rows: seq<Row>, accounts: seq<AccountTotals>, books: seq<Book>)
    requires NoDup(Project(accounts, AccountIsbn)) && NoDup(Project(books, BookIsbn))
    ensures |Widen(rows, accounts, books)| == |rows|
    ensures forall i :: 0 <= i < |rows| ==>
              var isbn := StandardIsbn(rows[i].key.isbn);
              Widen(rows, accounts, books)[i] ==
              Wide(Standardize(rows[i]), Fill(FindRow(accounts, AccountIsbn, isbn), FindRow(books, BookIsbn, isbn)))
  {
    var std := Project(rows, Standardize);
    var withAccounts := LeftJoin(std, accounts, RowIsbn, AccountIsbn);
    var joined := LeftJoin(withAccounts, books, JoinedIsbn, BookIsbn);
    LeftJoinUnique(std, accounts, RowIsbn, AccountIsbn);
    LeftJoinUnique(withAccounts, books, JoinedIsbn, BookIsbn);
    assert joined == Joined(rows, accounts, books);
    var wide := Widen(rows, accounts, books);
    forall i | 0 <= i < |rows|
      ensures var isbn := StandardIsbn(rows[i].key.isbn);
              wide[i] == Wide(Standardize(rows[i]), Fill(FindRow(accounts, AccountIsbn, isbn), FindRow(books, BookIsbn, isbn)))
    {
      var isbn := StandardIsbn(rows[i].key.isbn);
      assert std[i] == Standardize(rows[i]);
      assert RowIsbn(std[i]) == isbn;
      assert withAccounts[i] == (std[i], FindRow(accounts, AccountIsbn, isbn));
      assert JoinedIsbn(withAccounts[i]) == isbn;
      assert joined[i] == (withAccounts[i], FindRow(books, BookIsbn, isbn));
      assert wide[i] == MakeWide(joined[i]);
    }
  }

  /** A book listed `n` times in ALL_ACCOUNTS_12M_ROLL turns each of its
      report rows into `n` rows with the same figures: the final `sum` then
      counts its sales `n` times. */
  lemma WidenRepeats(r: Row, accounts: seq<AccountTotals>)
    requires |GroupOf(accounts, AccountIsbn, StandardIsbn(r.key.isbn))| >= 1
    ensures |Widen([r], accounts, [])| == |GroupOf(accounts, AccountIsbn, StandardIsbn(r.key.isbn))|
    ensures forall w <- Widen([r], accounts, []) :: w.row == Standardize(r)
  {
    var std := Project([r], Standardize);
    assert std == [Standardize(r)];
    assert RowIsbn(Standardize(r)) == StandardIsbn(r.key.isbn);
    LeftJoinRepeats(Standardize(r), accounts, RowIsbn, AccountIsbn);
    var withAccounts := LeftJoin(std, accounts, RowIsbn, AccountIsbn);
    LeftJoinUnique(withAccounts, [], JoinedIsbn, BookIsbn);
    var joined := LeftJoin(withAccounts, [], JoinedIsbn, BookIsbn);
    assert joined == Joined([r], accounts, []);
    var wide := Widen([r], accounts, []);
    forall i | 0 <= i < |wide| ensures wide[i].row == Standardize(r) {
      assert wide[i] == MakeWide(joined[i]);
      assert joined[i].0 == withAccounts[i];
      assert withAccounts[i] in withAccounts;
    }
  }

  /** Every joined row carries one of the standardised report rows. */
  lemma WidenRows(rows: seq<Row>, accounts: seq<AccountTotals>, books: seq<Book>)
    ensures forall w <- Widen(rows, accounts, books) :: exists r <- rows :: w.row == Standardize(r)
  {
    var std := Project(rows, Standardize);
    var withAccounts := LeftJoin(std, accounts, RowIsbn, AccountIsbn);
    var joined := LeftJoin(withAccounts, books, JoinedIsbn, BookIsbn);
    assert joined == Joined(rows, accounts, books);
    LeftJoinLeft(std, accounts, RowIsbn, AccountIsbn);
    LeftJoinLeft(withAccounts, books, JoinedIsbn, BookIsbn);
    var wide := Widen(rows, accounts, books);
    forall i | 0 <= i < |wide| ensures exists r <- rows :: wide[i].row == Standardize(r) {
      assert wide[i] == MakeWide(joined[i]);
      assert joined[i] in joined;
      assert joined[i].0 in withAccounts;
      assert joined[i].0.0 in std;
      var j :| 0 <= j < |std| && std[j] == joined[i].0.0;
      assert rows[j] in rows;
    }
  }

  // ---------------------------------------------------------------------------
  // The final group-by
  // ---------------------------------------------------------------------------

  /** A row of the final report: the attributes by `first`, the figures by
      `sum`. */
  datatype ReportRow = ReportRow(key: BaseKey, attrs: Attributes, units12: real, dollars12: real,
                                 ytdUnits: real, ytdDollars: real, units4: real, dollars4: real,
                                 months: seq<real>, years: seq<real>)

  function WideKeyOf(w: Wide): BaseKey { w.row.key }
  function WideUnits12(w: Wide): real { w.row.units12 }
  function WideDollars12(w: Wide): real { w.row.dollars12 }
  function WideYtdUnits(w: Wide): real { w.row.ytdUnits }
  function WideYtdDollars(w: Wide): real { w.row.ytdDollars }
  function WideUnits4(w: Wide): real { w.row.units4 }
  function WideDollars4(w: Wide): real { w.row.dollars4 }
  function WideMonths(w: Wide): seq<real> { w.row.months }
  function WideYears(w: Wide): seq<real> { w.row.years }

  function ReportKeyOf(r: ReportRow): BaseKey { r.key }
  function ReportUnits12(r: ReportRow): real { r.units12 }
  function ReportDollars12(r: ReportRow): real { r.dollars12 }
  function ReportYtdUnits(r: ReportRow): real { r.ytdUnits }
  function ReportYtdDollars(r: ReportRow): real { r.ytdDollars }

  /** One group of the final group-by. */
  function MergeFinal(k: BaseKey, g: seq<Wide>): (r: ReportRow)
    ensures r.key == k && |r.months| == 12 && |r.years| == 3
    ensures g != [] ==> r.attrs == g[0].attrs
  {
    ReportRow(k, if g == [] then Fill(None, None) else g[0].attrs,
              Sum(g, WideUnits12), Sum(g, WideDollars12), Sum(g, WideYtdUnits), Sum(g, WideYtdDollars),
              Sum(g, WideUnits4), Sum(g, WideDollars4),
              ColumnSums(Project(g, WideMonths), 12), ColumnSums(Project(g, WideYears), 3))
  }

  /** `group_by(['ISBN','TITLE','NAMECUST','TUTTLE_SALES_CATEGORY'])` after
      the ISBNs were standardised: one row per distinct key, carrying the
      attributes of the first joined row with that key and the totals of the
      figures over all of them. */
  function Final(wide: seq<Wide>): (out: seq<ReportRow>)
    ensures |out| == |Keys(wide, WideKeyOf)|
    ensures NoDup(Project(out, ReportKeyOf))
    ensures forall i :: 0 <= i < |out| ==> out[i].key == Keys(wide, WideKeyOf)[i]
    ensures forall i :: 0 <= i < |out| ==> out[i].attrs == FindRow(wide, WideKeyOf, out[i].key).value.attrs
    ensures forall i :: 0 <= i < |out| ==>
              var g := Groups(wide, WideKeyOf)[i];
              && out[i].units12 == Sum(g, WideUnits12) && out[i].dollars12 == Sum(g, WideDollars12)
              && out[i].ytdUnits == Sum(g, WideYtdUnits) && out[i].ytdDollars == Sum(g, WideYtdDollars)
              && out[i].units4 == Sum(g, WideUnits4) && out[i].dollars4 == Sum(g, WideDollars4)
    ensures forall i :: 0 <= i < |out| ==> |out[i].months| == 12
    ensures forall i, j :: 0 <= i < |out| && 0 <= j < 12 ==>
              out[i].months[j] == Sum(Project(Groups(wide, WideKeyOf)[i], WideMonths), ColumnAt(j))
  {
    var ks, gs := Keys(wide, WideKeyOf), Groups(wide, WideKeyOf);
    var out := seq(|ks|, i requires 0 <= i < |ks| => MergeFinal(ks[i], gs[i]));
    forall i | 0 <= i < |out| ensures out[i].attrs == FindRow(wide, WideKeyOf, ks[i]).value.attrs {
      GroupsShape(wide, WideKeyOf, i);
      GroupOfFirst(wide, WideKeyOf, ks[i]);
    }
    assert Project(out, ReportKeyOf) == ks;
    out
  }

  /** The final group-by conserves the 12M and YTD totals: the differences
      logged around it are 0. */
  lemma FinalTotals(wide: seq<Wide>)
    ensures Sum(Final(wide), ReportUnits12) == Sum(wide, WideUnits12)
    ensures Sum(Final(wide), ReportDollars12) == Sum(wide, WideDollars12)
    ensures Sum(Final(wide), ReportYtdUnits) == Sum(wide, WideYtdUnits)
    ensures Sum(Final(wide), ReportYtdDollars) == Sum(wide, WideYtdDollars)
  {
    var out := Final(wide);
    CollapseTotal(wide, WideKeyOf, out, ReportUnits12, WideUnits12);
    CollapseTotal(wide, WideKeyOf, out, ReportDollars12, WideDollars12);
    CollapseTotal(wide, WideKeyOf, out, ReportYtdUnits, WideYtdUnits);
    CollapseTotal(wide, WideKeyOf, out, ReportYtdDollars, WideYtdDollars);
  }

  /** A row whose rolling columns are the sums of its month columns. */
  predicate Spans(r: Row)
  {
    |r.months| == 12 && r.units12 == Total(r.months) && r.units4 == Total(r.months[..4])
  }

  /** Every built row spans its months, and standardising its ISBN keeps
      that. */
  lemma RowsSpan(facts: seq<Fact>, year: int, month: int)
    requires ValidMonth(month)
    ensures forall r <- Rows(facts, year, month) :: Spans(r) && Spans(Standardize(r))
  {
  }

  /** Summing month columns and rolling columns group by group keeps the
      rolling columns the sums of the month columns. */
  lemma GroupSpans(g: seq<Wide>)
    requires forall w <- g :: Spans(w.row)
    ensures Sum(g, WideUnits12) == Total(ColumnSums(Project(g, WideMonths), 12))
    ensures Sum(g, WideUnits4) == Total(ColumnSums(Project(g, WideMonths), 12)[..4])
  {
    var vs := Project(g, WideMonths);
    forall v <- vs ensures |v| == 12 {
      var i :| 0 <= i < |vs| && vs[i] == v;
      assert vs[i] == WideMonths(g[i]);
      assert g[i] in g;
    }
    forall i | 0 <= i < |g| ensures WideUnits12(g[i]) == TotalTo(12)(vs[i]) && WideUnits4(g[i]) == TotalTo(4)(vs[i]) {
      assert g[i] in g;
      assert vs[i] == g[i].row.months;
      assert vs[i][..12] == vs[i];
    }
    SumMatches(g, WideUnits12, vs, TotalTo(12));
    SumMatches(g, WideUnits4, vs, TotalTo(4));
    SumOfTotals(vs, 12, 12);
    SumOfTotals(vs, 12, 4);
    assert ColumnSums(vs, 12)[..12] == ColumnSums(vs, 12);
  }

  /** In the final report too, 12M_UNITS is the sum of the twelve NET_UNITS
      columns and 4M_UNITS the sum of the first four. */
  lemma FinalSpans(wide: seq<Wide>)
    requires forall w <- wide :: Spans(w.row)
    ensures forall r <- Final(wide) :: r.units12 == Total(r.months) && r.units4 == Total(r.months[..4])
  {
    var out, gs := Final(wide), Groups(wide, WideKeyOf);
    forall i | 0 <= i < |out| ensures out[i].units12 == Total(out[i].months) && out[i].units4 == Total(out[i].months[..4]) {
      GroupsShape(wide, WideKeyOf, i);
      var g := gs[i];
      assert out[i].months == ColumnSums(Project(g, WideMonths), 12);
      GroupSpans(g);
    }
  }

  // ---------------------------------------------------------------------------
  // The whole report
  // ---------------------------------------------------------------------------

  /** The report for the run month (`year`, `month`): stacking, the month
      group-by, the base rows with their window columns, the joins and the
      final group-by. */
  function Report(ingram: seq<Sale>, sage: seq<Sale>, accounts: seq<AccountTotals>, books: seq<Book>,
                  year: int, month: int): (report: seq<ReportRow>)
    requires ValidMonth(month)
    ensures NoDup(Project(report, ReportKeyOf))
  {
    Final(Widen(Rows(Stacked(ingram, sage), year, month), accounts, books))
  }

  /** In every report row 12M_UNITS is the sum of the twelve NET_UNITS
      columns and 4M_UNITS the sum of the latest four. */
  lemma ReportSpans(ingram: seq<Sale>, sage: seq<Sale>, accounts: seq<AccountTotals>, books: seq<Book>,
                    year: int, month: int)
    requires ValidMonth(month)
    ensures forall r <- Report(ingram, sage, accounts, books, year, month) ::
              |r.months| == 12 && r.units12 == Total(r.months) && r.units4 == Total(r.months[..4])
  {
    var rows := Rows(Stacked(ingram, sage), year, month);
    var wide := Widen(rows, accounts, books);
    RowsSpan(Stacked(ingram, sage), year, month);
    WidenRows(rows, accounts, books);
    FinalSpans(wide);
  }

  /** The stamp of a sale, read off its normalised group key. */
  function SaleStamp(t: MonthKey -> int): Sale -> int { s => t(MonthKeyOf(Normalize(s))) }

  /** A window over the stacked frame is the Ingram window plus the Sage
      window. */
  lemma StackedWindow(ingram: seq<Sale>, sage: seq<Sale>, t: MonthKey -> int, p: int -> bool)
    ensures WindowTotal(Stacked(ingram, sage), Stamp(t), p, UnitsOf) ==
            WindowTotal(ingram, SaleStamp(t), p, SaleUnits) + WindowTotal(sage, SaleStamp(t), p, SaleUnits)
    ensures WindowTotal(Stacked(ingram, sage), Stamp(t), p, AmountOf) ==
            WindowTotal(ingram, SaleStamp(t), p, SaleAmount) + WindowTotal(sage, SaleStamp(t), p, SaleAmount)
  {
    var a, b := Project(ingram, Normalize), Project(sage, Normalize);
    WindowTotalAsSumIf(a + b, Stamp(t), p, UnitsOf, Passes(t, p));
    WindowTotalAsSumIf(a + b, Stamp(t), p, AmountOf, Passes(t, p));
    SumIfAppend(a, b, Passes(t, p), UnitsOf);
    SumIfAppend(a, b, Passes(t, p), AmountOf);
    NormalizedWindow(ingram, t, p);
    NormalizedWindow(sage, t, p);
  }

  function Passes(t: MonthKey -> int, p: int -> bool): Fact -> bool { f => p(Stamp(t)(f)) }
  function SalePasses(t: MonthKey -> int, p: int -> bool): Sale -> bool { x => p(SaleStamp(t)(x)) }

  lemma NormalizedWindow(sales: seq<Sale>, t: MonthKey -> int, p: int -> bool)
    ensures WindowTotal(Project(sales, Normalize), Stamp(t), p, UnitsOf) == WindowTotal(sales, SaleStamp(t), p, SaleUnits)
    ensures WindowTotal(Project(sales, Normalize), Stamp(t), p, AmountOf) == WindowTotal(sales, SaleStamp(t), p, SaleAmount)
    ensures SumIf(Project(sales, Normalize), Passes(t, p), UnitsOf) == WindowTotal(sales, SaleStamp(t), p, SaleUnits)
    ensures SumIf(Project(sales, Normalize), Passes(t, p), AmountOf) == WindowTotal(sales, SaleStamp(t), p, SaleAmount)
  {
    var a := Project(sales, Normalize);
    var pa, ps := Passes(t, p), SalePasses(t, p);
    forall i | 0 <= i < |a|
      ensures pa(a[i]) == ps(sales[i]) && UnitsOf(a[i]) == SaleUnits(sales[i]) && AmountOf(a[i]) == SaleAmount(sales[i])
    {
      assert a[i] == Normalize(sales[i]);
      assert Stamp(t)(a[i]) == t(MonthKeyOf(a[i])) == SaleStamp(t)(sales[i]);
      assert pa(a[i]) == p(Stamp(t)(a[i]));
      assert ps(sales[i]) == p(SaleStamp(t)(sales[i]));
    }
    SumIfMatches(a, pa, UnitsOf, sales, ps, SaleUnits);
    SumIfMatches(a, pa, AmountOf, sales, ps, SaleAmount);
    WindowTotalAsSumIf(a, Stamp(t), p, UnitsOf, pa);
    WindowTotalAsSumIf(a, Stamp(t), p, AmountOf, pa);
    WindowTotalAsSumIf(sales, SaleStamp(t), p, SaleUnits, ps);
    WindowTotalAsSumIf(sales, SaleStamp(t), p, SaleAmount, ps);
  }

  /** With each standardised ISBN at most once in ALL_ACCOUNTS_12M_ROLL and
      BOOK_DETAILS, the report's 12M_UNITS and 12M_DOLLARS columns add up to
      the Ingram and Sage units and dollars of the trailing twelve months, and
      its YTD columns to those of the current year. */
  lemma ReportTotals(ingram: seq<Sale>, sage: seq<Sale>, accounts: seq<AccountTotals>, books: seq<Book>,
                     year: int, month: int)
    requires ValidMonth(month)
    requires NoDup(Project(accounts, AccountIsbn)) && NoDup(Project(books, BookIsbn))
    ensures var report, ym, keys := Report(ingram, sage, accounts, books, year, month), SaleStamp(YmOfKey), TrailingKeys(year, month);
      && Sum(report, ReportUnits12) == WindowTotal(ingram, ym, InKeys(keys), SaleUnits) + WindowTotal(sage, ym, InKeys(keys), SaleUnits)
      && Sum(report, ReportDollars12) == WindowTotal(ingram, ym, InKeys(keys), SaleAmount) + WindowTotal(sage, ym, InKeys(keys), SaleAmount)
    ensures var report, yr := Report(ingram, sage, accounts, books, year, month), SaleStamp(YearOfKey);
      && Sum(report, ReportYtdUnits) == WindowTotal(ingram, yr, IsKey(year), SaleUnits) + WindowTotal(sage, yr, IsKey(year), SaleUnits)
      && Sum(report, ReportYtdDollars) == WindowTotal(ingram, yr, IsKey(year), SaleAmount) + WindowTotal(sage, yr, IsKey(year), SaleAmount)
  {
    var facts := Stacked(ingram, sage);
    var rows := Rows(facts, year, month);
    var wide := Widen(rows, accounts, books);
    WidenUnique(rows, accounts, books);
    FinalTotals(wide);
    SumMatches(wide, WideUnits12, rows, Units12Of);
    SumMatches(wide, WideDollars12, rows, Dollars12Of);
    SumMatches(wide, WideYtdUnits, rows, YtdUnitsOf);
    SumMatches(wide, WideYtdDollars, rows, YtdDollarsOf);
    RowsTotals(facts, year, month);
    StackedWindow(ingram, sage, YmOfKey, InKeys(TrailingKeys(year, month)));
    StackedWindow(ingram, sage, YearOfKey, IsKey(year));
  }
}

=== FILE: ingest.dfy ===
/** The three loaders that append the monthly Ingram sales sheet to the
    ING_SALES table: create_ing_sales.py, monthly_sales_upload.py and
    monthly_sales_upload_ing.py. Each one fills missing titles from the item
    table, strips the text cells, derives YEAR and MONTH from the `Date`
    text, fills and rounds the money columns, normalises the ISBN and groups
    by its key columns, summing NETUNITS and NETAMT and keeping the first
    non-null 'SL Class of Trade'. Sheet cells that may be empty are
    `Option`s; the group-by drops every row with a null key cell, as pandas
    does by default. */
module Ingest {
  import opened Wrappers
  import opened Text
  import opened Calendar
  import opened Tables

  // ---------------------------------------------------------------------------
  // clean_isbn
  // ---------------------------------------------------------------------------

  /** `clean_isbn`: null stays null; otherwise delete every ".0", then every
      ".", then every "E+" and every "e+". */
  function CleanIsbn(isbn: Option<string>): (r: Option<string>)
    ensures r.None? <==> isbn.None?
    ensures r.Some? ==> '.' !in r.value && |r.value| <= |isbn.value|
  {
    match isbn
    case None => None
    case Some(s) =>
      var noFraction := RemoveAll(s, ".0");
      RemoveAllChar(noFraction, '.');
      var noDot := RemoveAll(noFraction, ".");
      var noExponent := RemoveAll(noDot, "E+");
      Some(RemoveAll(noExponent, "e+"))
  }

  /** A character absent from `s` cannot begin an occurrence in `s`. */
  lemma AbsentHead(p: string, s: string)
    requires |p| > 0 && p[0] !in s
    ensures !Occurs(p, s)
  {
    forall i | 0 <= i <= |s| - |p| ensures !OccursAt(p, s, i) {
      assert s[i..i + |p|][0] == s[i];
    }
  }

  lemma DigitsAvoid(s: string, c: char)
    requires AllDigits(s) && !IsDigit(c)
    ensures c !in s
  {
    forall i | 0 <= i < |s| ensures s[i] != c {
      assert IsDigit(s[i]);
    }
  }

  /** An ISBN that is already a digit string passes through unchanged. */
  lemma CleanDigits(s: string)
    requires AllDigits(s)
    ensures CleanIsbn(Some(s)) == Some(s)
  {
    DigitsAvoid(s, '.');
    DigitsAvoid(s, 'E');
    DigitsAvoid(s, 'e');
    AbsentHead("E+", s);
    AbsentHead("e+", s);
    CleanPlain(s);
  }

  /** So does any text without a dot, an "E+" or an "e+". */
  lemma CleanPlain(s: string)
    requires '.' !in s && !Occurs("E+", s) && !Occurs("e+", s)
    ensures CleanIsbn(Some(s)) == Some(s)
  {
    AbsentHead(".0", s);
    AbsentHead(".", s);
    RemoveAllAbsent(s, ".0");
    RemoveAllAbsent(s, ".");
    RemoveAllAbsent(s, "E+");
    RemoveAllAbsent(s, "e+");
  }

  /** An ISBN that went through a float column and came back as text with a
      trailing ".0" is restored to its digits. */
  lemma CleanFloatText(d: string)
    requires AllDigits(d)
    ensures CleanIsbn(Some(d + ".0")) == Some(d)
  {
    DigitsAvoid(d, '.');
    RemoveAllSuffix(d, ".0");
    CleanDigits(d);
  }

  /** Scientific notation is not undone: the mantissa's digits and the
      exponent's are run together, so `9.78080484878E+12` becomes the
      14-character `97808048487812`, which the length check only reports. */
  lemma CleanScientific(a: string, b: string, e: string)
    requires AllDigits(a) && AllDigits(b) && AllDigits(e) && (b == [] || b[0] != '0')
    ensures CleanIsbn(Some(a + "." + b + "E+" + e)) == Some(a + b + e)
  {
    var rest := b + "E+" + e;
    var s := a + "." + b + "E+" + e;
    assert s == a + ("." + rest);
    DigitsAvoid(a, '.');
    DigitsAvoid(b, '.');
    DigitsAvoid(e, '.');
    DigitsAvoid(a, 'E');
    DigitsAvoid(b, 'E');
    DigitsAvoid(e, 'E');
    DigitsAvoid(a, 'e');
    DigitsAvoid(b, 'e');
    DigitsAvoid(e, 'e');
    assert '.' !in rest;
    // ".0" never occurs: the dot is followed by a non-zero digit or by 'E'.
    assert RemoveAll(s, ".0") == s by {
      RemoveAllKeepsPrefix(a, "." + rest, ".0");
      assert ("." + rest)[..2] != ".0" by {
        assert ("." + rest)[1] == rest[0];
        assert rest[0] == if b == [] then 'E' else b[0];
      }
      assert ("." + rest)[1..] == rest;
      AbsentHead(".0", rest);
      RemoveAllAbsent(rest, ".0");
    }
    assert RemoveAll(s, ".") == a + rest by {
      RemoveAllKeepsPrefix(a, "." + rest, ".");
      assert ("." + rest)[..1] == "." && ("." + rest)[1..] == rest;
      AbsentHead(".", rest);
      RemoveAllAbsent(rest, ".");
    }
    assert RemoveAll(a + rest, "E+") == a + b + e by {
      assert a + rest == (a + b) + ("E+" + e);
      RemoveAllKeepsPrefix(a + b, "E+" + e, "E+");
      assert ("E+" + e)[..2] == "E+" && ("E+" + e)[2..] == e;
      AbsentHead("E+", e);
      RemoveAllAbsent(e, "E+");
    }
    assert 'e' !in a + b + e;
    AbsentHead("e+", a + b + e);
    RemoveAllAbsent(a + b + e, "e+");
  }

  // ---------------------------------------------------------------------------
  // YEAR and MONTH from the Date text
  // ---------------------------------------------------------------------------

  /** Python's `s[i:]`. */
  function From(s: string, i: nat): (r: string)
    ensures |r| == if i <= |s| then |s| - i else 0
    ensures i <= |s| ==> s == s[..i] + r
  {
    if i <= |s| then s[i..] else ""
  }

  /** Python's `s[:j]`. */
  function UpTo(s: string, j: nat): (r: string)
    ensures |r| == if j <= |s| then j else |s|
    ensures StartsWith(s, r)
  {
    if j <= |s| then s[..j] else s
  }

  /** `Date.str[6:]`: everything after the `mm/dd/` part. */
  function YearText(date: string): string { From(date, 6) }

  /** `Date.str[0:2].str.replace('0', '')` as written: EVERY zero of the
      first two characters is deleted. */
  function MonthTextAsWritten(date: string): string { RemoveAll(UpTo(date, 2), "0") }

  /** The month as intended: the first two characters with a leading zero
      dropped. */
  function MonthText(date: string): (r: string)
    ensures |r| <= 2
  {
    var m := UpTo(date, 2);
    if |m| > 0 && m[0] == '0' then m[1..] else m
  }

  /** The sheet's `mm/dd/yyyy` text for a date. */
  function DateText(y: nat, m: nat, d: nat): (s: string)
    requires m < 100 && d < 100
  {
    PadTwo(m) + "/" + PadTwo(d) + "/" + NatToString(y)
  }

  lemma DateTextParts(y: nat, m: nat, d: nat)
    requires m < 100 && d < 100
    ensures UpTo(DateText(y, m, d), 2) == PadTwo(m)
    ensures YearText(DateText(y, m, d)) == NatToString(y)
  {
    var s := DateText(y, m, d);
    assert s[..2] == PadTwo(m);
    assert s[6..] == NatToString(y);
  }

  /** The intended month text of a month's date is the month's number, for
      every month of the year. */
  lemma MonthTextRoundTrip(y: nat, m: int, d: nat)
    requires ValidMonth(m) && d < 100
    ensures MonthText(DateText(y, m, d)) == NatToString(m)
    ensures StringToNat(NatToString(m)) == m
  {
    DateTextParts(y, m, d);
    NatToStringRoundTrip(m);
    if m >= 10 {
      assert NatToString(m) == NatToString(1) + [DigitChar(m % 10)];
    }
  }

  /** As written the month text is right for every month but October,
      whose "10" loses its zero and reads as January. */
  lemma MonthAsWrittenExceptOctober(y: nat, m: int, d: nat)
    requires ValidMonth(m) && d < 100
    ensures MonthTextAsWritten(DateText(y, m, d)) == MonthText(DateText(y, m, d)) <==> m != 10
  {
    DateTextParts(y, m, d);
    var c := PadTwo(m);
    if m < 10 {
      assert c == ['0', DigitChar(m)];
      assert DigitChar(m) != '0';
      assert c[..1] == "0";
      assert c[1..][..1] == [DigitChar(m)];
      assert RemoveAll(c, "0") == RemoveAll(c[1..], "0") == c[1..];
    } else if m == 10 {
      assert c == "10";
      assert RemoveAll(c, "0") == "1";
    } else {
      assert c[0] == '1' && c[1] != '0';
      assert c[..1] == ['1'] && c[1..][..1] == [c[1]] && c[1..][1..] == [];
      assert RemoveAll(c, "0") == c;
    }
  }

  /** The date of the first of October 2024. */
  lemma OctoberReadsAsJanuary()
    ensures MonthTextAsWritten("10/01/2024") == "1"
    ensures MonthText("10/01/2024") == "10"
    ensures YearText("10/01/2024") == "2024"
  {
    assert UpTo("10/01/2024", 2) == "10";
    assert RemoveAll("10", "0") == "1" + RemoveAll("0", "0");
  }

  // ---------------------------------------------------------------------------
  // pd.to_datetime(Date, format='%m/%d/%Y', errors='coerce')
  // ---------------------------------------------------------------------------

  predicate IsLeap(y: int) { y % 4 == 0 && (y % 100 != 0 || y % 400 == 0) }

  function DaysIn(y: int, m: int): (n: int)
    requires ValidMonth(m)
    ensures 28 <= n <= 31
  {
    if m == 2 then (if IsLeap(y) then 29 else 28)
    else if m == 4 || m == 6 || m == 9 || m == 11 then 30
    else 31
  }

  predicate ValidDate(y: int, m: int, d: int) { ValidMonth(m) && 1 <= d <= DaysIn(y, m) }

  /** The days a nanosecond timestamp can hold, 1677-09-22 to 2262-04-11;
      a date outside them is coerced to null. */
  predicate InTimestampRange(y: int, m: int, d: int) {
    && (y > 1677 || (y == 1677 && (m > 9 || (m == 9 && d >= 22))))
    && (y < 2262 || (y == 2262 && (m < 4 || (m == 4 && d <= 11))))
  }

  /** The date's (year, month), or null when the text is not a
      `month/day/four-digit-year` date of the calendar: `%m` and `%d` take one
      or two digits, `%Y` four. */
  function ParseDate(s: string): (r: Option<(int, int)>)
    ensures r.Some? ==> ValidMonth(r.value.1) && 1677 <= r.value.0 <= 2262
  {
    var parts := Split(s, '/');
    if |parts| != 3 then None
    else
      var ms, ds, ys := parts[0], parts[1], parts[2];
      if !(1 <= |ms| <= 2 && 1 <= |ds| <= 2 && |ys| == 4 && AllDigits(ms) && AllDigits(ds) && AllDigits(ys)) then None
      else
        var y, m, d := StringToNat(ys), StringToNat(ms), StringToNat(ds);
        if ValidDate(y, m, d) && InTimestampRange(y, m, d) then Some((y, m)) else None
  }

  /** A written date parses back to its year and month exactly when it is a
      calendar day a timestamp can hold; any other `mm/dd/yyyy` text becomes
      null. */
  lemma ParseDateText(y: nat, m: nat, d: nat)
    requires 1000 <= y <= 9999 && m < 100 && d < 100
    ensures ParseDate(DateText(y, m, d)).Some? <==> ValidDate(y, m, d) && InTimestampRange(y, m, d)
    ensures ParseDate(DateText(y, m, d)).Some? ==> ParseDate(DateText(y, m, d)).value == (y, m)
  {
    var parts := [PadTwo(m), PadTwo(d), NatToString(y)];
    DigitsAvoid(PadTwo(m), '/');
    DigitsAvoid(PadTwo(d), '/');
    DigitsAvoid(NatToString(y), '/');
    assert Join(parts, '/') == DateText(y, m, d) by {
      assert parts[1..][1..] == [NatToString(y)];
      assert Join(parts[1..], '/') == PadTwo(d) + ['/'] + NatToString(y);
    }
    SplitJoin(parts, '/');
    FourDigitYear(y);
    PadTwoRoundTrip(m);
    PadTwoRoundTrip(d);
    NatToStringRoundTrip(y);
  }

  /** On every date a timestamp holds, the intended text columns and the
      parsed columns carry the same numbers. */
  lemma TextAndParseAgree(y: nat, m: nat, d: nat)
    requires 1000 <= y <= 9999 && ValidDate(y, m, d) && InTimestampRange(y, m, d)
    ensures AllDigits(YearText(DateText(y, m, d))) && AllDigits(MonthText(DateText(y, m, d)))
    ensures ParseDate(DateText(y, m, d))
         == Some((StringToNat(YearText(DateText(y, m, d))), StringToNat(MonthText(DateText(y, m, d)))))
  {
    ParseDateText(y, m, d);
    DateTextParts(y, m, d);
    MonthTextRoundTrip(y, m, d);
    NatToStringRoundTrip(y);
  }

  // ---------------------------------------------------------------------------
  // prev_month, round()
  // ---------------------------------------------------------------------------

  /** `prev_month`: the calendar month before `month`. */
  function PrevMonth(month: int): (r: int)
    requires ValidMonth(month)
    ensures ValidMonth(r) && (month - r) % 12 == 1
  {
    if month == 1 then 12 else month - 1
  }

  /** It is the month of the newest key of the reports' trailing window. */
  lemma PrevMonthIsNewest(year: int, month: int)
    requires ValidMonth(month)
    ensures KeyMonth(TrailingKeys(year, month)[0]) == PrevMonth(month)
  {
    DecodeEncode(MonthsBack(year, month, 1).0, MonthsBack(year, month, 1).1);
  }

  /** `Series.round()` then `astype(int)`: the nearest integer, and on a tie
      the even one. */
  function RoundHalfEven(x: real): (r: int)
    ensures -0.5 <= x - r as real <= 0.5
    ensures (x - r as real == 0.5 || r as real - x == 0.5) ==> r % 2 == 0
  {
    var f := x.Floor;
    var frac := x - f as real;
    if frac < 0.5 then f
    else if frac > 0.5 then f + 1
    else if f % 2 == 0 then f else f + 1
  }

  /** Only one integer is that close with that tie rule. */
  lemma RoundUnique(x: real, n: int)
    requires -0.5 <= x - n as real <= 0.5
    requires (x - n as real == 0.5 || n as real - x == 0.5) ==> n % 2 == 0
    ensures n == RoundHalfEven(x)
  {
  }

  // ---------------------------------------------------------------------------
  // Sheet rows, the item table and the title fill
  // ---------------------------------------------------------------------------

  /** One line of the sheet: 'Net Sold Units', 'Net Invc', 'EAN', 'Date',
      'Title', 'Headquarter', 'SL Class of Trade', 'HQ Account Number',
      'SL Account Number' and 'IPS Sale'. */
  datatype SheetRow = SheetRow(
    units: Option<real>, amount: Option<real>, ean: Option<string>, date: Option<string>,
    title: Option<string>, name: Option<string>, trade: Option<string>,
    hq: Option<string>, sl: Option<string>, ips: Option<string>)

  /** A line of the item table: `TRIM(Z_ID)` and `TRIM(LONG_TITLE)`. */
  datatype BookTitle = BookTitle(isbn: Option<string>, title: Option<string>)

  function EanOf(r: SheetRow): Option<string> { r.ean }

  function BookIsbn(b: BookTitle): Option<string> { b.isbn }

  /** `astype(str)` of a text cell: a null cell becomes the text pandas
      writes for it ("nan" for a missing float, "None" for a missing
      object). */
  function AsText(v: Option<string>, nullText: string): (r: Option<string>)
    ensures r.Some? && (v.Some? ==> r == v)
  {
    Some(v.GetOr(nullText))
  }

  /** `Title.fillna(TITLE_Itemflat)` on one row of the merge: only the title
      can change, and a present title is kept. */
  function FillTitle(e: (SheetRow, Option<BookTitle>)): (r: SheetRow)
    ensures r.(title := e.0.title) == e.0
    ensures e.0.title.Some? ==> r == e.0
  {
    if e.0.title.Some? then e.0
    else match e.1
      case Some(b) => e.0.(title := b.title)
      case None => e.0
  }

  /** `merge(book_mapping, left_on='EAN', right_on='ISBN', how='left')`
      followed by the title fill. Null keys match each other, as in pandas. */
  function FillTitles(rows: seq<SheetRow>, books: seq<BookTitle>): (r: seq<SheetRow>)
    ensures |r| >= |rows|
  {
    Project(LeftJoin(rows, books, EanOf, BookIsbn), FillTitle)
  }

  /** The title the item table has for an EAN: the first matching line's. */
  function CatalogTitle(books: seq<BookTitle>, ean: Option<string>): Option<string>
  {
    match FindRow(books, BookIsbn, ean)
    case Some(b) => b.title
    case None => None
  }

  /** Against an item table with one line per ISBN the merge keeps the
      sheet's rows one for one, and a missing title is taken from the
      table. */
  lemma FillTitlesUnique(rows: seq<SheetRow>, books: seq<BookTitle>)
    requires NoDup(Project(books, BookIsbn))
    ensures |FillTitles(rows, books)| == |rows|
    ensures forall i :: 0 <= i < |rows| ==>
              FillTitles(rows, books)[i]
              == rows[i].(title := if rows[i].title.Some? then rows[i].title else CatalogTitle(books, rows[i].ean))
  {
    var joined := LeftJoin(rows, books, EanOf, BookIsbn);
    LeftJoinUnique(rows, books, EanOf, BookIsbn);
    forall i | 0 <= i < |rows|
      ensures FillTitles(rows, books)[i]
              == rows[i].(title := if rows[i].title.Some? then rows[i].title else CatalogTitle(books, rows[i].ean))
    {
      assert FillTitles(rows, books)[i] == FillTitle(joined[i]);
      assert joined[i] == (rows[i], FindRow(books, BookIsbn, rows[i].ean));
    }
  }

  /** An EAN the table lists under several titles repeats the sheet row once
      per line, so its units are counted as often. */
  lemma FillTitlesRepeats(r: SheetRow, books: seq<BookTitle>)
    requires |GroupOf(books, BookIsbn, r.ean)| >= 1
    ensures |FillTitles([r], books)| == |GroupOf(books, BookIsbn, r.ean)|
    ensures forall x <- FillTitles([r], books) :: x.(title := r.title) == r
  {
    var joined := LeftJoin([r], books, EanOf, BookIsbn);
    LeftJoinRepeats(r, books, EanOf, BookIsbn);
    var filled := FillTitles([r], books);
    forall x <- filled ensures x.(title := r.title) == r {
      var i :| 0 <= i < |filled| && filled[i] == x;
      assert filled[i] == FillTitle(joined[i]);
      assert joined[i] in joined;
    }
  }

  /** A line of INGRAM_MASTER_CATEGORIES as the query trims it, after
      `drop_duplicates` on the SL and HQ numbers. */
  datatype CategoryRow = CategoryRow(sl: Option<string>, hq: Option<string>, category: Option<string>)

  /** The sheet's SL number as the monthly upload joins it: `astype(str)`
      (a missing cell becomes "nan") padded with `zfill(9)`. */
  function PaddedSl(r: SheetRow): string { ZFill(r.sl.GetOr("nan"), 9) }

  /** The category table's SL number after `astype(str)`. */
  function CategorySl(c: CategoryRow): string { c.sl.GetOr("None") }

  function SheetPart(e: (SheetRow, Option<CategoryRow>)): SheetRow { e.0 }

  /** monthly_sales_upload.py's `merge(ingram_master_sales_categories,
      how='left', on='SL Account Number')`: the join uses the SL number alone,
      although the table is only unique on SL and HQ together. The category
      is renamed and then left out of the written columns, so what remains
      of the merge is which sheet rows it keeps and how often. */
  function WithCategories(rows: seq<SheetRow>, cats: seq<CategoryRow>): (r: seq<SheetRow>)
    ensures |r| >= |rows|
  {
    Project(LeftJoin(rows, cats, PaddedSl, CategorySl), SheetPart)
  }

  /** Against a category table listing each SL number once the merge leaves
      the sheet as it was. */
  lemma WithCategoriesUnique(rows: seq<SheetRow>, cats: seq<CategoryRow>)
    requires NoDup(Project(cats, CategorySl))
    ensures WithCategories(rows, cats) == rows
  {
    LeftJoinUnique(rows, cats, PaddedSl, CategorySl);
    var joined := LeftJoin(rows, cats, PaddedSl, CategorySl);
    forall i | 0 <= i < |rows| ensures WithCategories(rows, cats)[i] == rows[i] {
      assert WithCategories(rows, cats)[i] == SheetPart(joined[i]);
    }
  }

  /** An SL number the table lists under several HQ numbers repeats the
      sheet row once per line, so its units and amount are counted that
      many times. */
  lemma WithCategoriesRepeats(r: SheetRow, cats: seq<CategoryRow>)
    requires |GroupOf(cats, CategorySl, PaddedSl(r))| >= 1
    ensures |WithCategories([r], cats)| == |GroupOf(cats, CategorySl, PaddedSl(r))|
    ensures forall x <- WithCategories([r], cats) :: x == r
  {
    var joined := LeftJoin([r], cats, PaddedSl, CategorySl);
    LeftJoinRepeats(r, cats, PaddedSl, CategorySl);
    var out := WithCategories([r], cats);
    forall x <- out ensures x == r {
      var i :| 0 <= i < |out| && out[i] == x;
      assert out[i] == SheetPart(joined[i]);
      assert joined[i] in joined;
    }
  }

  // ---------------------------------------------------------------------------
  // str.strip() on the text columns
  // ---------------------------------------------------------------------------

  /** The strip loop over the text columns; the numbers are untouched. */
  function Strip(r: SheetRow): (s: SheetRow)
    ensures s.units == r.units && s.amount == r.amount
  {
    r.(ean := StripCell(r.ean), date := StripCell(r.date), title := StripCell(r.title),
       name := StripCell(r.name), trade := StripCell(r.trade), hq := StripCell(r.hq),
       sl := StripCell(r.sl), ips := StripCell(r.ips))
  }

  /** Stripping keeps which cells are null, and a second strip changes
      nothing. */
  lemma StripIdempotent(r: SheetRow)
    ensures Strip(Strip(r)) == Strip(r)
    ensures Strip(r).title.Some? <==> r.title.Some?
    ensures Strip(r).date.Some? <==> r.date.Some?
  {
    StripCellTwice(r.ean);
    StripCellTwice(r.date);
    StripCellTwice(r.title);
    StripCellTwice(r.name);
    StripCellTwice(r.trade);
    StripCellTwice(r.hq);
    StripCellTwice(r.sl);
    StripCellTwice(r.ips);
  }

  // ---------------------------------------------------------------------------
  // The frame before the group-by
  // ---------------------------------------------------------------------------

  /** A row just before the group-by: NETUNITS, NETAMT, ISBN, YEAR, MONTH,
      TITLE, NAMECUST, 'SL Class of Trade', the two account numbers and
      'IPS Sale'. YEAR and MONTH have type `D`: text in two loaders, numbers
      in the third. */
  datatype Prepared<D> = Prepared(
    units: int, amount: real, isbn: Option<string>, year: Option<D>, month: Option<D>,
    title: Option<string>, name: Option<string>, trade: Option<string>,
    hq: Option<string>, sl: Option<string>, ips: Option<string>)

  function UnitsOf<D>(p: Prepared<D>): real { p.units as real }

  function AmountOf<D>(p: Prepared<D>): real { p.amount }

  function TradeOf<D>(p: Prepared<D>): Option<string> { p.trade }

  /** NETUNITS: `fillna(0)`, `round()`, `astype(int)`. */
  function NetUnits(r: SheetRow): (n: int)
    ensures r.units.None? ==> n == 0
    ensures r.units.Some? ==> -0.5 <= r.units.value - n as real <= 0.5
  {
    RoundHalfEven(r.units.GetOr(0.0))
  }

  function NetUnitsOf(r: SheetRow): real { NetUnits(r) as real }

  /** NETAMT: `fillna(0)`. */
  function NetAmount(r: SheetRow): real { r.amount.GetOr(0.0) }

  /** YEAR from the Date text, null where the Date cell is. */
  function TextYear(r: SheetRow): Option<string>
  {
    match r.date
    case Some(t) => Some(YearText(t))
    case None => None
  }

  /** MONTH from the Date text, with the leading zero dropped. */
  function TextMonth(r: SheetRow): Option<string>
  {
    match r.date
    case Some(t) => Some(MonthText(t))
    case None => None
  }

  /** The coerced date's (year, month), null where it does not parse. */
  function ParsedDate(r: SheetRow): Option<(int, int)>
  {
    match r.date
    case Some(t) => ParseDate(t)
    case None => None
  }

  // ---------------------------------------------------------------------------
  // The group-by
  // ---------------------------------------------------------------------------

  /** The eight group-by columns of two loaders: ISBN, YEAR, MONTH, TITLE,
      NAMECUST, 'HQ Account Number', 'SL Account Number', 'IPS Sale'. */
  datatype Key8<D> = Key8(
    isbn: Option<string>, year: Option<D>, month: Option<D>, title: Option<string>,
    name: Option<string>, hq: Option<string>, sl: Option<string>, ips: Option<string>)

  /** The six of monthly_sales_upload.py: no account numbers. */
  datatype Key6 = Key6(
    isbn: Option<string>, year: Option<string>, month: Option<string>, title: Option<string>,
    name: Option<string>, ips: Option<string>)

  function Key8Of<D>(p: Prepared<D>): Key8<D> {
    Key8(p.isbn, p.year, p.month, p.title, p.name, p.hq, p.sl, p.ips)
  }

  function Key6Of(p: Prepared<string>): Key6 {
    Key6(p.isbn, p.year, p.month, p.title, p.name, p.ips)
  }

  /** A key with no null cell; `groupby` drops every other row. */
  predicate Full8<D>(k: Key8<D>) {
    k.isbn.Some? && k.year.Some? && k.month.Some? && k.title.Some? && k.name.Some?
    && k.hq.Some? && k.sl.Some? && k.ips.Some?
  }

  predicate Full6(k: Key6) {
    k.isbn.Some? && k.year.Some? && k.month.Some? && k.title.Some? && k.name.Some? && k.ips.Some?
  }

  /** An output row of ING_SALES: the key, the two sums and the first
      non-null 'SL Class of Trade'. */
  datatype Grouped<K> = Grouped(key: K, units: int, amount: real, trade: Option<string>)

  function GroupedKey<K>(g: Grouped<K>): K { g.key }

  function GroupedUnits<K>(g: Grouped<K>): real { g.units as real }

  function GroupedAmount<K>(g: Grouped<K>): real { g.amount }

  /** The integer NETUNITS sum of a group. */
  function UnitsTotal<D>(g: seq<Prepared<D>>): (n: int)
    ensures n as real == Sum(g, UnitsOf)
    decreases |g|
  {
    if g == [] then 0 else g[0].units + UnitsTotal(g[1..])
  }

  /** The aggregation of one group. */
  function Merge<K, D>(k: K, g: seq<Prepared<D>>): (r: Grouped<K>)
    ensures r.key == k && r.units as real == Sum(g, UnitsOf) && r.amount == Sum(g, AmountOf)
    ensures r.trade.Some? ==> exists p <- g :: p.trade == r.trade
    ensures r.trade.None? <==> forall p <- g :: p.trade.None?
  {
    FirstTrade(g);
    Grouped(k, UnitsTotal(g), Sum(g, AmountOf), FirstPresent(Project(g, TradeOf)))
  }

  lemma FirstTrade<D>(g: seq<Prepared<D>>)
    ensures var first := FirstPresent(Project(g, TradeOf));
      && (first.Some? ==> exists p <- g :: p.trade == first)
      && (first.None? <==> forall p <- g :: p.trade.None?)
  {
    var trades := Project(g, TradeOf);
    var first := FirstPresent(trades);
    if first.Some? {
      var j :| 0 <= j < |trades| && trades[j] == first;
      assert trades[j] == TradeOf(g[j]);
      assert g[j] in g;
    } else {
      forall p <- g ensures p.trade.None? {
        var j :| 0 <= j < |g| && g[j] == p;
        assert trades[j] == TradeOf(g[j]);
      }
    }
  }

  /** `groupby(key).agg({'NETUNITS': 'sum', 'NETAMT': 'sum',
      'SL Class of Trade': 'first'}).reset_index()`, rows with a null key
      cell dropped. */
  function GroupBy<D, K(==)>(rows: seq<Prepared<D>>, key: Prepared<D> -> K, full: K -> bool): (out: seq<Grouped<K>>)
    ensures NoDup(Project(out, GroupedKey))
    ensures forall o <- out :: full(o.key) && exists p <- rows :: key(p) == o.key
    ensures forall p <- rows :: full(key(p)) ==> exists o <- out :: o.key == key(p)
  {
    var kept := Where(rows, Selects(full, key));
    var out := Collapse(kept, key, Merge);
    var ks, gs := Keys(kept, key), Groups(kept, key);
    assert forall i | 0 <= i < |out| :: out[i] == Merge(ks[i], gs[i]);
    assert Project(out, GroupedKey) == ks;
    forall o <- out ensures full(o.key) && exists p <- rows :: key(p) == o.key {
      var i :| 0 <= i < |out| && out[i] == o;
      assert o.key in ks;
      ProjectMember(kept, key, o.key);
      var j :| 0 <= j < |kept| && key(kept[j]) == o.key;
      assert kept[j] in kept;
    }
    forall p <- rows | full(key(p)) ensures exists o <- out :: o.key == key(p) {
      assert p in kept;
      KeysCover(kept, key);
      var i :| 0 <= i < |ks| && ks[i] == key(p);
      assert out[i] in out;
    }
    out
  }

  /** The group-by conserves the NETUNITS and NETAMT totals of the rows it
      keeps: what the "before" and "after" log lines compare. */
  lemma GroupByTotals<D, K>(rows: seq<Prepared<D>>, key: Prepared<D> -> K, full: K -> bool)
    ensures Sum(GroupBy(rows, key, full), GroupedUnits) == SumIf(rows, Selects(full, key), UnitsOf)
    ensures Sum(GroupBy(rows, key, full), GroupedAmount) == SumIf(rows, Selects(full, key), AmountOf)
  {
    var kept := Where(rows, Selects(full, key));
    assert GroupBy(rows, key, full) == Collapse(kept, key, Merge);
    MergeTotals(kept, key);
    SumWhere(rows, Selects(full, key), UnitsOf);
    SumWhere(rows, Selects(full, key), AmountOf);
  }

  /** Merging groups keeps the unit and amount totals. */
  lemma MergeTotals<D, K>(kept: seq<Prepared<D>>, key: Prepared<D> -> K)
    ensures Sum(Collapse(kept, key, Merge), GroupedUnits) == Sum(kept, UnitsOf)
    ensures Sum(Collapse(kept, key, Merge), GroupedAmount) == Sum(kept, AmountOf)
  {
    var out := Collapse(kept, key, Merge);
    var ks, gs := Keys(kept, key), Groups(kept, key);
    forall i | 0 <= i < |out|
      ensures GroupedUnits(out[i]) == Sum(gs[i], UnitsOf) && GroupedAmount(out[i]) == Sum(gs[i], AmountOf)
    {
      var m := Merge(ks[i], gs[i]);
      assert out[i] == m;
    }
    CollapseTotal(kept, key, out, GroupedUnits, UnitsOf);
    CollapseTotal(kept, key, out, GroupedAmount, AmountOf);
  }

  /** With no null key cell the totals after the group-by are the totals
      before it. */
  lemma GroupByLossless<D, K>(rows: seq<Prepared<D>>, key: Prepared<D> -> K, full: K -> bool)
    requires forall p <- rows :: full(key(p))
    ensures Sum(GroupBy(rows, key, full), GroupedUnits) == Sum(rows, UnitsOf)
    ensures Sum(GroupBy(rows, key, full), GroupedAmount) == Sum(rows, AmountOf)
  {
    GroupByTotals(rows, key, full);
    SumIfAll(rows, Selects(full, key), UnitsOf);
    SumIfAll(rows, Selects(full, key), AmountOf);
  }

  /** A row with a null key cell contributes to no output row. */
  lemma GroupByDrops<D, K>(rows: seq<Prepared<D>>, key: Prepared<D> -> K, full: K -> bool, p: Prepared<D>)
    requires !full(key(p))
    ensures forall o <- GroupBy(rows, key, full) :: o.key != key(p)
  {
  }

  /** The row in the output for a key: its class of trade is the first
      non-null one among the rows with that key, null only when all are. */
  lemma GroupByTrade<D, K>(rows: seq<Prepared<D>>, key: Prepared<D> -> K, full: K -> bool, o: Grouped<K>)
    requires o in GroupBy(rows, key, full)
    ensures o.trade.Some? ==> exists p <- rows :: key(p) == o.key && p.trade == o.trade
    ensures o.trade.None? ==> forall p <- rows :: key(p) == o.key ==> p.trade.None?
  {
    var kept := Where(rows, Selects(full, key));
    var out := GroupBy(rows, key, full);
    var ks, gs := Keys(kept, key), Groups(kept, key);
    var i :| 0 <= i < |out| && out[i] == o;
    assert o == Merge(ks[i], gs[i]);
    var g := GroupOf(kept, key, ks[i]);
    assert gs[i] == g;
    if o.trade.None? {
      forall p <- rows | key(p) == o.key ensures p.trade.None? {
        assert p in kept;
        GroupOfComplete(kept, key, p);
      }
    }
  }

  // ---------------------------------------------------------------------------
  // The three loaders
  // ---------------------------------------------------------------------------

  /** The frame's columns from a cleaned sheet row, YEAR and MONTH as text.
      MONTH is the corrected `MonthText`, which keeps October as "10"; the
      code's every-zero removal is `MonthTextAsWritten`. */
  function TextRow(r: SheetRow): (p: Prepared<string>)
    ensures p.units == NetUnits(r) && p.amount == NetAmount(r)
    ensures p.isbn.None? <==> r.ean.None?
    ensures p.year.Some? <==> r.date.Some?
    ensures p.month.Some? <==> r.date.Some?
  {
    Prepared(NetUnits(r), NetAmount(r), CleanIsbn(r.ean), TextYear(r), TextMonth(r),
             r.title, r.name, r.trade, r.hq, r.sl, r.ips)
  }

  /** The frame's columns with YEAR and MONTH taken from the coerced date and
      the ISBN cast with `astype(str)`. */
  function ParsedRow(r: SheetRow): (p: Prepared<int>)
    ensures p.units == NetUnits(r) && p.amount == NetAmount(r)
    ensures p.isbn.Some?
    ensures p.year.Some? <==> ParsedDate(r).Some?
    ensures p.month.Some? <==> ParsedDate(r).Some?
    ensures p.month.Some? ==> ValidMonth(p.month.value)
  {
    var date := ParsedDate(r);
    Prepared(NetUnits(r), NetAmount(r), AsText(r.ean, "nan"),
             if date.Some? then Some(date.value.0) else None,
             if date.Some? then Some(date.value.1) else None,
             r.title, r.name, r.trade, r.hq, r.sl, r.ips)
  }

  /** The account numbers cast with `astype(str)`. */
  function TypedAccounts(r: SheetRow): SheetRow { r.(hq := AsText(r.hq, "nan"), sl := AsText(r.sl, "nan")) }

  /** EAN cast with `astype(str)` before the merge. */
  function TextEan(r: SheetRow): SheetRow { r.(ean := AsText(r.ean, "nan")) }

  /** The item table's ISBN cast with `astype(str)`. */
  function TextBookIsbn(b: BookTitle): BookTitle { b.(isbn := AsText(b.isbn, "None")) }

  /** create_ing_sales.py up to the group-by: cast the account numbers, strip,
      cast EAN and merge the titles, derive the columns. */
  function CreateIngFrame(sheet: seq<SheetRow>, books: seq<BookTitle>): seq<Prepared<string>>
  {
    var stripped := Project(Project(sheet, TypedAccounts), Strip);
    Project(FillTitles(Project(stripped, TextEan), Project(books, TextBookIsbn)), TextRow)
  }

  /** In create_ing_sales.py a row without an EAN is not dropped: the cast
      turns its ISBN into the text "nan", which `clean_isbn` keeps. */
  lemma MissingEanKept(r: SheetRow)
    requires r.ean.None?
    ensures TextRow(TextEan(Strip(TypedAccounts(r)))).isbn == Some("nan")
  {
    AbsentHead("E+", "nan");
    AbsentHead("e+", "nan");
    CleanPlain("nan");
  }

  /** create_ing_sales.py: the rows it writes to ING_SALES. */
  function CreateIngSales(sheet: seq<SheetRow>, books: seq<BookTitle>): (out: seq<Grouped<Key8<string>>>)
    ensures NoDup(Project(out, GroupedKey))
    ensures forall o <- out :: Full8(o.key)
  {
    GroupBy(CreateIngFrame(sheet, books), Key8Of, Full8)
  }

  /** monthly_sales_upload.py up to the group-by: merge the categories on
      the padded SL number, merge the titles, strip, derive the columns. */
  function MonthlyFrame(sheet: seq<SheetRow>, cats: seq<CategoryRow>, books: seq<BookTitle>): seq<Prepared<string>>
  {
    Project(Project(FillTitles(WithCategories(sheet, cats), books), Strip), TextRow)
  }

  /** monthly_sales_upload.py: the rows it appends to ING_SALES. */
  function MonthlySalesUpload(sheet: seq<SheetRow>, cats: seq<CategoryRow>, books: seq<BookTitle>): (out: seq<Grouped<Key6>>)
    ensures NoDup(Project(out, GroupedKey))
    ensures forall o <- out :: Full6(o.key)
  {
    GroupBy(MonthlyFrame(sheet, cats, books), Key6Of, Full6)
  }

  /** monthly_sales_upload_ing.py up to the group-by. */
  function IngFrame(sheet: seq<SheetRow>, books: seq<BookTitle>): seq<Prepared<int>>
  {
    Project(Project(FillTitles(sheet, books), Strip), ParsedRow)
  }

  /** monthly_sales_upload_ing.py: the rows it appends to ING_SALES, YEAR and
      MONTH as numbers. */
  function MonthlySalesUploadIng(sheet: seq<SheetRow>, books: seq<BookTitle>): (out: seq<Grouped<Key8<int>>>)
    ensures NoDup(Project(out, GroupedKey))
    ensures forall o <- out :: Full8(o.key) && ValidMonth(o.key.month.value)
  {
    var frame := IngFrame(sheet, books);
    var stripped := Project(FillTitles(sheet, books), Strip);
    forall p <- frame ensures p.month.Some? ==> ValidMonth(p.month.value) {
      var i :| 0 <= i < |frame| && frame[i] == p;
      assert p == ParsedRow(stripped[i]);
    }
    GroupBy(frame, Key8Of, Full8)
  }

  /** With one item-table line per ISBN, create_ing_sales.py keeps every sheet
      row, with its rounded units and filled amount; the ISBN and the account
      numbers are never null, so a row is grouped exactly when its date,
      title, customer and IPS flag are present. */
  lemma CreateIngFrameShape(sheet: seq<SheetRow>, books: seq<BookTitle>)
    requires NoDup(Project(Project(books, TextBookIsbn), BookIsbn))
    ensures |CreateIngFrame(sheet, books)| == |sheet|
    ensures forall i :: 0 <= i < |sheet| ==>
              var p := CreateIngFrame(sheet, books)[i];
              && p.units == NetUnits(sheet[i]) && p.amount == NetAmount(sheet[i])
              && p.isbn.Some? && p.hq.Some? && p.sl.Some?
              && (sheet[i].title.Some? ==> p.title.Some?)
              && (Full8(Key8Of(p)) <==> sheet[i].date.Some? && p.title.Some? && sheet[i].name.Some? && sheet[i].ips.Some?)
  {
    var stripped := Project(Project(sheet, TypedAccounts), Strip);
    var keyed := Project(stripped, TextEan);
    var catalog := Project(books, TextBookIsbn);
    FillTitlesUnique(keyed, catalog);
    var filled := FillTitles(keyed, catalog);
    forall i | 0 <= i < |sheet|
      ensures var p := CreateIngFrame(sheet, books)[i];
              && p.units == NetUnits(sheet[i]) && p.amount == NetAmount(sheet[i])
              && p.isbn.Some? && p.hq.Some? && p.sl.Some?
              && (sheet[i].title.Some? ==> p.title.Some?)
              && (Full8(Key8Of(p)) <==> sheet[i].date.Some? && p.title.Some? && sheet[i].name.Some? && sheet[i].ips.Some?)
    {
      assert stripped[i] == Strip(TypedAccounts(sheet[i]));
      assert keyed[i] == TextEan(stripped[i]);
      assert CreateIngFrame(sheet, books)[i] == TextRow(filled[i]);
      CreateIngRowShape(sheet[i], filled[i]);
    }
  }

  lemma CreateIngRowShape(r: SheetRow, f: SheetRow)
    requires f.(title := TextEan(Strip(TypedAccounts(r))).title) == TextEan(Strip(TypedAccounts(r)))
    requires TextEan(Strip(TypedAccounts(r))).title.Some? ==> f.title.Some?
    ensures var p := TextRow(f);
              && p.units == NetUnits(r) && p.amount == NetAmount(r)
              && p.isbn.Some? && p.hq.Some? && p.sl.Some?
              && (r.title.Some? ==> p.title.Some?)
              && (Full8(Key8Of(p)) <==> r.date.Some? && p.title.Some? && r.name.Some? && r.ips.Some?)
  {
    var k := TextEan(Strip(TypedAccounts(r)));
    assert k.ean.Some? && k.hq.Some? && k.sl.Some?;
    assert f.date == k.date == StripCell(r.date);
    assert f.name == StripCell(r.name) && f.ips == StripCell(r.ips);
  }

  /** A frame row-for-row with the sheet and with every key complete keeps
      the sheet's NETUNITS and NETAMT totals through the group-by. */
  lemma FrameBalance<D, K>(frame: seq<Prepared<D>>, sheet: seq<SheetRow>, key: Prepared<D> -> K, full: K -> bool)
    requires |frame| == |sheet|
    requires forall i :: 0 <= i < |sheet| ==> frame[i].units == NetUnits(sheet[i]) && frame[i].amount == NetAmount(sheet[i])
    requires forall p <- frame :: full(key(p))
    ensures Sum(GroupBy(frame, key, full), GroupedUnits) == Sum(sheet, NetUnitsOf)
    ensures Sum(GroupBy(frame, key, full), GroupedAmount) == Sum(sheet, NetAmount)
  {
    GroupByLossless(frame, key, full);
    FrameSums(frame, sheet);
  }

  lemma FrameSums<D>(frame: seq<Prepared<D>>, sheet: seq<SheetRow>)
    requires |frame| == |sheet|
    requires forall i :: 0 <= i < |sheet| ==> frame[i].units == NetUnits(sheet[i]) && frame[i].amount == NetAmount(sheet[i])
    ensures Sum(frame, UnitsOf) == Sum(sheet, NetUnitsOf) && Sum(frame, AmountOf) == Sum(sheet, NetAmount)
  {
    forall i | 0 <= i < |sheet| ensures UnitsOf(frame[i]) == NetUnitsOf(sheet[i]) && AmountOf(frame[i]) == NetAmount(sheet[i]) {
    }
    SumMatches(frame, UnitsOf, sheet, NetUnitsOf);
    SumMatches(frame, AmountOf, sheet, NetAmount);
  }

  /** When every sheet row has its date, title, customer and IPS flag,
      create_ing_sales.py writes exactly the sheet's NETUNITS and NETAMT
      totals. */
  lemma CreateIngBalance(sheet: seq<SheetRow>, books: seq<BookTitle>)
    requires NoDup(Project(Project(books, TextBookIsbn), BookIsbn))
    requires forall r <- sheet :: r.date.Some? && r.title.Some? && r.name.Some? && r.ips.Some?
    ensures Sum(CreateIngSales(sheet, books), GroupedUnits) == Sum(sheet, NetUnitsOf)
    ensures Sum(CreateIngSales(sheet, books), GroupedAmount) == Sum(sheet, NetAmount)
  {
    var frame := CreateIngFrame(sheet, books);
    CreateIngFrameShape(sheet, books);
    forall p <- frame ensures Full8(Key8Of(p)) {
      var i :| 0 <= i < |frame| && frame[i] == p;
      assert sheet[i] in sheet;
    }
    assert CreateIngSales(sheet, books) == GroupBy(frame, Key8Of, Full8);
    FrameBalance(frame, sheet, Key8Of, Full8);
  }


  /** With one category line per SL number and one item-table line per ISBN,
      monthly_sales_upload.py keeps every sheet row, and a row whose EAN is
      empty gets a null ISBN, so the group-by drops it. */
  lemma MonthlyFrameShape(sheet: seq<SheetRow>, cats: seq<CategoryRow>, books: seq<BookTitle>)
    requires NoDup(Project(cats, CategorySl))
    requires NoDup(Project(books, BookIsbn))
    ensures |MonthlyFrame(sheet, cats, books)| == |sheet|
    ensures forall i :: 0 <= i < |sheet| ==>
              var p := MonthlyFrame(sheet, cats, books)[i];
              && p.units == NetUnits(sheet[i]) && p.amount == NetAmount(sheet[i])
              && (sheet[i].title.Some? ==> p.title.Some?)
              && (Full6(Key6Of(p)) <==> sheet[i].ean.Some? && sheet[i].date.Some? && p.title.Some?
                                        && sheet[i].name.Some? && sheet[i].ips.Some?)
  {
    WithCategoriesUnique(sheet, cats);
    FillTitlesUnique(sheet, books);
    var filled := FillTitles(sheet, books);
    forall i | 0 <= i < |sheet|
      ensures var p := MonthlyFrame(sheet, cats, books)[i];
              && p.units == NetUnits(sheet[i]) && p.amount == NetAmount(sheet[i])
              && (sheet[i].title.Some? ==> p.title.Some?)
              && (Full6(Key6Of(p)) <==> sheet[i].ean.Some? && sheet[i].date.Some? && p.title.Some?
                                        && sheet[i].name.Some? && sheet[i].ips.Some?)
    {
      assert MonthlyFrame(sheet, cats, books)[i] == TextRow(Strip(filled[i]));
      MonthlyRowShape(sheet[i], filled[i]);
    }
  }

  lemma MonthlyRowShape(r: SheetRow, f: SheetRow)
    requires f.(title := r.title) == r
    requires r.title.Some? ==> f.title.Some?
    ensures var p := TextRow(Strip(f));
              && p.units == NetUnits(r) && p.amount == NetAmount(r)
              && (r.title.Some? ==> p.title.Some?)
              && (Full6(Key6Of(p)) <==> r.ean.Some? && r.date.Some? && p.title.Some? && r.name.Some? && r.ips.Some?)
  {
    assert f.units == r.units && f.amount == r.amount && f.ean == r.ean && f.date == r.date;
    assert f.name == r.name && f.ips == r.ips;
    var g := Strip(f);
    assert g.ean.Some? <==> r.ean.Some?;
    assert g.date.Some? <==> r.date.Some?;
    assert g.name.Some? <==> r.name.Some?;
    assert g.ips.Some? <==> r.ips.Some?;
    assert g.title.Some? <==> f.title.Some?;
  }

  /** When every sheet row has its EAN, date, title, customer and IPS flag,
      and the category table lists each SL number once, monthly_sales_upload.py
      appends exactly the sheet's totals. */
  lemma MonthlyBalance(sheet: seq<SheetRow>, cats: seq<CategoryRow>, books: seq<BookTitle>)
    requires NoDup(Project(cats, CategorySl))
    requires NoDup(Project(books, BookIsbn))
    requires forall r <- sheet :: r.ean.Some? && r.date.Some? && r.title.Some? && r.name.Some? && r.ips.Some?
    ensures Sum(MonthlySalesUpload(sheet, cats, books), GroupedUnits) == Sum(sheet, NetUnitsOf)
    ensures Sum(MonthlySalesUpload(sheet, cats, books), GroupedAmount) == Sum(sheet, NetAmount)
  {
    var frame := MonthlyFrame(sheet, cats, books);
    MonthlyFrameShape(sheet, cats, books);
    forall p <- frame ensures Full6(Key6Of(p)) {
      var i :| 0 <= i < |frame| && frame[i] == p;
      assert sheet[i] in sheet;
    }
    assert MonthlySalesUpload(sheet, cats, books) == GroupBy(frame, Key6Of, Full6);
    FrameBalance(frame, sheet, Key6Of, Full6);
  }


  /** A complete sheet row whose SL number the category table lists under
      two HQ numbers is appended with twice its units and twice its amount. */
  lemma MonthlyDoubleCount(r: SheetRow, cats: seq<CategoryRow>, books: seq<BookTitle>)
    requires |GroupOf(cats, CategorySl, PaddedSl(r))| == 2
    requires NoDup(Project(books, BookIsbn))
    requires r.ean.Some? && r.date.Some? && r.title.Some? && r.name.Some? && r.ips.Some?
    ensures Sum(MonthlySalesUpload([r], cats, books), GroupedUnits) == 2.0 * NetUnitsOf(r)
    ensures Sum(MonthlySalesUpload([r], cats, books), GroupedAmount) == 2.0 * NetAmount(r)
  {
    WithCategoriesRepeats(r, cats);
    var twice := WithCategories([r], cats);
    assert twice == [r, r] by {
      assert twice[0] in twice && twice[1] in twice;
    }
    WithCategoriesUnique([r, r], []);
    assert MonthlySalesUpload([r], cats, books) == MonthlySalesUpload([r, r], [], books);
    MonthlyBalance([r, r], [], books);
    assert Sum([r, r], NetUnitsOf) == NetUnitsOf(r) + Sum([r], NetUnitsOf);
    assert Sum([r, r], NetAmount) == NetAmount(r) + Sum([r], NetAmount);
  }

  /** With one item-table line per ISBN, monthly_sales_upload_ing.py keeps
      every sheet row; its ISBN is never null, and YEAR and MONTH are null
      exactly when the stripped date does not parse. */
  lemma IngFrameShape(sheet: seq<SheetRow>, books: seq<BookTitle>)
    requires NoDup(Project(books, BookIsbn))
    ensures |IngFrame(sheet, books)| == |sheet|
    ensures forall i :: 0 <= i < |sheet| ==>
              var p := IngFrame(sheet, books)[i];
              && p.units == NetUnits(sheet[i]) && p.amount == NetAmount(sheet[i])
              && p.isbn.Some?
              && (sheet[i].title.Some? ==> p.title.Some?)
              && (Full8(Key8Of(p)) <==> ParsedDate(Strip(sheet[i])).Some? && p.title.Some? && sheet[i].name.Some?
                                        && sheet[i].hq.Some? && sheet[i].sl.Some? && sheet[i].ips.Some?)
  {
    FillTitlesUnique(sheet, books);
    var filled := FillTitles(sheet, books);
    forall i | 0 <= i < |sheet|
      ensures var p := IngFrame(sheet, books)[i];
              && p.units == NetUnits(sheet[i]) && p.amount == NetAmount(sheet[i])
              && p.isbn.Some?
              && (sheet[i].title.Some? ==> p.title.Some?)
              && (Full8(Key8Of(p)) <==> ParsedDate(Strip(sheet[i])).Some? && p.title.Some? && sheet[i].name.Some?
                                        && sheet[i].hq.Some? && sheet[i].sl.Some? && sheet[i].ips.Some?)
    {
      assert IngFrame(sheet, books)[i] == ParsedRow(Strip(filled[i]));
      IngRowShape(sheet[i], filled[i]);
    }
  }

  lemma IngRowShape(r: SheetRow, f: SheetRow)
    requires f.(title := r.title) == r
    requires r.title.Some? ==> f.title.Some?
    ensures var p := ParsedRow(Strip(f));
              && p.units == NetUnits(r) && p.amount == NetAmount(r)
              && p.isbn.Some?
              && (r.title.Some? ==> p.title.Some?)
              && (Full8(Key8Of(p)) <==> ParsedDate(Strip(r)).Some? && p.title.Some? && r.name.Some?
                                        && r.hq.Some? && r.sl.Some? && r.ips.Some?)
  {
    assert f.units == r.units && f.amount == r.amount && f.date == r.date;
    assert f.name == r.name && f.ips == r.ips && f.hq == r.hq && f.sl == r.sl;
    var g := Strip(f);
    assert g.date == Strip(r).date;
    assert g.name.Some? <==> r.name.Some?;
    assert g.ips.Some? <==> r.ips.Some?;
    assert g.hq.Some? <==> r.hq.Some?;
    assert g.sl.Some? <==> r.sl.Some?;
    assert g.title.Some? <==> f.title.Some?;
  }

  /** When every sheet row has a parsable date, a title, a customer, both
      account numbers and the IPS flag, monthly_sales_upload_ing.py appends
      exactly the sheet's totals. */
  lemma IngBalance(sheet: seq<SheetRow>, books: seq<BookTitle>)
    requires NoDup(Project(books, BookIsbn))
    requires forall r <- sheet :: ParsedDate(Strip(r)).Some? && r.title.Some? && r.name.Some?
                                  && r.hq.Some? && r.sl.Some? && r.ips.Some?
    ensures Sum(MonthlySalesUploadIng(sheet, books), GroupedUnits) == Sum(sheet, NetUnitsOf)
    ensures Sum(MonthlySalesUploadIng(sheet, books), GroupedAmount) == Sum(sheet, NetAmount)
  {
    var frame := IngFrame(sheet, books);
    IngFrameShape(sheet, books);
    forall p <- frame ensures Full8(Key8Of(p)) {
      var i :| 0 <= i < |frame| && frame[i] == p;
      assert sheet[i] in sheet;
    }
    assert MonthlySalesUploadIng(sheet, books) == GroupBy(frame, Key8Of, Full8);
    FrameBalance(frame, sheet, Key8Of, Full8);
  }

}

=== FILE: ingram_only.dfy ===
/** The Ingram-only report (`main` in
    src/ingram_only_pipeline/ingram_only_pipeline.py): one row per distinct
    (ISBN, TITLE, NAMECUST, HQ account, SL account, IPS Sale, category) of
    the Ingram sales, with the twelve month columns of the book and account
    summed over every customer name, the all-accounts twelve-month totals of
    the book, the row's own twelve-month totals and its unit totals for the
    three previous years, then the book details, all nulls in numeric
    columns filled with 0. */
module IngramOnly {
  import opened Wrappers
  import opened Text
  import opened Calendar
  import opened Tables
  import opened Windows
  import SalesColumns

  // ---------------------------------------------------------------------------
  // Sales and keys
  // ---------------------------------------------------------------------------

  /** One Ingram sale as fetched, with its master sales category, which is
      null when the account has no mapping. NETUNITS is Int32, NETAMT
      Float32. */
  datatype Sale = Sale(isbn: string, title: string, name: string, year: int, month: int, ips: string,
                       units: int, amount: real, hq: string, sl: string, category: Option<string>)

  function UnitsOf(s: Sale): real { s.units as real }
  function AmountOf(s: Sale): real { s.amount }

  /** `YEAR * 100 + MONTH`, the month filter of every rolling column. */
  function Ym(s: Sale): int { YearMonth(s.year, s.month) }

  /** `YEAR`, the filter of the year columns. */
  function YearOf(s: Sale): int { s.year }

  /** The seven keys of the base rows and of the 12M and year columns. */
  datatype Account = Account(isbn: string, title: string, name: string, hq: string, sl: string, ips: string,
                             category: Option<string>)

  /** The six keys of the month columns: the account without NAMECUST. */
  datatype Outlet = Outlet(isbn: string, title: string, hq: string, sl: string, ips: string, category: Option<string>)

  /** The two keys of the all-accounts columns. */
  datatype Book = Book(isbn: string, title: string)

  function AccountOf(s: Sale): Account { Account(s.isbn, s.title, s.name, s.hq, s.sl, s.ips, s.category) }
  function OutletOf(s: Sale): Outlet { Outlet(s.isbn, s.title, s.hq, s.sl, s.ips, s.category) }
  function BookOf(s: Sale): Book { Book(s.isbn, s.title) }

  function OutletOfAccount(a: Account): Outlet { Outlet(a.isbn, a.title, a.hq, a.sl, a.ips, a.category) }
  function BookOfAccount(a: Account): Book { Book(a.isbn, a.title) }

  /** `group_by([...seven keys...]).agg([])`: the distinct accounts, each
      once; a sale of every account is among them. */
  function Base(sales: seq<Sale>): (base: seq<Account>)
    ensures NoDup(base)
    ensures forall s <- sales :: AccountOf(s) in base
    ensures forall a <- base :: exists s <- sales :: AccountOf(s) == a
  {
    KeysCover(sales, AccountOf);
    var base := Keys(sales, AccountOf);
    forall a <- base ensures exists s <- sales :: AccountOf(s) == a {
      ProjectMember(sales, AccountOf, a);
      var i :| 0 <= i < |sales| && AccountOf(sales[i]) == a;
      assert sales[i] in sales;
    }
    base
  }

  // ---------------------------------------------------------------------------
  // Rows
  // ---------------------------------------------------------------------------

  /** One report row after `fill_null(0)`: the twelve NET_UNITS month
      columns from the latest month back, ALL_ACCTS_12M_UNITS and
      ALL_ACCTS_12M_DOLLARS, 12M_UNITS and 12M_DOLLARS, and NET_UNITS for
      the three previous years, newest first. The YTD frame is never joined,
      so a row has no YTD column. */
  datatype Row = Row(account: Account, months: seq<real>, allUnits12: real, allDollars12: real,
                     units12: real, dollars12: real, years: seq<real>)

  /** The month columns: grouped without NAMECUST, joined on the six keys. */
  function MonthCells(sales: seq<Sale>, a: Account, keys: seq<int>): (r: seq<real>)
    ensures |r| == |keys|
    ensures forall j :: 0 <= j < |keys| ==> r[j] == Window(sales, Ym, IsKey(keys[j]), OutletOf, OutletOfAccount(a), UnitsOf)
  {
    seq(|keys|, j requires 0 <= j < |keys| => Cell(sales, Ym, IsKey(keys[j]), OutletOf, UnitsOf, OutletOfAccount(a)))
  }

  /** The year columns `NET_UNITS_{y}` for y = year-1, year-2, year-3. */
  function YearCells(sales: seq<Sale>, a: Account, year: int): (r: seq<real>)
    ensures |r| == 3
    ensures forall j :: 0 <= j < 3 ==> r[j] == Window(sales, YearOf, IsKey(year - 1 - j), AccountOf, a, UnitsOf)
  {
    seq(3, j requires 0 <= j < 3 => Cell(sales, YearOf, IsKey(year - 1 - j), AccountOf, UnitsOf, a))
  }

  /** The row of base account `a`, with joins in which a null key matches a
      null key. */
  function BuildRow(sales: seq<Sale>, a: Account, year: int, month: int): (r: Row)
    requires ValidMonth(month)
    ensures r.account == a
    ensures |r.months| == 12 && |r.years| == 3
    ensures r.units12 == Window(sales, Ym, InKeys(TrailingKeys(year, month)), AccountOf, a, UnitsOf)
    ensures r.dollars12 == Window(sales, Ym, InKeys(TrailingKeys(year, month)), AccountOf, a, AmountOf)
    ensures r.allUnits12 == Window(sales, Ym, InKeys(TrailingKeys(year, month)), BookOf, BookOfAccount(a), UnitsOf)
    ensures r.allDollars12 == Window(sales, Ym, InKeys(TrailingKeys(year, month)), BookOf, BookOfAccount(a), AmountOf)
    ensures forall j :: 0 <= j < 12 ==>
              r.months[j] == Window(sales, Ym, IsKey(TrailingKeys(year, month)[j]), OutletOf, OutletOfAccount(a), UnitsOf)
    ensures forall j :: 0 <= j < 3 ==> r.years[j] == Window(sales, YearOf, IsKey(year - 1 - j), AccountOf, a, UnitsOf)
  {
    var keys := TrailingKeys(year, month);
    Row(a, MonthCells(sales, a, keys),
        Cell(sales, Ym, InKeys(keys), BookOf, UnitsOf, BookOfAccount(a)),
        Cell(sales, Ym, InKeys(keys), BookOf, AmountOf, BookOfAccount(a)),
        Cell(sales, Ym, InKeys(keys), AccountOf, UnitsOf, a),
        Cell(sales, Ym, InKeys(keys), AccountOf, AmountOf, a),
        YearCells(sales, a, year))
  }

  /** The report rows, one per base account. */
  function Rows(sales: seq<Sale>, year: int, month: int): (rows: seq<Row>)
    requires ValidMonth(month)
    ensures |rows| == |Base(sales)|
    ensures forall i :: 0 <= i < |rows| ==> rows[i] == BuildRow(sales, Base(sales)[i], year, month)
  {
    var base := Base(sales);
    seq(|base|, i requires 0 <= i < |base| => BuildRow(sales, base[i], year, month))
  }

  // ---------------------------------------------------------------------------
  // Joins on a null category, as written
  // ---------------------------------------------------------------------------

  /** A polars join matches no key holding a null: a row whose category is
      null finds nothing in any join that includes TUTTLE_SALES_CATEGORY. */
  predicate Matches(a: Account) { a.category.Some? }

  /** The row as the joins build it: the month, 12M and year columns are 0
      for an account without a category, whatever it sold. */
  function BuildRowAsWritten(sales: seq<Sale>, a: Account, year: int, month: int): (r: Row)
    requires ValidMonth(month)
  {
    var r := BuildRow(sales, a, year, month);
    if Matches(a) then r
    else r.(months := seq(12, j => 0.0), units12 := 0.0, dollars12 := 0.0, years := seq(3, j => 0.0))
  }

  function RowsAsWritten(sales: seq<Sale>, year: int, month: int): (rows: seq<Row>)
    requires ValidMonth(month)
    ensures |rows| == |Base(sales)|
    ensures forall i :: 0 <= i < |rows| ==> rows[i] == BuildRowAsWritten(sales, Base(sales)[i], year, month)
  {
    var base := Base(sales);
    seq(|base|, i requires 0 <= i < |base| => BuildRowAsWritten(sales, base[i], year, month))
  }

  // ---------------------------------------------------------------------------
  // What the columns mean
  // ---------------------------------------------------------------------------

  /** The month column `yyyymm_to_units_col(key)` of every trailing key is
      the twelve-month loop's label for that month. */
  lemma MonthColumnNames(year: int, month: int)
    requires ValidMonth(month)
    ensures forall j :: 0 <= j < 12 ==>
              UnitsColumn(TrailingKeys(year, month)[j]) == Some(SalesColumns.MonthColumns(year, month)[j])
  {
    forall j | 0 <= j < 12
      ensures UnitsColumn(TrailingKeys(year, month)[j]) == Some(SalesColumns.MonthColumns(year, month)[j])
    {
      MonthColumnName(year, month, j);
    }
  }

  lemma MonthColumnName(year: int, month: int, j: int)
    requires ValidMonth(month) && 0 <= j < 12
    ensures UnitsColumn(TrailingKeys(year, month)[j]) == Some(SalesColumns.MonthColumns(year, month)[j])
  {
    var ym := MonthsBack(year, month, j + 1);
    assert TrailingKeys(year, month)[j] == YearMonth(ym.0, ym.1);
    assert SalesColumns.MonthColumns(year, month)[j] == UnitsLabel(ym.0, ym.1);
    UnitsColumnOfKey(ym.0, ym.1);
  }

  /** The month columns are grouped without NAMECUST: two rows that differ
      only in the customer name carry the same twelve month values. */
  lemma MonthsShared(sales: seq<Sale>, year: int, month: int, i: int, j: int)
    requires ValidMonth(month)
    requires 0 <= i < |Rows(sales, year, month)| && 0 <= j < |Rows(sales, year, month)|
    requires OutletOfAccount(Rows(sales, year, month)[i].account) == OutletOfAccount(Rows(sales, year, month)[j].account)
    ensures Rows(sales, year, month)[i].months == Rows(sales, year, month)[j].months
  {
    var ri, rj := Rows(sales, year, month)[i], Rows(sales, year, month)[j];
    assert forall k :: 0 <= k < 12 ==> ri.months[k] == rj.months[k];
  }

  /** The all-accounts columns are grouped by (ISBN, TITLE): every row of a
      book carries the same two values. */
  lemma AllAccountsShared(sales: seq<Sale>, year: int, month: int, i: int, j: int)
    requires ValidMonth(month)
    requires 0 <= i < |Rows(sales, year, month)| && 0 <= j < |Rows(sales, year, month)|
    requires BookOfAccount(Rows(sales, year, month)[i].account) == BookOfAccount(Rows(sales, year, month)[j].account)
    ensures Rows(sales, year, month)[i].allUnits12 == Rows(sales, year, month)[j].allUnits12
    ensures Rows(sales, year, month)[i].allDollars12 == Rows(sales, year, month)[j].allDollars12
  {
  }

  /** The customers that share an outlet (the six keys without NAMECUST). */
  function OutletIs(o: Outlet): Sale -> bool { s => OutletOf(s) == o }

  function CustomersOf(sales: seq<Sale>, o: Outlet): (cs: seq<Account>)
    ensures NoDup(cs)
    ensures forall a <- cs :: a in Base(sales) && OutletOfAccount(a) == o
    ensures forall a <- Base(sales) :: OutletOfAccount(a) == o ==> a in cs
  {
    var f := Where(sales, OutletIs(o));
    var cs := Keys(f, AccountOf);
    KeysCover(f, AccountOf);
    forall a <- cs ensures a in Base(sales) && OutletOfAccount(a) == o {
      ProjectMember(f, AccountOf, a);
      var i :| 0 <= i < |f| && AccountOf(f[i]) == a;
      assert f[i] in f;
    }
    forall a <- Base(sales) | OutletOfAccount(a) == o ensures a in cs {
      var s :| s in sales && AccountOf(s) == a;
      assert s in f;
    }
    cs
  }

  function InWindow(p: int -> bool): Sale -> bool { s => p(Ym(s)) }
  function AccountIn(p: int -> bool, a: Account): Sale -> bool { s => p(Ym(s)) && AccountOf(s) == a }
  function OutletIn(p: int -> bool, o: Outlet): Sale -> bool { s => p(Ym(s)) && OutletOf(s) == o }

  /** Restricting the sales to one outlet leaves the outlet's window whole. */
  lemma OutletWindow(sales: seq<Sale>, p: int -> bool, o: Outlet)
    ensures WindowTotal(Where(sales, OutletIs(o)), Ym, p, UnitsOf) == Window(sales, Ym, p, OutletOf, o, UnitsOf)
  {
    var f := Where(sales, OutletIs(o));
    WindowTotalAsSumIf(f, Ym, p, UnitsOf, InWindow(p));
    WhereSumIfAs(sales, OutletIs(o), InWindow(p), OutletIn(p, o), UnitsOf);
    WindowAsSumIf(sales, Ym, p, OutletOf, o, UnitsOf, OutletIn(p, o));
  }

  /** ... and the window of each of its customers. */
  lemma CustomerWindow(sales: seq<Sale>, p: int -> bool, o: Outlet, a: Account)
    requires OutletOfAccount(a) == o
    ensures Window(Where(sales, OutletIs(o)), Ym, p, AccountOf, a, UnitsOf) == Window(sales, Ym, p, AccountOf, a, UnitsOf)
  {
    var f := Where(sales, OutletIs(o));
    WindowAsSumIf(f, Ym, p, AccountOf, a, UnitsOf, AccountIn(p, a));
    assert forall x <- sales :: AccountOf(x) == a ==> OutletOf(x) == OutletOfAccount(AccountOf(x)) == o;
    WhereSumIfAs(sales, OutletIs(o), AccountIn(p, a), AccountIn(p, a), UnitsOf);
    WindowAsSumIf(sales, Ym, p, AccountOf, a, UnitsOf, AccountIn(p, a));
  }

  /** A month value of a row is the sum, over every customer of the row's
      outlet, of that customer's own sales in the month: each customer row
      repeats the outlet's total. */
  lemma MonthSumsCustomers(sales: seq<Sale>, p: int -> bool, o: Outlet)
    ensures Window(sales, Ym, p, OutletOf, o, UnitsOf)
         == Sum(CustomersOf(sales, o), WindowBy(sales, Ym, p, AccountOf, UnitsOf))
  {
    var f := Where(sales, OutletIs(o));
    var cs := CustomersOf(sales, o);
    KeysCover(f, AccountOf);
    WindowOverKeys(f, Ym, p, AccountOf, UnitsOf, cs);
    OutletWindow(sales, p, o);
    forall i | 0 <= i < |cs|
      ensures WindowBy(f, Ym, p, AccountOf, UnitsOf)(cs[i]) == WindowBy(sales, Ym, p, AccountOf, UnitsOf)(cs[i])
    {
      CustomerWindow(sales, p, o, cs[i]);
    }
    SumMatches(cs, WindowBy(f, Ym, p, AccountOf, UnitsOf), cs, WindowBy(sales, Ym, p, AccountOf, UnitsOf));
  }

  /** The month columns of a row, customer by customer. */
  lemma RowMonthsSumCustomers(sales: seq<Sale>, year: int, month: int, i: int, j: int)
    requires ValidMonth(month)
    requires 0 <= i < |Rows(sales, year, month)| && 0 <= j < 12
    ensures var r := Rows(sales, year, month)[i];
      r.months[j] == Sum(CustomersOf(sales, OutletOfAccount(r.account)),
                         WindowBy(sales, Ym, IsKey(TrailingKeys(year, month)[j]), AccountOf, UnitsOf))
  {
    var r := Rows(sales, year, month)[i];
    MonthSumsCustomers(sales, IsKey(TrailingKeys(year, month)[j]), OutletOfAccount(r.account));
  }

  // ---------------------------------------------------------------------------
  // Column totals
  // ---------------------------------------------------------------------------

  function Units12Of(r: Row): real { r.units12 }
  function Dollars12Of(r: Row): real { r.dollars12 }
  function YearColumn(j: int): Row -> real { (r: Row) => ColumnAt(j)(r.years) }

  /** The 12M columns are keyed by all seven keys, one row per key: over the
      report they add up to the trailing window's totals over all sales. */
  lemma RowsSpanTotals(sales: seq<Sale>, year: int, month: int)
    requires ValidMonth(month)
    ensures Sum(Rows(sales, year, month), Units12Of) == WindowTotal(sales, Ym, InKeys(TrailingKeys(year, month)), UnitsOf)
    ensures Sum(Rows(sales, year, month), Dollars12Of) == WindowTotal(sales, Ym, InKeys(TrailingKeys(year, month)), AmountOf)
  {
    var rows, base, p := Rows(sales, year, month), Base(sales), InKeys(TrailingKeys(year, month));
    WindowOverKeys(sales, Ym, p, AccountOf, UnitsOf, base);
    WindowOverKeys(sales, Ym, p, AccountOf, AmountOf, base);
    SumMatches(rows, Units12Of, base, WindowBy(sales, Ym, p, AccountOf, UnitsOf));
    SumMatches(rows, Dollars12Of, base, WindowBy(sales, Ym, p, AccountOf, AmountOf));
  }

  lemma RowYear(sales: seq<Sale>, a: Account, year: int, month: int, j: int)
    requires ValidMonth(month) && 0 <= j < 3
    ensures YearColumn(j)(BuildRow(sales, a, year, month)) == WindowBy(sales, YearOf, IsKey(year - 1 - j), AccountOf, UnitsOf)(a)
  {
    var r := BuildRow(sales, a, year, month);
    assert ColumnAt(j)(r.years) == r.years[j];
  }

  /** Each prior-year column adds up to the units sold in that year. */
  lemma RowsYearTotals(sales: seq<Sale>, year: int, month: int, j: int)
    requires ValidMonth(month) && 0 <= j < 3
    ensures Sum(Rows(sales, year, month), YearColumn(j)) == WindowTotal(sales, YearOf, IsKey(year - 1 - j), UnitsOf)
  {
    var rows, base := Rows(sales, year, month), Base(sales);
    var w := WindowBy(sales, YearOf, IsKey(year - 1 - j), AccountOf, UnitsOf);
    WindowOverKeys(sales, YearOf, IsKey(year - 1 - j), AccountOf, UnitsOf, base);
    forall i | 0 <= i < |rows| ensures YearColumn(j)(rows[i]) == w(base[i]) {
      RowYear(sales, base[i], year, month, j);
    }
    SumMatches(rows, YearColumn(j), base, WindowBy(sales, YearOf, IsKey(year - 1 - j), AccountOf, UnitsOf));
  }

  // ---------------------------------------------------------------------------
  // What the null-category joins lose
  // ---------------------------------------------------------------------------

  function Categorized(s: Sale): bool { s.category.Some? }

  /** A sale in the window whose category is known. */
  function KnownIn(p: int -> bool): Sale -> bool { s => p(Ym(s)) && s.category.Some? }

  /** Keeping the categorized sales keeps the windows of the accounts with a
      category and empties those of the others. */
  lemma CategorizedWindow(sales: seq<Sale>, p: int -> bool, a: Account, val: Sale -> real)
    ensures Window(Where(sales, Categorized), Ym, p, AccountOf, a, val)
         == if Matches(a) then Window(sales, Ym, p, AccountOf, a, val) else 0.0
  {
    var f := Where(sales, Categorized);
    WindowAsSumIf(f, Ym, p, AccountOf, a, val, AccountIn(p, a));
    if Matches(a) {
      assert forall x <- sales :: AccountOf(x) == a ==> x.category == a.category;
      WhereSumIfAs(sales, Categorized, AccountIn(p, a), AccountIn(p, a), val);
      WindowAsSumIf(sales, Ym, p, AccountOf, a, val, AccountIn(p, a));
    } else {
      assert forall x <- f :: !AccountIn(p, a)(x);
      SumIfNone(f, AccountIn(p, a), val);
    }
  }

  /** The as-written 12M columns add up to the categorized sales of the
      window only: the sales of every account without a category vanish
      from the report. */
  lemma RowsAsWrittenSpanTotals(sales: seq<Sale>, year: int, month: int)
    requires ValidMonth(month)
    ensures Sum(RowsAsWritten(sales, year, month), Units12Of) == SumIf(sales, KnownIn(InKeys(TrailingKeys(year, month))), UnitsOf)
  {
    var rows, base, p := RowsAsWritten(sales, year, month), Base(sales), InKeys(TrailingKeys(year, month));
    var f := Where(sales, Categorized);
    WindowOverKeys(f, Ym, p, AccountOf, UnitsOf, base);
    forall i | 0 <= i < |rows| ensures Units12Of(rows[i]) == WindowBy(f, Ym, p, AccountOf, UnitsOf)(base[i]) {
      CategorizedWindow(sales, p, base[i], UnitsOf);
    }
    SumMatches(rows, Units12Of, base, WindowBy(f, Ym, p, AccountOf, UnitsOf));
    WindowTotalAsSumIf(f, Ym, p, UnitsOf, InWindow(p));
    WhereSumIfAs(sales, Categorized, InWindow(p), KnownIn(p), UnitsOf);
  }

  /** One sale of 5 units in February 2024 by an account without a master
      category, reported in March 2024: the as-written row shows 0 for the
      month and for 12M_UNITS, the corrected row shows 5. */
  lemma NullCategoryLost()
    ensures var sales := [Sale("9780804848787", "T", "N", 2024, 2, "I", 5, 2.0, "H", "S", None)];
      && |Rows(sales, 2024, 3)| == 1 && |RowsAsWritten(sales, 2024, 3)| == 1
      && RowsAsWritten(sales, 2024, 3)[0].months[0] == 0.0
      && RowsAsWritten(sales, 2024, 3)[0].units12 == 0.0
      && Rows(sales, 2024, 3)[0].months[0] == 5.0
      && Rows(sales, 2024, 3)[0].units12 == 5.0
  {
    var s := Sale("9780804848787", "T", "N", 2024, 2, "I", 5, 2.0, "H", "S", None);
    var sales := [s];
    assert Project(sales, AccountOf) == [AccountOf(s)];
    assert Base(sales) == [AccountOf(s)];
    var keys := TrailingKeys(2024, 3);
    assert keys[0] == 202402;
    assert Ym(s) in keys;
    assert sales[1..] == [];
  }

  // ---------------------------------------------------------------------------
  // Book details
  // ---------------------------------------------------------------------------

  /** One BOOK_DETAILS row; the table is read whole, so an ISBN may occur
      more than once. */
  datatype Detail = Detail(isbn: string, prodType: Option<string>, prodClass: Option<string>, seas: Option<string>,
                           subPub: Option<string>, webcat2: Option<string>, webcat2Descr: Option<string>,
                           retail: Option<real>)

  function DetailIsbn(d: Detail): string { d.isbn }
  function RowIsbn(r: Row): string { r.account.isbn }

  /** A report line: the row and the joined details after `fill_null(0)`,
      which fills RETAIL_PRICE but leaves the text columns null. */
  datatype Line = Line(row: Row, prodType: Option<string>, prodClass: Option<string>, seas: Option<string>,
                       subPub: Option<string>, webcat2: Option<string>, webcat2Descr: Option<string>, retail: real)

  function LineUnits12(l: Line): real { l.row.units12 }

  function Finish(e: (Row, Option<Detail>)): (l: Line)
    ensures l.row == e.0
  {
    match e.1
    case None => Line(e.0, None, None, None, None, None, None, 0.0)
    case Some(d) => Line(e.0, d.prodType, d.prodClass, d.seas, d.subPub, d.webcat2, d.webcat2Descr, d.retail.GetOr(0.0))
  }

  /** A line carries detail `d`: its text columns, null when there is no
      detail, and its price, 0 when missing. */
  predicate Carries(l: Line, d: Option<Detail>)
  {
    if d.None? then
      l.prodType.None? && l.prodClass.None? && l.seas.None? && l.subPub.None? && l.webcat2.None? && l.webcat2Descr.None?
      && l.retail == 0.0
    else
      l.prodType == d.value.prodType && l.prodClass == d.value.prodClass && l.seas == d.value.seas
      && l.subPub == d.value.subPub && l.webcat2 == d.value.webcat2 && l.webcat2Descr == d.value.webcat2Descr
      && (d.value.retail.Some? ==> l.retail == d.value.retail.value) && (d.value.retail.None? ==> l.retail == 0.0)
  }

  /** The report: the rows left-joined with the book details on ISBN. */
  function Report(sales: seq<Sale>, details: seq<Detail>, year: int, month: int): (lines: seq<Line>)
    requires ValidMonth(month)
  {
    Project(LeftJoin(Rows(sales, year, month), details, RowIsbn, DetailIsbn), Finish)
  }

  /** Every line carries one of the report's rows, whatever the details. */
  lemma ReportRows(sales: seq<Sale>, details: seq<Detail>, year: int, month: int)
    requires ValidMonth(month)
    ensures forall l <- Report(sales, details, year, month) :: l.row in Rows(sales, year, month)
  {
    var rows := Rows(sales, year, month);
    var joined := LeftJoin(rows, details, RowIsbn, DetailIsbn);
    LeftJoinLeft(rows, details, RowIsbn, DetailIsbn);
    var lines := Project(joined, Finish);
    forall l <- lines ensures l.row in rows {
      var i :| 0 <= i < |lines| && lines[i] == l;
      assert joined[i] in joined;
    }
  }

  /** With one detail row per ISBN the join keeps the rows one for one, each
      with its book's details, and the 12M column still adds up to the
      window's total. */
  lemma ReportUnique(sales: seq<Sale>, details: seq<Detail>, year: int, month: int)
    requires ValidMonth(month)
    requires NoDup(Project(details, DetailIsbn))
    ensures |Report(sales, details, year, month)| == |Rows(sales, year, month)|
    ensures forall i :: 0 <= i < |Rows(sales, year, month)| ==>
              Report(sales, details, year, month)[i].row == Rows(sales, year, month)[i]
              && Carries(Report(sales, details, year, month)[i], FindRow(details, DetailIsbn, RowIsbn(Rows(sales, year, month)[i])))
    ensures Sum(Report(sales, details, year, month), LineUnits12) == WindowTotal(sales, Ym, InKeys(TrailingKeys(year, month)), UnitsOf)
  {
    var rows := Rows(sales, year, month);
    var lines := Report(sales, details, year, month);
    LeftJoinUnique(rows, details, RowIsbn, DetailIsbn);
    forall i | 0 <= i < |rows|
      ensures lines[i].row == rows[i] && Carries(lines[i], FindRow(details, DetailIsbn, RowIsbn(rows[i])))
    {
      assert lines[i] == Finish((rows[i], FindRow(details, DetailIsbn, RowIsbn(rows[i]))));
    }
    RowsSpanTotals(sales, year, month);
    SumMatches(lines, LineUnits12, rows, Units12Of);
  }

  /** A row whose ISBN occurs `n` times in the details becomes `n` lines,
      every one of them carrying the row's figures. */
  lemma ReportRepeats(r: Row, details: seq<Detail>)
    requires |GroupOf(details, DetailIsbn, RowIsbn(r))| >= 1
    ensures |Project(LeftJoin([r], details, RowIsbn, DetailIsbn), Finish)| == |GroupOf(details, DetailIsbn, RowIsbn(r))|
    ensures forall l <- Project(LeftJoin([r], details, RowIsbn, DetailIsbn), Finish) :: l.row == r
  {
    var joined := LeftJoin([r], details, RowIsbn, DetailIsbn);
    LeftJoinRepeats(r, details, RowIsbn, DetailIsbn);
    assert forall i :: 0 <= i < |joined| ==> Finish(joined[i]).row == joined[i].0 && joined[i] in joined;
  }

  // ---------------------------------------------------------------------------
  // The output columns
  // ---------------------------------------------------------------------------

  /** The base frame's keys in group-by order. */
  const KeyColumns: seq<string> :=
    ["ISBN", "TITLE", "NAMECUST", "HQ Account Number", "SL Account Number", "IPS Sale", "TUTTLE_SALES_CATEGORY"]

  /** The 12M columns in join order. */
  const SpanColumns: seq<string> := ["ALL_ACCTS_12M_UNITS", "ALL_ACCTS_12M_DOLLARS", "12M_UNITS", "12M_DOLLARS"]

  /** The book detail columns; the join drops the right ISBN. */
  const DetailColumns: seq<string> := ["PROD_TYPE", "PROD_CLASS", "SEAS", "SUBPUB", "WEBCAT2", "WEBCAT2_DESCR", "RETAIL_PRICE"]

  /** `f'NET_UNITS_{year}'`. */
  function NetYearLabel(y: int): string { "NET_UNITS_" + IntToString(y) }

  /** The year columns in join order, the most recent year first. */
  function YearNames(year: int): seq<string>
  {
    [NetYearLabel(year - 1), NetYearLabel(year - 2), NetYearLabel(year - 3)]
  }

  /** The columns of the frame before the final select: every join adds its
      columns at the end. */
  function FrameColumns(year: int, month: int): seq<string>
    requires ValidMonth(month)
  {
    KeyColumns + SalesColumns.MonthColumns(year, month) + SpanColumns + YearNames(year) + DetailColumns
  }

  /** `final_order`, in four parts. */
  const Leading: seq<string> :=
    ["NAMECUST", "HQ Account Number", "SL Account Number", "IPS Sale", "TUTTLE_SALES_CATEGORY", "ISBN", "TITLE",
     "PROD_TYPE", "PROD_CLASS", "SEAS", "SUBPUB", "WEBCAT2", "WEBCAT2_DESCR", "RETAIL_PRICE"]
  const Rolling: seq<string> := ["12M_UNITS", "12M_DOLLARS"]
  const Ytd: seq<string> := ["YTD_UNITS", "YTD_DOLLARS"]
  const AllAccounts: seq<string> := ["ALL_ACCTS_12M_UNITS", "ALL_ACCTS_12M_DOLLARS"]
  const Wished: seq<string> := Leading + Rolling + Ytd + AllAccounts

  /** `col.startswith("UNITS_") and col[6:].isdigit()`; `isdigit` of the
      empty string is false. */
  predicate IsYearly(c: string) { StartsWith(c, "UNITS_") && |c| > 6 && AllDigits(c[6..]) }

  /** The final select: `final_order`, then the `NET_UNITS_` columns and the
      `UNITS_{digits}` columns in frame order, then every other column, kept
      when the frame has it. The output holds exactly the frame's columns. */
  function OutputColumns(cols: seq<string>): (r: seq<string>)
    ensures forall c <- r :: c in cols
    ensures forall c <- cols :: c in r
  {
    var monthly := Where(cols, SalesColumns.IsMonthly);
    var yearly := Where(cols, IsYearly);
    var order := Wished + monthly + yearly;
    var extra := Where(cols, SalesColumns.NotIn(order));
    assert forall c <- cols :: c in order + extra;
    Where(order + extra, SalesColumns.InFrame(cols))
  }

  /** The order the report is written in. */
  function Expected(year: int, month: int): seq<string>
    requires ValidMonth(month)
  {
    Leading + Rolling + AllAccounts + SalesColumns.MonthColumns(year, month) + YearNames(year)
  }

  /** Every month and year column starts with "NET_UNITS_". */
  lemma NetNames(year: int, month: int)
    requires ValidMonth(month)
    ensures forall c <- SalesColumns.MonthColumns(year, month) :: Net(c)
    ensures forall c <- YearNames(year) :: Net(c)
  {
    var ms := SalesColumns.MonthColumns(year, month);
    forall i | 0 <= i < 12 ensures Net(ms[i]) {
      var (y, m) := MonthsBack(year, month, i + 1);
      SalesColumns.MonthName(y, m);
      assert ms[i][..10] == "NET_UNITS_";
      NotYearly(ms[i]);
    }
    forall y ensures Net(NetYearLabel(y)) {
      assert NetYearLabel(y)[..10] == "NET_UNITS_";
      NotYearly(NetYearLabel(y));
    }
  }

  lemma NotYearly(c: string)
    requires StartsWith(c, "NET_UNITS_")
    ensures !IsYearly(c) && c[0] == 'N'
  {
    assert c[0] == c[..10][0];
    assert c[..6][0] == c[0];
  }

  /** A `NET_UNITS_` name. */
  predicate Net(c: string) { SalesColumns.IsMonthly(c) && !IsYearly(c) && |c| > 0 && c[0] == 'N' }

  lemma NetBlock(b: seq<string>)
    requires forall c <- b :: Net(c)
    ensures Where(b, SalesColumns.IsMonthly) == b && Where(b, IsYearly) == []
  {
    WhereAll(b, SalesColumns.IsMonthly);
    WhereNone(b, IsYearly);
  }

  /** A name that is neither a `NET_UNITS_` nor a `UNITS_{digits}`
      column. */
  predicate Plain(c: string) { !SalesColumns.IsMonthly(c) && !IsYearly(c) }

  lemma KeyPlain()
    ensures forall c <- KeyColumns :: Plain(c)
  {
    forall c <- KeyColumns ensures Plain(c) {
      assert c[0] != 'N' || c == "NAMECUST";
    }
  }

  lemma SpanPlain()
    ensures forall c <- SpanColumns :: Plain(c)
  {
    forall c <- SpanColumns ensures Plain(c) {
      assert c[0] != 'N' && c[0] != 'U';
    }
  }

  lemma DetailPlain()
    ensures forall c <- DetailColumns :: Plain(c)
  {
    forall c <- DetailColumns ensures Plain(c) {
      assert c[0] != 'N' && c[0] != 'U';
    }
  }

  lemma PlainBlock(b: seq<string>)
    requires forall c <- b :: Plain(c)
    ensures Where(b, SalesColumns.IsMonthly) == [] && Where(b, IsYearly) == []
  {
    WhereNone(b, SalesColumns.IsMonthly);
    WhereNone(b, IsYearly);
  }

  /** The wished-for names other than YTD are fixed frame names; the YTD
      names are not. */
  lemma WishedNames()
    ensures forall c <- Leading + Rolling + AllAccounts :: c in KeyColumns + SpanColumns + DetailColumns
    ensures forall c <- Ytd :: c !in KeyColumns + SpanColumns + DetailColumns && c[0] == 'Y'
  {
  }

  /** Membership in five blocks. */
  lemma InFive<T>(x: T, a: seq<T>, b: seq<T>, c: seq<T>, d: seq<T>, e: seq<T>)
    ensures x in a + b + c + d + e <==> x in a + c + e || x in b + d
  {
  }

  /** The frame's columns are its fixed names, its month names and its year
      names. */
  lemma FrameMembers(year: int, month: int, x: string)
    requires ValidMonth(month)
    ensures x in FrameColumns(year, month) <==>
            x in KeyColumns + SpanColumns + DetailColumns || x in SalesColumns.MonthColumns(year, month) + YearNames(year)
  {
    InFive(x, KeyColumns, SalesColumns.MonthColumns(year, month), SpanColumns, YearNames(year), DetailColumns);
  }

  /** Filtering five blocks of which the second and the fourth are kept
      whole and the others lose everything. */
  lemma KeepSecondFourth<T>(a: seq<T>, b: seq<T>, c: seq<T>, d: seq<T>, e: seq<T>, p: T -> bool)
    requires Where(a, p) == [] && Where(b, p) == b && Where(c, p) == [] && Where(d, p) == d && Where(e, p) == []
    ensures Where(a + b + c + d + e, p) == b + d
  {
    WhereAppend(a, b, p);
    assert Where(a + b, p) == b;
    WhereAppend(a + b, c, p);
    assert Where(a + b + c, p) == b;
    WhereAppend(a + b + c, d, p);
    assert Where(a + b + c + d, p) == b + d;
    WhereAppend(a + b + c + d, e, p);
  }

  lemma FixedNotNet()
    ensures Where(KeyColumns, SalesColumns.IsMonthly) == [] && Where(KeyColumns, IsYearly) == []
    ensures Where(SpanColumns, SalesColumns.IsMonthly) == [] && Where(SpanColumns, IsYearly) == []
    ensures Where(DetailColumns, SalesColumns.IsMonthly) == [] && Where(DetailColumns, IsYearly) == []
  {
    KeyPlain();
    SpanPlain();
    DetailPlain();
    PlainBlock(KeyColumns);
    PlainBlock(SpanColumns);
    PlainBlock(DetailColumns);
  }

  lemma NetBlocks(year: int, month: int)
    requires ValidMonth(month)
    ensures Where(SalesColumns.MonthColumns(year, month), SalesColumns.IsMonthly) == SalesColumns.MonthColumns(year, month)
    ensures Where(YearNames(year), SalesColumns.IsMonthly) == YearNames(year)
    ensures Where(SalesColumns.MonthColumns(year, month), IsYearly) == []
    ensures Where(YearNames(year), IsYearly) == []
  {
    NetNames(year, month);
    NetBlock(SalesColumns.MonthColumns(year, month));
    NetBlock(YearNames(year));
  }

  /** The `NET_UNITS_` selection is the months then the years; nothing is
      a `UNITS_{digits}` column. */
  lemma FrameBlocks(year: int, month: int)
    requires ValidMonth(month)
    ensures Where(FrameColumns(year, month), SalesColumns.IsMonthly) == SalesColumns.MonthColumns(year, month) + YearNames(year)
    ensures Where(FrameColumns(year, month), IsYearly) == []
  {
    FixedNotNet();
    NetBlocks(year, month);
    KeepSecondFourth(KeyColumns, SalesColumns.MonthColumns(year, month), SpanColumns, YearNames(year), DetailColumns, SalesColumns.IsMonthly);
    WhereFive(KeyColumns, SalesColumns.MonthColumns(year, month), SpanColumns, YearNames(year), DetailColumns, IsYearly);
  }

  /** The YTD frame is never joined: its columns are not in the frame. */
  lemma YtdAbsent(year: int, month: int)
    requires ValidMonth(month)
    ensures forall c <- Ytd :: c !in FrameColumns(year, month)
  {
    NetNames(year, month);
    WishedNames();
    forall c <- Ytd ensures c !in FrameColumns(year, month) {
      FrameMembers(year, month, c);
    }
  }

  /** Filtering with the frame keeps a block of frame columns whole. */
  lemma KeepAll(b: seq<string>, cols: seq<string>)
    requires forall c <- b :: c in cols
    ensures Where(b, SalesColumns.InFrame(cols)) == b
  {
    WhereAll(b, SalesColumns.InFrame(cols));
  }

  /** ... and drops a block of other names. */
  lemma DropAll(b: seq<string>, cols: seq<string>)
    requires forall c <- b :: c !in cols
    ensures Where(b, SalesColumns.InFrame(cols)) == []
  {
    WhereNone(b, SalesColumns.InFrame(cols));
  }

  /** The fixed names in `final_order` are all in the frame. */
  lemma FixedInFrame(b: seq<string>, year: int, month: int)
    requires ValidMonth(month)
    requires forall c <- b :: c in KeyColumns + SpanColumns + DetailColumns
    ensures forall c <- b :: c in FrameColumns(year, month)
  {
    forall c <- b ensures c in FrameColumns(year, month) {
      FrameMembers(year, month, c);
    }
  }

  lemma LeadingFixed()
    ensures forall c <- Leading :: c in KeyColumns + SpanColumns + DetailColumns
  {
  }

  lemma RollingFixed()
    ensures forall c <- Rolling :: c in KeyColumns + SpanColumns + DetailColumns
    ensures forall c <- AllAccounts :: c in KeyColumns + SpanColumns + DetailColumns
  {
  }

  /** Filtering four blocks with the frame when the third block is missing
      from it and the others are whole in it. */
  lemma SelectFour(a: seq<string>, b: seq<string>, c: seq<string>, d: seq<string>, cols: seq<string>)
    requires forall x <- a :: x in cols
    requires forall x <- b :: x in cols
    requires forall x <- c :: x !in cols
    requires forall x <- d :: x in cols
    ensures Where(a + b + c + d, SalesColumns.InFrame(cols)) == a + b + d
  {
    KeepAll(a, cols);
    KeepAll(b, cols);
    DropAll(c, cols);
    KeepAll(d, cols);
    WhereFour(a, b, c, d, SalesColumns.InFrame(cols));
  }

  /** `final_order` filtered to the frame loses exactly the YTD names. */
  lemma WishedSelect(year: int, month: int)
    requires ValidMonth(month)
    ensures Where(Wished, SalesColumns.InFrame(FrameColumns(year, month))) == Leading + Rolling + AllAccounts
  {
    LeadingFixed();
    RollingFixed();
    FixedInFrame(Leading, year, month);
    FixedInFrame(Rolling, year, month);
    FixedInFrame(AllAccounts, year, month);
    YtdAbsent(year, month);
    SelectFour(Leading, Rolling, Ytd, AllAccounts, FrameColumns(year, month));
  }

  /** Every frame column is wished for or a `NET_UNITS_` column. */
  lemma FrameOrdered(year: int, month: int)
    requires ValidMonth(month)
    ensures forall c <- FrameColumns(year, month) :: c in Wished + (SalesColumns.MonthColumns(year, month) + YearNames(year))
  {
    forall c <- FrameColumns(year, month)
      ensures c in Wished + (SalesColumns.MonthColumns(year, month) + YearNames(year))
    {
      FrameMembers(year, month, c);
      if c in KeyColumns + SpanColumns + DetailColumns {
        FixedWished(c);
      }
    }
  }

  lemma FixedWished(c: string)
    requires c in KeyColumns + SpanColumns + DetailColumns
    ensures c in Wished
  {
  }

  /** The report's columns: the fixed names without YTD, the twelve month
      columns from the latest month back and the three prior years from the
      most recent back; the yearly and the extra blocks are empty. */
  lemma OutputOrder(year: int, month: int)
    requires ValidMonth(month)
    ensures OutputColumns(FrameColumns(year, month)) == Expected(year, month)
    ensures Where(FrameColumns(year, month), IsYearly) == []
    ensures forall c <- Ytd :: c !in OutputColumns(FrameColumns(year, month))
  {
    var cols := FrameColumns(year, month);
    var ms, ys := SalesColumns.MonthColumns(year, month), YearNames(year);
    FrameBlocks(year, month);
    WishedSelect(year, month);
    FrameOrdered(year, month);
    NamesInFrame(year, month);
    FinalSelect(cols, ms, ys, Leading + Rolling + AllAccounts);
    YtdAbsent(year, month);
  }

  /** Every month and year column is a column of the frame. */
  lemma NamesInFrame(year: int, month: int)
    requires ValidMonth(month)
    ensures forall c <- SalesColumns.MonthColumns(year, month) + YearNames(year) :: c in FrameColumns(year, month)
  {
    forall c <- SalesColumns.MonthColumns(year, month) + YearNames(year) ensures c in FrameColumns(year, month) {
      FrameMembers(year, month, c);
    }
  }

  /** The select, given the frame's blocks. */
  lemma FinalSelect(cols: seq<string>, ms: seq<string>, ys: seq<string>, kept: seq<string>)
    requires Where(cols, SalesColumns.IsMonthly) == ms + ys
    requires Where(cols, IsYearly) == []
    requires forall c <- cols :: c in Wished + (ms + ys)
    requires forall c <- ms + ys :: c in cols
    requires Where(Wished, SalesColumns.InFrame(cols)) == kept
    ensures OutputColumns(cols) == kept + ms + ys
  {
    var ns := ms + ys;
    OutputShape(cols, ns);
    WhereAppend(Wished, ns, SalesColumns.InFrame(cols));
    WhereAll(ns, SalesColumns.InFrame(cols));
    assert kept + ns == kept + ms + ys;
  }

  /** When the frame's `NET_UNITS_` columns are `ns`, it has no
      `UNITS_{digits}` column and every column is wished for or in `ns`, the
      select is `final_order` followed by `ns`, filtered to the frame. */
  lemma OutputShape(cols: seq<string>, ns: seq<string>)
    requires Where(cols, SalesColumns.IsMonthly) == ns
    requires Where(cols, IsYearly) == []
    requires forall c <- cols :: c in Wished + ns
    ensures OutputColumns(cols) == Where(Wished + ns, SalesColumns.InFrame(cols))
  {
    assert Wished + ns + [] == Wished + ns;
    WhereNone(cols, SalesColumns.NotIn(Wished + ns));
  }
}

=== FILE: legacy_report.dfy ===
/** The older combined target report (`report_three_combined` in
    src/report_three_combined/report_three_combined.py). It differs from the
    current one in where and how it aggregates: TARGET_NETAMT keeps the sign
    of NETAMT, customers of both channels are marked with `*` on the sales
    rows before the two channels are stacked, every window is keyed by
    customer name and category alone, the base rows are the distinct
    (NAMECUST, category, 2025_Target) triples, and missing numbers end up as
    the sentinels 404.404 and 404.

    The names and the order of the columns are in `TargetColumns`. */
module LegacyReport {
  import opened Wrappers
  import opened Calendar
  import opened Tables
  import opened Windows
  import opened Targets
  import opened Tagging
  import R = ReportThree

  // ---------------------------------------------------------------------------
  // Priced facts
  // ---------------------------------------------------------------------------

  /** A sales row once priced and stripped of its IDs, ISBN and TITLE. */
  datatype Fact = Fact(name: string, category: Option<string>, annual: Option<real>,
                       ym: int, units: real, amount: real, target: real)

  function Ym(f: Fact): int { f.ym }
  function UnitsOf(f: Fact): real { f.units }
  function AmountOf(f: Fact): real { f.amount }
  function TargetOf(f: Fact): real { f.target }
  function NameOf(f: Fact): string { f.name }

  /** A sales row priced with the target row its account matched: NAMECUST
      and category stripped, TARGET_NETAMT is NETAMT times the ratio with its
      sign kept, and NETAMT itself when nothing matched. */
  function PricedFact(name: string, category: Option<string>, year: int, month: int, units: int, amount: int,
                      m: Option<Target>): (f: Fact)
    ensures f.target == SignedTarget(amount, m) && f.amount == amount as real
    ensures m.None? ==> f.target == f.amount
    ensures f.annual == R.AnnualOf(m)
    ensures ValidMonth(month) ==> KeyYear(f.ym) == year && KeyMonth(f.ym) == month
  {
    Fact(Text.Trim(name), Text.StripCell(category), R.AnnualOf(m), YearMonth(year, month),
         units as real, amount as real, SignedTarget(amount, m))
  }

  /** An Ingram row priced with the target row its HQ_NUMBER matched. */
  function IngramFact(s: R.IngramSale, m: Option<Target>): Fact
  {
    PricedFact(s.name, s.category, s.year, s.month, s.units, s.amount, m)
  }

  /** A Sage row priced with the target row its SAGE_ID matched. */
  function SageFact(s: R.SageSale, m: Option<Target>): Fact
  {
    PricedFact(s.name, s.category, s.year, s.month, s.units, s.amount, m)
  }

  /** The current report prices the same sale with the absolute value of the
      older report's target: the two agree on every sale whose target is not
      negative and differ in sign on every return (negative NETAMT) priced
      with a positive ratio. */
  lemma TargetSigns(s: R.IngramSale, t: R.SageSale, m: Option<Target>)
    ensures R.IngramFact(s, m).target == Abs(IngramFact(s, m).target)
    ensures R.SageFact(t, m).target == Abs(SageFact(t, m).target)
    ensures Ratio(m) > 0.0 && s.amount < 0 ==> IngramFact(s, m).target < 0.0 < R.IngramFact(s, m).target
  {
  }

  /** The Ingram rows left-joined on HQ_NUMBER = BILLTO and priced. */
  function PriceIngram(sales: seq<R.IngramSale>, targets: seq<Target>): (facts: seq<Fact>)
    ensures |facts| >= |sales|
    ensures UniqueBillTo(targets) ==> |facts| == |sales|
    ensures UniqueBillTo(targets) ==> forall i :: 0 <= i < |sales| ==>
              facts[i] == IngramFact(sales[i], FindRow(targets, BillTo, R.IngramAcct(sales[i])))
  {
    var joined := MatchTargets(sales, R.IngramAcct, targets);
    MatchUnique(sales, R.IngramAcct, targets);
    seq(|joined|, i requires 0 <= i < |joined| => IngramFact(joined[i].0, joined[i].1))
  }

  /** The Sage rows left-joined on SAGE_ID = BILLTO and priced. */
  function PriceSage(sales: seq<R.SageSale>, targets: seq<Target>): (facts: seq<Fact>)
    ensures |facts| >= |sales|
    ensures UniqueBillTo(targets) ==> |facts| == |sales|
    ensures UniqueBillTo(targets) ==> forall i :: 0 <= i < |sales| ==>
              facts[i] == SageFact(sales[i], FindRow(targets, BillTo, R.SageAcct(sales[i])))
  {
    var joined := MatchTargets(sales, R.SageAcct, targets);
    MatchUnique(sales, R.SageAcct, targets);
    seq(|joined|, i requires 0 <= i < |joined| => SageFact(joined[i].0, joined[i].1))
  }

  function FactIn(p: int -> bool): Fact -> bool { (f: Fact) => p(f.ym) }

  /** With unique BILLTOs, pricing keeps NETAMT: every window total over the
      priced facts is the same total over the raw sales. */
  lemma PriceKeepsAmounts(ingram: seq<R.IngramSale>, sage: seq<R.SageSale>, targets: seq<Target>, p: int -> bool)
    requires UniqueBillTo(targets)
    ensures SumIf(PriceIngram(ingram, targets), FactIn(p), AmountOf) == SumIf(ingram, R.SaleIn(p), R.SaleAmount)
    ensures SumIf(PriceSage(sage, targets), FactIn(p), AmountOf) == SumIf(sage, R.SageIn(p), R.SageAmount)
  {
    IngramKeepsAmounts(ingram, targets, p);
    SageKeepsAmounts(sage, targets, p);
  }

  lemma IngramKeepsAmounts(ingram: seq<R.IngramSale>, targets: seq<Target>, p: int -> bool)
    requires UniqueBillTo(targets)
    ensures SumIf(PriceIngram(ingram, targets), FactIn(p), AmountOf) == SumIf(ingram, R.SaleIn(p), R.SaleAmount)
  {
    var facts := PriceIngram(ingram, targets);
    forall i | 0 <= i < |facts|
      ensures FactIn(p)(facts[i]) == R.SaleIn(p)(ingram[i]) && AmountOf(facts[i]) == R.SaleAmount(ingram[i])
    {
    }
    SumIfMatches(facts, FactIn(p), AmountOf, ingram, R.SaleIn(p), R.SaleAmount);
  }

  lemma SageKeepsAmounts(sage: seq<R.SageSale>, targets: seq<Target>, p: int -> bool)
    requires UniqueBillTo(targets)
    ensures SumIf(PriceSage(sage, targets), FactIn(p), AmountOf) == SumIf(sage, R.SageIn(p), R.SageAmount)
  {
    var facts := PriceSage(sage, targets);
    forall i | 0 <= i < |facts|
      ensures FactIn(p)(facts[i]) == R.SageIn(p)(sage[i]) && AmountOf(facts[i]) == R.SageAmount(sage[i])
    {
    }
    SumIfMatches(facts, FactIn(p), AmountOf, sage, R.SageIn(p), R.SageAmount);
  }

  // ---------------------------------------------------------------------------
  // Marking customers of both channels, on the sales rows
  // ---------------------------------------------------------------------------

  /** The NAMECUST values that occur on both a Sage and an Ingram fact. */
  function StarredNames(ingram: seq<Fact>, sage: seq<Fact>): set<string>
  {
    InBoth(Project(sage, NameOf), Project(ingram, NameOf))
  }

  /** `map_elements(add_star)` on NAMECUST; nothing else of a fact changes. */
  function Star(fs: seq<Fact>, both: set<string>): (r: seq<Fact>)
    ensures |r| == |fs|
    ensures forall i :: 0 <= i < |fs| ==> r[i].(name := fs[i].name) == fs[i]
  {
    seq(|fs|, i requires 0 <= i < |fs| => fs[i].(name := Tag(fs[i].name, both, '*')))
  }

  lemma FactNameMember(fs: seq<Fact>, n: string)
    ensures n in Project(fs, NameOf) <==> exists f <- fs :: f.name == n
  {
    ProjectMember(fs, NameOf, n);
    if exists f <- fs :: f.name == n {
      var f :| f in fs && f.name == n;
      var i :| 0 <= i < |fs| && fs[i] == f;
      assert NameOf(fs[i]) == n;
    }
  }

  /** A fact's name gains `*` exactly when the other channel has a fact with
      the same name; otherwise it is kept. */
  lemma StarIff(ingram: seq<Fact>, sage: seq<Fact>)
    ensures var both := StarredNames(ingram, sage);
      forall i :: 0 <= i < |ingram| ==>
        Star(ingram, both)[i].name ==
          if exists f <- sage :: f.name == ingram[i].name then ingram[i].name + "*" else ingram[i].name
    ensures var both := StarredNames(ingram, sage);
      forall i :: 0 <= i < |sage| ==>
        Star(sage, both)[i].name ==
          if exists f <- ingram :: f.name == sage[i].name then sage[i].name + "*" else sage[i].name
  {
    var sn, inames := Project(sage, NameOf), Project(ingram, NameOf);
    forall i | 0 <= i < |ingram|
      ensures Star(ingram, StarredNames(ingram, sage))[i].name ==
                if exists f <- sage :: f.name == ingram[i].name then ingram[i].name + "*" else ingram[i].name
    {
      TagIff(sn, inames, ingram[i].name, '*');
      FactNameMember(sage, ingram[i].name);
      FactNameMember(ingram, ingram[i].name);
      assert ingram[i] in ingram;
    }
    forall i | 0 <= i < |sage|
      ensures Star(sage, StarredNames(ingram, sage))[i].name ==
                if exists f <- ingram :: f.name == sage[i].name then sage[i].name + "*" else sage[i].name
    {
      TagIff(sn, inames, sage[i].name, '*');
      FactNameMember(sage, sage[i].name);
      FactNameMember(ingram, sage[i].name);
      assert sage[i] in sage;
    }
  }

  /** Both channels priced, marked and stacked, Sage first (`pl.concat`). */
  function Stacked(ingram: seq<R.IngramSale>, sage: seq<R.SageSale>, targets: seq<Target>): (facts: seq<Fact>)
    ensures |facts| == |PriceSage(sage, targets)| + |PriceIngram(ingram, targets)|
  {
    var i, s := PriceIngram(ingram, targets), PriceSage(sage, targets);
    var both := StarredNames(i, s);
    Star(s, both) + Star(i, both)
  }

  /** Marking and stacking keep NETAMT: any window's total over the stacked
      facts is the total over the raw sales of both channels. */
  lemma StackedAmounts(ingram: seq<R.IngramSale>, sage: seq<R.SageSale>, targets: seq<Target>, p: int -> bool)
    requires UniqueBillTo(targets)
    ensures SumIf(Stacked(ingram, sage, targets), FactIn(p), AmountOf) ==
            SumIf(ingram, R.SaleIn(p), R.SaleAmount) + SumIf(sage, R.SageIn(p), R.SageAmount)
  {
    var i, s := PriceIngram(ingram, targets), PriceSage(sage, targets);
    var both := StarredNames(i, s);
    assert Stacked(ingram, sage, targets) == Star(s, both) + Star(i, both);
    StarAmounts(s, i, both, p);
    PriceKeepsAmounts(ingram, sage, targets, p);
  }

  /** Marking names leaves every window's NETAMT total alone. */
  lemma StarAmounts(s: seq<Fact>, i: seq<Fact>, both: set<string>, p: int -> bool)
    ensures SumIf(Star(s, both) + Star(i, both), FactIn(p), AmountOf) == SumIf(s, FactIn(p), AmountOf) + SumIf(i, FactIn(p), AmountOf)
  {
    SumIfAppend(Star(s, both), Star(i, both), FactIn(p), AmountOf);
    SumIfMatches(Star(s, both), FactIn(p), AmountOf, s, FactIn(p), AmountOf);
    SumIfMatches(Star(i, both), FactIn(p), AmountOf, i, FactIn(p), AmountOf);
  }

  // ---------------------------------------------------------------------------
  // The group-by per customer, category and month
  // ---------------------------------------------------------------------------

  datatype MonthKey = MonthKey(name: string, category: Option<string>, ym: int)

  function MonthKeyOf(f: Fact): MonthKey { MonthKey(f.name, f.category, f.ym) }

  /** One group summed, with polars' `first` of 2025_Target: the value on the
      group's first row, null included. */
  function MergeMonth(k: MonthKey, g: seq<Fact>): (f: Fact)
    ensures MonthKeyOf(f) == k
    ensures g != [] ==> f.annual == g[0].annual
  {
    Fact(k.name, k.category, if g == [] then None else g[0].annual, k.ym,
         Sum(g, UnitsOf), Sum(g, AmountOf), Sum(g, TargetOf))
  }

  /** `group_by(["NAMECUST", "TUTTLE_SALES_CATEGORY", "YEARMONTH"]).agg(...)`. */
  function Combine(facts: seq<Fact>): (combined: seq<Fact>)
    ensures |combined| == |Keys(facts, MonthKeyOf)|
    ensures forall i :: 0 <= i < |combined| ==> MonthKeyOf(combined[i]) == Keys(facts, MonthKeyOf)[i]
    ensures forall i :: 0 <= i < |combined| ==>
              var g := Groups(facts, MonthKeyOf)[i];
              combined[i].units == Sum(g, UnitsOf) && combined[i].amount == Sum(g, AmountOf) &&
              combined[i].target == Sum(g, TargetOf)
  {
    Collapse(facts, MonthKeyOf, MergeMonth)
  }

  /** The group-by keeps NETAMT, NETUNITS and TARGET_NETAMT totals. */
  lemma CombineTotals(facts: seq<Fact>)
    ensures Sum(Combine(facts), AmountOf) == Sum(facts, AmountOf)
    ensures Sum(Combine(facts), UnitsOf) == Sum(facts, UnitsOf)
    ensures Sum(Combine(facts), TargetOf) == Sum(facts, TargetOf)
  {
    var out := Combine(facts);
    CollapseTotal(facts, MonthKeyOf, out, AmountOf, AmountOf);
    CollapseTotal(facts, MonthKeyOf, out, UnitsOf, UnitsOf);
    CollapseTotal(facts, MonthKeyOf, out, TargetOf, TargetOf);
  }

  /** A combined row's 2025_Target is the one on the first stacked fact of its
      customer, category and month (a Sage fact whenever there is one), even
      when that is null and a later fact has a value. */
  lemma CombineFirst(facts: seq<Fact>, i: int)
    requires 0 <= i < |Combine(facts)|
    ensures var k := Keys(facts, MonthKeyOf)[i];
      FindRow(facts, MonthKeyOf, k).Some? && Combine(facts)[i].annual == FindRow(facts, MonthKeyOf, k).value.annual
  {
    var k := Keys(facts, MonthKeyOf)[i];
    GroupsShape(facts, MonthKeyOf, i);
    var g := Groups(facts, MonthKeyOf)[i];
    assert g == GroupOf(facts, MonthKeyOf, k);
    assert Combine(facts)[i] == MergeMonth(k, g);
    GroupOfFirst(facts, MonthKeyOf, k);
  }

  // ---------------------------------------------------------------------------
  // Report rows
  // ---------------------------------------------------------------------------

  datatype Customer = Customer(name: string, category: Option<string>)

  function CustomerOf(f: Fact): Customer { Customer(f.name, f.category) }

  /** The base rows: `select(NAMECUST, category, 2025_Target).unique()` of the
      combined rows. */
  datatype BaseKey = BaseKey(name: string, category: Option<string>, annual: Option<real>)

  function BaseKeyOf(f: Fact): BaseKey { BaseKey(f.name, f.category, f.annual) }

  function BaseCustomer(b: BaseKey): Customer { Customer(b.name, b.category) }

  /** A report row before the integer cast: 2025_Target after
      `fill_null(404.404)`, the year-to-date pair (left null when nothing
      matched), the twelve month actuals from the latest back, the previous
      month's target (the other eleven targets are dropped), the rolling
      pair, the two prior years' actuals, Capture_Rate and
      Target_Remaining. */
  datatype Row = Row(customer: string, category: Option<string>, annual: real,
                     ytdActual: Option<real>, ytdTarget: Option<real>,
                     actuals: seq<real>, prevTarget: real, rollingActual: real, rollingTarget: real,
                     years: seq<real>, captureRate: Option<real>, remaining: Option<real>)

  /** The sentinel `fill_null(404.404)` writes into a missing 2025_Target. */
  const MissingTarget: real := 404.404

  /** Capture_Rate = YTD_TARGET / 2025_Target * 100: null with a null
      YTD_TARGET, and no finite value when 2025_Target is 0. */
  function LegacyCaptureRate(ytdTarget: Option<real>, annual: real): (r: Option<real>)
    ensures r.Some? <==> ytdTarget.Some? && annual != 0.0
    ensures r.Some? ==> r.value * annual == ytdTarget.value * 100.0
  {
    match ytdTarget
    case None => None
    case Some(t) => if annual == 0.0 then None else Some(t / annual * 100.0)
  }

  /** Target_Remaining = 2025_Target - YTD_ACTUAL, null with a null
      YTD_ACTUAL. */
  function Remaining(annual: real, ytdActual: Option<real>): (r: Option<real>)
    ensures r.None? <==> ytdActual.None?
    ensures r.Some? ==> r.value + ytdActual.value == annual
  {
    match ytdActual
    case None => None
    case Some(a) => Some(annual - a)
  }

  /** The window columns of one base row, read from the combined rows with
      the customer name and category as join key. */
  function BuildRow(combined: seq<Fact>, b: BaseKey, year: int, month: int): (r: Row)
    requires ValidMonth(month)
    ensures r.customer == b.name && r.category == b.category
    ensures r.annual == if b.annual.Some? then b.annual.value else MissingTarget
    ensures |r.actuals| == 12 && |r.years| == 2
    ensures r.rollingActual == Total(r.actuals)
    ensures r.ytdActual.None? <==> r.ytdTarget.None?
    ensures r.captureRate == LegacyCaptureRate(r.ytdTarget, r.annual)
    ensures r.remaining == Remaining(r.annual, r.ytdActual)
  {
    var k, keys := BaseCustomer(b), TrailingKeys(year, month);
    TrailingNoDup(year, month);
    SpanIsSumOfMonths(combined, Ym, CustomerOf, AmountOf, keys, k);
    var annual := b.annual.GetOr(MissingTarget);
    var ytdA := NullableCell(combined, Ym, R.InYear(year), CustomerOf, AmountOf, k);
    var ytdT := NullableCell(combined, Ym, R.InYear(year), CustomerOf, TargetOf, k);
    Row(b.name, b.category, annual, ytdA, ytdT,
        MonthCells(combined, Ym, CustomerOf, AmountOf, keys, k),
        Cell(combined, Ym, IsKey(keys[0]), CustomerOf, TargetOf, k),
        Cell(combined, Ym, InKeys(keys), CustomerOf, AmountOf, k),
        Cell(combined, Ym, InKeys(keys), CustomerOf, TargetOf, k),
        [Cell(combined, Ym, R.InYear(year - 1), CustomerOf, AmountOf, k),
         Cell(combined, Ym, R.InYear(year - 2), CustomerOf, AmountOf, k)],
        LegacyCaptureRate(ytdT, annual), Remaining(annual, ytdA))
  }

  /** One row per distinct (NAMECUST, category, 2025_Target) of the combined
      rows. */
  function Rows(facts: seq<Fact>, year: int, month: int): (rows: seq<Row>)
    requires ValidMonth(month)
    ensures |rows| == |Keys(Combine(facts), BaseKeyOf)|
    ensures forall i :: 0 <= i < |rows| ==>
              rows[i] == BuildRow(Combine(facts), Keys(Combine(facts), BaseKeyOf)[i], year, month)
  {
    var combined := Combine(facts);
    var base := Keys(combined, BaseKeyOf);
    seq(|base|, i requires 0 <= i < |base| => BuildRow(combined, base[i], year, month))
  }

  /** The windows read through the combined rows are the windows over the
      stacked facts, since the group-by only merges facts of one customer,
      category and month. */
  lemma CombineWindow(facts: seq<Fact>, p: int -> bool, k: Customer, val: Fact -> real)
    requires forall i :: 0 <= i < |Combine(facts)| ==> val(Combine(facts)[i]) == Sum(Groups(facts, MonthKeyOf)[i], val)
    ensures Window(Combine(facts), Ym, p, CustomerOf, k, val) == Window(facts, Ym, p, CustomerOf, k, val)
  {
    var out := Combine(facts);
    var s := (mk: MonthKey) => p(mk.ym) && Customer(mk.name, mk.category) == k;
    RegroupSumIf(facts, MonthKeyOf, val, out, MonthKeyOf, val, s);
    WindowAsSumIf(out, Ym, p, CustomerOf, k, val, Selects(s, MonthKeyOf));
    WindowAsSumIf(facts, Ym, p, CustomerOf, k, val, Selects(s, MonthKeyOf));
  }

  /** The combined rows carry exactly the keys of the facts. */
  lemma CombineKeys(facts: seq<Fact>, k: MonthKey)
    ensures (exists c <- Combine(facts) :: MonthKeyOf(c) == k) <==> (exists f <- facts :: MonthKeyOf(f) == k)
  {
    RowsWithKeys(facts, MonthKeyOf, Combine(facts), MonthKeyOf, k);
  }


  /** Some combined row is in a window exactly when some fact is. */
  lemma CombineWindowEmpty(facts: seq<Fact>, p: int -> bool, k: Customer)
    ensures (forall c <- Combine(facts) :: !(p(Ym(c)) && CustomerOf(c) == k)) <==>
            (forall f <- facts :: !(p(Ym(f)) && CustomerOf(f) == k))
  {
    var out := Combine(facts);
    if exists c <- out :: p(Ym(c)) && CustomerOf(c) == k {
      var c :| c in out && p(Ym(c)) && CustomerOf(c) == k;
      CombineKeys(facts, MonthKeyOf(c));
      var f :| f in facts && MonthKeyOf(f) == MonthKeyOf(c);
      assert p(Ym(f)) && CustomerOf(f) == k;
    }
    if exists f <- facts :: p(Ym(f)) && CustomerOf(f) == k {
      var f :| f in facts && p(Ym(f)) && CustomerOf(f) == k;
      CombineKeys(facts, MonthKeyOf(f));
      var c :| c in out && MonthKeyOf(c) == MonthKeyOf(f);
      assert p(Ym(c)) && CustomerOf(c) == k;
    }
  }

  lemma CombinedWindows(facts: seq<Fact>, p: int -> bool, k: Customer)
    ensures Window(Combine(facts), Ym, p, CustomerOf, k, AmountOf) == Window(facts, Ym, p, CustomerOf, k, AmountOf)
    ensures Window(Combine(facts), Ym, p, CustomerOf, k, TargetOf) == Window(facts, Ym, p, CustomerOf, k, TargetOf)
  {
    CombineWindow(facts, p, k, AmountOf);
    CombineWindow(facts, p, k, TargetOf);
  }

  /** Every window column of a row is the window's total over the stacked
      facts of the row's customer name and category; the year-to-date cells
      are null exactly when no such fact falls in the current year. */
  lemma RowWindows(facts: seq<Fact>, year: int, month: int, i: int)
    requires ValidMonth(month) && 0 <= i < |Rows(facts, year, month)|
    ensures var r, keys := Rows(facts, year, month)[i], TrailingKeys(year, month);
      var k := Customer(r.customer, r.category);
      && (forall j :: 0 <= j < 12 ==> r.actuals[j] == Window(facts, Ym, IsKey(keys[j]), CustomerOf, k, AmountOf))
      && r.prevTarget == Window(facts, Ym, IsKey(keys[0]), CustomerOf, k, TargetOf)
      && r.rollingActual == Window(facts, Ym, InKeys(keys), CustomerOf, k, AmountOf)
      && r.rollingTarget == Window(facts, Ym, InKeys(keys), CustomerOf, k, TargetOf)
      && r.years[0] == Window(facts, Ym, R.InYear(year - 1), CustomerOf, k, AmountOf)
      && r.years[1] == Window(facts, Ym, R.InYear(year - 2), CustomerOf, k, AmountOf)
      && (r.ytdActual.None? <==> forall f <- facts :: !(R.InYear(year)(Ym(f)) && CustomerOf(f) == k))
      && (r.ytdActual.Some? ==> r.ytdActual.value == Window(facts, Ym, R.InYear(year), CustomerOf, k, AmountOf))
      && (r.ytdTarget.Some? ==> r.ytdTarget.value == Window(facts, Ym, R.InYear(year), CustomerOf, k, TargetOf))
  {
    var r, keys := Rows(facts, year, month)[i], TrailingKeys(year, month);
    var k := Customer(r.customer, r.category);
    forall j | 0 <= j < 12 {
      CombinedWindows(facts, IsKey(keys[j]), k);
    }
    CombinedWindows(facts, InKeys(keys), k);
    CombinedWindows(facts, R.InYear(year - 1), k);
    CombinedWindows(facts, R.InYear(year - 2), k);
    CombinedWindows(facts, R.InYear(year), k);
    CombineWindowEmpty(facts, R.InYear(year), k);
  }

  /** A customer whose months carry different 2025_Target values gets one
      base row per value, and each of those rows carries the customer's full
      window columns: the rows differ only in 2025_Target and what is derived
      from it. */
  lemma SplitTargetShares(facts: seq<Fact>, year: int, month: int, i: int, j: int)
    requires ValidMonth(month) && 0 <= i < |Rows(facts, year, month)| && 0 <= j < |Rows(facts, year, month)|
    requires Rows(facts, year, month)[i].customer == Rows(facts, year, month)[j].customer
    requires Rows(facts, year, month)[i].category == Rows(facts, year, month)[j].category
    ensures var a, b := Rows(facts, year, month)[i], Rows(facts, year, month)[j];
      a.ytdActual == b.ytdActual && a.ytdTarget == b.ytdTarget && a.actuals == b.actuals &&
      a.prevTarget == b.prevTarget && a.rollingActual == b.rollingActual && a.years == b.years
  {
    var base := Keys(Combine(facts), BaseKeyOf);
    assert BaseCustomer(base[i]) == BaseCustomer(base[j]);
  }

  // ---------------------------------------------------------------------------
  // Totals
  // ---------------------------------------------------------------------------

  /** Each customer name and category has one 2025_Target among the combined
      rows, so it has one base row. */
  ghost predicate OneTargetPerCustomer(facts: seq<Fact>)
  {
    NoDup(Project(Keys(Combine(facts), BaseKeyOf), BaseCustomer))
  }

  function RollingOf(r: Row): real { r.rollingActual }

  /** Every combined row's customer has a base row. */
  lemma BaseCovers(facts: seq<Fact>)
    ensures var combined := Combine(facts);
      forall c <- combined :: CustomerOf(c) in Project(Keys(combined, BaseKeyOf), BaseCustomer)
  {
    CustomersCovered(Combine(facts));
  }

  lemma CustomersCovered(combined: seq<Fact>)
    ensures forall c <- combined :: CustomerOf(c) in Project(Keys(combined, BaseKeyOf), BaseCustomer)
  {
    var base := Keys(combined, BaseKeyOf);
    var ks := Project(base, BaseCustomer);
    KeysCover(combined, BaseKeyOf);
    forall c <- combined ensures CustomerOf(c) in ks {
      var i :| 0 <= i < |base| && base[i] == BaseKeyOf(c);
      assert ks[i] == CustomerOf(c);
    }
  }

  /** The trailing-twelve-month total over the combined rows is the total
      over the stacked facts. */
  lemma CombineRolling(facts: seq<Fact>, keys: seq<int>)
    ensures WindowTotal(Combine(facts), Ym, InKeys(keys), AmountOf) == SumIf(facts, FactIn(InKeys(keys)), AmountOf)
  {
    var combined := Combine(facts);
    var s := (mk: MonthKey) => InKeys(keys)(mk.ym);
    RegroupSumIf(facts, MonthKeyOf, AmountOf, combined, MonthKeyOf, AmountOf, s);
    WindowTotalAsSumIf(combined, Ym, InKeys(keys), AmountOf, Selects(s, MonthKeyOf));
    SumIfExt(facts, Selects(s, MonthKeyOf), FactIn(InKeys(keys)), AmountOf);
  }

  /** With one base row per customer, the rows' 12M_ROLLING_ACTUAL adds up to
      the NETAMT of every stacked fact in the trailing twelve months. */
  lemma RollingConserved(facts: seq<Fact>, year: int, month: int)
    requires ValidMonth(month) && OneTargetPerCustomer(facts)
    ensures Sum(Rows(facts, year, month), RollingOf) == SumIf(facts, FactIn(InKeys(TrailingKeys(year, month))), AmountOf)
  {
    var rows, keys := Rows(facts, year, month), TrailingKeys(year, month);
    var combined := Combine(facts);
    var ks := Project(Keys(combined, BaseKeyOf), BaseCustomer);
    var perKey := WindowBy(combined, Ym, InKeys(keys), CustomerOf, AmountOf);
    forall i | 0 <= i < |rows| ensures RollingOf(rows[i]) == perKey(ks[i]) {
    }
    SumMatches(rows, RollingOf, ks, perKey);
    BaseCovers(facts);
    WindowOverKeys(combined, Ym, InKeys(keys), CustomerOf, AmountOf, ks);
    CombineRolling(facts, keys);
  }

  // ---------------------------------------------------------------------------
  // Joins on a null category, as written
  // ---------------------------------------------------------------------------

  /** A polars join matches no key holding a null, and every window join is
      on (NAMECUST, category): a base row without a category finds nothing
      in any of them. */
  predicate Joinable(b: BaseKey) { b.category.Some? }

  /** The row as the joins build it: for a base row without a category the
      zero-filled month, target, 12M and year columns are 0, and the unfilled
      year-to-date cells are null, which leaves Capture_Rate and
      Target_Remaining null too. 2025_Target comes from the base row itself
      and is kept. */
  function BuildRowAsWritten(combined: seq<Fact>, b: BaseKey, year: int, month: int): (r: Row)
    requires ValidMonth(month)
    ensures Joinable(b) ==> r == BuildRow(combined, b, year, month)
    ensures r.customer == b.name && r.category == b.category
    ensures r.annual == if b.annual.Some? then b.annual.value else MissingTarget
    ensures !Joinable(b) ==>
              && r.rollingActual == 0.0 && r.rollingTarget == 0.0 && r.prevTarget == 0.0
              && r.ytdActual.None? && r.ytdTarget.None? && r.captureRate.None? && r.remaining.None?
              && |r.actuals| == 12 && (forall j :: 0 <= j < 12 ==> r.actuals[j] == 0.0)
              && |r.years| == 2 && (forall j :: 0 <= j < 2 ==> r.years[j] == 0.0)
  {
    if Joinable(b) then BuildRow(combined, b, year, month)
    else
      var annual := b.annual.GetOr(MissingTarget);
      Row(b.name, b.category, annual, None, None, seq(12, j => 0.0), 0.0, 0.0, 0.0, seq(2, j => 0.0),
          LegacyCaptureRate(None, annual), Remaining(annual, None))
  }

  /** The rows as written: one per base row of `Rows`, built by
      `BuildRowAsWritten`. */
  function RowsAsWritten(facts: seq<Fact>, year: int, month: int): (rows: seq<Row>)
    requires ValidMonth(month)
    ensures |rows| == |Rows(facts, year, month)|
  {
    var combined := Combine(facts);
    var base := Keys(combined, BaseKeyOf);
    seq(|base|, i requires 0 <= i < |base| => BuildRowAsWritten(combined, base[i], year, month))
  }

  /** Row by row, the as-written rows are those of `Rows` for a categorised
      base row; for a base row without a category the rolling actual is 0
      and the year-to-date actual and Target_Remaining are null. */
  lemma RowsAsWrittenAt(facts: seq<Fact>, year: int, month: int, i: int)
    requires ValidMonth(month) && 0 <= i < |Rows(facts, year, month)|
    ensures var b, r := Keys(Combine(facts), BaseKeyOf)[i], RowsAsWritten(facts, year, month)[i];
      && (Joinable(b) ==> r == Rows(facts, year, month)[i])
      && (!Joinable(b) ==> r.rollingActual == 0.0 && r.ytdActual.None? && r.remaining.None?)
  {
    var b := Keys(Combine(facts), BaseKeyOf)[i];
    assert RowsAsWritten(facts, year, month)[i] == BuildRowAsWritten(Combine(facts), b, year, month);
  }

  function Categorized(f: Fact): bool { f.category.Some? }

  /** A fact in the window whose category is known. */
  function KnownIn(p: int -> bool): Fact -> bool { (f: Fact) => p(f.ym) && f.category.Some? }

  /** The trailing-twelve-month total of the categorised combined rows is
      that of the categorised stacked facts. */
  lemma CombineKnown(facts: seq<Fact>, keys: seq<int>)
    ensures SumIf(Combine(facts), KnownIn(InKeys(keys)), AmountOf) == SumIf(facts, KnownIn(InKeys(keys)), AmountOf)
  {
    var combined := Combine(facts);
    var s := (mk: MonthKey) => InKeys(keys)(mk.ym) && mk.category.Some?;
    RegroupSumIf(facts, MonthKeyOf, AmountOf, combined, MonthKeyOf, AmountOf, s);
    SumIfExt(combined, Selects(s, MonthKeyOf), KnownIn(InKeys(keys)), AmountOf);
    SumIfExt(facts, Selects(s, MonthKeyOf), KnownIn(InKeys(keys)), AmountOf);
  }

  /** As written, with one base row per customer, the rows' 12M_ROLLING_ACTUAL
      adds up to the trailing-twelve-month NETAMT of the categorised facts
      only: the sales of every customer without a category vanish. */
  lemma RollingConservedAsWritten(facts: seq<Fact>, year: int, month: int)
    requires ValidMonth(month) && OneTargetPerCustomer(facts)
    ensures Sum(RowsAsWritten(facts, year, month), RollingOf) == SumIf(facts, KnownIn(InKeys(TrailingKeys(year, month))), AmountOf)
  {
    var rows, keys := RowsAsWritten(facts, year, month), TrailingKeys(year, month);
    var combined := Combine(facts);
    var base := Keys(combined, BaseKeyOf);
    var ks, kept := Project(base, BaseCustomer), Where(combined, Categorized);
    var perKey := WindowBy(kept, Ym, InKeys(keys), CustomerOf, AmountOf);
    forall i | 0 <= i < |rows| ensures RollingOf(rows[i]) == perKey(ks[i]) {
      RowsAsWrittenAt(facts, year, month, i);
      FilteredWindow(combined, Categorized, Ym, InKeys(keys), CustomerOf, ks[i], AmountOf);
    }
    SumMatches(rows, RollingOf, ks, perKey);
    BaseCovers(facts);
    WindowOverKeys(kept, Ym, InKeys(keys), CustomerOf, AmountOf, ks);
    FilteredTotal(combined, Categorized, Ym, InKeys(keys), AmountOf, KnownIn(InKeys(keys)));
    CombineKnown(facts, keys);
  }

  /** One sale of 5.0 last month by a customer without a master category,
      reported in March 2024: as written the report's 12M_ROLLING_ACTUAL
      column adds up to 0, corrected to 5. */
  lemma NullCategoryLost()
    ensures var facts := [Fact("N", None, None, 202402, 1.0, 5.0, 5.0)];
      && Sum(RowsAsWritten(facts, 2024, 3), RollingOf) == 0.0
      && Sum(Rows(facts, 2024, 3), RollingOf) == 5.0
  {
    var x := Fact("N", None, None, 202402, 1.0, 5.0, 5.0);
    var keys := TrailingKeys(2024, 3);
    assert keys[0] == 202402;
    assert OneTargetPerCustomer([x]) by {
      assert |Keys([x], MonthKeyOf)| <= 1;
      assert |Keys(Combine([x]), BaseKeyOf)| <= 1;
    }
    RollingConservedAsWritten([x], 2024, 3);
    RollingConserved([x], 2024, 3);
    assert SumIf([x], KnownIn(InKeys(keys)), AmountOf) == 0.0;
    assert SumIf([x], FactIn(InKeys(keys)), AmountOf) == 5.0;
  }

  // ---------------------------------------------------------------------------
  // The report
  // ---------------------------------------------------------------------------

  function ByRolling(a: Row, b: Row): bool { a.rollingActual > b.rollingActual }

  /** The report's rows before the integer cast, for the run month `month` of
      `year`, largest trailing-twelve-month actual first. */
  function Report(ingram: seq<R.IngramSale>, sage: seq<R.SageSale>, targetRows: seq<TargetRow>, year: int, month: int): (rows: seq<Row>)
    requires ValidMonth(month)
    ensures multiset(rows) == multiset(Rows(Stacked(ingram, sage, CleanTargets(targetRows)), year, month))
    ensures forall i :: 0 <= i < |rows| - 1 ==> rows[i].rollingActual >= rows[i + 1].rollingActual
  {
    var rows := Rows(Stacked(ingram, sage, CleanTargets(targetRows)), year, month);
    SortByInOrder(rows, ByRolling);
    SortBy(rows, ByRolling)
  }

  /** With unique BILLTOs and one 2025_Target per customer, the report's
      12M_ROLLING_ACTUAL column adds up to the NETAMT of all Ingram and Sage
      sales in the trailing twelve months. */
  lemma ReportRollingTotal(ingram: seq<R.IngramSale>, sage: seq<R.SageSale>, targetRows: seq<TargetRow>, year: int, month: int)
    requires ValidMonth(month)
    requires UniqueBillTo(CleanTargets(targetRows))
    requires OneTargetPerCustomer(Stacked(ingram, sage, CleanTargets(targetRows)))
    ensures var keys := TrailingKeys(year, month);
      Sum(Report(ingram, sage, targetRows, year, month), RollingOf) ==
      SumIf(ingram, R.SaleIn(InKeys(keys)), R.SaleAmount) + SumIf(sage, R.SageIn(InKeys(keys)), R.SageAmount)
  {
    var targets, keys := CleanTargets(targetRows), TrailingKeys(year, month);
    var facts := Stacked(ingram, sage, targets);
    SumPerm(Report(ingram, sage, targetRows, year, month), Rows(facts, year, month), RollingOf);
    RollingConserved(facts, year, month);
    StackedAmounts(ingram, sage, targets, InKeys(keys));
  }

  // ---------------------------------------------------------------------------
  // The integer cast
  // ---------------------------------------------------------------------------

  /** `cast(pl.Int64)` of a float: truncation toward zero. */
  function Trunc(x: real): (n: int)
    ensures x >= 0.0 ==> n as real <= x < n as real + 1.0
    ensures x < 0.0 ==> n as real - 1.0 < x <= n as real
  {
    if x >= 0.0 then x.Floor else -((-x).Floor)
  }

  /** `fill_null(404.404).cast(pl.Int64)`. */
  function CastCell(v: Option<real>): (n: int)
    ensures v.None? ==> n == 404
    ensures v.Some? ==> n == Trunc(v.value)
  {
    Trunc(v.GetOr(MissingTarget))
  }

  /** A row as written: every numeric column but Capture_Rate cast to an
      integer, nulls becoming 404. */
  datatype OutRow = OutRow(customer: string, category: Option<string>, annual: int,
                           ytdActual: int, ytdTarget: int, actuals: seq<int>, prevTarget: int,
                           rollingActual: int, rollingTarget: int, years: seq<int>,
                           captureRate: Option<real>, remaining: int)

  function CastRow(r: Row): (o: OutRow)
    ensures |o.actuals| == |r.actuals| && |o.years| == |r.years|
    ensures o.customer == r.customer && o.category == r.category && o.captureRate == r.captureRate
  {
    OutRow(r.customer, r.category, CastCell(Some(r.annual)), CastCell(r.ytdActual), CastCell(r.ytdTarget),
           seq(|r.actuals|, j requires 0 <= j < |r.actuals| => Trunc(r.actuals[j])),
           Trunc(r.prevTarget), Trunc(r.rollingActual), Trunc(r.rollingTarget),
           seq(|r.years|, j requires 0 <= j < |r.years| => Trunc(r.years[j])),
           r.captureRate, CastCell(r.remaining))
  }

  /** A missing 2025_Target is written as 404, and so are the year-to-date
      columns and Target_Remaining of a customer without sales this year:
      the written report cannot tell them from a real 404. */
  lemma Sentinels(combined: seq<Fact>, b: BaseKey, year: int, month: int)
    requires ValidMonth(month)
    ensures b.annual.None? ==> CastRow(BuildRow(combined, b, year, month)).annual == 404
    ensures var r := BuildRow(combined, b, year, month);
      r.ytdActual.None? ==>
        CastRow(r).ytdActual == 404 && CastRow(r).ytdTarget == 404 && CastRow(r).remaining == 404
  {
  }
}

=== FILE: report_three.dfy ===
/** The current combined target report (`report_three_combined` in
    src/pipelines/report_three_combined.py): Ingram and Sage (IPS) sales are
    priced against the target table, grouped per customer account, spread
    into month, trailing-twelve-month, year-to-date and prior-year columns,
    marked with `~` when the customer buys through both channels, merged per
    customer name and category and sorted by the trailing-twelve-month
    actual.

    The value columns are modelled here; the names and the order of the
    columns are in `TargetColumns`. */
module ReportThree {
  import opened Wrappers
  import opened Text
  import opened Calendar
  import opened Tables
  import opened Windows
  import opened Targets
  import opened Tagging

  // ---------------------------------------------------------------------------
  // Inputs and priced facts
  // ---------------------------------------------------------------------------

  /** One Ingram sales row (ISBN and TITLE are dropped before any use).
      NETUNITS and NETAMT are the integers of the `cast(pl.Int64)` at lines
      69-70 of the script, so `amount` is NETAMT already truncated toward
      zero. TUTTLE_SALES_CATEGORY comes from a left join on the master
      category tables and is null for an account without a category. */
  datatype IngramSale = IngramSale(hq: string, sl: string, name: string, category: Option<string>,
                                   year: int, month: int, units: int, amount: int)

  /** One Sage sales row, with the same Int64 figures and nullable
      category. */
  datatype SageSale = SageSale(sageId: string, name: string, category: Option<string>,
                               year: int, month: int, units: int, amount: int)

  datatype Side = Ingram | Sage

  /** A sales row after cleaning and pricing: text columns stripped, YEAR and
      MONTH folded into YEARMONTH, 2025_Target and TARGET_NETAMT attached from
      the matched target row. `acct` is HQ_NUMBER or SAGE_ID; Sage rows have
      no SL_NUMBER and carry "" in its place. */
  datatype Fact = Fact(acct: string, sl: string, name: string, category: Option<string>, annual: Option<real>,
                       ym: int, units: real, amount: real, target: real)

  function Ym(f: Fact): int { f.ym }
  function UnitsOf(f: Fact): real { f.units }
  function AmountOf(f: Fact): real { f.amount }
  function TargetOf(f: Fact): real { f.target }

  /** The 2025 column of the matched target row, null when none matched. */
  function AnnualOf(m: Option<Target>): Option<real>
  {
    match m
    case Some(t) => t.annual
    case None => None
  }

  function IngramAcct(s: IngramSale): string { Trim(s.hq) }

  function SageAcct(s: SageSale): string { Trim(s.sageId) }

  /** An Ingram row priced with the target row its HQ_NUMBER matched. */
  function IngramFact(s: IngramSale, m: Option<Target>): (f: Fact)
    ensures f.target >= 0.0 && f.target == Abs(f.amount * Ratio(m))
    ensures ValidMonth(s.month) ==> KeyYear(f.ym) == s.year && KeyMonth(f.ym) == s.month
    ensures f.acct == IngramAcct(s) && f.annual == AnnualOf(m)
  {
    Fact(Trim(s.hq), Trim(s.sl), Trim(s.name), StripCell(s.category), AnnualOf(m),
         YearMonth(s.year, s.month), s.units as real, s.amount as real, AbsTarget(s.amount, m))
  }

  /** A Sage row priced with the target row its SAGE_ID matched. */
  function SageFact(s: SageSale, m: Option<Target>): (f: Fact)
    ensures f.target >= 0.0 && f.target == Abs(f.amount * Ratio(m))
    ensures ValidMonth(s.month) ==> KeyYear(f.ym) == s.year && KeyMonth(f.ym) == s.month
    ensures f.acct == SageAcct(s) && f.sl == "" && f.annual == AnnualOf(m)
  {
    Fact(Trim(s.sageId), "", Trim(s.name), StripCell(s.category), AnnualOf(m),
         YearMonth(s.year, s.month), s.units as real, s.amount as real, AbsTarget(s.amount, m))
  }

  /** The Ingram rows left-joined on HQ_NUMBER = BILLTO and priced. */
  function PriceIngram(sales: seq<IngramSale>, targets: seq<Target>): (facts: seq<Fact>)
    ensures |facts| >= |sales|
    ensures forall f <- facts :: f.target >= 0.0
    ensures UniqueBillTo(targets) ==> |facts| == |sales|
    ensures UniqueBillTo(targets) ==> forall i :: 0 <= i < |sales| ==>
              facts[i] == IngramFact(sales[i], FindRow(targets, BillTo, IngramAcct(sales[i])))
  {
    var joined := MatchTargets(sales, IngramAcct, targets);
    MatchUnique(sales, IngramAcct, targets);
    seq(|joined|, i requires 0 <= i < |joined| => IngramFact(joined[i].0, joined[i].1))
  }

  /** The Sage rows left-joined on SAGE_ID = BILLTO and priced. */
  function PriceSage(sales: seq<SageSale>, targets: seq<Target>): (facts: seq<Fact>)
    ensures |facts| >= |sales|
    ensures forall f <- facts :: f.target >= 0.0 && f.sl == ""
    ensures UniqueBillTo(targets) ==> |facts| == |sales|
    ensures UniqueBillTo(targets) ==> forall i :: 0 <= i < |sales| ==>
              facts[i] == SageFact(sales[i], FindRow(targets, BillTo, SageAcct(sales[i])))
  {
    var joined := MatchTargets(sales, SageAcct, targets);
    MatchUnique(sales, SageAcct, targets);
    seq(|joined|, i requires 0 <= i < |joined| => SageFact(joined[i].0, joined[i].1))
  }

  /** With unique BILLTOs, pricing keeps the sales: every window total of
      NETAMT over the priced Ingram facts is the same total over the raw
      sales. */
  lemma PriceIngramKeepsAmounts(sales: seq<IngramSale>, targets: seq<Target>, p: int -> bool)
    requires UniqueBillTo(targets)
    ensures WindowTotal(PriceIngram(sales, targets), Ym, p, AmountOf) ==
            SumIf(sales, SaleIn(p), SaleAmount)
  {
    var facts := PriceIngram(sales, targets);
    WindowTotalAsSumIf(facts, Ym, p, AmountOf, FactIn(p));
    SumIfMatches(facts, FactIn(p), AmountOf, sales, SaleIn(p), SaleAmount);
  }

  /** The same for the Sage facts. */
  lemma PriceSageKeepsAmounts(sales: seq<SageSale>, targets: seq<Target>, p: int -> bool)
    requires UniqueBillTo(targets)
    ensures WindowTotal(PriceSage(sales, targets), Ym, p, AmountOf) ==
            SumIf(sales, SageIn(p), SageAmount)
  {
    var facts := PriceSage(sales, targets);
    WindowTotalAsSumIf(facts, Ym, p, AmountOf, FactIn(p));
    SumIfMatches(facts, FactIn(p), AmountOf, sales, SageIn(p), SageAmount);
  }

  function SageIn(p: int -> bool): SageSale -> bool { (s: SageSale) => p(YearMonth(s.year, s.month)) }

  function SageAmount(s: SageSale): real { s.amount as real }

  function FactIn(p: int -> bool): Fact -> bool { (f: Fact) => p(f.ym) }

  function SaleIn(p: int -> bool): IngramSale -> bool { (s: IngramSale) => p(YearMonth(s.year, s.month)) }

  function SaleAmount(s: IngramSale): real { s.amount as real }

  // ---------------------------------------------------------------------------
  // The per-month group-by of each side
  // ---------------------------------------------------------------------------

  /** The grouping key of the per-month totals: SL_NUMBER, the account,
      NAMECUST, 2025_Target, the category and YEARMONTH (Sage has no
      SL_NUMBER). */
  datatype CombKey = CombKey(sl: string, acct: string, name: string, annual: Option<real>, category: Option<string>, ym: int)

  function CombKeyOf(f: Fact): CombKey { CombKey(f.sl, f.acct, f.name, f.annual, f.category, f.ym) }

  /** One group of facts summed into a single fact carrying the group's key. */
  function MergeFacts(k: CombKey, g: seq<Fact>): (f: Fact)
    ensures CombKeyOf(f) == k
  {
    Fact(k.acct, k.sl, k.name, k.category, k.annual, k.ym, Sum(g, UnitsOf), Sum(g, AmountOf), Sum(g, TargetOf))
  }

  /** `group_by(grouping_keys).agg(sum NETAMT, NETUNITS, TARGET_NETAMT)`. */
  function Combine(facts: seq<Fact>): (combined: seq<Fact>)
    ensures |combined| == |Keys(facts, CombKeyOf)|
    ensures forall i :: 0 <= i < |combined| ==> CombKeyOf(combined[i]) == Keys(facts, CombKeyOf)[i]
    ensures forall i :: 0 <= i < |combined| ==>
              var g := Groups(facts, CombKeyOf)[i];
              combined[i].units == Sum(g, UnitsOf) && combined[i].amount == Sum(g, AmountOf) &&
              combined[i].target == Sum(g, TargetOf)
  {
    Collapse(facts, CombKeyOf, MergeFacts)
  }

  /** The group-by loses nothing: NETAMT, NETUNITS and TARGET_NETAMT keep
      their totals. */
  lemma CombineTotals(facts: seq<Fact>)
    ensures Sum(Combine(facts), AmountOf) == Sum(facts, AmountOf)
    ensures Sum(Combine(facts), UnitsOf) == Sum(facts, UnitsOf)
    ensures Sum(Combine(facts), TargetOf) == Sum(facts, TargetOf)
  {
    var out := Combine(facts);
    CollapseTotal(facts, CombKeyOf, out, AmountOf, AmountOf);
    CollapseTotal(facts, CombKeyOf, out, UnitsOf, UnitsOf);
    CollapseTotal(facts, CombKeyOf, out, TargetOf, TargetOf);
  }

  /** The combined rows carry exactly the keys of the facts. */
  lemma CombineKeys(facts: seq<Fact>, k: CombKey)
    ensures (exists c <- Combine(facts) :: CombKeyOf(c) == k) <==> (exists f <- facts :: CombKeyOf(f) == k)
  {
    RowsWithKeys(facts, CombKeyOf, Combine(facts), CombKeyOf, k);
  }


  // ---------------------------------------------------------------------------
  // Per-side lines
  // ---------------------------------------------------------------------------

  /** The key every window is grouped and joined on: (HQ_NUMBER, NAMECUST,
      category) for Ingram, (NAMECUST, category) for Sage. SAGE_ID is not
      part of the Sage key, so a Sage account reports the totals of every
      SAGE_ID sharing its name and category. */
  datatype Account = Account(acct: string, name: string, category: Option<string>)

  function WindowKey(side: Side, f: Fact): Account
  {
    Account(if side == Ingram then f.acct else "", f.name, f.category)
  }

  function WKey(side: Side): Fact -> Account { f => WindowKey(side, f) }

  /** The base rows: `unique()` over (account, NAMECUST, category,
      2025_Target) of the priced facts. */
  datatype BaseKey = BaseKey(acct: string, name: string, category: Option<string>, annual: Option<real>)

  function BaseKeyOf(f: Fact): BaseKey { BaseKey(f.acct, f.name, f.category, f.annual) }

  function JoinKey(side: Side, b: BaseKey): Account
  {
    Account(if side == Ingram then b.acct else "", b.name, b.category)
  }

  /** The windows keyed through the combined rows see the same totals as
      keyed through the facts, since combining only merges facts that agree
      on every window test and key. */
  lemma CombineWindow(facts: seq<Fact>, side: Side, p: int -> bool, k: Account, val: Fact -> real)
    requires forall i :: 0 <= i < |Combine(facts)| ==> val(Combine(facts)[i]) == Sum(Groups(facts, CombKeyOf)[i], val)
    ensures Window(Combine(facts), Ym, p, WKey(side), k, val) == Window(facts, Ym, p, WKey(side), k, val)
  {
    var out := Combine(facts);
    var s := (ck: CombKey) => p(ck.ym) && Account(if side == Ingram then ck.acct else "", ck.name, ck.category) == k;
    RegroupSumIf(facts, CombKeyOf, val, out, CombKeyOf, val, s);
    WindowAsSumIf(out, Ym, p, WKey(side), k, val, Selects(s, CombKeyOf));
    WindowAsSumIf(facts, Ym, p, WKey(side), k, val, Selects(s, CombKeyOf));
  }

  /** The same for the null test of a window: some combined row is in it
      exactly when some fact is. */
  lemma CombineWindowEmpty(facts: seq<Fact>, side: Side, p: int -> bool, k: Account)
    ensures (forall c <- Combine(facts) :: !(p(Ym(c)) && WKey(side)(c) == k)) <==>
            (forall f <- facts :: !(p(Ym(f)) && WKey(side)(f) == k))
  {
    var out := Combine(facts);
    if exists c <- out :: p(Ym(c)) && WKey(side)(c) == k {
      var c :| c in out && p(Ym(c)) && WKey(side)(c) == k;
      CombineKeys(facts, CombKeyOf(c));
      var f :| f in facts && CombKeyOf(f) == CombKeyOf(c);
      assert p(Ym(f)) && WKey(side)(f) == k;
    }
    if exists f <- facts :: p(Ym(f)) && WKey(side)(f) == k {
      var f :| f in facts && p(Ym(f)) && WKey(side)(f) == k;
      CombineKeys(facts, CombKeyOf(f));
      var c :| c in out && CombKeyOf(c) == CombKeyOf(f);
      assert p(Ym(c)) && WKey(side)(c) == k;
    }
  }
  /** One base row with its window columns, before tagging and merging:
      YTD_ACTUAL and YTD_TARGET (left null when nothing matched), the twelve
      `%b_%y Actual` and `%b_%y Target` columns from the latest month back,
      12M_ROLLING_ACTUAL and 12M_ROLLING_TARGET, and the actuals of the two
      previous calendar years. */
  datatype Line = Line(name: string, category: Option<string>, annual: Option<real>,
                       ytdActual: Option<real>, ytdTarget: Option<real>,
                       actuals: seq<real>, targets: seq<real>,
                       rollingActual: real, rollingTarget: real, years: seq<real>)

  /** The year filter `YEARMONTH.cast(str).slice(0, 4).cast(int) == year`. */
  function InYear(year: int): int -> bool { y => SliceYear(y) == year }

  /** For four-digit years the string slice picks out the calendar year. */
  lemma InYearIsCalendarYear(year: int, y: int, m: int)
    requires 1000 <= y <= 9999 && ValidMonth(m)
    ensures InYear(year)(YearMonth(y, m)) <==> y == year
  {
    SliceYearKey(y, m);
  }

  /** The window columns of one base row, each read from the combined rows
      with the side's join key. */
  function BuildLine(side: Side, combined: seq<Fact>, b: BaseKey, year: int, month: int): (l: Line)
    requires ValidMonth(month)
    ensures |l.actuals| == 12 && |l.targets| == 12 && |l.years| == 2
    ensures l.name == b.name && l.category == b.category && l.annual == b.annual
    ensures l.rollingActual == Total(l.actuals) && l.rollingTarget == Total(l.targets)
    ensures l.ytdActual.None? <==> l.ytdTarget.None?
  {
    var k, key, keys := JoinKey(side, b), WKey(side), TrailingKeys(year, month);
    TrailingNoDup(year, month);
    SpanIsSumOfMonths(combined, Ym, key, AmountOf, keys, k);
    SpanIsSumOfMonths(combined, Ym, key, TargetOf, keys, k);
    Line(b.name, b.category, b.annual,
         NullableCell(combined, Ym, InYear(year), key, AmountOf, k),
         NullableCell(combined, Ym, InYear(year), key, TargetOf, k),
         MonthCells(combined, Ym, key, AmountOf, keys, k),
         MonthCells(combined, Ym, key, TargetOf, keys, k),
         Cell(combined, Ym, InKeys(keys), key, AmountOf, k),
         Cell(combined, Ym, InKeys(keys), key, TargetOf, k),
         [Cell(combined, Ym, InYear(year - 1), key, AmountOf, k),
          Cell(combined, Ym, InYear(year - 2), key, AmountOf, k)])
  }

  /** The report frame of one side: a line per distinct base row. */
  function Lines(side: Side, facts: seq<Fact>, year: int, month: int): (ls: seq<Line>)
    requires ValidMonth(month)
    ensures |ls| == |Keys(facts, BaseKeyOf)|
    ensures forall i :: 0 <= i < |ls| ==>
              ls[i].name == Keys(facts, BaseKeyOf)[i].name && ls[i].category == Keys(facts, BaseKeyOf)[i].category &&
              |ls[i].actuals| == 12 && |ls[i].targets| == 12 && |ls[i].years| == 2
  {
    var combined, base := Combine(facts), Keys(facts, BaseKeyOf);
    seq(|base|, i requires 0 <= i < |base| => BuildLine(side, combined, base[i], year, month))
  }

  lemma CombinedWindows(facts: seq<Fact>, side: Side, p: int -> bool, k: Account)
    ensures Window(Combine(facts), Ym, p, WKey(side), k, AmountOf) == Window(facts, Ym, p, WKey(side), k, AmountOf)
    ensures Window(Combine(facts), Ym, p, WKey(side), k, TargetOf) == Window(facts, Ym, p, WKey(side), k, TargetOf)
  {
    CombineWindow(facts, side, p, k, AmountOf);
    CombineWindow(facts, side, p, k, TargetOf);
  }

  /** Every month column of a line is the month's total over the raw facts
      that carry the line's join key. */
  lemma LineMonths(side: Side, facts: seq<Fact>, year: int, month: int, i: int)
    requires ValidMonth(month) && 0 <= i < |Keys(facts, BaseKeyOf)|
    ensures var l, k, keys := Lines(side, facts, year, month)[i], JoinKey(side, Keys(facts, BaseKeyOf)[i]), TrailingKeys(year, month);
      forall j :: 0 <= j < 12 ==>
        l.actuals[j] == Window(facts, Ym, IsKey(keys[j]), WKey(side), k, AmountOf) &&
        l.targets[j] == Window(facts, Ym, IsKey(keys[j]), WKey(side), k, TargetOf)
  {
    var k, keys := JoinKey(side, Keys(facts, BaseKeyOf)[i]), TrailingKeys(year, month);
    forall j | 0 <= j < 12 {
      CombinedWindows(facts, side, IsKey(keys[j]), k);
    }
  }

  /** The rolling and prior-year columns of a line, and its year-to-date
      cells, which are null exactly when no fact of the current year carries
      the line's key. */
  lemma LineTotals(side: Side, facts: seq<Fact>, year: int, month: int, i: int)
    requires ValidMonth(month) && 0 <= i < |Keys(facts, BaseKeyOf)|
    ensures var l, k, keys := Lines(side, facts, year, month)[i], JoinKey(side, Keys(facts, BaseKeyOf)[i]), TrailingKeys(year, month);
      && l.rollingActual == Window(facts, Ym, InKeys(keys), WKey(side), k, AmountOf)
      && l.rollingTarget == Window(facts, Ym, InKeys(keys), WKey(side), k, TargetOf)
      && l.years[0] == Window(facts, Ym, InYear(year - 1), WKey(side), k, AmountOf)
      && l.years[1] == Window(facts, Ym, InYear(year - 2), WKey(side), k, AmountOf)
      && (l.ytdActual.None? <==> forall f <- facts :: !(InYear(year)(Ym(f)) && WKey(side)(f) == k))
      && (l.ytdActual.Some? ==> l.ytdActual.value == Window(facts, Ym, InYear(year), WKey(side), k, AmountOf))
      && (l.ytdTarget.Some? ==> l.ytdTarget.value == Window(facts, Ym, InYear(year), WKey(side), k, TargetOf))
  {
    var k, keys := JoinKey(side, Keys(facts, BaseKeyOf)[i]), TrailingKeys(year, month);
    CombinedWindows(facts, side, InKeys(keys), k);
    CombinedWindows(facts, side, InYear(year - 1), k);
    CombinedWindows(facts, side, InYear(year - 2), k);
    CombinedWindows(facts, side, InYear(year), k);
    CombineWindowEmpty(facts, side, InYear(year), k);
  }

  /** A Sage line is keyed by name and category only: two base rows with the
      same NAMECUST and category, whatever their SAGE_IDs, carry identical
      window columns, each holding the totals of both accounts. */
  lemma SageNameShare(facts: seq<Fact>, year: int, month: int, i: int, j: int)
    requires ValidMonth(month) && 0 <= i < |Keys(facts, BaseKeyOf)| && 0 <= j < |Keys(facts, BaseKeyOf)|
    requires Keys(facts, BaseKeyOf)[i].name == Keys(facts, BaseKeyOf)[j].name
    requires Keys(facts, BaseKeyOf)[i].category == Keys(facts, BaseKeyOf)[j].category
    ensures var a, b := Lines(Sage, facts, year, month)[i], Lines(Sage, facts, year, month)[j];
      a.ytdActual == b.ytdActual && a.ytdTarget == b.ytdTarget && a.actuals == b.actuals &&
      a.targets == b.targets && a.rollingActual == b.rollingActual && a.years == b.years
  {
    var base := Keys(facts, BaseKeyOf);
    assert JoinKey(Sage, base[i]) == JoinKey(Sage, base[j]);
  }

  // ---------------------------------------------------------------------------
  // Side totals
  // ---------------------------------------------------------------------------

  /** Every join key of a side belongs to a single base row: facts sharing a
      key share the account, name, category and 2025_Target. */
  ghost predicate OneBasePerKey(side: Side, facts: seq<Fact>)
  {
    forall i, j :: 0 <= i < |facts| && 0 <= j < |facts| && WindowKey(side, facts[i]) == WindowKey(side, facts[j]) ==>
      BaseKeyOf(facts[i]) == BaseKeyOf(facts[j])
  }

  /** With unique BILLTOs every Ingram join key has a single base row. */
  lemma IngramOneBase(sales: seq<IngramSale>, targets: seq<Target>)
    requires UniqueBillTo(targets)
    ensures OneBasePerKey(Ingram, PriceIngram(sales, targets))
  {
    var facts := PriceIngram(sales, targets);
    forall i, j | 0 <= i < |facts| && 0 <= j < |facts| && WindowKey(Ingram, facts[i]) == WindowKey(Ingram, facts[j])
      ensures BaseKeyOf(facts[i]) == BaseKeyOf(facts[j])
    {
      IngramFactsBase(sales, targets, i, j);
    }
  }

  lemma IngramFactsBase(sales: seq<IngramSale>, targets: seq<Target>, i: int, j: int)
    requires UniqueBillTo(targets)
    requires 0 <= i < |sales| && 0 <= j < |sales|
    requires IngramAcct(sales[i]) == IngramAcct(sales[j])
    ensures PriceIngram(sales, targets)[i].annual == PriceIngram(sales, targets)[j].annual
  {
  }

  /** The side's join keys, one per base row. */
  function SideKeys(side: Side, facts: seq<Fact>): (ks: seq<Account>)
    ensures |ks| == |Keys(facts, BaseKeyOf)|
    ensures forall f <- facts :: WKey(side)(f) in ks
    ensures OneBasePerKey(side, facts) ==> NoDup(ks)
  {
    var base := Keys(facts, BaseKeyOf);
    var ks := seq(|base|, i requires 0 <= i < |base| => JoinKey(side, base[i]));
    SideKeysCover(side, facts, ks);
    SideKeysDistinct(side, facts, ks);
    ks
  }

  lemma SideKeysCover(side: Side, facts: seq<Fact>, ks: seq<Account>)
    requires |ks| == |Keys(facts, BaseKeyOf)|
    requires forall i :: 0 <= i < |ks| ==> ks[i] == JoinKey(side, Keys(facts, BaseKeyOf)[i])
    ensures forall f <- facts :: WKey(side)(f) in ks
  {
    var base := Keys(facts, BaseKeyOf);
    KeysCover(facts, BaseKeyOf);
    forall f <- facts ensures WKey(side)(f) in ks {
      var i :| 0 <= i < |base| && base[i] == BaseKeyOf(f);
      assert ks[i] == WindowKey(side, f);
    }
  }

  lemma SideKeysDistinct(side: Side, facts: seq<Fact>, ks: seq<Account>)
    requires |ks| == |Keys(facts, BaseKeyOf)|
    requires forall i :: 0 <= i < |ks| ==> ks[i] == JoinKey(side, Keys(facts, BaseKeyOf)[i])
    ensures OneBasePerKey(side, facts) ==> NoDup(ks)
  {
    var base := Keys(facts, BaseKeyOf);
    forall i, j | OneBasePerKey(side, facts) && 0 <= i < j < |ks| ensures ks[i] != ks[j] {
      ProjectMember(facts, BaseKeyOf, base[i]);
      ProjectMember(facts, BaseKeyOf, base[j]);
      var a :| 0 <= a < |facts| && BaseKeyOf(facts[a]) == base[i];
      var b :| 0 <= b < |facts| && BaseKeyOf(facts[b]) == base[j];
      assert base[i] != base[j];
    }
  }

  function RollingActualOf(l: Line): real { l.rollingActual }
  function RollingTargetOf(l: Line): real { l.rollingTarget }

  /** When every join key has a single base row, the side's
      12M_ROLLING_ACTUAL and 12M_ROLLING_TARGET columns add up to the
      NETAMT and TARGET_NETAMT of all the side's facts in the trailing twelve
      months: nothing is lost and nothing is counted twice. */
  lemma RollingConserved(side: Side, facts: seq<Fact>, year: int, month: int)
    requires ValidMonth(month) && OneBasePerKey(side, facts)
    ensures Sum(Lines(side, facts, year, month), RollingActualOf) ==
            WindowTotal(facts, Ym, InKeys(TrailingKeys(year, month)), AmountOf)
    ensures Sum(Lines(side, facts, year, month), RollingTargetOf) ==
            WindowTotal(facts, Ym, InKeys(TrailingKeys(year, month)), TargetOf)
  {
    var ls, ks, keys := Lines(side, facts, year, month), SideKeys(side, facts), TrailingKeys(year, month);
    forall i | 0 <= i < |ls|
      ensures RollingActualOf(ls[i]) == WindowBy(facts, Ym, InKeys(keys), WKey(side), AmountOf)(ks[i])
      ensures RollingTargetOf(ls[i]) == WindowBy(facts, Ym, InKeys(keys), WKey(side), TargetOf)(ks[i])
    {
      LineTotals(side, facts, year, month, i);
    }
    SumMatches(ls, RollingActualOf, ks, WindowBy(facts, Ym, InKeys(keys), WKey(side), AmountOf));
    SumMatches(ls, RollingTargetOf, ks, WindowBy(facts, Ym, InKeys(keys), WKey(side), TargetOf));
    WindowOverKeys(facts, Ym, InKeys(keys), WKey(side), AmountOf, ks);
    WindowOverKeys(facts, Ym, InKeys(keys), WKey(side), TargetOf, ks);
  }
  // ---------------------------------------------------------------------------
  // Joins on a null category, as written
  // ---------------------------------------------------------------------------

  /** A polars join matches no key holding a null, and every window join
      includes TUTTLE_SALES_CATEGORY: a base row without a category finds
      nothing in any of them. */
  predicate Joinable(b: BaseKey) { b.category.Some? }

  /** The line as the joins build it: for a base row without a category the
      zero-filled month, 12M and year columns are 0 and the unfilled
      year-to-date cells null, whatever the account sold. */
  function BuildLineAsWritten(side: Side, combined: seq<Fact>, b: BaseKey, year: int, month: int): (l: Line)
    requires ValidMonth(month)
    ensures Joinable(b) ==> l == BuildLine(side, combined, b, year, month)
    ensures !Joinable(b) ==>
              && l.rollingActual == 0.0 && l.rollingTarget == 0.0 && l.ytdActual.None? && l.ytdTarget.None?
              && |l.actuals| == 12 && (forall j :: 0 <= j < 12 ==> l.actuals[j] == 0.0)
              && |l.years| == 2 && (forall j :: 0 <= j < 2 ==> l.years[j] == 0.0)
  {
    var l := BuildLine(side, combined, b, year, month);
    if Joinable(b) then l
    else l.(ytdActual := None, ytdTarget := None, actuals := seq(12, j => 0.0), targets := seq(12, j => 0.0),
            rollingActual := 0.0, rollingTarget := 0.0, years := seq(2, j => 0.0))
  }

  /** The side's lines as written: a categorised base row gets the line of
      `Lines`; a base row without a category gets zeros and null
      year-to-date cells. */
  function LinesAsWritten(side: Side, facts: seq<Fact>, year: int, month: int): (ls: seq<Line>)
    requires ValidMonth(month)
    ensures |ls| == |Lines(side, facts, year, month)|
    ensures forall i :: 0 <= i < |ls| && Joinable(Keys(facts, BaseKeyOf)[i]) ==> ls[i] == Lines(side, facts, year, month)[i]
    ensures forall i :: 0 <= i < |ls| && !Joinable(Keys(facts, BaseKeyOf)[i]) ==>
              && ls[i].rollingActual == 0.0 && ls[i].rollingTarget == 0.0
              && ls[i].ytdActual.None? && ls[i].ytdTarget.None?
              && |ls[i].actuals| == 12 && (forall j :: 0 <= j < 12 ==> ls[i].actuals[j] == 0.0)
              && |ls[i].years| == 2 && (forall j :: 0 <= j < 2 ==> ls[i].years[j] == 0.0)
  {
    var combined, base := Combine(facts), Keys(facts, BaseKeyOf);
    seq(|base|, i requires 0 <= i < |base| => BuildLineAsWritten(side, combined, base[i], year, month))
  }

  function Categorized(f: Fact): bool { f.category.Some? }

  /** A fact in the window whose category is known. */
  function KnownIn(p: int -> bool): Fact -> bool { (f: Fact) => p(f.ym) && f.category.Some? }

  /** Keeping the categorised facts keeps the window of a join key with a
      category and empties the window of a key without one. */
  lemma CategorizedWindow(facts: seq<Fact>, side: Side, p: int -> bool, k: Account, val: Fact -> real)
    ensures Window(Where(facts, Categorized), Ym, p, WKey(side), k, val)
         == if k.category.Some? then Window(facts, Ym, p, WKey(side), k, val) else 0.0
  {
    FilteredWindow(facts, Categorized, Ym, p, WKey(side), k, val);
  }

  /** As written, when every join key has a single base row, the side's
      12M_ROLLING_ACTUAL column adds up to the trailing-twelve-month NETAMT
      of the categorised facts only: the sales of every account without a
      category vanish from the report. */
  lemma RollingConservedAsWritten(side: Side, facts: seq<Fact>, year: int, month: int)
    requires ValidMonth(month) && OneBasePerKey(side, facts)
    ensures Sum(LinesAsWritten(side, facts, year, month), RollingActualOf) ==
            SumIf(facts, KnownIn(InKeys(TrailingKeys(year, month))), AmountOf)
  {
    var ls, ks, p := LinesAsWritten(side, facts, year, month), SideKeys(side, facts), InKeys(TrailingKeys(year, month));
    var base, f := Keys(facts, BaseKeyOf), Where(facts, Categorized);
    forall i | 0 <= i < |ls|
      ensures RollingActualOf(ls[i]) == WindowBy(f, Ym, p, WKey(side), AmountOf)(ks[i])
    {
      CategorizedWindow(facts, side, p, ks[i], AmountOf);
      if Joinable(base[i]) {
        LineTotals(side, facts, year, month, i);
      }
    }
    SumMatches(ls, RollingActualOf, ks, WindowBy(f, Ym, p, WKey(side), AmountOf));
    WindowOverKeys(f, Ym, p, WKey(side), AmountOf, ks);
    FilteredTotal(facts, Categorized, Ym, p, AmountOf, KnownIn(p));
  }

  /** One Sage sale of NETAMT 5 in February 2024 by a customer without a
      master category, reported in March 2024: the as-written line shows 0
      for the month and for 12M_ROLLING_ACTUAL and a null YTD_ACTUAL, the
      corrected line shows 5. */
  lemma NullCategoryLost()
    ensures var facts := [Fact("S1", "", "N", None, None, 202402, 1.0, 5.0, 5.0)];
      && |Lines(Sage, facts, 2024, 3)| == 1 && |LinesAsWritten(Sage, facts, 2024, 3)| == 1
      && LinesAsWritten(Sage, facts, 2024, 3)[0].actuals[0] == 0.0
      && LinesAsWritten(Sage, facts, 2024, 3)[0].rollingActual == 0.0
      && LinesAsWritten(Sage, facts, 2024, 3)[0].ytdActual.None?
      && Lines(Sage, facts, 2024, 3)[0].actuals[0] == 5.0
      && Lines(Sage, facts, 2024, 3)[0].rollingActual == 5.0
      && Lines(Sage, facts, 2024, 3)[0].ytdActual == Some(5.0)
  {
    var x := Fact("S1", "", "N", None, None, 202402, 1.0, 5.0, 5.0);
    assert TrailingKeys(2024, 3)[0] == 202402;
    assert InYear(2024)(x.ym) by { SliceYearKey(2024, 2); }
    OneFactLine(x, 2024, 3);
  }

  /** A single fact gives a single base row, its own. */
  lemma OneFactKeys(x: Fact)
    ensures Keys([x], BaseKeyOf) == [BaseKeyOf(x)]
  {
    assert Project([x], BaseKeyOf) == [BaseKeyOf(x)];
  }

  /** The line of a single fact in the previous month shows its NETAMT in
      the first month column, the rolling column and the year-to-date cell. */
  lemma OneFactLine(x: Fact, year: int, month: int)
    requires ValidMonth(month) && x.ym == TrailingKeys(year, month)[0] && InYear(year)(x.ym)
    ensures Keys([x], BaseKeyOf) == [BaseKeyOf(x)]
    ensures var l := Lines(Sage, [x], year, month)[0];
      l.actuals[0] == x.amount && l.rollingActual == x.amount && l.ytdActual == Some(x.amount)
  {
    var k, keys := JoinKey(Sage, BaseKeyOf(x)), TrailingKeys(year, month);
    OneFactKeys(x);
    LineMonths(Sage, [x], year, month, 0);
    LineTotals(Sage, [x], year, month, 0);
    OneFactWindow(x, Sage, IsKey(keys[0]), k, AmountOf);
    OneFactWindow(x, Sage, InKeys(keys), k, AmountOf);
    OneFactWindow(x, Sage, InYear(year), k, AmountOf);
  }

  lemma OneFactWindow(x: Fact, side: Side, p: int -> bool, k: Account, val: Fact -> real)
    requires p(Ym(x)) && WKey(side)(x) == k
    ensures Window([x], Ym, p, WKey(side), k, val) == val(x)
  {
    var sel := (y: Fact) => p(Ym(y)) && WKey(side)(y) == k;
    assert [x][1..] == [];
    assert SumIf([x], sel, val) == val(x) + SumIf([], sel, val);
    WindowAsSumIf([x], Ym, p, WKey(side), k, val, sel);
  }

  // ---------------------------------------------------------------------------
  // Marking customers of both channels
  // ---------------------------------------------------------------------------

  function NameOf(l: Line): string { l.name }

  /** The NAMECUST values of the Sage frame that also occur in the Ingram
      frame. */
  function CustomersInBoth(ingram: seq<Line>, sage: seq<Line>): set<string>
  {
    InBoth(Project(sage, NameOf), Project(ingram, NameOf))
  }

  /** `map_elements(add_tilda)` on NAMECUST; nothing else of a line changes. */
  function TagLines(ls: seq<Line>, both: set<string>): (r: seq<Line>)
    ensures |r| == |ls|
    ensures forall i :: 0 <= i < |ls| ==> r[i].(name := ls[i].name) == ls[i]
  {
    seq(|ls|, i requires 0 <= i < |ls| => ls[i].(name := Tag(ls[i].name, both, '~')))
  }

  /** A line's name gains `~` exactly when the other frame has a line with the
      same name; otherwise it is kept. */
  lemma TaggedNames(ingram: seq<Line>, sage: seq<Line>)
    ensures var both := CustomersInBoth(ingram, sage);
      forall i :: 0 <= i < |ingram| ==>
        TagLines(ingram, both)[i].name ==
          if exists l <- sage :: l.name == ingram[i].name then ingram[i].name + "~" else ingram[i].name
    ensures var both := CustomersInBoth(ingram, sage);
      forall i :: 0 <= i < |sage| ==>
        TagLines(sage, both)[i].name ==
          if exists l <- ingram :: l.name == sage[i].name then sage[i].name + "~" else sage[i].name
  {
    var sn, inames := Project(sage, NameOf), Project(ingram, NameOf);
    var both := CustomersInBoth(ingram, sage);
    forall i | 0 <= i < |ingram|
      ensures TagLines(ingram, both)[i].name ==
                if exists l <- sage :: l.name == ingram[i].name then ingram[i].name + "~" else ingram[i].name
    {
      TagIff(sn, inames, ingram[i].name, '~');
      NameMember(sage, ingram[i].name);
      NameMember(ingram, ingram[i].name);
      assert ingram[i] in ingram;
    }
    forall i | 0 <= i < |sage|
      ensures TagLines(sage, both)[i].name ==
                if exists l <- ingram :: l.name == sage[i].name then sage[i].name + "~" else sage[i].name
    {
      TagIff(sn, inames, sage[i].name, '~');
      NameMember(sage, sage[i].name);
      NameMember(ingram, sage[i].name);
      assert sage[i] in sage;
    }
  }

  lemma NameMember(ls: seq<Line>, n: string)
    ensures n in Project(ls, NameOf) <==> exists l <- ls :: l.name == n
  {
    ProjectMember(ls, NameOf, n);
    if exists l <- ls :: l.name == n {
      var l :| l in ls && l.name == n;
      var i :| 0 <= i < |ls| && ls[i] == l;
      assert NameOf(ls[i]) == n;
    }
  }

  // ---------------------------------------------------------------------------
  // The final group-by per customer and category
  // ---------------------------------------------------------------------------

  datatype Customer = Customer(name: string, category: Option<string>)

  function CustomerOf(l: Line): Customer { Customer(l.name, l.category) }

  /** One row of the report: Customer and Category, 2025_Target, the
      year-to-date pair, the rolling pair, the prior-year actuals (previous
      year first), the twelve month actuals (latest first), the previous
      month's target, Capture_Rate and Target_Remaining. */
  datatype ReportRow = ReportRow(customer: string, category: Option<string>, annual: real,
                                 ytdActual: real, ytdTarget: real, rollingActual: real, rollingTarget: real,
                                 years: seq<real>, actuals: seq<real>, prevTarget: real,
                                 captureRate: Option<real>, remaining: real)

  function RowCustomer(r: ReportRow): Customer { Customer(r.customer, r.category) }
  function RowRolling(r: ReportRow): real { r.rollingActual }
  function RowAnnual(r: ReportRow): real { r.annual }
  function RowYtdActual(r: ReportRow): real { r.ytdActual }
  function RowYtdTarget(r: ReportRow): real { r.ytdTarget }

  function At(s: seq<real>, j: int): real { if 0 <= j < |s| then s[j] else 0.0 }

  // `sum` skips nulls, so a null cell counts as 0 in the merged row.
  function AnnualCol(l: Line): real { l.annual.GetOr(0.0) }
  function YtdActualCol(l: Line): real { l.ytdActual.GetOr(0.0) }
  function YtdTargetCol(l: Line): real { l.ytdTarget.GetOr(0.0) }
  function ActualCol(j: int): Line -> real { (l: Line) => At(l.actuals, j) }
  function TargetCol(j: int): Line -> real { (l: Line) => At(l.targets, j) }
  function YearCol(j: int): Line -> real { (l: Line) => At(l.years, j) }

  /** Capture_Rate = YTD_ACTUAL / YTD_TARGET * 100; a zero YTD_TARGET gives
      no finite rate. */
  function CaptureRate(actual: real, target: real): (r: Option<real>)
    ensures r.Some? <==> target != 0.0
    ensures r.Some? ==> r.value * target == actual * 100.0
  {
    if target == 0.0 then None else Some(actual / target * 100.0)
  }

  /** One customer's lines summed column by column, then the derived columns.
      Of the twelve month targets only the previous month's survives. */
  function MergeLines(c: Customer, g: seq<Line>): (r: ReportRow)
    ensures RowCustomer(r) == c
    ensures |r.actuals| == 12 && |r.years| == 2
    ensures r.remaining == r.annual - r.ytdActual
    ensures r.captureRate == CaptureRate(r.ytdActual, r.ytdTarget)
  {
    var annual, ytdA, ytdT := Sum(g, AnnualCol), Sum(g, YtdActualCol), Sum(g, YtdTargetCol);
    ReportRow(c.name, c.category, annual, ytdA, ytdT, Sum(g, RollingActualOf), Sum(g, RollingTargetOf),
              seq(2, j requires 0 <= j < 2 => Sum(g, YearCol(j))),
              seq(12, j requires 0 <= j < 12 => Sum(g, ActualCol(j))),
              Sum(g, TargetCol(0)), CaptureRate(ytdA, ytdT), annual - ytdA)
  }

  /** `group_by(["NAMECUST", "TUTTLE_SALES_CATEGORY"]).agg(...)`. */
  function Merge(lines: seq<Line>): (rows: seq<ReportRow>)
    ensures |rows| == |Keys(lines, CustomerOf)|
    ensures forall i :: 0 <= i < |rows| ==> RowCustomer(rows[i]) == Keys(lines, CustomerOf)[i]
    ensures forall r <- rows :: |r.actuals| == 12 && |r.years| == 2
    ensures forall r <- rows :: r.remaining == r.annual - r.ytdActual && r.captureRate == CaptureRate(r.ytdActual, r.ytdTarget)
  {
    Collapse(lines, CustomerOf, MergeLines)
  }

  lemma MergeAt(lines: seq<Line>, i: int)
    requires 0 <= i < |Merge(lines)|
    ensures Merge(lines)[i] == MergeLines(Keys(lines, CustomerOf)[i], Groups(lines, CustomerOf)[i])
  {
  }

  /** Every (Customer, Category) of the lines gets exactly one row. */
  lemma MergeCustomers(lines: seq<Line>)
    ensures NoDup(Project(Merge(lines), RowCustomer))
    ensures forall l <- lines :: CustomerOf(l) in Project(Merge(lines), RowCustomer)
    ensures forall c <- Project(Merge(lines), RowCustomer) :: c in Project(lines, CustomerOf)
  {
    var rows, ks := Merge(lines), Keys(lines, CustomerOf);
    assert Project(rows, RowCustomer) == ks;
    KeysCover(lines, CustomerOf);
  }

  /** Each merged row holds, column by column, the totals of the lines with
      its customer name and category. */
  lemma MergeRow(lines: seq<Line>, i: int)
    requires 0 <= i < |Merge(lines)|
    ensures var r, c := Merge(lines)[i], HasKey(CustomerOf, Keys(lines, CustomerOf)[i]);
      && |r.actuals| == 12 && |r.years| == 2
      && r.rollingActual == SumIf(lines, c, RollingActualOf)
      && r.rollingTarget == SumIf(lines, c, RollingTargetOf)
      && r.annual == SumIf(lines, c, AnnualCol)
      && r.ytdActual == SumIf(lines, c, YtdActualCol)
      && r.ytdTarget == SumIf(lines, c, YtdTargetCol)
      && r.prevTarget == SumIf(lines, c, TargetCol(0))
      && (forall j :: 0 <= j < 12 ==> r.actuals[j] == SumIf(lines, c, ActualCol(j)))
      && (forall j :: 0 <= j < 2 ==> r.years[j] == SumIf(lines, c, YearCol(j)))
  {
    var k := Keys(lines, CustomerOf)[i];
    MergeAt(lines, i);
    assert Groups(lines, CustomerOf)[i] == GroupOf(lines, CustomerOf, k);
    GroupOfSumIf(lines, CustomerOf, k, RollingActualOf);
    GroupOfSumIf(lines, CustomerOf, k, RollingTargetOf);
    GroupOfSumIf(lines, CustomerOf, k, AnnualCol);
    GroupOfSumIf(lines, CustomerOf, k, YtdActualCol);
    GroupOfSumIf(lines, CustomerOf, k, YtdTargetCol);
    GroupOfSumIf(lines, CustomerOf, k, TargetCol(0));
    forall j | 0 <= j < 12 {
      GroupOfSumIf(lines, CustomerOf, k, ActualCol(j));
    }
    forall j | 0 <= j < 2 {
      GroupOfSumIf(lines, CustomerOf, k, YearCol(j));
    }
  }

  /** The merge keeps the column totals. */
  lemma MergeTotals(lines: seq<Line>)
    ensures Sum(Merge(lines), RowRolling) == Sum(lines, RollingActualOf)
    ensures Sum(Merge(lines), RowAnnual) == Sum(lines, AnnualCol)
    ensures Sum(Merge(lines), RowYtdActual) == Sum(lines, YtdActualCol)
    ensures Sum(Merge(lines), RowYtdTarget) == Sum(lines, YtdTargetCol)
  {
    var rows := Merge(lines);
    forall i | 0 <= i < |rows| {
      MergeAt(lines, i);
    }
    CollapseTotal(lines, CustomerOf, rows, RowRolling, RollingActualOf);
    CollapseTotal(lines, CustomerOf, rows, RowAnnual, AnnualCol);
    CollapseTotal(lines, CustomerOf, rows, RowYtdActual, YtdActualCol);
    CollapseTotal(lines, CustomerOf, rows, RowYtdTarget, YtdTargetCol);
  }

  // ---------------------------------------------------------------------------
  // The report
  // ---------------------------------------------------------------------------

  function IngramLines(ingram: seq<IngramSale>, targetRows: seq<TargetRow>, year: int, month: int): seq<Line>
    requires ValidMonth(month)
  {
    Lines(Ingram, PriceIngram(ingram, CleanTargets(targetRows)), year, month)
  }

  function SageLines(sage: seq<SageSale>, targetRows: seq<TargetRow>, year: int, month: int): seq<Line>
    requires ValidMonth(month)
  {
    Lines(Sage, PriceSage(sage, CleanTargets(targetRows)), year, month)
  }

  /** Both frames tagged and stacked (`pl.concat`), Ingram first. */
  function Stacked(ingram: seq<IngramSale>, sage: seq<SageSale>, targetRows: seq<TargetRow>, year: int, month: int): (ls: seq<Line>)
    requires ValidMonth(month)
    ensures |ls| == |IngramLines(ingram, targetRows, year, month)| + |SageLines(sage, targetRows, year, month)|
  {
    var il, sl := IngramLines(ingram, targetRows, year, month), SageLines(sage, targetRows, year, month);
    var both := CustomersInBoth(il, sl);
    TagLines(il, both) + TagLines(sl, both)
  }

  /** `sort("12M_ROLLING_ACTUAL", descending=True)`. */
  function ByRolling(a: ReportRow, b: ReportRow): bool { a.rollingActual > b.rollingActual }

  /** The report's rows for the run month `month` of `year`: one row per
      customer name and category, largest trailing-twelve-month actual
      first. */
  function TargetReport(ingram: seq<IngramSale>, sage: seq<SageSale>, targetRows: seq<TargetRow>, year: int, month: int): (rows: seq<ReportRow>)
    requires ValidMonth(month)
    ensures multiset(rows) == multiset(Merge(Stacked(ingram, sage, targetRows, year, month)))
    ensures forall i :: 0 <= i < |rows| - 1 ==> rows[i].rollingActual >= rows[i + 1].rollingActual
    ensures NoDup(Project(rows, RowCustomer))
  {
    var merged := Merge(Stacked(ingram, sage, targetRows, year, month));
    SortByInOrder(merged, ByRolling);
    MergeCustomers(Stacked(ingram, sage, targetRows, year, month));
    SortByKeepsDistinct(merged, ByRolling, RowCustomer);
    SortBy(merged, ByRolling)
  }

  /** The report's 12M_ROLLING_ACTUAL column adds up to the NETAMT of all
      Ingram and Sage sales in the trailing twelve months, provided BILLTOs
      are unique and each Sage name and category belongs to one SAGE_ID
      with one target (otherwise `SageNameShare` counts it twice). */
  lemma ReportRollingTotal(ingram: seq<IngramSale>, sage: seq<SageSale>, targetRows: seq<TargetRow>, year: int, month: int)
    requires ValidMonth(month)
    requires UniqueBillTo(CleanTargets(targetRows))
    requires OneBasePerKey(Sage, PriceSage(sage, CleanTargets(targetRows)))
    ensures var keys := TrailingKeys(year, month);
      Sum(TargetReport(ingram, sage, targetRows, year, month), RowRolling) ==
      SumIf(ingram, SaleIn(InKeys(keys)), SaleAmount) + SumIf(sage, SageIn(InKeys(keys)), SageAmount)
  {
    ReportSumsLines(ingram, sage, targetRows, year, month);
    IngramLinesRolling(ingram, targetRows, year, month);
    SageLinesRolling(sage, targetRows, year, month);
  }

  /** The report's rolling column adds up to the rolling columns of both
      sides' lines: tagging, merging and sorting move amounts but lose none. */
  lemma ReportSumsLines(ingram: seq<IngramSale>, sage: seq<SageSale>, targetRows: seq<TargetRow>, year: int, month: int)
    requires ValidMonth(month)
    ensures Sum(TargetReport(ingram, sage, targetRows, year, month), RowRolling) ==
      Sum(IngramLines(ingram, targetRows, year, month), RollingActualOf) + Sum(SageLines(sage, targetRows, year, month), RollingActualOf)
  {
    var il, sl := IngramLines(ingram, targetRows, year, month), SageLines(sage, targetRows, year, month);
    var both := CustomersInBoth(il, sl);
    var stacked := Stacked(ingram, sage, targetRows, year, month);
    SumPerm(TargetReport(ingram, sage, targetRows, year, month), Merge(stacked), RowRolling);
    MergeTotals(stacked);
    SumAppend(TagLines(il, both), TagLines(sl, both), RollingActualOf);
    SumMatches(TagLines(il, both), RollingActualOf, il, RollingActualOf);
    SumMatches(TagLines(sl, both), RollingActualOf, sl, RollingActualOf);
  }

  /** The Ingram lines' rolling column is the trailing-twelve-month NETAMT
      of the Ingram sales. */
  lemma IngramLinesRolling(ingram: seq<IngramSale>, targetRows: seq<TargetRow>, year: int, month: int)
    requires ValidMonth(month)
    requires UniqueBillTo(CleanTargets(targetRows))
    ensures Sum(IngramLines(ingram, targetRows, year, month), RollingActualOf) ==
      SumIf(ingram, SaleIn(InKeys(TrailingKeys(year, month))), SaleAmount)
  {
    var targets, keys := CleanTargets(targetRows), TrailingKeys(year, month);
    IngramOneBase(ingram, targets);
    RollingConserved(Ingram, PriceIngram(ingram, targets), year, month);
    PriceIngramKeepsAmounts(ingram, targets, InKeys(keys));
  }

  /** The Sage lines' rolling column is the trailing-twelve-month NETAMT of
      the Sage sales, when each Sage name and category has one target. */
  lemma SageLinesRolling(sage: seq<SageSale>, targetRows: seq<TargetRow>, year: int, month: int)
    requires ValidMonth(month)
    requires UniqueBillTo(CleanTargets(targetRows))
    requires OneBasePerKey(Sage, PriceSage(sage, CleanTargets(targetRows)))
    ensures Sum(SageLines(sage, targetRows, year, month), RollingActualOf) ==
      SumIf(sage, SageIn(InKeys(TrailingKeys(year, month))), SageAmount)
  {
    var targets, keys := CleanTargets(targetRows), TrailingKeys(year, month);
    RollingConserved(Sage, PriceSage(sage, targets), year, month);
    PriceSageKeepsAmounts(sage, targets, InKeys(keys));
  }
}

=== FILE: revenue.dfy ===
/** The revenue report (`revenue_report` in
    src/run_all_book_reports/run_all_book_reports.py): Ingram and Sage sales
    are stacked as they come, summed per book and YEARMONTH, spread into
    year-to-date, month, prior-year and trailing-twelve-month columns per
    (ISBN, TITLE), joined to the book details fetched for the ISBNs present,
    filled with 0 and sorted by category and then by twelve-month dollars,
    both descending. */
module RevenueReport {
  import opened Wrappers
  import opened Text
  import opened Calendar
  import opened Tables
  import opened Windows

  // ---------------------------------------------------------------------------
  // Inputs and the stacked frame
  // ---------------------------------------------------------------------------

  /** One sales row of either source after `select(['ISBN','TITLE','YEAR',
      'MONTH','NETUNITS','NETAMT'])`. NETUNITS is Int64, NETAMT Float64. */
  datatype Sale = Sale(isbn: string, title: string, year: int, month: int, units: int, amount: real)

  function SaleUnits(s: Sale): real { s.units as real }
  function SaleAmount(s: Sale): real { s.amount }

  /** A row of the stacked frame: YEAR and MONTH are folded into
      YEARMONTH = YEAR * 100 + MONTH and dropped. No text column is
      stripped in this report. */
  datatype Fact = Fact(isbn: string, title: string, ym: int, units: real, amount: real)

  function Ym(f: Fact): int { f.ym }
  function UnitsOf(f: Fact): real { f.units }
  function AmountOf(f: Fact): real { f.amount }

  function ToFact(s: Sale): Fact
  {
    Fact(s.isbn, s.title, YearMonth(s.year, s.month), s.units as real, s.amount)
  }

  /** `pl.concat([ingram, sage])` followed by the YEARMONTH column. */
  function Stacked(ingram: seq<Sale>, sage: seq<Sale>): (facts: seq<Fact>)
    ensures |facts| == |ingram| + |sage|
  {
    Project(ingram, ToFact) + Project(sage, ToFact)
  }

  /** YEARMONTH keeps the sale's year and month apart whenever the month is a
      calendar month: `YEARMONTH // 100` is the year and the remainder the
      month. */
  lemma ToFactStamp(s: Sale)
    requires ValidMonth(s.month)
    ensures KeyYear(ToFact(s).ym) == s.year && KeyMonth(ToFact(s).ym) == s.month
  {
    DecodeEncode(s.year, s.month);
  }

  // ---------------------------------------------------------------------------
  // The per-month group-by
  // ---------------------------------------------------------------------------

  /** The key of `group_by(['ISBN','TITLE','YEARMONTH'])`. */
  datatype MonthKey = MonthKey(isbn: string, title: string, ym: int)

  function MonthKeyOf(f: Fact): MonthKey { MonthKey(f.isbn, f.title, f.ym) }

  function MergeMonth(k: MonthKey, g: seq<Fact>): (f: Fact)
    ensures MonthKeyOf(f) == k
  {
    Fact(k.isbn, k.title, k.ym, Sum(g, UnitsOf), Sum(g, AmountOf))
  }

  /** The group-by summing NETUNITS and NETAMT. */
  function Combine(facts: seq<Fact>): (combined: seq<Fact>)
    ensures |combined| == |Keys(facts, MonthKeyOf)|
    ensures forall i :: 0 <= i < |combined| ==> MonthKeyOf(combined[i]) == Keys(facts, MonthKeyOf)[i]
    ensures forall i :: 0 <= i < |combined| ==>
              combined[i].units == Sum(Groups(facts, MonthKeyOf)[i], UnitsOf) &&
              combined[i].amount == Sum(Groups(facts, MonthKeyOf)[i], AmountOf)
  {
    var ks, gs := Keys(facts, MonthKeyOf), Groups(facts, MonthKeyOf);
    seq(|ks|, i requires 0 <= i < |ks| => MergeMonth(ks[i], gs[i]))
  }

  /** The concat and the group-by lose nothing: the combined frame's NETUNITS
      and NETAMT totals are the Ingram totals plus the Sage totals. */
  lemma CombineTotals(ingram: seq<Sale>, sage: seq<Sale>)
    ensures Sum(Combine(Stacked(ingram, sage)), UnitsOf) == Sum(ingram, SaleUnits) + Sum(sage, SaleUnits)
    ensures Sum(Combine(Stacked(ingram, sage)), AmountOf) == Sum(ingram, SaleAmount) + Sum(sage, SaleAmount)
  {
    var facts := Stacked(ingram, sage);
    var out := Combine(facts);
    CollapseTotal(facts, MonthKeyOf, out, UnitsOf, UnitsOf);
    CollapseTotal(facts, MonthKeyOf, out, AmountOf, AmountOf);
    var a, b := Project(ingram, ToFact), Project(sage, ToFact);
    SumAppend(a, b, UnitsOf);
    SumAppend(a, b, AmountOf);
    ToFactTotals(ingram);
    ToFactTotals(sage);
  }

  lemma ToFactTotals(sales: seq<Sale>)
    ensures Sum(Project(sales, ToFact), UnitsOf) == Sum(sales, SaleUnits)
    ensures Sum(Project(sales, ToFact), AmountOf) == Sum(sales, SaleAmount)
  {
    var a := Project(sales, ToFact);
    forall i | 0 <= i < |a| ensures UnitsOf(a[i]) == SaleUnits(sales[i]) && AmountOf(a[i]) == SaleAmount(sales[i]) {
    }
    SumMatches(a, UnitsOf, sales, SaleUnits);
    SumMatches(a, AmountOf, sales, SaleAmount);
  }

  /** The combined frame is empty exactly when there are no sales at all. */
  lemma CombineEmpty(facts: seq<Fact>)
    ensures Combine(facts) == [] <==> facts == []
  {
    KeysCover(facts, MonthKeyOf);
    if facts != [] {
      assert facts[0] in facts;
    }
  }

  // ---------------------------------------------------------------------------
  // Base rows and window columns
  // ---------------------------------------------------------------------------

  /** The report's row key: (ISBN, TITLE). */
  datatype Book = Book(isbn: string, title: string)

  function BookOf(f: Fact): Book { Book(f.isbn, f.title) }

  function BookOfKey(k: MonthKey): Book { Book(k.isbn, k.title) }

  /** The year window `(YEARMONTH // 100) == year`. Python's `//` floors and
      the divisor is positive, so Dafny's division is the same. */
  function InYear(year: int): int -> bool { ym => KeyYear(ym) == year }

  /** One base row after all its left joins and before the final `fillna`:
      YTD_UNITS and YTD_DOLLARS, the twelve `%b-%y` month columns from the
      latest month back, the unit totals of the three previous years, newest
      first, and 12M_UNITS and 12M_DOLLARS. Every column is null where no
      sale of the book falls into its window. */
  datatype Row = Row(book: Book, ytdUnits: Option<real>, ytdDollars: Option<real>, months: seq<Option<real>>,
                     years: seq<Option<real>>, units12: Option<real>, dollars12: Option<real>)

  /** `fillna(0)` on a block of columns. */
  function Zeroed(vs: seq<Option<real>>): (r: seq<real>)
    ensures |r| == |vs|
    ensures forall i :: 0 <= i < |vs| ==> (vs[i].Some? ==> r[i] == vs[i].value) && (vs[i].None? ==> r[i] == 0.0)
  {
    seq(|vs|, i requires 0 <= i < |vs| => vs[i].GetOr(0.0))
  }

  /** The `{year}-UNITS` columns for the three previous years, newest
      first. */
  function YearCells(combined: seq<Fact>, b: Book, year: int): (r: seq<Option<real>>)
    ensures |r| == 3
    ensures forall j :: 0 <= j < 3 ==> r[j] == NullableCell(combined, Ym, InYear(year - 1 - j), BookOf, UnitsOf, b)
  {
    seq(3, j requires 0 <= j < 3 => NullableCell(combined, Ym, InYear(year - 1 - j), BookOf, UnitsOf, b))
  }

  /** The window columns of one base row, read from the combined rows. The
      rolling columns are null exactly when every month column is, and once
      filled the rolling units are the sum of the filled month columns. */
  function BuildRow(combined: seq<Fact>, b: Book, year: int, month: int): (r: Row)
    requires ValidMonth(month)
    ensures r.book == b
    ensures |r.months| == 12 && |r.years| == 3
    ensures r.units12.None? <==> forall j :: 0 <= j < 12 ==> r.months[j].None?
    ensures r.units12.GetOr(0.0) == Total(Zeroed(r.months))
  {
    var keys := TrailingKeys(year, month);
    var months := seq(12, j requires 0 <= j < 12 => NullableCell(combined, Ym, IsKey(keys[j]), BookOf, UnitsOf, b));
    var units12 := NullableCell(combined, Ym, InKeys(keys), BookOf, UnitsOf, b);
    TrailingNoDup(year, month);
    BuildRowRolling(combined, b, keys, months, units12);
    Row(b,
        NullableCell(combined, Ym, InYear(year), BookOf, UnitsOf, b),
        NullableCell(combined, Ym, InYear(year), BookOf, AmountOf, b),
        months,
        YearCells(combined, b, year),
        units12,
        NullableCell(combined, Ym, InKeys(keys), BookOf, AmountOf, b))
  }

  lemma BuildRowRolling(combined: seq<Fact>, b: Book, keys: seq<int>, months: seq<Option<real>>, units12: Option<real>)
    requires |months| == |keys|
    requires forall j :: 0 <= j < |keys| ==> months[j] == NullableCell(combined, Ym, IsKey(keys[j]), BookOf, UnitsOf, b)
    requires units12 == NullableCell(combined, Ym, InKeys(keys), BookOf, UnitsOf, b)
    requires NoDup(keys)
    ensures units12.None? <==> forall j :: 0 <= j < |keys| ==> months[j].None?
    ensures units12.GetOr(0.0) == Total(Zeroed(months))
  {
    // Null exactly when no month of the window has a sale of the book.
    if units12.Some? {
      var x :| x in combined && InKeys(keys)(Ym(x)) && BookOf(x) == b;
      var j :| 0 <= j < |keys| && keys[j] == x.ym;
      assert IsKey(keys[j])(Ym(x)) && BookOf(x) == b;
      assert months[j].Some?;
    } else {
      forall j | 0 <= j < |keys| ensures months[j].None? {
        forall x <- combined ensures !(IsKey(keys[j])(Ym(x)) && BookOf(x) == b) {
          assert !(InKeys(keys)(Ym(x)) && BookOf(x) == b);
        }
      }
    }
    // Filled, the rolling column is the sum of the filled month columns.
    FilledCell(combined, Ym, InKeys(keys), BookOf, UnitsOf, b);
    SpanIsSumOfMonths(combined, Ym, BookOf, UnitsOf, keys, b);
    forall j | 0 <= j < |keys|
      ensures Zeroed(months)[j] == MonthCells(combined, Ym, BookOf, UnitsOf, keys, b)[j]
    {
      FilledCell(combined, Ym, IsKey(keys[j]), BookOf, UnitsOf, b);
    }
    assert Zeroed(months) == MonthCells(combined, Ym, BookOf, UnitsOf, keys, b);
  }

  /** One row per distinct (ISBN, TITLE) of the combined frame, in the order
      of `select(['ISBN','TITLE']).unique()`; every left join keeps this row
      set. */
  function Rows(facts: seq<Fact>, year: int, month: int): (rows: seq<Row>)
    requires ValidMonth(month)
    ensures |rows| == |Keys(Combine(facts), BookOf)|
    ensures forall i :: 0 <= i < |rows| ==>
              rows[i] == BuildRow(Combine(facts), Keys(Combine(facts), BookOf)[i], year, month)
  {
    var combined := Combine(facts);
    var base := Keys(combined, BookOf);
    seq(|base|, i requires 0 <= i < |base| => BuildRow(combined, base[i], year, month))
  }

  /** The base rows are exactly the distinct books of the stacked sales,
      each once. */
  lemma BaseRows(facts: seq<Fact>, b: Book)
    ensures NoDup(Keys(Combine(facts), BookOf))
    ensures b in Keys(Combine(facts), BookOf) <==> exists f <- facts :: BookOf(f) == b
  {
    ProjectMember(Combine(facts), BookOf, b);
    if exists f <- facts :: BookOf(f) == b {
      var f :| f in facts && BookOf(f) == b;
      CombineCovers(facts, f);
    }
    if b in Keys(Combine(facts), BookOf) {
      var i :| 0 <= i < |Combine(facts)| && BookOf(Combine(facts)[i]) == b;
      CombineFrom(facts, i);
    }
  }

  /** Every stacked fact's book has a combined row. */
  lemma CombineCovers(facts: seq<Fact>, f: Fact)
    requires f in facts
    ensures exists i :: 0 <= i < |Combine(facts)| && BookOf(Combine(facts)[i]) == BookOf(f)
  {
    var out, ks := Combine(facts), Keys(facts, MonthKeyOf);
    KeysCover(facts, MonthKeyOf);
    var i :| 0 <= i < |ks| && ks[i] == MonthKeyOf(f);
    assert BookOf(out[i]) == BookOf(f);
  }

  /** Every combined row's book is the book of a stacked fact. */
  lemma CombineFrom(facts: seq<Fact>, i: int)
    requires 0 <= i < |Combine(facts)|
    ensures exists f <- facts :: BookOf(f) == BookOf(Combine(facts)[i])
  {
    var out, ks := Combine(facts), Keys(facts, MonthKeyOf);
    assert ks[i] == MonthKeyOf(out[i]);
    assert ks[i] in Project(facts, MonthKeyOf);
    ProjectMember(facts, MonthKeyOf, ks[i]);
    var j :| 0 <= j < |facts| && MonthKeyOf(facts[j]) == ks[i];
    assert facts[j] in facts && BookOf(facts[j]) == BookOf(out[i]);
  }

  /** A window read through the combined rows is the window over the stacked
      facts: the group-by only merges facts of one book and one month. */
  lemma CombineWindow(facts: seq<Fact>, p: int -> bool, k: Book, val: Fact -> real)
    requires forall i :: 0 <= i < |Combine(facts)| ==> val(Combine(facts)[i]) == Sum(Groups(facts, MonthKeyOf)[i], val)
    ensures Window(Combine(facts), Ym, p, BookOf, k, val) == Window(facts, Ym, p, BookOf, k, val)
  {
    var out := Combine(facts);
    var s := (mk: MonthKey) => p(mk.ym) && BookOfKey(mk) == k;
    RegroupSumIf(facts, MonthKeyOf, val, out, MonthKeyOf, val, s);
    WindowAsSumIf(out, Ym, p, BookOf, k, val, Selects(s, MonthKeyOf));
    WindowAsSumIf(facts, Ym, p, BookOf, k, val, Selects(s, MonthKeyOf));
  }

  /** A filled column of the combined rows is the window over the stacked
      facts. */
  lemma FilledWindow(facts: seq<Fact>, p: int -> bool, k: Book)
    ensures NullableCell(Combine(facts), Ym, p, BookOf, UnitsOf, k).GetOr(0.0) == Window(facts, Ym, p, BookOf, k, UnitsOf)
    ensures NullableCell(Combine(facts), Ym, p, BookOf, AmountOf, k).GetOr(0.0) == Window(facts, Ym, p, BookOf, k, AmountOf)
  {
    FilledCell(Combine(facts), Ym, p, BookOf, UnitsOf, k);
    FilledCell(Combine(facts), Ym, p, BookOf, AmountOf, k);
    CombineWindow(facts, p, k, UnitsOf);
    CombineWindow(facts, p, k, AmountOf);
  }

  /** Once filled, every column of a row is its window's total over the
      stacked sales of the row's book: YTD over the current year, each month
      column over its month, the year columns over the three previous years,
      newest first, and 12M over the trailing twelve months. */
  ghost predicate RowFigures(facts: seq<Fact>, year: int, month: int, r: Row)
    requires ValidMonth(month)
  {
    RowSpans(facts, year, month, r) && RowMonths(facts, year, month, r) && RowYears(facts, year, r)
  }

  ghost predicate RowSpans(facts: seq<Fact>, year: int, month: int, r: Row)
    requires ValidMonth(month)
  {
    var keys := TrailingKeys(year, month);
    && r.ytdUnits.GetOr(0.0) == Window(facts, Ym, InYear(year), BookOf, r.book, UnitsOf)
    && r.ytdDollars.GetOr(0.0) == Window(facts, Ym, InYear(year), BookOf, r.book, AmountOf)
    && r.units12.GetOr(0.0) == Window(facts, Ym, InKeys(keys), BookOf, r.book, UnitsOf)
    && r.dollars12.GetOr(0.0) == Window(facts, Ym, InKeys(keys), BookOf, r.book, AmountOf)
  }

  ghost predicate RowMonths(facts: seq<Fact>, year: int, month: int, r: Row)
    requires ValidMonth(month)
  {
    var keys := TrailingKeys(year, month);
    |r.months| == 12 &&
    forall j :: 0 <= j < 12 ==> r.months[j].GetOr(0.0) == Window(facts, Ym, IsKey(keys[j]), BookOf, r.book, UnitsOf)
  }

  ghost predicate RowYears(facts: seq<Fact>, year: int, r: Row)
  {
    |r.years| == 3 &&
    forall j :: 0 <= j < 3 ==> r.years[j].GetOr(0.0) == Window(facts, Ym, InYear(year - 1 - j), BookOf, r.book, UnitsOf)
  }

  lemma RowWindows(facts: seq<Fact>, year: int, month: int, i: int)
    requires ValidMonth(month) && 0 <= i < |Rows(facts, year, month)|
    ensures RowFigures(facts, year, month, Rows(facts, year, month)[i])
  {
    var b := Keys(Combine(facts), BookOf)[i];
    BuildRowSpans(facts, b, year, month);
    BuildRowMonths(facts, b, year, month);
    BuildRowYears(facts, b, year, month);
  }

  lemma BuildRowSpans(facts: seq<Fact>, b: Book, year: int, month: int)
    requires ValidMonth(month)
    ensures RowSpans(facts, year, month, BuildRow(Combine(facts), b, year, month))
  {
    var combined, keys := Combine(facts), TrailingKeys(year, month);
    var r := BuildRow(combined, b, year, month);
    assert r.ytdUnits == NullableCell(combined, Ym, InYear(year), BookOf, UnitsOf, b);
    assert r.ytdDollars == NullableCell(combined, Ym, InYear(year), BookOf, AmountOf, b);
    assert r.units12 == NullableCell(combined, Ym, InKeys(keys), BookOf, UnitsOf, b);
    assert r.dollars12 == NullableCell(combined, Ym, InKeys(keys), BookOf, AmountOf, b);
    FilledWindow(facts, InYear(year), b);
    FilledWindow(facts, InKeys(keys), b);
  }

  lemma BuildRowMonths(facts: seq<Fact>, b: Book, year: int, month: int)
    requires ValidMonth(month)
    ensures RowMonths(facts, year, month, BuildRow(Combine(facts), b, year, month))
  {
    var combined, keys := Combine(facts), TrailingKeys(year, month);
    var r := BuildRow(combined, b, year, month);
    forall j | 0 <= j < 12
      ensures r.months[j].GetOr(0.0) == Window(facts, Ym, IsKey(keys[j]), BookOf, b, UnitsOf)
    {
      assert r.months[j] == NullableCell(combined, Ym, IsKey(keys[j]), BookOf, UnitsOf, b);
      FilledWindow(facts, IsKey(keys[j]), b);
    }
  }

  lemma BuildRowYears(facts: seq<Fact>, b: Book, year: int, month: int)
    requires ValidMonth(month)
    ensures RowYears(facts, year, BuildRow(Combine(facts), b, year, month))
  {
    var r := BuildRow(Combine(facts), b, year, month);
    forall j | 0 <= j < 3
      ensures r.years[j].GetOr(0.0) == Window(facts, Ym, InYear(year - 1 - j), BookOf, b, UnitsOf)
    {
      BuildRowYear(facts, b, year, month, j);
    }
  }

  lemma BuildRowYear(facts: seq<Fact>, b: Book, year: int, month: int, j: int)
    requires ValidMonth(month) && 0 <= j < 3
    ensures BuildRow(Combine(facts), b, year, month).years[j].GetOr(0.0)
         == Window(facts, Ym, InYear(year - 1 - j), BookOf, b, UnitsOf)
  {
    var combined := Combine(facts);
    var p := InYear(year - 1 - j);
    assert BuildRow(combined, b, year, month).years[j] == NullableCell(combined, Ym, p, BookOf, UnitsOf, b);
    FilledWindow(facts, p, b);
  }

  // ---------------------------------------------------------------------------
  // The ISBN list of the book-details query
  // ---------------------------------------------------------------------------

  function RowIsbn(r: Row): string { r.book.isbn }

  /** One ISBN as an SQL string literal: `f"'{isbn}'"`. */
  function Quote(isbn: string): string { "'" + isbn + "'" }

  /** `','.join([f"'{isbn}'" for isbn in used_isbns])`, the text of the
      `IN (...)` list. */
  function IsbnList(isbns: seq<string>): string
    requires |isbns| >= 1
  {
    Join(Project(isbns, Quote), ',')
  }

  /** The list names every ISBN once, in order: split at the commas it gives
      back the quoted ISBNs, and stripping the quotes gives the ISBNs, as long
      as no ISBN contains a comma. */
  lemma IsbnListSplits(isbns: seq<string>)
    requires |isbns| >= 1
    requires forall i :: 0 <= i < |isbns| ==> ',' !in isbns[i]
    ensures |Split(IsbnList(isbns), ',')| == |isbns|
    ensures forall i :: 0 <= i < |isbns| ==>
              var q := Split(IsbnList(isbns), ',')[i]; |q| >= 2 && q[1..|q| - 1] == isbns[i]
  {
    var qs := Project(isbns, Quote);
    forall i | 0 <= i < |qs| ensures ',' !in qs[i] && |qs[i]| >= 2 && qs[i][1..|qs[i]| - 1] == isbns[i] {
      assert qs[i] == Quote(isbns[i]);
      QuoteShape(isbns[i]);
    }
    SplitJoin(qs, ',');
  }

  lemma QuoteShape(isbn: string)
    ensures |Quote(isbn)| == |isbn| + 2
    ensures Quote(isbn)[1..|Quote(isbn)| - 1] == isbn
    ensures ',' !in isbn ==> ',' !in Quote(isbn)
  {
  }

  // ---------------------------------------------------------------------------
  // Book details and the final frame
  // ---------------------------------------------------------------------------

  /** One row of the book-details query: the trimmed ISBN, PROD_TYPE,
      SEASON_CODE, SUB_PUB_CODE, CATEGORY, RETAIL_PRICE, QTYOH, QTYBO and
      QTYORD, each of which may be null. */
  datatype Detail = Detail(isbn: string, prodType: Option<string>, season: Option<string>, subPub: Option<string>,
                           category: Option<string>, retail: Option<real>, onHand: Option<real>,
                           backordered: Option<real>, onOrder: Option<real>)

  function DetailIsbn(d: Detail): string { d.isbn }

  /** A text column after `fillna(0)`: the text, or the number 0 where it was
      null. */
  datatype Label = Named(text: string) | ZeroFilled

  function FillText(v: Option<string>): (l: Label)
    ensures l.ZeroFilled? <==> v.None?
  {
    if v.Some? then Named(v.value) else ZeroFilled
  }

  /** One row of the final frame, its columns in the order of `final_order`:
      TITLE, ISBN, CATEGORY, PROD_TYPE, SEASON_CODE, SUB_PUB_CODE,
      RETAIL_PRICE, QTYOH, QTYBO, QTYORD, 12M_UNITS, 12M_DOLLARS, YTD_UNITS,
      YTD_DOLLARS, the month columns and the year columns. */
  datatype Line = Line(title: string, isbn: string, category: Label, prodType: Label, season: Label, subPub: Label,
                       retail: real, onHand: real, backordered: real, onOrder: real,
                       units12: real, dollars12: real, ytdUnits: real, ytdDollars: real,
                       months: seq<real>, years: seq<real>)

  function LineBook(l: Line): Book { Book(l.isbn, l.title) }
  function LineUnits12(l: Line): real { l.units12 }
  function LineDollars12(l: Line): real { l.dollars12 }
  function LineYtdUnits(l: Line): real { l.ytdUnits }
  function LineYtdDollars(l: Line): real { l.ytdDollars }

  /** One row of `merge(book_details_df, on=['ISBN'], how='left')` after
      `fillna(0)`: every null, from the report's own left joins or from a
      missing or incomplete book-details row, becomes 0. */
  function Finish(e: (Row, Option<Detail>)): (l: Line)
    ensures LineBook(l) == e.0.book
  {
    var r := e.0;
    var d := e.1.GetOr(Detail(r.book.isbn, None, None, None, None, None, None, None, None));
    Line(r.book.title, r.book.isbn, FillText(d.category), FillText(d.prodType), FillText(d.season), FillText(d.subPub),
         d.retail.GetOr(0.0), d.onHand.GetOr(0.0), d.backordered.GetOr(0.0), d.onOrder.GetOr(0.0),
         r.units12.GetOr(0.0), r.dollars12.GetOr(0.0), r.ytdUnits.GetOr(0.0), r.ytdDollars.GetOr(0.0),
         Zeroed(r.months), Zeroed(r.years))
  }

  /** The merged and filled frame before the sort. */
  function Lines(rows: seq<Row>, details: seq<Detail>): seq<Line>
  {
    Project(LeftJoin(rows, details, RowIsbn, DetailIsbn), Finish)
  }

  /** A line's figures are the window totals over the stacked sales of its
      book. */
  ghost predicate LineFigures(facts: seq<Fact>, year: int, month: int, l: Line)
    requires ValidMonth(month)
  {
    var b, keys := LineBook(l), TrailingKeys(year, month);
    && l.ytdUnits == Window(facts, Ym, InYear(year), BookOf, b, UnitsOf)
    && l.ytdDollars == Window(facts, Ym, InYear(year), BookOf, b, AmountOf)
    && l.units12 == Window(facts, Ym, InKeys(keys), BookOf, b, UnitsOf)
    && l.dollars12 == Window(facts, Ym, InKeys(keys), BookOf, b, AmountOf)
    && |l.months| == 12
    && (forall j :: 0 <= j < 12 ==> l.months[j] == Window(facts, Ym, IsKey(keys[j]), BookOf, b, UnitsOf))
    && |l.years| == 3
    && (forall j :: 0 <= j < 3 ==> l.years[j] == Window(facts, Ym, InYear(year - 1 - j), BookOf, b, UnitsOf))
  }

  lemma FinishFigures(facts: seq<Fact>, year: int, month: int, e: (Row, Option<Detail>))
    requires ValidMonth(month)
    requires RowFigures(facts, year, month, e.0)
    ensures LineFigures(facts, year, month, Finish(e))
  {
    var l, r := Finish(e), e.0;
    assert LineBook(l) == r.book;
    assert l.months == Zeroed(r.months) && l.years == Zeroed(r.years);
  }

  // ---------------------------------------------------------------------------
  // The sort
  // ---------------------------------------------------------------------------

  /** The descending order on a filled text column: names by Python's string
      order, and a 0 left by `fillna` below every name. */
  predicate LabelGreater(a: Label, b: Label)
  {
    match (a, b)
    case (Named(x), Named(y)) => StrLess(y, x)
    case (Named(_), ZeroFilled) => true
    case _ => false
  }

  /** `sort_values(by=['CATEGORY','12M_DOLLARS'], ascending=[False,False])`:
      `a` must precede `b` when its category is greater, or the categories
      agree and its twelve-month dollars are greater. */
  function Before(a: Line, b: Line): bool
  {
    LabelGreater(a.category, b.category) || (a.category == b.category && a.dollars12 > b.dollars12)
  }

  lemma BeforeAsymmetric(a: Line, b: Line)
    ensures Before(a, b) ==> !Before(b, a)
  {
    match (a.category, b.category) {
      case (Named(x), Named(y)) =>
        StrLessAsymmetric(x, y);
        StrLessIrreflexive(x);
      case _ =>
    }
  }

  lemma LinesAsymmetric(lines: seq<Line>)
    ensures Asymmetric(lines, Before)
  {
    forall a <- lines, b <- lines ensures Before(a, b) ==> !Before(b, a) {
      BeforeAsymmetric(a, b);
    }
  }

  // ---------------------------------------------------------------------------
  // The report
  // ---------------------------------------------------------------------------

  /** Why the report stops without writing: no ISBN to look up (the run
      exits), the book-details query failed (the frame it should have
      produced is unbound, so the merge raises), or the query returned no
      rows (the run exits). */
  datatype Failure = NoIsbns | QueryFailed | NoDetails

  /** The REVENUE_REPORT frame for the month `month` of `year`, given what
      the book-details query returned (None when it raised). The report fails
      exactly on the three conditions above; otherwise its lines are the
      merged lines, reordered so that no line must precede the one before
      it. */
  function Revenue(ingram: seq<Sale>, sage: seq<Sale>, details: Option<seq<Detail>>, year: int, month: int)
    : (r: Result<seq<Line>, Failure>)
    requires ValidMonth(month)
    ensures r == Err(NoIsbns) <==> ingram == [] && sage == []
    ensures r == Err(QueryFailed) <==> (ingram != [] || sage != []) && details.None?
    ensures r == Err(NoDetails) <==> (ingram != [] || sage != []) && details == Some([])
    ensures r.Ok? ==> details.Some?
    ensures r.Ok? ==> multiset(r.value) == multiset(Lines(Rows(Stacked(ingram, sage), year, month), details.value))
    ensures r.Ok? ==> InOrder(r.value, Before)
  {
    var rows := Rows(Stacked(ingram, sage), year, month);
    RowsEmpty(Stacked(ingram, sage), year, month);
    if Keys(rows, RowIsbn) == [] then Err(NoIsbns)
    else if details.None? then Err(QueryFailed)
    else if details.value == [] then Err(NoDetails)
    else
      var lines := Lines(rows, details.value);
      LinesAsymmetric(lines);
      SortByInOrder(lines, Before);
      Ok(SortBy(lines, Before))
  }

  /** There is an ISBN to look up exactly when there is a sale. */
  lemma RowsEmpty(facts: seq<Fact>, year: int, month: int)
    requires ValidMonth(month)
    ensures Keys(Rows(facts, year, month), RowIsbn) == [] <==> facts == []
  {
    var rows := Rows(facts, year, month);
    KeysEmpty(rows, RowIsbn);
    KeysEmpty(Combine(facts), BookOf);
    CombineEmpty(facts);
  }

  lemma KeysEmpty<T, K>(rows: seq<T>, key: T -> K)
    ensures Keys(rows, key) == [] <==> rows == []
  {
    if rows != [] {
      KeysCover(rows, key);
      assert rows[0] in rows;
    }
  }

  /** Every line of the report belongs to a book of the stacked sales, and its
      figures are that book's window totals. */
  lemma RevenueLines(ingram: seq<Sale>, sage: seq<Sale>, details: Option<seq<Detail>>, year: int, month: int)
    requires ValidMonth(month)
    requires Revenue(ingram, sage, details, year, month).Ok?
    ensures var facts := Stacked(ingram, sage);
      forall l <- Revenue(ingram, sage, details, year, month).value ::
        LineFigures(facts, year, month, l) && exists f <- facts :: BookOf(f) == LineBook(l)
  {
    var facts := Stacked(ingram, sage);
    var lines := Lines(Rows(facts, year, month), details.value);
    var out := Revenue(ingram, sage, details, year, month).value;
    forall l <- out ensures LineFigures(facts, year, month, l) && exists f <- facts :: BookOf(f) == LineBook(l) {
      assert l in multiset(lines);
      LineFigure(facts, details.value, year, month, l);
    }
  }

  /** Every merged line carries the window totals of a book that was sold. */
  lemma LineFigure(facts: seq<Fact>, details: seq<Detail>, year: int, month: int, l: Line)
    requires ValidMonth(month)
    requires l in Lines(Rows(facts, year, month), details)
    ensures LineFigures(facts, year, month, l) && exists f <- facts :: BookOf(f) == LineBook(l)
  {
    var rows := Rows(facts, year, month);
    var joined := LeftJoin(rows, details, RowIsbn, DetailIsbn);
    var lines := Lines(rows, details);
    LeftJoinLeft(rows, details, RowIsbn, DetailIsbn);
    var i :| 0 <= i < |lines| && lines[i] == l;
    assert joined[i] in joined;
    var k :| 0 <= k < |rows| && rows[k] == joined[i].0;
    RowWindows(facts, year, month, k);
    FinishFigures(facts, year, month, joined[i]);
    BaseRows(facts, rows[k].book);
    assert rows[k].book in Keys(Combine(facts), BookOf);
  }


  /** The book-details row a line is merged with when the details hold each
      ISBN at most once: the matching row, or an all-null row. */
  function DetailFor(details: seq<Detail>, isbn: string): Detail
  {
    FindRow(details, DetailIsbn, isbn).GetOr(Detail(isbn, None, None, None, None, None, None, None, None))
  }

  lemma UniqueLines(facts: seq<Fact>, details: seq<Detail>, year: int, month: int)
    requires ValidMonth(month)
    requires NoDup(Project(details, DetailIsbn))
    ensures var rows, lines := Rows(facts, year, month), Lines(Rows(facts, year, month), details);
      && |lines| == |rows|
      && Project(lines, LineBook) == Keys(Combine(facts), BookOf)
      && forall i :: 0 <= i < |lines| ==> lines[i] == Finish((rows[i], FindRow(details, DetailIsbn, rows[i].book.isbn)))
  {
    var rows, base := Rows(facts, year, month), Keys(Combine(facts), BookOf);
    var joined := LeftJoin(rows, details, RowIsbn, DetailIsbn);
    var lines := Lines(rows, details);
    LeftJoinUnique(rows, details, RowIsbn, DetailIsbn);
    forall i | 0 <= i < |lines|
      ensures lines[i] == Finish((rows[i], FindRow(details, DetailIsbn, rows[i].book.isbn)))
      ensures Project(lines, LineBook)[i] == base[i]
    {
      assert lines[i] == Finish(joined[i]);
      assert rows[i].book == base[i];
    }
  }

  /** A line carries the details row `d`, zero-filled. */
  ghost predicate Carries(l: Line, d: Detail)
  {
    && l.category == FillText(d.category) && l.prodType == FillText(d.prodType)
    && l.season == FillText(d.season) && l.subPub == FillText(d.subPub)
    && l.retail == d.retail.GetOr(0.0) && l.onHand == d.onHand.GetOr(0.0)
    && l.backordered == d.backordered.GetOr(0.0) && l.onOrder == d.onOrder.GetOr(0.0)
  }

  /** When the details hold each ISBN at most once, the report has one line
      per distinct book of the stacked sales, each book once, and every line
      carries its book's details row, or nulls filled with 0 when there is
      none. */
  lemma RevenueBooks(ingram: seq<Sale>, sage: seq<Sale>, details: Option<seq<Detail>>, year: int, month: int)
    requires ValidMonth(month)
    requires Revenue(ingram, sage, details, year, month).Ok?
    requires NoDup(Project(details.value, DetailIsbn))
    ensures var facts, out := Stacked(ingram, sage), Revenue(ingram, sage, details, year, month).value;
      && |out| == |Keys(facts, BookOf)|
      && NoDup(Project(out, LineBook))
      && (forall f <- facts :: exists l <- out :: LineBook(l) == BookOf(f))
      && (forall l <- out :: Carries(l, DetailFor(details.value, l.isbn)))
  {
    var facts, ds := Stacked(ingram, sage), details.value;
    var lines := Lines(Rows(facts, year, month), ds);
    var out := Revenue(ingram, sage, details, year, month).value;
    LinesBooks(facts, ds, year, month);
    assert out == SortBy(lines, Before);
    SortedBooks(lines);
    forall f <- facts ensures exists l <- out :: LineBook(l) == BookOf(f) {
      var l :| l in lines && LineBook(l) == BookOf(f);
      assert l in multiset(out);
    }
    forall l <- out ensures Carries(l, DetailFor(ds, l.isbn)) {
      assert l in multiset(lines);
    }
  }

  /** The sort keeps the number of lines and their distinct books. */
  lemma SortedBooks(lines: seq<Line>)
    requires NoDup(Project(lines, LineBook))
    ensures var out := SortBy(lines, Before); |out| == |lines| && NoDup(Project(out, LineBook))
  {
    var out := SortBy(lines, Before);
    assert |out| == |multiset(out)| == |multiset(lines)| == |lines|;
    SortByKeepsDistinct(lines, Before, LineBook);
  }

  /** Before the sort: one line per sold book, each carrying its book's
      catalogue details. */
  lemma LinesBooks(facts: seq<Fact>, ds: seq<Detail>, year: int, month: int)
    requires ValidMonth(month)
    requires NoDup(Project(ds, DetailIsbn))
    ensures var lines := Lines(Rows(facts, year, month), ds);
      && |lines| == |Keys(facts, BookOf)|
      && NoDup(Project(lines, LineBook))
      && (forall f <- facts :: exists l <- lines :: LineBook(l) == BookOf(f))
      && (forall l <- lines :: Carries(l, DetailFor(ds, l.isbn)))
  {
    LinesCount(facts, ds, year, month);
    LinesCover(facts, ds, year, month);
    LinesCarry(facts, ds, year, month);
  }

  lemma LinesCount(facts: seq<Fact>, ds: seq<Detail>, year: int, month: int)
    requires ValidMonth(month)
    requires NoDup(Project(ds, DetailIsbn))
    ensures var lines := Lines(Rows(facts, year, month), ds);
      |lines| == |Keys(facts, BookOf)| && NoDup(Project(lines, LineBook))
  {
    UniqueLines(facts, ds, year, month);
    SameBooks(facts);
  }

  lemma LinesCover(facts: seq<Fact>, ds: seq<Detail>, year: int, month: int)
    requires ValidMonth(month)
    requires NoDup(Project(ds, DetailIsbn))
    ensures var lines := Lines(Rows(facts, year, month), ds);
      forall f <- facts :: exists l <- lines :: LineBook(l) == BookOf(f)
  {
    var lines := Lines(Rows(facts, year, month), ds);
    var base := Keys(Combine(facts), BookOf);
    UniqueLines(facts, ds, year, month);
    forall f <- facts ensures exists l <- lines :: LineBook(l) == BookOf(f) {
      BaseRows(facts, BookOf(f));
      var i :| 0 <= i < |base| && base[i] == BookOf(f);
      assert Project(lines, LineBook)[i] == BookOf(f);
      assert lines[i] in lines;
    }
  }

  lemma LinesCarry(facts: seq<Fact>, ds: seq<Detail>, year: int, month: int)
    requires ValidMonth(month)
    requires NoDup(Project(ds, DetailIsbn))
    ensures var lines := Lines(Rows(facts, year, month), ds);
      forall l <- lines :: Carries(l, DetailFor(ds, l.isbn))
  {
    var rows, lines := Rows(facts, year, month), Lines(Rows(facts, year, month), ds);
    UniqueLines(facts, ds, year, month);
    forall l <- lines ensures Carries(l, DetailFor(ds, l.isbn)) {
      var i :| 0 <= i < |lines| && lines[i] == l;
      FinishCarries(rows[i], ds);
    }
  }

  /** A finished row carries the details found for its ISBN. */
  lemma FinishCarries(r: Row, ds: seq<Detail>)
    ensures var l := Finish((r, FindRow(ds, DetailIsbn, r.book.isbn)));
      l.isbn == r.book.isbn && Carries(l, DetailFor(ds, r.book.isbn))
  {
  }



  /** The distinct books of the stacked sales are as many as the base rows. */
  lemma SameBooks(facts: seq<Fact>)
    ensures |Keys(facts, BookOf)| == |Keys(Combine(facts), BookOf)|
  {
    var a, b := Keys(facts, BookOf), Keys(Combine(facts), BookOf);
    forall k | k in a ensures k in b {
      BaseRows(facts, k);
      ProjectMember(facts, BookOf, k);
      var i :| 0 <= i < |facts| && BookOf(facts[i]) == k;
      assert facts[i] in facts;
    }
    forall k | k in b ensures k in a {
      BaseRows(facts, k);
      var f :| f in facts && BookOf(f) == k;
      KeysCover(facts, BookOf);
    }
    BaseRows(facts, Book("", ""));
    NoDupCard(a);
    NoDupCard(b);
    assert (set k | k in a) == (set k | k in b);
  }

  /** A column of the lines adds up to its window's total over all the
      stacked sales when each book has one line. */
  lemma LinesConserve(facts: seq<Fact>, details: seq<Detail>, year: int, month: int, p: int -> bool,
                      val: Fact -> real, col: Line -> real)
    requires ValidMonth(month)
    requires NoDup(Project(details, DetailIsbn))
    requires forall l <- Lines(Rows(facts, year, month), details) :: col(l) == Window(facts, Ym, p, BookOf, LineBook(l), val)
    ensures Sum(Lines(Rows(facts, year, month), details), col) == WindowTotal(facts, Ym, p, val)
  {
    var lines, base := Lines(Rows(facts, year, month), details), Keys(Combine(facts), BookOf);
    UniqueLines(facts, details, year, month);
    forall i | 0 <= i < |lines| ensures col(lines[i]) == WindowBy(facts, Ym, p, BookOf, val)(base[i]) {
      assert lines[i] in lines;
      assert LineBook(lines[i]) == Project(lines, LineBook)[i];
    }
    SumMatches(lines, col, base, WindowBy(facts, Ym, p, BookOf, val));
    BaseRows(facts, Book("", ""));
    forall f <- facts ensures BookOf(f) in base {
      BaseRows(facts, BookOf(f));
    }
    WindowOverKeys(facts, Ym, p, BookOf, val, base);
  }

  /** When the details hold each ISBN at most once, the report's 12M and YTD
      columns add up to the units and dollars of all stacked sales in the
      trailing twelve months and in the current year. */
  lemma RevenueTotals(ingram: seq<Sale>, sage: seq<Sale>, details: Option<seq<Detail>>, year: int, month: int)
    requires ValidMonth(month)
    requires Revenue(ingram, sage, details, year, month).Ok?
    requires NoDup(Project(details.value, DetailIsbn))
    ensures var facts, out, keys := Stacked(ingram, sage), Revenue(ingram, sage, details, year, month).value, TrailingKeys(year, month);
      && Sum(out, LineUnits12) == WindowTotal(facts, Ym, InKeys(keys), UnitsOf)
      && Sum(out, LineDollars12) == WindowTotal(facts, Ym, InKeys(keys), AmountOf)
      && Sum(out, LineYtdUnits) == WindowTotal(facts, Ym, InYear(year), UnitsOf)
      && Sum(out, LineYtdDollars) == WindowTotal(facts, Ym, InYear(year), AmountOf)
  {
    var facts, ds, keys := Stacked(ingram, sage), details.value, TrailingKeys(year, month);
    var rows, lines := Rows(facts, year, month), Lines(Rows(facts, year, month), ds);
    var out := Revenue(ingram, sage, details, year, month).value;
    forall l <- lines ensures LineFigures(facts, year, month, l) {
      LinesFigures(facts, ds, year, month, l);
    }
    LinesConserve(facts, ds, year, month, InKeys(keys), UnitsOf, LineUnits12);
    LinesConserve(facts, ds, year, month, InKeys(keys), AmountOf, LineDollars12);
    LinesConserve(facts, ds, year, month, InYear(year), UnitsOf, LineYtdUnits);
    LinesConserve(facts, ds, year, month, InYear(year), AmountOf, LineYtdDollars);
    SumPerm(out, lines, LineUnits12);
    SumPerm(out, lines, LineDollars12);
    SumPerm(out, lines, LineYtdUnits);
    SumPerm(out, lines, LineYtdDollars);
  }

  /** Every merged line carries its book's window figures. */
  lemma LinesFigures(facts: seq<Fact>, details: seq<Detail>, year: int, month: int, l: Line)
    requires ValidMonth(month)
    requires l in Lines(Rows(facts, year, month), details)
    ensures LineFigures(facts, year, month, l)
  {
    var rows := Rows(facts, year, month);
    var joined := LeftJoin(rows, details, RowIsbn, DetailIsbn);
    var lines := Lines(rows, details);
    LeftJoinLeft(rows, details, RowIsbn, DetailIsbn);
    var i :| 0 <= i < |lines| && lines[i] == l;
    assert joined[i] in joined;
    var k :| 0 <= k < |rows| && rows[k] == joined[i].0;
    RowWindows(facts, year, month, k);
    FinishFigures(facts, year, month, joined[i]);
  }

  /** A book whose ISBN the details hold `n` times, say through several
      backorder rows, gets `n` lines, each with the book's full figures: the
      merge multiplies its sales. */
  lemma LinesRepeat(r: Row, details: seq<Detail>)
    requires |GroupOf(details, DetailIsbn, r.book.isbn)| >= 1
    ensures |Lines([r], details)| == |GroupOf(details, DetailIsbn, r.book.isbn)|
    ensures forall l <- Lines([r], details) :: LineBook(l) == r.book && l.units12 == r.units12.GetOr(0.0)
  {
    var joined := LeftJoin([r], details, RowIsbn, DetailIsbn);
    var lines := Lines([r], details);
    LeftJoinRepeats(r, details, RowIsbn, DetailIsbn);
    forall i | 0 <= i < |lines| ensures LineBook(lines[i]) == r.book && lines[i].units12 == r.units12.GetOr(0.0) {
      assert joined[i] in joined;
      FinishUnits(joined[i]);
    }
  }

  lemma FinishUnits(e: (Row, Option<Detail>))
    ensures Finish(e).units12 == e.0.units12.GetOr(0.0)
  {
  }

  // ---------------------------------------------------------------------------
  // The year windows and the sales' own years
  // ---------------------------------------------------------------------------

  function FactInYear(year: int): Fact -> bool { (f: Fact) => KeyYear(f.ym) == year }
  function SaleInYear(year: int): Sale -> bool { (s: Sale) => s.year == year }

  /** When every sale names a calendar month, the window `YEARMONTH // 100 ==
      year` holds exactly the sales of that YEAR: the YTD and year columns
      total the Ingram and Sage sales of the year. */
  lemma YearWindowTotals(ingram: seq<Sale>, sage: seq<Sale>, year: int)
    requires forall s <- ingram :: ValidMonth(s.month)
    requires forall s <- sage :: ValidMonth(s.month)
    ensures WindowTotal(Stacked(ingram, sage), Ym, InYear(year), UnitsOf)
         == SumIf(ingram, SaleInYear(year), SaleUnits) + SumIf(sage, SaleInYear(year), SaleUnits)
    ensures WindowTotal(Stacked(ingram, sage), Ym, InYear(year), AmountOf)
         == SumIf(ingram, SaleInYear(year), SaleAmount) + SumIf(sage, SaleInYear(year), SaleAmount)
  {
    var a, b := Project(ingram, ToFact), Project(sage, ToFact);
    var sel := FactInYear(year);
    WindowTotalAsSumIf(a + b, Ym, InYear(year), UnitsOf, sel);
    WindowTotalAsSumIf(a + b, Ym, InYear(year), AmountOf, sel);
    SumIfAppend(a, b, sel, UnitsOf);
    SumIfAppend(a, b, sel, AmountOf);
    SalesInYear(ingram, year);
    SalesInYear(sage, year);
  }

  lemma SalesInYear(sales: seq<Sale>, year: int)
    requires forall s <- sales :: ValidMonth(s.month)
    ensures SumIf(Project(sales, ToFact), FactInYear(year), UnitsOf) == SumIf(sales, SaleInYear(year), SaleUnits)
    ensures SumIf(Project(sales, ToFact), FactInYear(year), AmountOf) == SumIf(sales, SaleInYear(year), SaleAmount)
  {
    var a := Project(sales, ToFact);
    forall i | 0 <= i < |a|
      ensures FactInYear(year)(a[i]) == SaleInYear(year)(sales[i])
      ensures UnitsOf(a[i]) == SaleUnits(sales[i]) && AmountOf(a[i]) == SaleAmount(sales[i])
    {
      assert sales[i] in sales;
      ToFactStamp(sales[i]);
    }
    SumIfMatches(a, FactInYear(year), UnitsOf, sales, SaleInYear(year), SaleUnits);
    SumIfMatches(a, FactInYear(year), AmountOf, sales, SaleInYear(year), SaleAmount);
  }

  // ---------------------------------------------------------------------------
  // Column names
  // ---------------------------------------------------------------------------

  /** The leading block of `final_order`. */
  const FixedColumns: seq<string> :=
    ["TITLE", "ISBN", "CATEGORY", "PROD_TYPE", "SEASON_CODE", "SUB_PUB_CODE", "RETAIL_PRICE",
     "QTYOH", "QTYBO", "QTYORD", "12M_UNITS", "12M_DOLLARS", "YTD_UNITS", "YTD_DOLLARS"]

  /** The year the columns can be named for: every month back and every
      prior year is a four-digit year. */
  predicate NamedYear(year: int) { 1003 <= year <= 9999 }

  /** `twelve_month_names`: `datetime(calc_year, calc_month, 1)` written with
      `'%b-%y'`, for the twelve months before the current one, newest
      first. */
  function MonthColumnNames(year: int, month: int): (names: seq<string>)
    requires NamedYear(year) && ValidMonth(month)
    ensures |names| == 12
  {
    seq(12, i requires 0 <= i < 12 => MonthColumnName(year, month, i))
  }

  function MonthColumnName(year: int, month: int, i: int): string
    requires NamedYear(year) && ValidMonth(month) && 0 <= i < 12
  {
    var (y, m) := MonthsBack(year, month, i + 1);
    ShortLabel(y, m, '-')
  }

  /** `yearly_col_names`: `f"{calc_year}-UNITS"` for the three previous
      years, newest first. */
  function YearColumnNames(year: int): (names: seq<string>)
    ensures |names| == 3
  {
    seq(3, i requires 0 <= i < 3 => IntToString(year - 1 - i) + "-UNITS")
  }

  /** `final_order`. */
  function FinalOrder(year: int, month: int): (names: seq<string>)
    requires NamedYear(year) && ValidMonth(month)
  {
    FixedColumns + MonthColumnNames(year, month) + YearColumnNames(year)
  }

  /** Each month column is named after the month whose YEARMONTH its window
      selects, and each year column after the year its window selects: the
      names and the figures of a line line up. */
  lemma ColumnNamesMean(year: int, month: int)
    requires NamedYear(year) && ValidMonth(month)
    ensures var keys := TrailingKeys(year, month);
      forall i :: 0 <= i < 12 ==>
        ValidMonth(KeyMonth(keys[i])) && MonthColumnNames(year, month)[i] == ShortLabel(KeyYear(keys[i]), KeyMonth(keys[i]), '-')
    ensures forall j :: 0 <= j < 3 ==>
              var c := YearColumnNames(year)[j];
              |c| > 6 && c[|c| - 6..] == "-UNITS" && AllDigits(c[..|c| - 6]) && StringToNat(c[..|c| - 6]) == year - 1 - j
  {
    var keys := TrailingKeys(year, month);
    forall i | 0 <= i < 12
      ensures ValidMonth(KeyMonth(keys[i])) && MonthColumnNames(year, month)[i] == ShortLabel(KeyYear(keys[i]), KeyMonth(keys[i]), '-')
    {
      var (y, m) := MonthsBack(year, month, i + 1);
      DecodeEncode(y, m);
    }
    forall j | 0 <= j < 3
      ensures var c := YearColumnNames(year)[j];
        |c| > 6 && c[|c| - 6..] == "-UNITS" && AllDigits(c[..|c| - 6]) && StringToNat(c[..|c| - 6]) == year - 1 - j
    {
      var c, n := YearColumnNames(year)[j], NatToString(year - 1 - j);
      assert c == IntToString(year - 1 - j) + "-UNITS";
      assert c == n + "-UNITS";
      assert c[..|c| - 6] == n && c[|c| - 6..] == "-UNITS";
      NatToStringRoundTrip(year - 1 - j);
    }
  }

  /** `final_df[final_order]` selects 29 distinct columns. */
  lemma FinalOrderDistinct(year: int, month: int)
    requires NamedYear(year) && ValidMonth(month)
    ensures |FinalOrder(year, month)| == 29
    ensures NoDup(FinalOrder(year, month))
  {
    var f, ms, ys := FixedColumns, MonthColumnNames(year, month), YearColumnNames(year);
    FixedDistinct();
    MonthNamesDistinct(year, month);
    YearNamesDistinct(year);
    MonthNamesShape(year, month);
    YearNamesShape(year);
    BlocksDistinct(f, ms, ys);
  }

  /** Fixed names, names of six characters with a hyphen in the middle and
      names of ten characters never meet. */
  lemma BlocksDistinct(f: seq<string>, ms: seq<string>, ys: seq<string>)
    requires NoDup(f) && NoDup(ms) && NoDup(ys)
    requires forall c <- f :: |c| != 10 && (|c| != 6 || c[3] != '-')
    requires forall c <- ms :: |c| == 6 && c[3] == '-'
    requires forall c <- ys :: |c| == 10
    ensures NoDup(f + ms + ys)
  {
    NoDupConcat(f, ms);
    forall c <- f + ms ensures c !in ys {
      assert c in f || c in ms;
    }
    NoDupConcat(f + ms, ys);
  }

  /** Two sequences without repetitions and without a common member
      concatenate to one without repetitions. */
  lemma NoDupConcat<T>(a: seq<T>, b: seq<T>)
    requires NoDup(a) && NoDup(b)
    requires forall x <- a :: x !in b
    ensures NoDup(a + b)
  {
    var ab := a + b;
    forall i, j | 0 <= i < j < |ab| ensures ab[i] != ab[j] {
      if j < |a| {
        assert ab[i] == a[i] && ab[j] == a[j];
      } else if i >= |a| {
        assert ab[i] == b[i - |a|] && ab[j] == b[j - |a|];
      } else {
        assert ab[i] == a[i] && a[i] in a;
        assert ab[j] == b[j - |a|] && b[j - |a|] in b;
      }
    }
  }

  lemma MonthNamesShape(year: int, month: int)
    requires NamedYear(year) && ValidMonth(month)
    ensures forall c <- MonthColumnNames(year, month) :: |c| == 6 && c[3] == '-'
  {
    var ms := MonthColumnNames(year, month);
    forall i | 0 <= i < 12 ensures |ms[i]| == 6 && ms[i][3] == '-' {
      MonthNameShape(year, month, i);
    }
  }

  lemma YearNamesShape(year: int)
    requires NamedYear(year)
    ensures forall c <- YearColumnNames(year) :: |c| == 10
  {
    var ys := YearColumnNames(year);
    forall j | 0 <= j < 3 ensures |ys[j]| == 10 {
      YearNameShape(year, j);
    }
  }

  lemma YearNameShape(year: int, j: int)
    requires NamedYear(year) && 0 <= j < 3
    ensures |YearColumnNames(year)[j]| == 10
  {
    assert YearColumnNames(year)[j] == IntToString(year - 1 - j) + "-UNITS";
    FourDigitYear(year - 1 - j);
  }

  lemma FixedDistinct()
    ensures NoDup(FixedColumns)
    ensures forall c <- FixedColumns :: |c| != 10 && (|c| != 6 || c[3] != '-')
  {
  }

  lemma MonthNameShape(year: int, month: int, i: int)
    requires NamedYear(year) && ValidMonth(month) && 0 <= i < 12
    ensures var c := MonthColumnNames(year, month)[i]; |c| == 6 && c[3] == '-'
  {
  }

  lemma MonthNamesDistinct(year: int, month: int)
    requires NamedYear(year) && ValidMonth(month)
    ensures NoDup(MonthColumnNames(year, month))
  {
    var ms := MonthColumnNames(year, month);
    forall i, j | 0 <= i < j < 12 ensures ms[i] != ms[j] {
      var (y1, m1) := MonthsBack(year, month, i + 1);
      var (y2, m2) := MonthsBack(year, month, j + 1);
      ShortLabelInjective(y1, m1, y2, m2, '-');
      assert m1 != m2;
    }
  }

  lemma YearNamesDistinct(year: int)
    requires NamedYear(year)
    ensures NoDup(YearColumnNames(year))
  {
    var ys := YearColumnNames(year);
    forall i, j | 0 <= i < j < 3 ensures ys[i] != ys[j] {
      YearNameHead(year, i);
      YearNameHead(year, j);
      NatToStringRoundTrip(year - 1 - i);
      NatToStringRoundTrip(year - 1 - j);
    }
  }

  /** A year column name starts with the year's four digits. */
  lemma YearNameHead(year: int, i: int)
    requires NamedYear(year) && 0 <= i < 3
    ensures |YearColumnNames(year)[i]| >= 4 && YearColumnNames(year)[i][..4] == NatToString(year - 1 - i)
  {
    var d := NatToString(year - 1 - i);
    FourDigitYear(year - 1 - i);
    assert IntToString(year - 1 - i) == d;
    assert YearColumnNames(year)[i] == IntToString(year - 1 - i) + "-UNITS";
    assert (d + "-UNITS")[..4] == d;
  }
}

=== FILE: tables.dfy ===
/** The data-frame operations the pipelines chain together, over rows held in
    a sequence: column totals, filters, `unique()`, `group_by().agg()`, left
    joins, `first` and stable sorting. Groups come out in the order in which
    their keys first occur, one of the orders the data-frame libraries may
    produce; no property below depends on it except where a sort follows. */
module Tables {
  import opened Wrappers

  // ---------------------------------------------------------------------------
  // Column totals and filters
  // ---------------------------------------------------------------------------

  /** `df[col].sum()` for the column `val`. */
  function Sum<T>(rows: seq<T>, val: T -> real): real
    decreases |rows|
  {
    if rows == [] then 0.0 else val(rows[0]) + Sum(rows[1..], val)
  }

  /** The reference total of a filtered column: `val` added up over the rows
      that `sel` accepts. */
  function SumIf<T>(rows: seq<T>, sel: T -> bool, val: T -> real): real
    decreases |rows|
  {
    if rows == [] then 0.0
    else (if sel(rows[0]) then val(rows[0]) else 0.0) + SumIf(rows[1..], sel, val)
  }

  /** `df.filter(p)`: the rows `p` accepts, in order. */
  function Where<T>(rows: seq<T>, p: T -> bool): (r: seq<T>)
    ensures |r| <= |rows|
    ensures forall x <- r :: x in rows && p(x)
    ensures forall x <- rows :: p(x) ==> x in r
    decreases |rows|
  {
    if rows == [] then []
    else (if p(rows[0]) then [rows[0]] else []) + Where(rows[1..], p)
  }

  /** Filtering a concatenation filters each part. */
  lemma {:induction false} WhereAppend<T>(a: seq<T>, b: seq<T>, p: T -> bool)
    ensures Where(a + b, p) == Where(a, p) + Where(b, p)
    decreases |a|
  {
    if a == [] {
      assert a + b == b;
    } else {
      assert (a + b)[1..] == a[1..] + b;
      assert (a + b)[0] == a[0];
      WhereAppend(a[1..], b, p);
      var h := if p(a[0]) then [a[0]] else [];
      calc {
        Where(a + b, p);
        h + Where(a[1..] + b, p);
        h + (Where(a[1..], p) + Where(b, p));
        (h + Where(a[1..], p)) + Where(b, p);
        Where(a, p) + Where(b, p);
      }
    }
  }

  /** Filtering five blocks filters each. */
  lemma WhereFive<T>(a: seq<T>, b: seq<T>, c: seq<T>, d: seq<T>, e: seq<T>, p: T -> bool)
    ensures Where(a + b + c + d + e, p) == Where(a, p) + Where(b, p) + Where(c, p) + Where(d, p) + Where(e, p)
  {
    WhereAppend(a + b + c + d, e, p);
    WhereAppend(a + b + c, d, p);
    WhereAppend(a + b, c, p);
    WhereAppend(a, b, p);
  }

  /** Filtering four blocks filters each. */
  lemma WhereFour<T>(a: seq<T>, b: seq<T>, c: seq<T>, d: seq<T>, p: T -> bool)
    ensures Where(a + b + c + d, p) == Where(a, p) + Where(b, p) + Where(c, p) + Where(d, p)
  {
    WhereAppend(a + b + c, d, p);
    WhereAppend(a + b, c, p);
    WhereAppend(a, b, p);
  }

  /** A filter that accepts every row keeps the frame as it is. */
  lemma {:induction false} WhereAll<T>(a: seq<T>, p: T -> bool)
    requires forall x <- a :: p(x)
    ensures Where(a, p) == a
    decreases |a|
  {
    if a != [] {
      assert a[0] in a;
      WhereAll(a[1..], p);
    }
  }

  /** Three rows that all fail `drop` and all pass `keep`. */
  lemma WhereThree<T>(a: T, b: T, c: T, drop: T -> bool, keep: T -> bool)
    requires !drop(a) && !drop(b) && !drop(c)
    requires keep(a) && keep(b) && keep(c)
    ensures Where([a, b, c], drop) == []
    ensures Where([a, b, c], keep) == [a, b, c]
  {
    WhereNone([a, b, c], drop);
    WhereAll([a, b, c], keep);
  }

  /** A filter that rejects every row leaves nothing. */
  lemma {:induction false} WhereNone<T>(a: seq<T>, p: T -> bool)
    requires forall x <- a :: !p(x)
    ensures Where(a, p) == []
    decreases |a|
  {
    if a != [] {
      assert a[0] in a;
      WhereNone(a[1..], p);
    }
  }

  function Ident(v: real): real { v }

  /** The sum of a list of values. */
  function Total(vs: seq<real>): real { Sum(vs, Ident) }

  /** Concatenating frames (`concat`) adds their totals. */
  lemma {:induction false} SumAppend<T>(a: seq<T>, b: seq<T>, val: T -> real)
    ensures Sum(a + b, val) == Sum(a, val) + Sum(b, val)
    decreases |a|
  {
    if a == [] {
      assert a + b == b;
    } else {
      assert (a + b)[1..] == a[1..] + b;
      SumAppend(a[1..], b, val);
    }
  }

  /** The total of a filtered frame is the reference filtered total. */
  lemma {:induction false} SumWhere<T>(rows: seq<T>, p: T -> bool, val: T -> real)
    ensures Sum(Where(rows, p), val) == SumIf(rows, p, val)
    decreases |rows|
  {
    if rows != [] {
      var head := if p(rows[0]) then [rows[0]] else [];
      SumAppend(head, Where(rows[1..], p), val);
      SumWhere(rows[1..], p, val);
    }
  }

  /** Filtered totals only depend on which rows are selected. */
  lemma {:induction false} SumIfExt<T>(rows: seq<T>, p: T -> bool, q: T -> bool, val: T -> real)
    requires forall x <- rows :: p(x) == q(x)
    ensures SumIf(rows, p, val) == SumIf(rows, q, val)
    decreases |rows|
  {
    if rows != [] {
      assert rows[0] in rows;
      SumIfExt(rows[1..], p, q, val);
    }
  }

  /** Selecting with a disjoint union adds the two filtered totals. */
  lemma {:induction false} SumIfDisjoint<T>(rows: seq<T>, p: T -> bool, q: T -> bool, r: T -> bool, val: T -> real)
    requires forall x <- rows :: (r(x) <==> p(x) || q(x)) && !(p(x) && q(x))
    ensures SumIf(rows, r, val) == SumIf(rows, p, val) + SumIf(rows, q, val)
    decreases |rows|
  {
    if rows != [] {
      assert rows[0] in rows;
      SumIfDisjoint(rows[1..], p, q, r, val);
    }
  }

  /** A filter that accepts every row keeps the whole total. */
  lemma {:induction false} SumIfAll<T>(rows: seq<T>, sel: T -> bool, val: T -> real)
    requires forall x <- rows :: sel(x)
    ensures SumIf(rows, sel, val) == Sum(rows, val)
    decreases |rows|
  {
    if rows != [] {
      assert rows[0] in rows;
      SumIfAll(rows[1..], sel, val);
    }
  }

  /** Two frames whose rows correspond one to one with equal values have equal
      totals. */
  lemma {:induction false} SumMatches<A, B>(a: seq<A>, fa: A -> real, b: seq<B>, fb: B -> real)
    requires |a| == |b|
    requires forall i :: 0 <= i < |a| ==> fa(a[i]) == fb(b[i])
    ensures Sum(a, fa) == Sum(b, fb)
    decreases |a|
  {
    if a != [] {
      SumMatches(a[1..], fa, b[1..], fb);
    }
  }

  /** Filtered totals over frames whose rows correspond one to one. */
  lemma {:induction false} SumIfMatches<A, B>(a: seq<A>, pa: A -> bool, fa: A -> real, b: seq<B>, pb: B -> bool, fb: B -> real)
    requires |a| == |b|
    requires forall i :: 0 <= i < |a| ==> pa(a[i]) == pb(b[i]) && fa(a[i]) == fb(b[i])
    ensures SumIf(a, pa, fa) == SumIf(b, pb, fb)
    decreases |a|
  {
    if a != [] {
      SumIfMatches(a[1..], pa, fa, b[1..], pb, fb);
    }
  }

  /** Reordering rows does not change a total. */
  lemma {:induction false} SumPerm<T>(a: seq<T>, b: seq<T>, val: T -> real)
    requires multiset(a) == multiset(b)
    ensures Sum(a, val) == Sum(b, val)
    decreases |a|
  {
    if a == [] {
      assert |b| == |multiset(b)| == 0;
    } else {
      assert a[0] in multiset(b);
      var j :| 0 <= j < |b| && b[j] == a[0];
      RemoveAt(a, 0);
      RemoveAt(b, j);
      SumPerm(a[1..], b[..j] + b[j + 1..], val);
      SumRemove(b, j, val);
    }
  }

  lemma RemoveAt<T>(s: seq<T>, j: int)
    requires 0 <= j < |s|
    ensures multiset(s[..j] + s[j + 1..]) == multiset(s) - multiset{s[j]}
  {
    assert s == s[..j] + [s[j]] + s[j + 1..];
  }

  lemma SumRemove<T>(s: seq<T>, j: int, val: T -> real)
    requires 0 <= j < |s|
    ensures Sum(s, val) == val(s[j]) + Sum(s[..j] + s[j + 1..], val)
  {
    assert s == s[..j] + [s[j]] + s[j + 1..];
    SumAppend(s[..j] + [s[j]], s[j + 1..], val);
    SumAppend(s[..j], [s[j]], val);
    SumAppend(s[..j], s[j + 1..], val);
  }

  // ---------------------------------------------------------------------------
  // Keys and unique()
  // ---------------------------------------------------------------------------

  ghost predicate NoDup<K>(s: seq<K>) {
    forall i, j :: 0 <= i < j < |s| ==> s[i] != s[j]
  }

  /** The key column of a frame. */
  function Project<T, K>(rows: seq<T>, key: T -> K): (ks: seq<K>)
    ensures |ks| == |rows|
  {
    seq(|rows|, i requires 0 <= i < |rows| => key(rows[i]))
  }

  /** The distinct values of a column, in order of first occurrence. */
  function Distinct<K(==)>(s: seq<K>): (r: seq<K>)
    ensures NoDup(r) && |r| <= |s|
    ensures forall k <- r :: k in s
    ensures forall k <- s :: k in r
    decreases |s|
  {
    if s == [] then []
    else
      var d := Distinct(s[..|s| - 1]);
      assert forall k <- s[..|s| - 1] :: k in d;
      if s[|s| - 1] in d then d else d + [s[|s| - 1]]
  }

  /** `df.select(keys).unique()`: one entry per key combination present. */
  function Keys<T, K(==)>(rows: seq<T>, key: T -> K): (ks: seq<K>)
    ensures NoDup(ks)
    ensures forall k <- ks :: k in Project(rows, key)
    ensures forall k <- Project(rows, key) :: k in ks
  {
    Distinct(Project(rows, key))
  }

  lemma ProjectMember<T, K>(rows: seq<T>, key: T -> K, k: K)
    ensures k in Project(rows, key) <==> exists i :: 0 <= i < |rows| && key(rows[i]) == k
  {
    assert forall i :: 0 <= i < |rows| ==> Project(rows, key)[i] == key(rows[i]);
  }

  lemma ProjectCons<T, K>(rows: seq<T>, key: T -> K)
    requires rows != []
    ensures Project(rows, key) == [key(rows[0])] + Project(rows[1..], key)
  {
  }

  // ---------------------------------------------------------------------------
  // group_by
  // ---------------------------------------------------------------------------

  /** The rows of the group whose key is `k`, in input order. */
  function GroupOf<T, K(==)>(rows: seq<T>, key: T -> K, k: K): (g: seq<T>)
    ensures |g| <= |rows|
    ensures forall x <- g :: x in rows && key(x) == k
    decreases |rows|
  {
    if rows == [] then []
    else (if key(rows[0]) == k then [rows[0]] else []) + GroupOf(rows[1..], key, k)
  }

  /** The groups for the keys `ks`, one per key. */
  function GroupsOver<T, K(==)>(rows: seq<T>, key: T -> K, ks: seq<K>): (gs: seq<seq<T>>)
    ensures |gs| == |ks|
  {
    seq(|ks|, i requires 0 <= i < |ks| => GroupOf(rows, key, ks[i]))
  }

  /** `df.group_by(key)`: one group per distinct key, in first-occurrence
      order. */
  function Groups<T, K(==)>(rows: seq<T>, key: T -> K): (gs: seq<seq<T>>)
    ensures |gs| == |Keys(rows, key)|
  {
    GroupsOver(rows, key, Keys(rows, key))
  }

  /** A group is empty exactly when no row carries its key. */
  lemma {:induction false} GroupOfEmpty<T, K>(rows: seq<T>, key: T -> K, k: K)
    ensures GroupOf(rows, key, k) == [] <==> k !in Project(rows, key)
    decreases |rows|
  {
    if rows != [] {
      ProjectCons(rows, key);
      GroupOfEmpty(rows[1..], key, k);
    }
  }

  /** Every row carrying a key is in that key's group. */
  lemma {:induction false} GroupOfComplete<T, K>(rows: seq<T>, key: T -> K, x: T)
    requires x in rows
    ensures x in GroupOf(rows, key, key(x))
    decreases |rows|
  {
    if rows[0] != x {
      GroupOfComplete(rows[1..], key, x);
    }
  }

  /** In a frame with one row per key, the total over a key is that row's
      value, or 0 when no row has the key. */
  lemma SumIfUniqueKey<T, K>(rows: seq<T>, key: T -> K, k: K, val: T -> real)
    requires NoDup(Project(rows, key))
    ensures forall x <- rows :: key(x) == k ==> SumIf(rows, HasKey(key, k), val) == val(x)
    ensures (forall x <- rows :: key(x) != k) ==> SumIf(rows, HasKey(key, k), val) == 0.0
  {
    GroupOfSumIf(rows, key, k, val);
    GroupOfUnique(rows, key, k);
    forall x <- rows | key(x) == k ensures SumIf(rows, HasKey(key, k), val) == val(x) {
      GroupOfComplete(rows, key, x);
      assert GroupOf(rows, key, k) == [x];
    }
    if forall x <- rows :: key(x) != k {
      SumIfNone(rows, HasKey(key, k), val);
    }
  }

  /** A group's total is the reference total over the rows with that key. */
  lemma {:induction false} GroupOfSum<T, K>(rows: seq<T>, key: T -> K, k: K, val: T -> real)
    ensures Sum(GroupOf(rows, key, k), val) == SumIf(rows, x => key(x) == k, val)
    decreases |rows|
  {
    if rows != [] {
      var head := if key(rows[0]) == k then [rows[0]] else [];
      SumAppend(head, GroupOf(rows[1..], key, k), val);
      GroupOfSum(rows[1..], key, k, val);
    }
  }

  /** The selection `key == k`. */
  function HasKey<T, K(==)>(key: T -> K, k: K): T -> bool { x => key(x) == k }

  /** The same total through the named selection. */
  lemma GroupOfSumIf<T, K>(rows: seq<T>, key: T -> K, k: K, val: T -> real)
    ensures Sum(GroupOf(rows, key, k), val) == SumIf(rows, HasKey(key, k), val)
  {
    GroupOfSum(rows, key, k, val);
    SumIfExt(rows, x => key(x) == k, HasKey(key, k), val);
  }

  /** The groups' totals over a key list without repetition, split off the
      first row: that row lands in exactly one group, if its key is listed. */
  lemma {:induction false} GroupsOverCons<T, K>(x: T, rest: seq<T>, key: T -> K, ks: seq<K>, val: T -> real)
    requires NoDup(ks)
    ensures Sum(GroupsOver([x] + rest, key, ks), g => Sum(g, val))
         == (if key(x) in ks then val(x) else 0.0) + Sum(GroupsOver(rest, key, ks), g => Sum(g, val))
    decreases |ks|
  {
    if ks != [] {
      var rows := [x] + rest;
      assert rows[1..] == rest;
      var gs, hs := GroupsOver(rows, key, ks), GroupsOver(rest, key, ks);
      assert gs[1..] == GroupsOver(rows, key, ks[1..]);
      assert hs[1..] == GroupsOver(rest, key, ks[1..]);
      assert NoDup(ks[1..]);
      GroupsOverCons(x, rest, key, ks[1..], val);
      var head := if key(x) == ks[0] then [x] else [];
      SumAppend(head, GroupOf(rest, key, ks[0]), val);
      assert key(x) in ks <==> key(x) == ks[0] || key(x) in ks[1..];
      assert key(x) == ks[0] ==> key(x) !in ks[1..];
    }
  }

  /** Grouping conserves totals: when every row's key is listed exactly once,
      the groups' totals add up to the frame's total. */
  lemma {:induction false} GroupsPartition<T, K>(rows: seq<T>, key: T -> K, ks: seq<K>, val: T -> real)
    requires NoDup(ks)
    requires forall x <- rows :: key(x) in ks
    ensures Sum(GroupsOver(rows, key, ks), g => Sum(g, val)) == Sum(rows, val)
    decreases |rows|
  {
    if rows == [] {
      var gs := GroupsOver(rows, key, ks);
      assert forall i :: 0 <= i < |gs| ==> Sum(gs[i], val) == 0.0;
      SumMatches(gs, g => Sum(g, val), seq(|gs|, _ => 0.0), v => v);
      ZeroSum(|gs|);
    } else {
      assert rows == [rows[0]] + rows[1..];
      assert rows[0] in rows;
      GroupsOverCons(rows[0], rows[1..], key, ks, val);
      GroupsPartition(rows[1..], key, ks, val);
    }
  }

  lemma {:induction false} ZeroSum(n: nat)
    ensures Sum(seq(n, _ => 0.0), v => v) == 0.0
  {
    if n > 0 {
      assert seq(n, _ => 0.0)[1..] == seq(n - 1, _ => 0.0);
      ZeroSum(n - 1);
    }
  }

  /** A final group-by whose output rows carry, for each group, the group's
      total of `val` conserves the column total. This is how a `sum`
      aggregation keeps the totals logged before and after it equal. */
  lemma CollapseTotal<T, K, U>(rows: seq<T>, key: T -> K, out: seq<U>, outVal: U -> real, val: T -> real)
    requires |out| == |Keys(rows, key)|
    requires forall i :: 0 <= i < |out| ==> outVal(out[i]) == Sum(Groups(rows, key)[i], val)
    ensures Sum(out, outVal) == Sum(rows, val)
  {
    var gs := Groups(rows, key);
    SumMatches(out, outVal, gs, g => Sum(g, val));
    forall x <- rows ensures key(x) in Keys(rows, key) {
      var i :| 0 <= i < |rows| && rows[i] == x;
      assert Project(rows, key)[i] == key(x);
    }
    GroupsPartition(rows, key, Keys(rows, key), val);
  }

  /** Every group of a group-by is non-empty, and its rows carry its key. */
  lemma GroupsShape<T, K>(rows: seq<T>, key: T -> K, i: int)
    requires 0 <= i < |Keys(rows, key)|
    ensures Groups(rows, key)[i] != []
    ensures forall x <- Groups(rows, key)[i] :: key(x) == Keys(rows, key)[i]
  {
    GroupOfEmpty(rows, key, Keys(rows, key)[i]);
  }

  // ---------------------------------------------------------------------------
  // Aggregated tables and left joins
  // ---------------------------------------------------------------------------

  /** `df.group_by(key).agg(pl.col(val).sum())`: one (key, total) entry per
      distinct key. */
  function GroupSum<T, K(==)>(rows: seq<T>, key: T -> K, val: T -> real): (tbl: seq<(K, real)>)
    ensures |tbl| == |Keys(rows, key)|
  {
    var ks := Keys(rows, key);
    seq(|ks|, i requires 0 <= i < |ks| => (ks[i], Sum(GroupOf(rows, key, ks[i]), val)))
  }

  /** The first row whose key is `k`, if any. */
  function FindRow<R, K(==)>(rows: seq<R>, key: R -> K, k: K): (r: Option<R>)
    ensures r.Some? ==> r.value in rows && key(r.value) == k
    ensures r.None? <==> k !in Project(rows, key)
    decreases |rows|
  {
    if rows == [] then None
    else if key(rows[0]) == k then (ProjectCons(rows, key); Some(rows[0]))
    else (ProjectCons(rows, key); FindRow(rows[1..], key, k))
  }

  /** The value a left join against an aggregated table attaches to a row with
      key `k`: the entry's value, or null when the table has no such key. */
  function Lookup<K(==)>(tbl: seq<(K, real)>, k: K): (v: Option<real>)
  {
    match FindRow(tbl, (e: (K, real)) => e.0, k)
    case Some(e) => Some(e.1)
    case None => None
  }

  /** A left join followed by `fill_null(0)`. */
  function JoinFill<K(==)>(tbl: seq<(K, real)>, k: K): real
  {
    Lookup(tbl, k).GetOr(0.0)
  }

  /** Joining an aggregated column back onto a key finds the group's total,
      and finds null exactly when no row carries that key. */
  lemma GroupSumLookup<T, K>(rows: seq<T>, key: T -> K, val: T -> real, k: K)
    ensures Lookup(GroupSum(rows, key, val), k).None? <==> k !in Project(rows, key)
    ensures Lookup(GroupSum(rows, key, val), k).Some? ==>
              Lookup(GroupSum(rows, key, val), k).value == Sum(GroupOf(rows, key, k), val)
    ensures JoinFill(GroupSum(rows, key, val), k) == Sum(GroupOf(rows, key, k), val)
  {
    var tbl := GroupSum(rows, key, val);
    var ks := Keys(rows, key);
    assert Project(tbl, (e: (K, real)) => e.0) == ks;
    GroupOfEmpty(rows, key, k);
  }

  /** The window column of the reports: filter the facts, group them by key,
      join the totals onto a row with key `k` and fill nulls with 0. The
      result is the reference total of the facts in the window with that key. */
  lemma WindowSum<T, K>(rows: seq<T>, p: T -> bool, key: T -> K, k: K, val: T -> real)
    ensures JoinFill(GroupSum(Where(rows, p), key, val), k) == SumIf(rows, x => p(x) && key(x) == k, val)
  {
    var w := Where(rows, p);
    GroupSumLookup(w, key, val, k);
    assert JoinFill(GroupSum(w, key, val), k) == Sum(GroupOf(w, key, k), val);
    WhereGroupOf(rows, p, key, k, val);
  }

  /** A group of a filtered frame totals to the rows passing both the filter
      and the key test. */
  lemma {:induction false} WhereGroupOf<T, K>(rows: seq<T>, p: T -> bool, key: T -> K, k: K, val: T -> real)
    ensures Sum(GroupOf(Where(rows, p), key, k), val) == SumIf(rows, x => p(x) && key(x) == k, val)
    decreases |rows|
  {
    if rows != [] {
      var head := if p(rows[0]) then [rows[0]] else [];
      var rest := Where(rows[1..], p);
      assert Where(rows, p) == head + rest;
      GroupOfAppend(head, rest, key, k);
      SumAppend(GroupOf(head, key, k), GroupOf(rest, key, k), val);
      WhereGroupOf(rows[1..], p, key, k, val);
    }
  }

  lemma {:induction false} GroupOfAppend<T, K>(a: seq<T>, b: seq<T>, key: T -> K, k: K)
    ensures GroupOf(a + b, key, k) == GroupOf(a, key, k) + GroupOf(b, key, k)
    decreases |a|
  {
    if a == [] {
      assert a + b == b;
    } else {
      assert (a + b)[1..] == a[1..] + b;
      GroupOfAppend(a[1..], b, key, k);
    }
  }

  /** Filtering then selecting is selecting with the conjunction. */
  lemma {:induction false} WhereSumIf<T>(rows: seq<T>, p: T -> bool, q: T -> bool, val: T -> real)
    ensures SumIf(Where(rows, p), q, val) == SumIf(rows, x => p(x) && q(x), val)
    decreases |rows|
  {
    if rows != [] {
      var head := if p(rows[0]) then [rows[0]] else [];
      assert Where(rows, p) == head + Where(rows[1..], p);
      SumIfAppend(head, Where(rows[1..], p), q, val);
      WhereSumIf(rows[1..], p, q, val);
    }
  }

  /** The same, for any selection that agrees with the conjunction. */
  lemma WhereSumIfAs<T>(rows: seq<T>, p: T -> bool, q: T -> bool, r: T -> bool, val: T -> real)
    requires forall x <- rows :: r(x) == (p(x) && q(x))
    ensures SumIf(Where(rows, p), q, val) == SumIf(rows, r, val)
  {
    WhereSumIf(rows, p, q, val);
    SumIfExt(rows, x => p(x) && q(x), r, val);
  }

  lemma {:induction false} SumIfAppend<T>(a: seq<T>, b: seq<T>, sel: T -> bool, val: T -> real)
    ensures SumIf(a + b, sel, val) == SumIf(a, sel, val) + SumIf(b, sel, val)
    decreases |a|
  {
    if a == [] {
      assert a + b == b;
    } else {
      assert (a + b)[1..] == a[1..] + b;
      SumIfAppend(a[1..], b, sel, val);
    }
  }

  /** A window that is a list of distinct keys (`is_in`) totals to the sum of
      the one-key windows: the rolling column equals the sum of the monthly
      columns. */
  lemma {:induction false} SumIfSplitKeys<T, K>(rows: seq<T>, g: T -> int, js: seq<int>, key: T -> K, k: K, val: T -> real)
    requires NoDup(js)
    ensures SumIf(rows, x => g(x) in js && key(x) == k, val)
         == Sum(js, j => SumIf(rows, x => g(x) == j && key(x) == k, val))
    decreases |js|
  {
    if js == [] {
      SumIfNone(rows, x => g(x) in js && key(x) == k, val);
    } else {
      var rest := js[1..];
      assert NoDup(rest);
      SumIfSplitKeys(rows, g, rest, key, k, val);
      assert forall x <- rows :: (g(x) in js && key(x) == k) <==> ((g(x) == js[0] && key(x) == k) || (g(x) in rest && key(x) == k));
      assert forall x <- rows :: !((g(x) == js[0] && key(x) == k) && (g(x) in rest && key(x) == k));
      SumIfDisjoint(rows, x => g(x) == js[0] && key(x) == k, x => g(x) in rest && key(x) == k, x => g(x) in js && key(x) == k, val);
    }
  }

  lemma {:induction false} SumIfNone<T>(rows: seq<T>, sel: T -> bool, val: T -> real)
    requires forall x <- rows :: !sel(x)
    ensures SumIf(rows, sel, val) == 0.0
    decreases |rows|
  {
    if rows != [] {
      assert rows[0] in rows;
      SumIfNone(rows[1..], sel, val);
    }
  }

  /** `group_by(key).agg(...)`: one output row per group, built by `merge`
      from the group's key and rows. */
  function Collapse<T, K(==), U>(rows: seq<T>, key: T -> K, merge: (K, seq<T>) -> U): (out: seq<U>)
    ensures |out| == |Keys(rows, key)|
    ensures forall i :: 0 <= i < |out| ==> out[i] == merge(Keys(rows, key)[i], Groups(rows, key)[i])
  {
    var ks, gs := Keys(rows, key), Groups(rows, key);
    seq(|ks|, i requires 0 <= i < |ks| => merge(ks[i], gs[i]))
  }

  /** A filtered total is a plain total of the values zeroed outside the
      filter. */
  lemma {:induction false} SumIfAsSum<T>(rows: seq<T>, sel: T -> bool, val: T -> real)
    ensures SumIf(rows, sel, val) == Sum(rows, x => if sel(x) then val(x) else 0.0)
    decreases |rows|
  {
    if rows != [] {
      SumIfAsSum(rows[1..], sel, val);
    }
  }

  lemma {:induction false} GroupConstSel<T>(g: seq<T>, sel: T -> bool, b: bool, val: T -> real)
    requires forall x <- g :: sel(x) == b
    ensures Sum(g, x => if sel(x) then val(x) else 0.0) == if b then Sum(g, val) else 0.0
    decreases |g|
  {
    if g != [] {
      assert g[0] in g;
      assert forall x <- g[1..] :: x in g;
      GroupConstSel(g[1..], sel, b, val);
    }
  }

  /** Every row's key is among the distinct keys. */
  lemma KeysCover<T, K>(rows: seq<T>, key: T -> K)
    ensures forall x <- rows :: key(x) in Keys(rows, key)
  {
    forall x <- rows ensures key(x) in Keys(rows, key) {
      var i :| 0 <= i < |rows| && rows[i] == x;
      assert Project(rows, key)[i] == key(x);
    }
  }

  /** A table with one row per distinct key of `rows`, in key order, carries
      exactly the keys of `rows`. */
  lemma RowsWithKeys<T, U, K>(rows: seq<T>, key: T -> K, out: seq<U>, outKey: U -> K, k: K)
    requires |out| == |Keys(rows, key)|
    requires forall i :: 0 <= i < |out| ==> outKey(out[i]) == Keys(rows, key)[i]
    ensures (exists c <- out :: outKey(c) == k) <==> (exists r <- rows :: key(r) == k)
  {
    var ks := Keys(rows, key);
    ProjectMember(rows, key, k);
    if exists r <- rows :: key(r) == k {
      var r :| r in rows && key(r) == k;
      KeysCover(rows, key);
      var i :| 0 <= i < |ks| && ks[i] == k;
      assert out[i] in out;
    }
    if exists c <- out :: outKey(c) == k {
      var c :| c in out && outKey(c) == k;
      var i :| 0 <= i < |out| && out[i] == c;
      assert ks[i] in ks;
      var j :| 0 <= j < |rows| && key(rows[j]) == k;
      assert rows[j] in rows;
    }
  }

  /** The selection `u => s(key(u))`, built in one place so that every
      statement about it talks about the same function. */
  function Selects<U, K>(s: K -> bool, key: U -> K): U -> bool { u => s(key(u)) }

  /** Regrouping is transparent to any selection that only looks at the group
      key: selecting the aggregated rows gives the same total as selecting the
      rows they were built from. The reports filter their intermediate
      `(key, YEARMONTH)` group-by by month, so their windows are windows over
      the facts themselves. */
  lemma RegroupSumIf<T, K, U>(rows: seq<T>, key: T -> K, val: T -> real, out: seq<U>, outKey: U -> K, outVal: U -> real, s: K -> bool)
    requires |out| == |Keys(rows, key)|
    requires forall i :: 0 <= i < |out| ==>
               outKey(out[i]) == Keys(rows, key)[i] && outVal(out[i]) == Sum(Groups(rows, key)[i], val)
    ensures SumIf(out, Selects(s, outKey), outVal) == SumIf(rows, Selects(s, key), val)
  {
    var sel := x => s(key(x));
    var zeroed := x => if sel(x) then val(x) else 0.0;
    RegroupOut(rows, key, val, out, outKey, outVal, s);
    KeysCover(rows, key);
    GroupsPartition(rows, key, Keys(rows, key), zeroed);
    SumIfAsSum(rows, sel, val);
    SumIfExt(rows, sel, Selects(s, key), val);
    SumIfExt(out, u => s(outKey(u)), Selects(s, outKey), outVal);
  }

  lemma RegroupOut<T, K, U>(rows: seq<T>, key: T -> K, val: T -> real, out: seq<U>, outKey: U -> K, outVal: U -> real, s: K -> bool)
    requires |out| == |Keys(rows, key)|
    requires forall i :: 0 <= i < |out| ==>
               outKey(out[i]) == Keys(rows, key)[i] && outVal(out[i]) == Sum(Groups(rows, key)[i], val)
    ensures var sel := x => s(key(x));
      SumIf(out, u => s(outKey(u)), outVal) == Sum(Groups(rows, key), g => Sum(g, x => if sel(x) then val(x) else 0.0))
  {
    var sel := x => s(key(x));
    var zeroed := x => if sel(x) then val(x) else 0.0;
    var ks, gs := Keys(rows, key), Groups(rows, key);
    var osel := u => s(outKey(u));
    SumIfAsSum(out, osel, outVal);
    forall i | 0 <= i < |out|
      ensures (if osel(out[i]) then outVal(out[i]) else 0.0) == Sum(gs[i], zeroed)
    {
      GroupsShape(rows, key, i);
      GroupConstSel(gs[i], sel, s(ks[i]), val);
    }
    SumMatches(out, u => if osel(u) then outVal(u) else 0.0, gs, g => Sum(g, zeroed));
  }

  /** The filtered totals of the rows key by key, over the keys `ks`. */
  ghost function SumKeys<T, K>(rows: seq<T>, sel: T -> bool, key: T -> K, ks: seq<K>, val: T -> real): real
    decreases |ks|
  {
    if ks == [] then 0.0
    else SumIf(rows, x => sel(x) && key(x) == ks[0], val) + SumKeys(rows, sel, key, ks[1..], val)
  }

  lemma {:induction false} SumKeysCons<T, K>(x: T, rest: seq<T>, sel: T -> bool, key: T -> K, ks: seq<K>, val: T -> real)
    requires NoDup(ks)
    ensures SumKeys([x] + rest, sel, key, ks, val)
         == (if sel(x) && key(x) in ks then val(x) else 0.0) + SumKeys(rest, sel, key, ks, val)
    decreases |ks|
  {
    if ks != [] {
      assert ([x] + rest)[1..] == rest;
      assert NoDup(ks[1..]);
      SumKeysCons(x, rest, sel, key, ks[1..], val);
      assert key(x) in ks <==> key(x) == ks[0] || key(x) in ks[1..];
      assert key(x) == ks[0] ==> key(x) !in ks[1..];
    }
  }

  lemma {:induction false} SumKeysEmpty<T, K>(sel: T -> bool, key: T -> K, ks: seq<K>, val: T -> real)
    ensures SumKeys([], sel, key, ks, val) == 0.0
    decreases |ks|
  {
    if ks != [] {
      SumKeysEmpty(sel, key, ks[1..], val);
    }
  }

  /** Adding up a filtered total key by key, over a key list without
      repetition that covers every row, gives the filtered total: totals are
      conserved when every key is reported once. */
  lemma {:induction false} SumOverKeys<T, K>(rows: seq<T>, sel: T -> bool, key: T -> K, ks: seq<K>, val: T -> real)
    requires NoDup(ks)
    requires forall x <- rows :: key(x) in ks
    ensures SumKeys(rows, sel, key, ks, val) == SumIf(rows, sel, val)
    decreases |rows|
  {
    if rows == [] {
      SumKeysEmpty(sel, key, ks, val);
    } else {
      assert rows == [rows[0]] + rows[1..];
      assert rows[0] in rows;
      SumKeysCons(rows[0], rows[1..], sel, key, ks, val);
      SumOverKeys(rows[1..], sel, key, ks, val);
    }
  }

  /** `left.join(right, left_on, right_on, how='left')`: each left row once per
      matching right row, in order, or once with nulls when nothing matches. */
  function LeftJoin<L, R, K(==)>(left: seq<L>, right: seq<R>, lk: L -> K, rk: R -> K): (out: seq<(L, Option<R>)>)
    ensures |out| >= |left|
    decreases |left|
  {
    if left == [] then []
    else
      var ms := GroupOf(right, rk, lk(left[0]));
      (if ms == [] then [(left[0], None)]
       else seq(|ms|, i requires 0 <= i < |ms| => (left[0], Some(ms[i]))))
      + LeftJoin(left[1..], right, lk, rk)
  }

  /** A group starts with the first row carrying its key. */
  lemma {:induction false} GroupOfFirst<T, K>(rows: seq<T>, key: T -> K, k: K)
    ensures GroupOf(rows, key, k) == [] <==> FindRow(rows, key, k).None?
    ensures GroupOf(rows, key, k) != [] ==> GroupOf(rows, key, k)[0] == FindRow(rows, key, k).value
    decreases |rows|
  {
    GroupOfEmpty(rows, key, k);
    if rows != [] {
      GroupOfFirst(rows[1..], key, k);
    }
  }

  /** When the right keys are unique, a group has at most one row. */
  lemma {:induction false} GroupOfUnique<T, K>(rows: seq<T>, key: T -> K, k: K)
    requires NoDup(Project(rows, key))
    ensures |GroupOf(rows, key, k)| <= 1
    decreases |rows|
  {
    if rows != [] {
      ProjectCons(rows, key);
      var p := Project(rows, key);
      assert NoDup(Project(rows[1..], key)) by {
        forall i, j | 0 <= i < j < |rows| - 1 ensures Project(rows[1..], key)[i] != Project(rows[1..], key)[j] {
          assert Project(rows[1..], key)[i] == p[i + 1];
          assert Project(rows[1..], key)[j] == p[j + 1];
        }
      }
      GroupOfUnique(rows[1..], key, k);
      if key(rows[0]) == k {
        assert k !in Project(rows[1..], key) by {
          forall i | 0 <= i < |rows| - 1 ensures Project(rows[1..], key)[i] != k {
            assert Project(rows[1..], key)[i] == p[i + 1];
            assert p[0] == k;
          }
        }
        GroupOfEmpty(rows[1..], key, k);
      }
    }
  }

  /** A left join against a frame with unique keys keeps the left frame's rows
      one for one and attaches the matching right row, or null. */
  lemma {:induction false} LeftJoinUnique<L, R, K>(left: seq<L>, right: seq<R>, lk: L -> K, rk: R -> K)
    requires NoDup(Project(right, rk))
    ensures |LeftJoin(left, right, lk, rk)| == |left|
    ensures forall i :: 0 <= i < |left| ==>
              LeftJoin(left, right, lk, rk)[i] == (left[i], FindRow(right, rk, lk(left[i])))
    decreases |left|
  {
    if left != [] {
      var k := lk(left[0]);
      var ms := GroupOf(right, rk, k);
      GroupOfUnique(right, rk, k);
      GroupOfFirst(right, rk, k);
      var head: seq<(L, Option<R>)> := [(left[0], FindRow(right, rk, k))];
      var tail := LeftJoin(left[1..], right, lk, rk);
      assert LeftJoin(left, right, lk, rk) == head + tail by {
        if ms != [] {
          assert |ms| == 1;
          assert seq(|ms|, i requires 0 <= i < |ms| => (left[0], Some(ms[i]))) == head;
        }
      }
      LeftJoinUnique(left[1..], right, lk, rk);
      forall i | 0 <= i < |left|
        ensures LeftJoin(left, right, lk, rk)[i] == (left[i], FindRow(right, rk, lk(left[i])))
      {
        if i > 0 {
          assert (head + tail)[i] == tail[i - 1];
          assert left[1..][i - 1] == left[i];
        }
      }
    }
  }

  /** A left row with `n` matches appears `n` times: joining on a key the right
      frame repeats multiplies that row. */
  lemma LeftJoinRepeats<L, R, K>(l: L, right: seq<R>, lk: L -> K, rk: R -> K)
    requires |GroupOf(right, rk, lk(l))| >= 1
    ensures |LeftJoin([l], right, lk, rk)| == |GroupOf(right, rk, lk(l))|
    ensures forall e <- LeftJoin([l], right, lk, rk) :: e.0 == l
  {
    assert [l][1..] == [];
  }

  // ---------------------------------------------------------------------------
  // first
  // ---------------------------------------------------------------------------

  /** pandas' `first` aggregation: the first non-null value of the group, or
      null when every value is null. */
  function FirstPresent<A>(g: seq<Option<A>>): (r: Option<A>)
    ensures r.None? <==> forall i :: 0 <= i < |g| ==> g[i].None?
    ensures r.Some? ==> exists i :: 0 <= i < |g| && g[i] == r && forall j :: 0 <= j < i ==> g[j].None?
    decreases |g|
  {
    if g == [] then None
    else if g[0].Some? then g[0]
    else
      var r := FirstPresent(g[1..]);
      assert r.Some? ==> exists i :: 0 <= i < |g| - 1 && g[1..][i] == r && forall j :: 0 <= j < i ==> g[1..][j].None?;
      assert r.Some? ==> exists i :: 1 <= i < |g| && g[i] == r && forall j :: 1 <= j < i ==> g[j].None?;
      r
  }

  // ---------------------------------------------------------------------------
  // Sorting
  // ---------------------------------------------------------------------------

  /** Place `x` in front of the first element it does not have to follow. */
  function Insert<T>(x: T, s: seq<T>, before: (T, T) -> bool): (r: seq<T>)
    ensures multiset(r) == multiset(s) + multiset{x}
    decreases |s|
  {
    if s == [] || !before(s[0], x) then [x] + s
    else
      assert s == [s[0]] + s[1..];
      [s[0]] + Insert(x, s[1..], before)
  }

  /** A stable sort: `before(a, b)` says `a` must come strictly before `b`
      (for `sorted(key=f, reverse=True)`, `f(a) > f(b)`); elements neither of
      which must precede the other keep their input order. */
  function SortBy<T>(s: seq<T>, before: (T, T) -> bool): (r: seq<T>)
    ensures multiset(r) == multiset(s)
    decreases |s|
  {
    if s == [] then []
    else
      assert s == [s[0]] + s[1..];
      Insert(s[0], SortBy(s[1..], before), before)
  }

  /** No element has to come before its predecessor. */
  ghost predicate InOrder<T>(s: seq<T>, before: (T, T) -> bool) {
    forall i :: 0 <= i < |s| - 1 ==> !before(s[i + 1], s[i])
  }

  /** `before` is asymmetric on a set of values. */
  ghost predicate Asymmetric<T>(xs: seq<T>, before: (T, T) -> bool) {
    forall a <- xs, b <- xs :: before(a, b) ==> !before(b, a)
  }

  lemma {:induction false} InsertInOrder<T>(x: T, s: seq<T>, before: (T, T) -> bool)
    requires InOrder(s, before)
    requires Asymmetric(s + [x], before)
    ensures InOrder(Insert(x, s, before), before)
    decreases |s|
  {
    if s != [] && before(s[0], x) {
      var t := s[1..];
      assert InOrder(t, before);
      InsertInOrder(x, t, before);
      var r := Insert(x, t, before);
      assert r[0] == x || (t != [] && r[0] == t[0]);
      assert x in s + [x] && s[0] in s + [x];
      if t != [] { assert t[0] == s[1]; }
    }
  }

  /** Sorting puts every adjacent pair in order (a permutation of the input,
      by the function's own contract). */
  lemma {:induction false} SortByInOrder<T>(s: seq<T>, before: (T, T) -> bool)
    requires Asymmetric(s, before)
    ensures InOrder(SortBy(s, before), before)
    decreases |s|
  {
    if s != [] {
      SortByInOrder(s[1..], before);
      var t := SortBy(s[1..], before);
      assert multiset(t) == multiset(s[1..]);
      assert forall y :: y in t + [s[0]] ==> y in s by {
        forall y | y in t + [s[0]] ensures y in s {
          if y in t { assert y in multiset(t); assert y in multiset(s[1..]); }
        }
      }
      InsertInOrder(s[0], t, before);
    }
  }

  /** A sequence already in order is left as it is. */
  lemma {:induction false} SortByIdentity<T>(s: seq<T>, before: (T, T) -> bool)
    requires InOrder(s, before)
    ensures SortBy(s, before) == s
    decreases |s|
  {
    if s != [] {
      assert InOrder(s[1..], before);
      SortByIdentity(s[1..], before);
      assert s == [s[0]] + s[1..];
    }
  }
  lemma NoDupCons<K>(k: K, s: seq<K>)
    ensures NoDup([k] + s) <==> k !in s && NoDup(s)
  {
    var t := [k] + s;
    if k !in s && NoDup(s) {
      forall i, j | 0 <= i < j < |t| ensures t[i] != t[j] {
        if i == 0 { assert t[j] == s[j - 1]; } else { assert t[i] == s[i - 1] && t[j] == s[j - 1]; }
      }
    }
    if NoDup(t) {
      forall i, j | 0 <= i < j < |s| ensures s[i] != s[j] { assert s[i] == t[i + 1] && s[j] == t[j + 1]; }
      forall j | 0 <= j < |s| ensures s[j] != k { assert t[0] == k && t[j + 1] == s[j]; }
    }
  }

  lemma {:induction false} InsertKeepsDistinct<T, K>(x: T, s: seq<T>, before: (T, T) -> bool, key: T -> K)
    requires NoDup(Project(s, key)) && key(x) !in Project(s, key)
    ensures NoDup(Project(Insert(x, s, before), key))
    decreases |s|
  {
    var r := Insert(x, s, before);
    if s == [] || !before(s[0], x) {
      assert Project(r, key) == [key(x)] + Project(s, key);
      NoDupCons(key(x), Project(s, key));
    } else {
      var t := s[1..];
      assert Project(s, key) == [key(s[0])] + Project(t, key);
      NoDupCons(key(s[0]), Project(t, key));
      ProjectMember(s, key, key(x));
      ProjectMember(t, key, key(x));
      InsertKeepsDistinct(x, t, before, key);
      var u := Insert(x, t, before);
      assert Project(r, key) == [key(s[0])] + Project(u, key);
      forall y | y in u ensures key(y) != key(s[0]) {
        assert y in multiset(u);
        if y != x {
          assert y in multiset(t);
          var j :| 0 <= j < |t| && t[j] == y;
          assert Project(t, key)[j] == key(y);
        } else {
          assert Project(s, key)[0] == key(s[0]);
        }
      }
      ProjectMember(u, key, key(s[0]));
      NoDupCons(key(s[0]), Project(u, key));
    }
  }

  /** Sorting keeps a key column free of repetitions. */
  lemma {:induction false} SortByKeepsDistinct<T, K>(s: seq<T>, before: (T, T) -> bool, key: T -> K)
    requires NoDup(Project(s, key))
    ensures NoDup(Project(SortBy(s, before), key))
    decreases |s|
  {
    if s != [] {
      var t := s[1..];
      assert Project(s, key) == [key(s[0])] + Project(t, key);
      NoDupCons(key(s[0]), Project(t, key));
      SortByKeepsDistinct(t, before, key);
      var u := SortBy(t, before);
      forall y | y in u ensures key(y) != key(s[0]) {
        assert y in multiset(u);
        assert y in multiset(t);
        var j :| 0 <= j < |t| && t[j] == y;
        assert Project(t, key)[j] == key(y);
      }
      ProjectMember(u, key, key(s[0]));
      InsertKeepsDistinct(s[0], u, before, key);
    }
  }

  // ---------------------------------------------------------------------------
  // Vector columns
  // ---------------------------------------------------------------------------

  /** The `j`-th entry of a vector of month or year columns, 0 past its end. */
  function ColumnAt(j: int): seq<real> -> real { v => if 0 <= j < |v| then v[j] else 0.0 }

  /** A `sum` aggregation over a block of `n` columns: entry `j` of the result
      is the total of column `j` over all the vectors. */
  function ColumnSums(vs: seq<seq<real>>, n: nat): (r: seq<real>)
    ensures |r| == n
    ensures forall j :: 0 <= j < n ==> r[j] == Sum(vs, ColumnAt(j))
  {
    seq(n, j requires 0 <= j < n => Sum(vs, ColumnAt(j)))
  }

  /** The total of a vector's first `k` entries. */
  function TotalTo(k: nat): seq<real> -> real { v => if k <= |v| then Total(v[..k]) else 0.0 }

  /** Vectors added entry by entry add their totals. */
  lemma {:induction false} TotalAdd(a: seq<real>, b: seq<real>, c: seq<real>)
    requires |a| == |b| == |c|
    requires forall j :: 0 <= j < |c| ==> c[j] == a[j] + b[j]
    ensures Total(c) == Total(a) + Total(b)
    decreases |a|
  {
    if a != [] {
      TotalAdd(a[1..], b[1..], c[1..]);
    }
  }

  /** Summing the leading totals of the vectors gives the leading total of
      their column sums: a row total that was the sum of its month columns
      stays so through a `sum` aggregation. */
  lemma {:induction false} SumOfTotals(vs: seq<seq<real>>, n: nat, k: nat)
    requires k <= n
    requires forall v <- vs :: |v| == n
    ensures Sum(vs, TotalTo(k)) == Total(ColumnSums(vs, n)[..k])
    decreases |vs|
  {
    var c := ColumnSums(vs, n)[..k];
    if vs == [] {
      assert c == seq(k, _ => 0.0);
      ZeroSum(k);
      assert Total(c) == Sum(seq(k, _ => 0.0), v => v) by {
        SumMatches(c, Ident, seq(k, _ => 0.0), v => v);
      }
    } else {
      SumOfTotals(vs[1..], n, k);
      var a, b := vs[0][..k], ColumnSums(vs[1..], n)[..k];
      forall j | 0 <= j < k ensures c[j] == a[j] + b[j] {
        assert c[j] == Sum(vs, ColumnAt(j));
        assert b[j] == Sum(vs[1..], ColumnAt(j));
      }
      TotalAdd(a, b, c);
    }
  }

  /** Every row of a left join carries a row of the left frame. */
  lemma {:induction false} LeftJoinLeft<L, R, K>(left: seq<L>, right: seq<R>, lk: L -> K, rk: R -> K)
    ensures forall e <- LeftJoin(left, right, lk, rk) :: e.0 in left
    decreases |left|
  {
    if left != [] {
      LeftJoinLeft(left[1..], right, lk, rk);
      forall e <- LeftJoin(left, right, lk, rk) ensures e.0 in left {
        var ms := GroupOf(right, rk, lk(left[0]));
        var head := if ms == [] then [(left[0], None)]
                    else seq(|ms|, i requires 0 <= i < |ms| => (left[0], Some(ms[i])));
        assert LeftJoin(left, right, lk, rk) == head + LeftJoin(left[1..], right, lk, rk);
        if e in head {
          assert e.0 == left[0];
        } else {
          assert e.0 in left[1..];
        }
      }
    }
  }

  /** A column that is the same on every row totals that value times the
      number of rows. */
  lemma {:induction false} SumConstant<T>(rows: seq<T>, val: T -> real, c: real)
    requires forall x <- rows :: val(x) == c
    ensures Sum(rows, val) == |rows| as real * c
    decreases |rows|
  {
    if rows != [] {
      assert rows[0] in rows;
      SumConstant(rows[1..], val, c);
    }
  }

  /** A sequence without repetitions has as many distinct members as
      entries. */
  lemma {:induction false} NoDupCard<K>(s: seq<K>)
    requires NoDup(s)
    ensures |(set k | k in s)| == |s|
    decreases |s|
  {
    if s != [] {
      assert s == [s[0]] + s[1..];
      NoDupCons(s[0], s[1..]);
      NoDupCard(s[1..]);
      assert (set k | k in s) == (set k | k in s[1..]) + {s[0]};
    }
  }
}

=== FILE: tagging.dfy ===
/** Marking customers served through both channels: a customer name that
    occurs among the Sage (IPS) names and among the Ingram names gets a marker
    appended (`~` in the current report, `*` in the older one), in both
    frames; every other name is left as it is. */
module Tagging {

  /** The names present in both sources: the intersection of the two name
      sets. */
  function InBoth(sage: seq<string>, ingram: seq<string>): (both: set<string>)
    ensures forall n :: n in both <==> n in sage && n in ingram
  {
    (set n | n in sage) * (set n | n in ingram)
  }

  /** `add_tilda` / `add_star`. */
  function Tag(name: string, both: set<string>, marker: char): string
  {
    if name in both then name + [marker] else name
  }

  /** A name is changed exactly when it occurs in both sources, and the change
      is the marker appended; the marker is appended once, never twice. */
  lemma TagIff(sage: seq<string>, ingram: seq<string>, name: string, marker: char)
    ensures Tag(name, InBoth(sage, ingram), marker) != name <==> name in sage && name in ingram
    ensures name in sage && name in ingram ==> Tag(name, InBoth(sage, ingram), marker) == name + [marker]
    ensures !(name in sage && name in ingram) ==> Tag(name, InBoth(sage, ingram), marker) == name
  {
    var t := Tag(name, InBoth(sage, ingram), marker);
    if name in sage && name in ingram {
      assert |t| == |name| + 1;
    }
  }

  /** Tagging keeps distinct names distinct as long as no name already ends
      with the marker. */
  lemma TagInjective(a: string, b: string, both: set<string>, marker: char)
    requires a == [] || a[|a| - 1] != marker
    requires b == [] || b[|b| - 1] != marker
    requires a != b
    ensures Tag(a, both, marker) != Tag(b, both, marker)
  {
    var ta, tb := Tag(a, both, marker), Tag(b, both, marker);
    if a in both && b !in both {
      assert ta[|ta| - 1] == marker;
      assert tb == [] || tb[|tb| - 1] != marker;
    } else if a !in both && b in both {
      assert tb[|tb| - 1] == marker;
      assert ta == [] || ta[|ta| - 1] != marker;
    } else if a in both && b in both {
      assert ta[..|a|] == a && tb[..|b|] == b;
    }
  }
}

=== FILE: targets.dfy ===
/** The target table and how a sale is priced against it: the table is
    cleaned (rows without a BILLTO or a ratio, with an empty BILLTO or a zero
    ratio are dropped, then BILLTO is stripped), each sale is left-joined to
    it on its account number, and the sale's target amount is its NETAMT times
    the matched ratio, or times 1.0 when nothing matches. The current report
    takes the absolute value of that product; the older one keeps its sign. */
module Targets {
  import opened Wrappers
  import opened Text
  import opened Tables

  /** A row of the target spreadsheet: BILLTO, MUL_RATIO and the annual
      target (the `2025` column), each possibly null. */
  datatype TargetRow = TargetRow(billTo: Option<string>, ratio: Option<real>, annual: Option<real>)

  /** A row that survived cleaning. */
  datatype Target = Target(billTo: string, ratio: real, annual: Option<real>)

  /** `drop_nulls(['BILLTO', 'MUL_RATIO'])` followed by
      `filter((BILLTO != '') & (MUL_RATIO != 0.0))`. The emptiness test sees
      the BILLTO before it is stripped. */
  predicate Kept(t: TargetRow) {
    t.billTo.Some? && t.ratio.Some? && t.billTo.value != "" && t.ratio.value != 0.0
  }

  /** The cleaned form of a kept row: BILLTO stripped. */
  function Cleaned(t: TargetRow): Target
    requires t.billTo.Some? && t.ratio.Some?
  {
    Target(Trim(t.billTo.value), t.ratio.value, t.annual)
  }

  /** The cleaned target table: exactly the kept rows, stripped, in order. */
  function CleanTargets(ts: seq<TargetRow>): (r: seq<Target>)
    ensures |r| <= |ts|
    ensures forall t <- r :: t.ratio != 0.0
    ensures forall t <- r :: exists raw <- ts :: Kept(raw) && Cleaned(raw) == t
    ensures forall raw <- ts :: Kept(raw) ==> Cleaned(raw) in r
    decreases |ts|
  {
    if ts == [] then []
    else
      var rest := CleanTargets(ts[1..]);
      var head := if Kept(ts[0]) then [Cleaned(ts[0])] else [];
      CleanStep(ts, head, rest);
      head + rest
  }

  /** One step of the filter: the first row, kept or not, before the rest. */
  lemma CleanStep(ts: seq<TargetRow>, head: seq<Target>, rest: seq<Target>)
    requires ts != []
    requires head == if Kept(ts[0]) then [Cleaned(ts[0])] else []
    requires |rest| <= |ts| - 1
    requires forall t <- rest :: t.ratio != 0.0
    requires forall t <- rest :: exists raw <- ts[1..] :: Kept(raw) && Cleaned(raw) == t
    requires forall raw <- ts[1..] :: Kept(raw) ==> Cleaned(raw) in rest
    ensures |head + rest| <= |ts|
    ensures forall t <- head + rest :: t.ratio != 0.0
    ensures forall t <- head + rest :: exists raw <- ts :: Kept(raw) && Cleaned(raw) == t
    ensures forall raw <- ts :: Kept(raw) ==> Cleaned(raw) in head + rest
  {
    assert forall raw <- ts[1..] :: raw in ts;
    assert ts[0] in ts;
    forall raw <- ts | Kept(raw) ensures Cleaned(raw) in head + rest {
      if raw != ts[0] {
        var i :| 0 <= i < |ts| && ts[i] == raw;
        assert ts[1..][i - 1] == raw;
      }
    }
  }

  /** The filter runs before the strip: a BILLTO made only of blanks is kept
      and becomes the empty account number. */
  lemma BlankBillToSurvives(blanks: string, ratio: real, annual: Option<real>)
    requires blanks != [] && forall i :: 0 <= i < |blanks| ==> IsSpace(blanks[i])
    requires ratio != 0.0
    ensures CleanTargets([TargetRow(Some(blanks), Some(ratio), annual)]) == [Target("", ratio, annual)]
  {
    TrimBlank(blanks);
    var raw := TargetRow(Some(blanks), Some(ratio), annual);
    assert Kept(raw);
    assert [raw][1..] == [];
  }

  /** The ratio a sale is priced with: the matched MUL_RATIO, or 1.0
      (`fill_null(1.0)`). */
  function Ratio(m: Option<Target>): real
  {
    match m
    case Some(t) => t.ratio
    case None => 1.0
  }

  function Abs(x: real): real { if x < 0.0 then -x else x }

  /** TARGET_NETAMT in the current report: `abs(NETAMT * ratio)`. */
  function AbsTarget(amount: int, m: Option<Target>): (r: real)
    ensures r >= 0.0
    ensures r == Abs(SignedTarget(amount, m))
    ensures m.None? ==> r == Abs(amount as real)
  {
    Abs(amount as real * Ratio(m))
  }

  /** TARGET_NETAMT in the older report: `NETAMT * ratio`, signed. */
  function SignedTarget(amount: int, m: Option<Target>): (r: real)
    ensures m.None? ==> r == amount as real
    ensures Ratio(m) > 0.0 ==> ((r < 0.0 <==> amount < 0) && (r == 0.0 <==> amount == 0))
  {
    amount as real * Ratio(m)
  }

  function BillTo(t: Target): string { t.billTo }

  /** The left join of sales onto the cleaned targets on account number =
      BILLTO. */
  function MatchTargets<S>(sales: seq<S>, acct: S -> string, targets: seq<Target>): (r: seq<(S, Option<Target>)>)
    ensures |r| >= |sales|
  {
    LeftJoin(sales, targets, acct, BillTo)
  }

  /** BILLTOs without repetition. */
  ghost predicate UniqueBillTo(targets: seq<Target>) {
    NoDup(Project(targets, BillTo))
  }

  /** With unique BILLTOs the join keeps every sale exactly once, in order,
      matched with the target row of its account if there is one. */
  lemma MatchUnique<S>(sales: seq<S>, acct: S -> string, targets: seq<Target>)
    ensures UniqueBillTo(targets) ==> |MatchTargets(sales, acct, targets)| == |sales|
    ensures UniqueBillTo(targets) ==> forall i :: 0 <= i < |sales| ==>
      MatchTargets(sales, acct, targets)[i].0 == sales[i] &&
      MatchTargets(sales, acct, targets)[i].1 == FindRow(targets, BillTo, acct(sales[i]))
  {
    if UniqueBillTo(targets) {
      LeftJoinUnique(sales, targets, acct, BillTo);
    }
  }

  /** A BILLTO listed twice prices each of its sales twice: one sale joined
      against two rows for its account comes out as two rows. */
  lemma DuplicateBillToRepeats(sale: string)
    ensures |MatchTargets([sale], s => s, [Target(sale, 1.0, None), Target(sale, 2.0, None)])| == 2
  {
    var ts := [Target(sale, 1.0, None), Target(sale, 2.0, None)];
    var key := BillTo;
    assert GroupOf(ts, key, sale) == [ts[0]] + GroupOf(ts[1..], key, sale);
    assert GroupOf(ts[1..], key, sale) == [ts[1]] + GroupOf(ts[2..], key, sale);
    LeftJoinRepeats(sale, ts, s => s, key);
  }
}

=== FILE: text.dfy ===
/** The string primitives the reporting scripts rely on, with Python's
    semantics: `str(int)`, `int(str)` on digit strings, `str.zfill`,
    `str.replace(p, '')`, `str.split(sep)`, `str.strip()` and substring tests. */
module Text {
  import opened Wrappers

  predicate IsDigit(c: char) { '0' <= c <= '9' }

  predicate AllDigits(s: string) { forall i :: 0 <= i < |s| ==> IsDigit(s[i]) }

  /** The whitespace characters `str.strip()` and polars' `strip_chars()` remove
      (restricted to the ASCII ones). */
  predicate IsSpace(c: char) { c == ' ' || c == '\t' || c == '\n' || c == '\r' }

  function DigitChar(d: nat): (c: char)
    requires d < 10
    ensures IsDigit(c) && c as int - '0' as int == d
  {
    ('0' as int + d) as char
  }

  function DigitValue(c: char): (d: nat)
    requires IsDigit(c)
    ensures d < 10 && DigitChar(d) == c
  {
    c as int - '0' as int
  }

  // ---------------------------------------------------------------------------
  // Decimal rendering and parsing
  // ---------------------------------------------------------------------------

  /** `str(n)` for a non-negative integer: decimal digits, no leading zero. */
  function NatToString(n: nat): (s: string)
    ensures 1 <= |s| && AllDigits(s)
    ensures s[0] == '0' ==> n == 0
    decreases n
  {
    if n < 10 then [DigitChar(n)] else NatToString(n / 10) + [DigitChar(n % 10)]
  }

  /** `int(s)` for a string of decimal digits (the empty string reads as 0). */
  function StringToNat(s: string): nat
    requires AllDigits(s)
  {
    if s == [] then 0 else 10 * StringToNat(s[..|s| - 1]) + DigitValue(s[|s| - 1])
  }

  /** `str(i)` for any integer. */
  function IntToString(i: int): (s: string)
    ensures 1 <= |s|
    ensures i >= 0 ==> s == NatToString(i)
    ensures i < 0 ==> s[0] == '-'
  {
    if i < 0 then "-" + NatToString(-i) else NatToString(i)
  }

  /** Reading back what `str` wrote gives the number again. */
  lemma {:induction false} NatToStringRoundTrip(n: nat)
    ensures StringToNat(NatToString(n)) == n
    decreases n
  {
    if n >= 10 {
      var s := NatToString(n);
      assert s[..|s| - 1] == NatToString(n / 10);
      NatToStringRoundTrip(n / 10);
    }
  }

  /** Two decimal digits with a leading zero: `%y`, `%m`. */
  function PadTwo(n: nat): (s: string)
    requires n < 100
    ensures |s| == 2 && AllDigits(s)
  {
    [DigitChar(n / 10), DigitChar(n % 10)]
  }

  lemma PadTwoRoundTrip(n: nat)
    requires n < 100
    ensures StringToNat(PadTwo(n)) == n
  {
    var s := PadTwo(n);
    assert s[..1] == [DigitChar(n / 10)];
    assert s[..1][..0] == [];
    assert DigitValue(DigitChar(n / 10)) == n / 10;
    assert DigitValue(DigitChar(n % 10)) == n % 10;
    assert StringToNat(s[..1]) == n / 10;
  }

  /** `str(a * 100 + b)` is `str(a)` followed by `b` on two digits. */
  lemma {:induction false} NatToStringHundreds(a: nat, b: nat)
    requires 1 <= a && b < 100
    ensures NatToString(a * 100 + b) == NatToString(a) + PadTwo(b)
  {
    var n := a * 100 + b;
    assert n / 10 == a * 10 + b / 10;
    assert (a * 10 + b / 10) / 10 == a;
    assert (a * 10 + b / 10) % 10 == b / 10;
  }

  /** A year between 1000 and 9999 is written with exactly four digits. */
  lemma FourDigitYear(y: int)
    requires 1000 <= y <= 9999
    ensures |NatToString(y)| == 4
  {
    assert 10 <= y / 10 / 10 < 100;
    assert |NatToString(y / 10 / 10)| == 2;
    assert |NatToString(y / 10)| == 3;
  }

  /** `int` of a concatenation: the prefix is shifted by the suffix's length. */
  function Pow10(k: nat): nat { if k == 0 then 1 else 10 * Pow10(k - 1) }

  lemma AllDigitsAppend(a: string, b: string)
    requires AllDigits(a) && AllDigits(b)
    ensures AllDigits(a + b)
  {
    forall i | 0 <= i < |a + b| ensures IsDigit((a + b)[i]) {
      if i < |a| { assert (a + b)[i] == a[i]; } else { assert (a + b)[i] == b[i - |a|]; }
    }
  }

  lemma ShiftDigit(x: int, y: int, p: int, d: int)
    ensures 10 * (x * p + y) + d == x * (10 * p) + (10 * y + d)
  {
  }

  lemma {:induction false} StringToNatAppend(a: string, b: string)
    requires AllDigits(a) && AllDigits(b)
    ensures AllDigits(a + b)
    ensures StringToNat(a + b) == StringToNat(a) * Pow10(|b|) + StringToNat(b)
    decreases |b|
  {
    AllDigitsAppend(a, b);
    if b == [] {
      assert a + b == a;
    } else {
      var b' := b[..|b| - 1];
      var d := DigitValue(b[|b| - 1]);
      assert (a + b)[..|a + b| - 1] == a + b';
      assert (a + b)[|a + b| - 1] == b[|b| - 1];
      StringToNatAppend(a, b');
      assert StringToNat(b) == 10 * StringToNat(b') + d;
      assert Pow10(|b|) == 10 * Pow10(|b'|);
      ShiftDigit(StringToNat(a), StringToNat(b'), Pow10(|b'|), d);
    }
  }

  function Zeros(n: nat): (z: string)
    ensures |z| == n && AllDigits(z)
    ensures forall i :: 0 <= i < n ==> z[i] == '0'
  {
    seq(n, _ => '0')
  }

  lemma {:induction false} StringToNatZeros(n: nat)
    ensures StringToNat(Zeros(n)) == 0
  {
    if n > 0 {
      assert Zeros(n)[..n - 1] == Zeros(n - 1);
      StringToNatZeros(n - 1);
    }
  }

  // ---------------------------------------------------------------------------
  // str.zfill
  // ---------------------------------------------------------------------------

  /** Python's `str.zfill(width)`: left-pad with '0' to `width`, keeping a
      leading sign in front; strings already that long are unchanged. */
  function ZFill(s: string, width: nat): (r: string)
    ensures |r| == if |s| >= width then |s| else width
  {
    if |s| >= width then s
    else if |s| > 0 && (s[0] == '+' || s[0] == '-') then [s[0]] + Zeros(width - |s|) + s[1..]
    else Zeros(width - |s|) + s
  }

  /** On a digit string `zfill` only prepends zeros: the result ends with the
      input, is all digits and denotes the same number. */
  lemma ZFillDigits(s: string, width: nat)
    requires AllDigits(s)
    ensures var r := ZFill(s, width);
      && AllDigits(r)
      && r[|r| - |s|..] == s
      && StringToNat(r) == StringToNat(s)
      && (forall i :: 0 <= i < |r| - |s| ==> r[i] == '0')
  {
    var r := ZFill(s, width);
    if |s| < width {
      assert |s| == 0 || IsDigit(s[0]);
      var z := Zeros(width - |s|);
      assert r == z + s;
      StringToNatAppend(z, s);
      StringToNatZeros(width - |s|);
    }
  }

  // ---------------------------------------------------------------------------
  // Substrings, str.replace(p, '')
  // ---------------------------------------------------------------------------

  /** `p in s` for strings. */
  predicate Occurs(p: string, s: string) {
    exists i | 0 <= i <= |s| - |p| :: OccursAt(p, s, i)
  }

  predicate OccursAt(p: string, s: string, i: int) {
    0 <= i && i + |p| <= |s| && s[i..i + |p|] == p
  }

  predicate StartsWith(s: string, p: string) { |p| <= |s| && s[..|p|] == p }

  predicate EndsWith(s: string, p: string) { |p| <= |s| && s[|s| - |p|..] == p }

  /** Python's `s.replace(p, '')`: delete every occurrence of `p`, scanning
      left to right without rescanning what was already kept. */
  function RemoveAll(s: string, p: string): (r: string)
    requires |p| > 0
    ensures |r| <= |s|
    ensures forall c :: c in r ==> c in s
    decreases |s|
  {
    if |s| < |p| then s
    else if s[..|p|] == p then RemoveAll(s[|p|..], p)
    else [s[0]] + RemoveAll(s[1..], p)
  }

  /** polars' `str.replace(c, '')` for a one-character literal pattern: only
      the first match is replaced. */
  function RemoveFirst(s: string, c: char): (r: string)
    ensures c !in s ==> r == s
    ensures c in s ==> |r| == |s| - 1
    decreases |s|
  {
    if s == [] then s
    else if s[0] == c then s[1..]
    else [s[0]] + RemoveFirst(s[1..], c)
  }

  /** The first match, and only it, is deleted: everything before it is
      kept, and so is everything after it, further matches included. */
  lemma {:induction false} RemoveFirstSplits(a: string, c: char, b: string)
    requires c !in a
    ensures RemoveFirst(a + [c] + b, c) == a + b
    decreases |a|
  {
    var s := a + [c] + b;
    if a == [] {
      assert s[0] == c && s[1..] == b;
    } else {
      var t := a[1..];
      var u := t + [c] + b;
      assert s == [a[0]] + u by {
        assert a == [a[0]] + t;
      }
      assert a[0] in a;
      RemoveFirstSplits(t, c, b);
      RemoveFirstCons(a[0], c, u);
      HeadAppend(a, b);
    }
  }

  lemma RemoveFirstCons(x: char, c: char, u: string)
    requires x != c
    ensures RemoveFirst([x] + u, c) == [x] + RemoveFirst(u, c)
  {
    assert ([x] + u)[0] == x && ([x] + u)[1..] == u;
  }

  lemma HeadAppend<T>(a: seq<T>, b: seq<T>)
    requires a != []
    ensures [a[0]] + (a[1..] + b) == a + b
  {
    assert a == [a[0]] + a[1..];
  }

  /** Removing a pattern that does not occur leaves the string unchanged. */
  lemma {:induction false} RemoveAllAbsent(s: string, p: string)
    requires |p| > 0 && !Occurs(p, s)
    ensures RemoveAll(s, p) == s
    decreases |s|
  {
    if |s| >= |p| {
      assert s[0..|p|] == s[..|p|];
      assert !OccursAt(p, s, 0);
      assert !Occurs(p, s[1..]) by {
        forall i | 0 <= i && i + |p| <= |s[1..]| ensures !OccursAt(p, s[1..], i) {
          assert s[1..][i..i + |p|] == s[i + 1..i + 1 + |p|];
          assert !OccursAt(p, s, i + 1);
        }
      }
      RemoveAllAbsent(s[1..], p);
    }
  }

  /** Removing a one-character pattern removes every copy of that character. */
  lemma {:induction false} RemoveAllChar(s: string, c: char)
    ensures c !in RemoveAll(s, [c])
    decreases |s|
  {
    if |s| >= 1 {
      RemoveAllChar(s[1..], c);
    }
  }

  /** When the pattern's first character does not occur in `a`, no occurrence
      can start inside `a`, so `a` is copied through. */
  lemma {:induction false} RemoveAllKeepsPrefix(a: string, rest: string, p: string)
    requires |p| > 0 && p[0] !in a
    ensures RemoveAll(a + rest, p) == a + RemoveAll(rest, p)
    decreases |a|
  {
    if a != [] {
      var s := a + rest;
      assert s[0] == a[0];
      assert s[1..] == a[1..] + rest;
      RemoveAllKeepsPrefix(a[1..], rest, p);
      if |s| < |p| {
        assert RemoveAll(rest, p) == rest;
      } else {
        assert a[0] in a;
        assert s[..|p|][0] == a[0];
        assert s[..|p|] != p;
        assert RemoveAll(s, p) == [a[0]] + RemoveAll(a[1..] + rest, p);
      }
      assert [a[0]] + a[1..] == a;
    } else {
      assert a + rest == rest;
    }
  }

  /** Deleting ` Actual` from `label + " Actual"` recovers `label`, when the
      label has no character the pattern starts with. */
  lemma RemoveAllSuffix(a: string, p: string)
    requires |p| > 0 && p[0] !in a
    ensures RemoveAll(a + p, p) == a
    ensures RemoveAll(a, p) == a
  {
    RemoveAllKeepsPrefix(a, p, p);
    assert p[..|p|] == p;
    assert RemoveAll(p, p) == RemoveAll(p[|p|..], p);
    assert p[|p|..] == [];
    RemoveAllKeepsPrefix(a, [], p);
    assert a + [] == a;
  }

  // ---------------------------------------------------------------------------
  // str.split(sep) and sep.join(parts)
  // ---------------------------------------------------------------------------

  /** Python's `s.split(sep)` for a one-character separator. */
  function Split(s: string, sep: char): (parts: seq<string>)
    ensures |parts| >= 1
    decreases |s|
  {
    if s == [] then [""]
    else
      var rest := Split(s[1..], sep);
      if s[0] == sep then [""] + rest else [[s[0]] + rest[0]] + rest[1..]
  }

  /** Python's `sep.join(parts)`. */
  function Join(parts: seq<string>, sep: char): string
    requires |parts| >= 1
  {
    if |parts| == 1 then parts[0] else parts[0] + [sep] + Join(parts[1..], sep)
  }

  lemma {:induction false} SplitPiece(a: string, sep: char, b: string, more: bool)
    requires sep !in a
    ensures !more ==> Split(a, sep) == [a]
    ensures more ==> Split(a + [sep] + b, sep) == [a] + Split(b, sep)
    decreases |a|
  {
    if a == [] {
      if more {
        assert a + [sep] + b == [sep] + b;
        assert ([sep] + b)[1..] == b;
      }
    } else {
      SplitPiece(a[1..], sep, b, more);
      if more {
        assert (a + [sep] + b)[1..] == a[1..] + [sep] + b;
      }
      assert [a[0]] + a[1..] == a;
    }
  }

  /** Splitting what was joined gives the parts back, provided no part contains
      the separator. */
  lemma {:induction false} SplitJoin(parts: seq<string>, sep: char)
    requires |parts| >= 1
    requires forall i :: 0 <= i < |parts| ==> sep !in parts[i]
    ensures Split(Join(parts, sep), sep) == parts
    decreases |parts|
  {
    if |parts| == 1 {
      SplitPiece(parts[0], sep, "", false);
    } else {
      SplitPiece(parts[0], sep, Join(parts[1..], sep), true);
      SplitJoin(parts[1..], sep);
    }
  }

  // ---------------------------------------------------------------------------
  // str.strip()
  // ---------------------------------------------------------------------------

  function TrimStart(s: string): (r: string)
    ensures |r| <= |s| && r == s[|s| - |r|..]
    ensures r == [] || !IsSpace(r[0])
    decreases |s|
  {
    if s != [] && IsSpace(s[0]) then TrimStart(s[1..]) else s
  }

  function TrimEnd(s: string): (r: string)
    ensures |r| <= |s| && r == s[..|r|]
    ensures r == [] || !IsSpace(r[|r| - 1])
    decreases |s|
  {
    if s != [] && IsSpace(s[|s| - 1]) then TrimEnd(s[..|s| - 1]) else s
  }

  lemma SliceOfSuffix(s: string, i: nat, n: nat)
    requires i + n <= |s|
    ensures s[i..][..n] == s[i..i + n]
  {
  }

  /** `str.strip()` / polars `strip_chars()`: drop leading and trailing blanks. */
  function Trim(s: string): (r: string)
    ensures |r| <= |s|
    ensures r == [] || (!IsSpace(r[0]) && !IsSpace(r[|r| - 1]))
    ensures var i := |s| - |TrimStart(s)|; i + |r| <= |s| && r == s[i..i + |r|]
  {
    var t := TrimStart(s);
    var r := TrimEnd(t);
    SliceOfSuffix(s, |s| - |t|, |r|);
    r
  }

  /** A string with no blank at either end is left alone, so stripping twice
      is stripping once. */
  lemma TrimIdentity(s: string)
    requires s == [] || (!IsSpace(s[0]) && !IsSpace(s[|s| - 1]))
    ensures Trim(s) == s
  {
  }

  lemma TrimIdempotent(s: string)
    ensures Trim(Trim(s)) == Trim(s)
  {
    TrimIdentity(Trim(s));
  }

  /** A string made only of blanks strips to the empty string. */
  lemma {:induction false} TrimBlank(s: string)
    requires forall i :: 0 <= i < |s| ==> IsSpace(s[i])
    ensures Trim(s) == ""
    decreases |s|
  {
    if s != [] {
      TrimBlank(s[1..]);
    }
  }

  // ---------------------------------------------------------------------------
  // Python's string order
  // ---------------------------------------------------------------------------

  /** `a < b` on Python strings: lexicographic by code point, a proper prefix
      first. */
  predicate StrLess(a: string, b: string)
    decreases |a|
  {
    if a == [] then b != []
    else if b == [] then false
    else if a[0] != b[0] then a[0] < b[0]
    else StrLess(a[1..], b[1..])
  }

  lemma {:induction false} StringToNatBound(s: string)
    requires AllDigits(s)
    ensures StringToNat(s) < Pow10(|s|)
    decreases |s|
  {
    if s != [] {
      StringToNatBound(s[..|s| - 1]);
    }
  }

  lemma StringToNatHead(s: string)
    requires AllDigits(s) && s != []
    ensures StringToNat(s) == DigitValue(s[0]) * Pow10(|s| - 1) + StringToNat(s[1..])
  {
    StringToNatAppend([s[0]], s[1..]);
    assert [s[0]] + s[1..] == s;
    assert [s[0]][..0] == [];
  }

  /** On digit strings of one length the string order is the numeric order. */
  lemma {:induction false} DigitsOrder(a: string, b: string)
    requires AllDigits(a) && AllDigits(b) && |a| == |b|
    ensures StrLess(a, b) <==> StringToNat(a) < StringToNat(b)
    decreases |a|
  {
    if a != [] {
      StringToNatHead(a);
      StringToNatHead(b);
      StringToNatBound(a[1..]);
      StringToNatBound(b[1..]);
      if a[0] == b[0] {
        DigitsOrder(a[1..], b[1..]);
      } else if a[0] < b[0] {
        HeadDecides(DigitValue(a[0]), DigitValue(b[0]), StringToNat(a[1..]), StringToNat(b[1..]), Pow10(|a| - 1));
      } else {
        HeadDecides(DigitValue(b[0]), DigitValue(a[0]), StringToNat(b[1..]), StringToNat(a[1..]), Pow10(|a| - 1));
      }
    }
  }

  /** A larger leading digit outweighs any tail. */
  lemma HeadDecides(x: nat, y: nat, rx: nat, ry: nat, p: nat)
    requires x < y && rx < p
    ensures x * p + rx < y * p + ry
  {
    assert (x + 1) * p <= y * p;
  }

  /** Comparing two strings that start with pieces of one length: the pieces
      decide unless they are equal, and then the rests do. */
  lemma {:induction false} StrLessConcat(a: string, c: string, b: string, d: string)
    requires |a| == |b|
    ensures StrLess(a + c, b + d) <==> StrLess(a, b) || (a == b && StrLess(c, d))
    decreases |a|
  {
    if a == [] {
      assert a + c == c && b + d == d;
    } else {
      assert (a + c)[0] == a[0] && (b + d)[0] == b[0];
      assert (a + c)[1..] == a[1..] + c && (b + d)[1..] == b[1..] + d;
      StrLessConcat(a[1..], c, b[1..], d);
      if a[0] == b[0] {
        assert a == b <==> a[1..] == b[1..] by {
          assert a == [a[0]] + a[1..] && b == [b[0]] + b[1..];
        }
      }
    }
  }

  /** A string is never less than itself. */
  lemma {:induction false} StrLessIrreflexive(a: string)
    ensures !StrLess(a, a)
    decreases |a|
  {
    if a != [] { StrLessIrreflexive(a[1..]); }
  }

  /** The string order is asymmetric. */
  lemma {:induction false} StrLessAsymmetric(a: string, b: string)
    ensures StrLess(a, b) ==> !StrLess(b, a)
    decreases |a|
  {
    if a != [] && b != [] && a[0] == b[0] {
      StrLessAsymmetric(a[1..], b[1..]);
    }
  }

  /** `strip_chars()` on a nullable text cell: a null stays null, text is
      trimmed. */
  function StripCell(v: Option<string>): (r: Option<string>)
    ensures r.None? <==> v.None?
    ensures r.Some? ==> r.value == Trim(v.value)
  {
    match v
    case Some(t) => Some(Trim(t))
    case None => None
  }

  /** Stripping a cell twice is stripping it once. */
  lemma StripCellTwice(v: Option<string>)
    ensures StripCell(StripCell(v)) == StripCell(v)
  {
    if v.Some? {
      TrimIdempotent(v.value);
    }
  }
}

=== FILE: upload_columns.dfy ===
/** The column labels of monthly_sales_upload.py, from the sheet's header to
    the `clean_isbn` step. The sheet is read without a dtype, so an EAN column
    of numbers comes back numeric, and the title merge then raises on a
    numeric key against the item table's text ISBN. When EAN comes back as
    text, the merge keeps both key columns, the key names differing; the
    rename of EAN to ISBN then gives the frame two columns labelled ISBN, the
    select keeps both, and `clean_isbn` is applied to a two-column frame,
    handing it whole columns whose null test cannot decide an `if`. The
    sibling loader reads EAN as text and drops the item table's ISBN right
    after the merge; the corrected script here does both. The rows it appends
    are `Ingest.MonthlySalesUpload`. */
module UploadColumns {
  import opened Wrappers
  import opened Tables
  import Ingest

  /** Why a step of the script raises: a label it reads is absent, a label
      it treats as one column names several, or a merge key is numeric on one
      side and text on the other. */
  datatype ColumnError = MissingColumn(name: string) | AmbiguousColumn(name: string) | KeyTypes(name: string)

  /** How `read_excel` types the sheet's EAN column: without a dtype, a
      column holding only numbers is numeric. */
  datatype EanType = TextEan | NumericEan

  // ---------------------------------------------------------------------------
  // Labels and the frame operations on them
  // ---------------------------------------------------------------------------

  /** How many columns of a frame carry a label; `df[name]` is a single
      column only when this is 1. */
  function Width(cols: seq<string>, name: string): (n: nat)
    ensures n <= |cols|
    ensures n == 0 <==> name !in cols
    decreases |cols|
  {
    if cols == [] then 0 else (if cols[0] == name then 1 else 0) + Width(cols[1..], name)
  }

  /** `df.rename(columns=...)` on the labels: each label in turn through `f`. */
  function Relabel(cols: seq<string>, f: string -> string): (r: seq<string>)
    ensures |r| == |cols|
    decreases |cols|
  {
    if cols == [] then [] else [f(cols[0])] + Relabel(cols[1..], f)
  }

  lemma {:induction false} RelabelMember(cols: seq<string>, f: string -> string, c: string)
    requires c in cols
    ensures f(c) in Relabel(cols, f)
    decreases |cols|
  {
    if cols[0] != c {
      RelabelMember(cols[1..], f, c);
    }
  }

  predicate EndsWith(s: string, suffix: string) {
    |suffix| <= |s| && s[|s| - |suffix|..] == suffix
  }

  /** A label after a pandas merge: one that both frames carry, other than a
      shared join key, gets the side's suffix. */
  function Suffixed(c: string, other: seq<string>, on: seq<string>, suffix: string): string {
    if c in other && c !in on then c + suffix else c
  }

  function LeftLabel(right: seq<string>, on: seq<string>): string -> string {
    c => Suffixed(c, right, on, "_x")
  }

  function RightLabel(left: seq<string>, on: seq<string>): string -> string {
    c => Suffixed(c, left, on, "_y")
  }

  function Unlisted(names: seq<string>): string -> bool { c => c !in names }

  function Named(name: string): string -> bool { c => c == name }

  /** The labels of `left.merge(right, on=on)`, or of a merge with
      `left_on`/`right_on` when `on` is empty: the left labels, then the right
      labels other than the shared keys, suffixed where they clash. */
  function Merged(left: seq<string>, right: seq<string>, on: seq<string>): (r: seq<string>)
    ensures |r| == |left| + |Where(right, Unlisted(on))|
  {
    Relabel(left, LeftLabel(right, on)) + Relabel(Where(right, Unlisted(on)), RightLabel(left, on))
  }

  /** `df[name] = ...`: a new label goes at the end, an existing one stays. */
  function WithColumn(cols: seq<string>, name: string): (r: seq<string>)
    ensures name in r
    ensures forall c <- cols :: c in r
  {
    if name in cols then cols else cols + [name]
  }

  /** `df[wanted]`: for each wanted label in turn, every column carrying it;
      an absent label raises. */
  function Select(cols: seq<string>, wanted: seq<string>): (r: Result<seq<string>, ColumnError>)
    ensures r.Ok? <==> forall w <- wanted :: w in cols
    decreases |wanted|
  {
    if wanted == [] then Ok([])
    else if wanted[0] !in cols then Err(MissingColumn(wanted[0]))
    else match Select(cols, wanted[1..])
      case Err(e) => Err(e)
      case Ok(rest) => Ok(Where(cols, Named(wanted[0])) + rest)
  }

  // ---------------------------------------------------------------------------
  // The script's labels
  // ---------------------------------------------------------------------------

  /** The sheet labels the script reads. */
  const SheetColumns: seq<string> :=
    ["Net Sold Units", "Net Invc", "EAN", "Date", "Title", "Headquarter", "SL Class of Trade",
     "SL Account Number", "IPS Sale"]

  /** The labels the script creates, which a sheet does not carry. */
  const MadeColumns: seq<string> :=
    ["ISBN", "TITLE_Itemflat", "MASTER SALES CATEGORY", "TUTTLE SALES CATEGORY", "YEAR", "MONTH",
     "NETUNITS", "NETAMT", "TITLE", "NAMECUST"]

  /** The category query's labels (line 46). */
  const CategoryColumns: seq<string> := ["SL Account Number", "HQ Account Number", "MASTER SALES CATEGORY"]

  /** The item query's labels (line 49). */
  const BookColumns: seq<string> := ["ISBN", "TITLE_Itemflat"]

  /** The labels dropped at lines 81-87, absent ones ignored. */
  const DroppedColumns: seq<string> :=
    ["SL ST", "Free Units", "Return Credit", "Gross Invc", "Return Units", "Sold Units", "DC",
     "SL City", "Shipping Location", "Order Date"]

  /** `output_columns` of line 102. */
  const OutputColumns: seq<string> :=
    ["NETUNITS", "NETAMT"] + ["ISBN"] + ["YEAR", "MONTH", "TITLE", "NAMECUST", "SL Class of Trade", "IPS Sale"]

  /** A sheet header: every label the script reads, once (`read_excel`
      renames a repeated header), and none it creates. */
  predicate SheetHeader(header: seq<string>) {
    && (forall c <- SheetColumns :: Width(header, c) == 1)
    && (forall c <- MadeColumns :: c !in header)
  }

  /** The rename of line 76. */
  function CategoryName(c: string): string {
    if c == "MASTER SALES CATEGORY" then "TUTTLE SALES CATEGORY" else c
  }

  /** The rename of lines 93-99. */
  function OutputName(c: string): string {
    if c == "Net Sold Units" then "NETUNITS"
    else if c == "Net Invc" then "NETAMT"
    else if c == "EAN" then "ISBN"
    else if c == "Title" then "TITLE"
    else if c == "Headquarter" then "NAMECUST"
    else c
  }

  /** Lines 58-61: the category merge on the SL number. */
  function CategoryLabels(header: seq<string>): seq<string> {
    Merged(header, CategoryColumns, ["SL Account Number"])
  }

  /** Line 64: the title merge on EAN against the item table's ISBN. */
  function BookLabels(header: seq<string>): seq<string> {
    Merged(CategoryLabels(header), BookColumns, [])
  }

  /** Lines 58-65: both merges and the title fill, each raising when a label
      it reads is absent, and the title merge raising on a numeric EAN. */
  function Merges(header: seq<string>, ean: EanType): (r: Result<seq<string>, ColumnError>)
  {
    MergeChecks(header, ean, CategoryLabels(header), BookLabels(header))
  }

  /** The labels lines 58-65 read, checked on the header and on the labels
      after each merge, and the type of the title merge's key. */
  function MergeChecks(header: seq<string>, ean: EanType, category: seq<string>, book: seq<string>): (r: Result<seq<string>, ColumnError>)
    ensures r.Ok? ==> r.value == book
  {
    if "SL Account Number" !in header then Err(MissingColumn("SL Account Number"))
    else if "EAN" !in category then Err(MissingColumn("EAN"))
    else if ean == NumericEan then Err(KeyTypes("EAN"))
    else if "Title" !in book then Err(MissingColumn("Title"))
    else if "TITLE_Itemflat" !in book then Err(MissingColumn("TITLE_Itemflat"))
    else Ok(book)
  }

  /** Lines 72-90 on the labels after line 66: the category renamed, the
      unused columns dropped, YEAR and MONTH added. */
  function Prepared(cols: seq<string>): seq<string> {
    WithColumn(WithColumn(Where(Relabel(cols, CategoryName), Unlisted(DroppedColumns)), "YEAR"), "MONTH")
  }

  /** Lines 72-103: the category count, the Date slices, the output names and
      the select. */
  function Finished(cols: seq<string>): (r: Result<seq<string>, ColumnError>)
  {
    if "MASTER SALES CATEGORY" !in cols then Err(MissingColumn("MASTER SALES CATEGORY"))
    else if "Date" !in Where(Relabel(cols, CategoryName), Unlisted(DroppedColumns)) then Err(MissingColumn("Date"))
    else Select(Relabel(Prepared(cols), OutputName), OutputColumns)
  }

  /** The labels reaching line 114 as written: line 66 drops only
      TITLE_Itemflat. */
  function ColumnsAsWritten(header: seq<string>, ean: EanType): (r: Result<seq<string>, ColumnError>)
  {
    match Merges(header, ean)
    case Err(e) => Err(e)
    case Ok(c) => Finished(Where(c, Unlisted(["TITLE_Itemflat"])))
  }

  /** The labels reaching line 114 when EAN is read as text and line 66 also
      drops the item table's ISBN, as the sibling loader does. */
  function Columns(header: seq<string>): (r: Result<seq<string>, ColumnError>)
  {
    match Merges(header, TextEan)
    case Err(e) => Err(e)
    case Ok(c) =>
      if "ISBN" !in c then Err(MissingColumn("ISBN"))
      else Finished(Where(c, Unlisted(["TITLE_Itemflat", "ISBN"])))
  }

  /** Line 114 and what follows: `clean_isbn` runs only on a single ISBN
      column, and then the script appends `Ingest.MonthlySalesUpload`. */
  function Cleaned(cols: Result<seq<string>, ColumnError>, sheet: seq<Ingest.SheetRow>,
                   cats: seq<Ingest.CategoryRow>, books: seq<Ingest.BookTitle>): (r: Result<seq<Ingest.Grouped<Ingest.Key6>>, ColumnError>)
  {
    match cols
    case Err(e) => Err(e)
    case Ok(c) =>
      if Width(c, "ISBN") != 1 then Err(AmbiguousColumn("ISBN"))
      else Ok(Ingest.MonthlySalesUpload(sheet, cats, books))
  }

  /** monthly_sales_upload.py as written, on a sheet whose EAN column is
      typed `ean`. */
  function UploadAsWritten(header: seq<string>, ean: EanType, sheet: seq<Ingest.SheetRow>, cats: seq<Ingest.CategoryRow>,
                           books: seq<Ingest.BookTitle>): Result<seq<Ingest.Grouped<Ingest.Key6>>, ColumnError>
  {
    Cleaned(ColumnsAsWritten(header, ean), sheet, cats, books)
  }

  /** monthly_sales_upload.py with EAN read as text and the item table's ISBN
      dropped after the merge. */
  function Upload(header: seq<string>, sheet: seq<Ingest.SheetRow>, cats: seq<Ingest.CategoryRow>,
                  books: seq<Ingest.BookTitle>): Result<seq<Ingest.Grouped<Ingest.Key6>>, ColumnError>
  {
    Cleaned(Columns(header), sheet, cats, books)
  }

  // ---------------------------------------------------------------------------
  // Widths through the steps
  // ---------------------------------------------------------------------------

  lemma {:induction false} WidthAppend(a: seq<string>, b: seq<string>, x: string)
    ensures Width(a + b, x) == Width(a, x) + Width(b, x)
    decreases |a|
  {
    if a == [] {
      assert a + b == b;
    } else {
      assert (a + b)[1..] == a[1..] + b;
      WidthAppend(a[1..], b, x);
    }
  }

  /** Filtering keeps the width of an accepted label and empties a rejected
      one's. */
  lemma {:induction false} WidthWhere(s: seq<string>, p: string -> bool, x: string)
    ensures Width(Where(s, p), x) == if p(x) then Width(s, x) else 0
    decreases |s|
  {
    if s != [] {
      var head := if p(s[0]) then [s[0]] else [];
      assert Where(s, p) == head + Where(s[1..], p);
      WidthAppend(head, Where(s[1..], p), x);
      WidthWhere(s[1..], p, x);
    }
  }

  /** Relabelling where, among the frame's labels, exactly `y` becomes `x`
      (when `keep` holds) or nothing does. */
  lemma {:induction false} WidthRelabel(s: seq<string>, f: string -> string, x: string, y: string, keep: bool)
    requires forall c <- s :: f(c) == x <==> (keep && c == y)
    ensures Width(Relabel(s, f), x) == if keep then Width(s, y) else 0
    decreases |s|
  {
    if s != [] {
      WidthAppend([f(s[0])], Relabel(s[1..], f), x);
      WidthRelabel(s[1..], f, x, y, keep);
    }
  }

  /** Relabelling where exactly the two labels `y` and `z` become `x`. */
  lemma {:induction false} WidthRelabelTwo(s: seq<string>, f: string -> string, x: string, y: string, z: string)
    requires y != z
    requires forall c <- s :: f(c) == x <==> (c == y || c == z)
    ensures Width(Relabel(s, f), x) == Width(s, y) + Width(s, z)
    decreases |s|
  {
    if s != [] {
      WidthAppend([f(s[0])], Relabel(s[1..], f), x);
      WidthRelabelTwo(s[1..], f, x, y, z);
    }
  }

  lemma SuffixedIs(c: string, other: seq<string>, on: seq<string>, suffix: string, x: string)
    requires !EndsWith(x, suffix)
    ensures Suffixed(c, other, on, suffix) == x <==> (c == x && (x !in other || x in on))
  {
    if c in other && c !in on {
      assert (c + suffix)[|c|..] == suffix;
    }
  }

  /** The width of an unsuffixed label after a merge: the left frame's when
      the right one does not clash with it, plus the right frame's when the
      left one does not. */
  lemma MergedWidth(left: seq<string>, right: seq<string>, on: seq<string>, x: string)
    requires !EndsWith(x, "_x") && !EndsWith(x, "_y")
    ensures Width(Merged(left, right, on), x)
            == (if x !in right || x in on then Width(left, x) else 0)
             + (if x !in left && x !in on then Width(right, x) else 0)
  {
    var kept := Where(right, Unlisted(on));
    forall c <- left ensures LeftLabel(right, on)(c) == x <==> ((x !in right || x in on) && c == x) {
      SuffixedIs(c, right, on, "_x", x);
    }
    WidthRelabel(left, LeftLabel(right, on), x, x, x !in right || x in on);
    forall c <- kept ensures RightLabel(left, on)(c) == x <==> ((x !in left && x !in on) && c == x) {
      SuffixedIs(c, left, on, "_y", x);
    }
    WidthRelabel(kept, RightLabel(left, on), x, x, x !in left && x !in on);
    WidthWhere(right, Unlisted(on), x);
    WidthAppend(Relabel(left, LeftLabel(right, on)), Relabel(kept, RightLabel(left, on)), x);
  }

  /** `df[wanted]` with a label named at most once: its columns are selected
      when it is named, and none otherwise. */
  lemma {:induction false} SelectWidth(cols: seq<string>, wanted: seq<string>, x: string)
    requires Select(cols, wanted).Ok?
    requires Width(wanted, x) <= 1
    ensures Width(Select(cols, wanted).value, x) == if x in wanted then Width(cols, x) else 0
    decreases |wanted|
  {
    if wanted != [] {
      var rest := Select(cols, wanted[1..]).value;
      assert Select(cols, wanted).value == Where(cols, Named(wanted[0])) + rest;
      assert Width(wanted, x) == (if wanted[0] == x then 1 else 0) + Width(wanted[1..], x);
      SelectWidth(cols, wanted[1..], x);
      WidthWhere(cols, Named(wanted[0]), x);
      WidthAppend(Where(cols, Named(wanted[0])), rest, x);
    }
  }

  lemma OutputIsbnOnce()
    ensures Width(OutputColumns, "ISBN") == 1
  {
    var a, b := ["NETUNITS", "NETAMT"], ["YEAR", "MONTH", "TITLE", "NAMECUST", "SL Class of Trade", "IPS Sale"];
    WidthAppend(a, ["ISBN"], "ISBN");
    WidthAppend(a + ["ISBN"], b, "ISBN");
  }

  /** No label the script reads or creates looks like a merge suffix. */
  lemma Plain(x: string)
    requires x in SheetColumns || x in MadeColumns
    ensures !EndsWith(x, "_x") && !EndsWith(x, "_y")
  {
  }

  /** The query labels the width arguments need. */
  lemma QueryWidths()
    ensures Width(CategoryColumns, "ISBN") == 0 && Width(CategoryColumns, "EAN") == 0
    ensures Width(CategoryColumns, "MASTER SALES CATEGORY") == 1
    ensures Width(BookColumns, "ISBN") == 1 && Width(BookColumns, "EAN") == 0
    ensures Width(BookColumns, "TITLE_Itemflat") == 1 && Width(BookColumns, "MASTER SALES CATEGORY") == 0
  {
  }

  /** A sheet label keeps its width through both merges: the SL number is the
      category merge's key, and no other sheet label is a query label. */
  lemma ThroughMerges(header: seq<string>, x: string)
    requires x in SheetColumns
    ensures Width(BookLabels(header), x) == Width(header, x)
  {
    Plain(x);
    assert x !in BookColumns;
    assert x == "SL Account Number" || x !in CategoryColumns;
    MergedWidth(header, CategoryColumns, ["SL Account Number"], x);
    MergedWidth(CategoryLabels(header), BookColumns, [], x);
  }

  /** On the merged labels, every ISBN column is the item table's: one when
      the header has no ISBN; EAN keeps its width. */
  lemma MergedIsbn(header: seq<string>)
    requires "ISBN" !in header
    ensures Width(BookLabels(header), "ISBN") == 1
    ensures Width(BookLabels(header), "EAN") == Width(header, "EAN")
    ensures Width(CategoryLabels(header), "EAN") == Width(header, "EAN")
  {
    var on := ["SL Account Number"];
    Plain("ISBN");
    Plain("EAN");
    QueryWidths();
    MergedWidth(header, CategoryColumns, on, "ISBN");
    assert Width(CategoryLabels(header), "ISBN") == 0;
    MergedWidth(CategoryLabels(header), BookColumns, [], "ISBN");
    MergedWidth(header, CategoryColumns, on, "EAN");
    ThroughMerges(header, "EAN");
  }

  /** Adding a column leaves every other label's width alone. */
  lemma WithColumnWidth(cols: seq<string>, name: string, x: string)
    requires x != name
    ensures Width(WithColumn(cols, name), x) == Width(cols, x)
  {
    if name !in cols {
      WidthAppend(cols, [name], x);
    }
  }

  /** Only EAN and ISBN are named ISBN after the output rename. */
  lemma OutputNameIsbn(c: string)
    ensures OutputName(c) == "ISBN" <==> c == "EAN" || c == "ISBN"
  {
  }

  /** The category rename touches neither EAN nor ISBN. */
  lemma CategoryNameKeeps(c: string, x: string)
    requires x == "EAN" || x == "ISBN"
    ensures CategoryName(c) == x <==> c == x
  {
  }

  /** EAN and ISBN keep their widths through lines 72-90. */
  lemma PreparedWidth(cols: seq<string>, x: string)
    requires x == "EAN" || x == "ISBN"
    ensures Width(Prepared(cols), x) == Width(cols, x)
  {
    var renamed := Relabel(cols, CategoryName);
    var kept := Where(renamed, Unlisted(DroppedColumns));
    forall c <- cols ensures CategoryName(c) == x <==> (true && c == x) {
      CategoryNameKeeps(c, x);
    }
    WidthRelabel(cols, CategoryName, x, x, true);
    assert x !in DroppedColumns;
    WidthWhere(renamed, Unlisted(DroppedColumns), x);
    WithColumnWidth(kept, "YEAR", x);
    WithColumnWidth(WithColumn(kept, "YEAR"), "MONTH", x);
  }

  /** The labels reaching line 114 carry as many ISBN columns as EAN and ISBN
      columns reach line 72. */
  lemma FinishedIsbn(cols: seq<string>)
    ensures Finished(cols).Ok? ==> Width(Finished(cols).value, "ISBN") == Width(cols, "EAN") + Width(cols, "ISBN")
  {
    if Finished(cols).Ok? {
      var ready := Prepared(cols);
      PreparedWidth(cols, "EAN");
      PreparedWidth(cols, "ISBN");
      forall c <- ready ensures OutputName(c) == "ISBN" <==> (c == "EAN" || c == "ISBN") {
        OutputNameIsbn(c);
      }
      WidthRelabelTwo(ready, OutputName, "ISBN", "EAN", "ISBN");
      OutputIsbnOnce();
      assert "ISBN" in OutputColumns;
      SelectWidth(Relabel(ready, OutputName), OutputColumns, "ISBN");
    }
  }

  // ---------------------------------------------------------------------------
  // The script as written and corrected
  // ---------------------------------------------------------------------------

  /** Lines 58-66 as written: a run past the merges drops only TITLE_Itemflat. */
  lemma ColumnsAsWrittenSteps(header: seq<string>, ean: EanType)
    ensures ColumnsAsWritten(header, ean).Ok? ==>
              && Merges(header, ean) == Ok(BookLabels(header))
              && ColumnsAsWritten(header, ean) == Finished(Where(BookLabels(header), Unlisted(["TITLE_Itemflat"])))
  {
  }

  /** Lines 58-66 corrected: a run past the merges also drops the item
      table's ISBN. */
  lemma ColumnsSteps(header: seq<string>)
    ensures Columns(header).Ok? ==>
              && Merges(header, TextEan) == Ok(BookLabels(header))
              && Columns(header) == Finished(Where(BookLabels(header), Unlisted(["TITLE_Itemflat", "ISBN"])))
  {
  }

  /** As written, the labels reaching line 114 carry one ISBN column per EAN
      column of the sheet plus the item table's. */
  lemma IsbnWidthAsWritten(header: seq<string>, ean: EanType)
    requires "ISBN" !in header
    ensures ColumnsAsWritten(header, ean).Ok? ==> Width(ColumnsAsWritten(header, ean).value, "ISBN") == Width(header, "EAN") + 1
  {
    if ColumnsAsWritten(header, ean).Ok? {
      var c, drop := BookLabels(header), Unlisted(["TITLE_Itemflat"]);
      ColumnsAsWrittenSteps(header, ean);
      MergedIsbn(header);
      WidthWhere(c, drop, "EAN");
      WidthWhere(c, drop, "ISBN");
      FinishedIsbn(Where(c, drop));
    }
  }

  /** Corrected, the ISBN columns reaching line 114 are exactly the sheet's
      EAN columns. */
  lemma IsbnWidth(header: seq<string>)
    requires "ISBN" !in header
    ensures Columns(header).Ok? ==> Width(Columns(header).value, "ISBN") == Width(header, "EAN")
  {
    if Columns(header).Ok? {
      var c, drop := BookLabels(header), Unlisted(["TITLE_Itemflat", "ISBN"]);
      ColumnsSteps(header);
      MergedIsbn(header);
      WidthWhere(c, drop, "EAN");
      WidthWhere(c, drop, "ISBN");
      FinishedIsbn(Where(c, drop));
    }
  }

  /** As written the script never appends a row: on a sheet without an ISBN
      column, whatever the type of its EAN column, a run that gets past the
      merges, which need EAN, reaches line 114 with two ISBN columns. */
  lemma UploadFails(header: seq<string>, ean: EanType, sheet: seq<Ingest.SheetRow>, cats: seq<Ingest.CategoryRow>,
                    books: seq<Ingest.BookTitle>)
    requires "ISBN" !in header
    ensures UploadAsWritten(header, ean, sheet, cats, books).Err?
  {
    var cols := ColumnsAsWritten(header, ean);
    if cols.Ok? {
      IsbnWidthAsWritten(header, ean);
      MergesNeedEan(header, ean);
      MergedIsbn(header);
      assert Width(header, "EAN") > 0;
      assert Width(cols.value, "ISBN") > 1;
    }
  }

  /** The title merge reads EAN: a run past it had EAN in the sheet, typed
      as text. */
  lemma MergesNeedEan(header: seq<string>, ean: EanType)
    ensures Merges(header, ean).Ok? ==> "EAN" in CategoryLabels(header) && ean == TextEan
  {
  }

  /** The label a selected output label is renamed from at lines 93-99. */
  function OutputSource(w: string): string {
    if w == "NETUNITS" then "Net Sold Units"
    else if w == "NETAMT" then "Net Invc"
    else if w == "ISBN" then "EAN"
    else if w == "TITLE" then "Title"
    else if w == "NAMECUST" then "Headquarter"
    else w
  }

  /** Every selected label is the rename of a sheet label or of YEAR or MONTH. */
  lemma OutputSources(w: string)
    requires w in OutputColumns
    ensures OutputName(OutputSource(w)) == w
    ensures OutputSource(w) in SheetColumns || OutputSource(w) == "YEAR" || OutputSource(w) == "MONTH"
  {
  }

  /** No sheet label is renamed at line 76 or dropped at lines 81-87. */
  lemma SheetLabelKept(c: string)
    requires c in SheetColumns
    ensures CategoryName(c) == c && c !in DroppedColumns
  {
  }

  /** A sheet label of the frame survives lines 72-90. */
  lemma PreparedKeeps(cols: seq<string>, c: string)
    requires c in cols && c in SheetColumns
    ensures c in Where(Relabel(cols, CategoryName), Unlisted(DroppedColumns))
    ensures c in Prepared(cols)
  {
    SheetLabelKept(c);
    RelabelMember(cols, CategoryName, c);
  }

  /** Every label a sheet header brings reaches the select, as do the
      category column and YEAR and MONTH. */
  lemma FinishedOk(cols: seq<string>)
    requires forall c <- SheetColumns :: c in cols
    requires "MASTER SALES CATEGORY" in cols
    ensures Finished(cols).Ok?
  {
    var ready := Prepared(cols);
    assert "Date" in SheetColumns;
    PreparedKeeps(cols, "Date");
    forall w <- OutputColumns ensures w in Relabel(ready, OutputName) {
      OutputSources(w);
      var c := OutputSource(w);
      if c in SheetColumns {
        PreparedKeeps(cols, c);
      }
      RelabelMember(ready, OutputName, c);
    }
  }

  /** Lines 58-65 raise on no label the merged frame carries; on a numeric
      EAN the title merge raises. */
  lemma MergesOkIf(header: seq<string>)
    requires "SL Account Number" in header && "EAN" in CategoryLabels(header)
    requires "Title" in BookLabels(header) && "TITLE_Itemflat" in BookLabels(header)
    ensures Merges(header, TextEan) == Ok(BookLabels(header))
    ensures Merges(header, NumericEan) == Err(KeyTypes("EAN"))
  {
  }

  /** The sheet labels reach line 66. */
  lemma SheetThroughMerges(header: seq<string>)
    requires forall c <- SheetColumns :: c in header
    ensures forall c <- SheetColumns :: c in BookLabels(header)
  {
    forall c <- SheetColumns ensures c in BookLabels(header) {
      ThroughMerges(header, c);
    }
  }

  /** The category and the item title reach line 66 when the sheet has
      neither. */
  lemma QueriesThroughMerges(header: seq<string>)
    requires "MASTER SALES CATEGORY" !in header && "TITLE_Itemflat" !in header
    ensures "MASTER SALES CATEGORY" in BookLabels(header) && "TITLE_Itemflat" in BookLabels(header)
  {
    var on := ["SL Account Number"];
    Plain("MASTER SALES CATEGORY");
    Plain("TITLE_Itemflat");
    QueryWidths();
    MergedWidth(header, CategoryColumns, on, "MASTER SALES CATEGORY");
    MergedWidth(CategoryLabels(header), BookColumns, [], "MASTER SALES CATEGORY");
    MergedWidth(header, CategoryColumns, on, "TITLE_Itemflat");
    MergedWidth(CategoryLabels(header), BookColumns, [], "TITLE_Itemflat");
  }

  /** The labels of a sheet header the merges and the select depend on. */
  lemma SheetHeaderFacts(header: seq<string>)
    requires SheetHeader(header)
    ensures forall c <- SheetColumns :: c in header
    ensures Width(header, "EAN") == 1 && "SL Account Number" in header
    ensures "ISBN" !in header && "MASTER SALES CATEGORY" !in header && "TITLE_Itemflat" !in header
  {
    assert "EAN" in SheetColumns && "SL Account Number" in SheetColumns;
    assert "ISBN" in MadeColumns && "MASTER SALES CATEGORY" in MadeColumns && "TITLE_Itemflat" in MadeColumns;
  }

  /** A sheet header's labels and the category column reach line 66 when
      EAN is read as text; a numeric EAN fails the title merge at line 64. */
  lemma MergesOk(header: seq<string>)
    requires SheetHeader(header)
    ensures Merges(header, TextEan) == Ok(BookLabels(header))
    ensures Merges(header, NumericEan) == Err(KeyTypes("EAN"))
    ensures forall c <- SheetColumns :: c in BookLabels(header)
    ensures "MASTER SALES CATEGORY" in BookLabels(header) && "TITLE_Itemflat" in BookLabels(header)
  {
    SheetHeaderFacts(header);
    SheetThroughMerges(header);
    QueriesThroughMerges(header);
    MergedIsbn(header);
    assert "EAN" in CategoryLabels(header);
    assert "Title" in SheetColumns;
    MergesOkIf(header);
  }

  /** Line 66 drops no sheet label and not the category. */
  lemma DropKeeps(cols: seq<string>, names: seq<string>)
    requires forall c <- SheetColumns :: c in cols
    requires "MASTER SALES CATEGORY" in cols
    requires names == ["TITLE_Itemflat"] || names == ["TITLE_Itemflat", "ISBN"]
    ensures forall c <- SheetColumns :: c in Where(cols, Unlisted(names))
    ensures "MASTER SALES CATEGORY" in Where(cols, Unlisted(names))
  {
    forall c <- SheetColumns ensures c in Where(cols, Unlisted(names)) {
      assert c in SheetColumns;
    }
  }

  /** Where the script as written stops on a sheet header: at the title merge
      of line 64 when EAN was read as numbers; otherwise it gets through every
      step up to line 114 and fails there on the two ISBN columns. */
  lemma UploadFailsAtClean(header: seq<string>, ean: EanType, sheet: seq<Ingest.SheetRow>, cats: seq<Ingest.CategoryRow>,
                           books: seq<Ingest.BookTitle>)
    requires SheetHeader(header)
    ensures ColumnsAsWritten(header, ean).Ok? <==> ean == TextEan
    ensures UploadAsWritten(header, ean, sheet, cats, books)
            == Err(if ean == TextEan then AmbiguousColumn("ISBN") else KeyTypes("EAN"))
  {
    var names := ["TITLE_Itemflat"];
    SheetHeaderFacts(header);
    MergesOk(header);
    if ean == TextEan {
      DropKeeps(BookLabels(header), names);
      FinishedOk(Where(BookLabels(header), Unlisted(names)));
      assert ColumnsAsWritten(header, ean) == Finished(Where(BookLabels(header), Unlisted(names)));
      IsbnWidthAsWritten(header, ean);
    }
  }

  /** Corrected, with EAN read as text and the item table's ISBN dropped, a
      sheet header passes every step and the script appends
      `Ingest.MonthlySalesUpload`. */
  lemma UploadRuns(header: seq<string>, sheet: seq<Ingest.SheetRow>, cats: seq<Ingest.CategoryRow>,
                   books: seq<Ingest.BookTitle>)
    requires SheetHeader(header)
    ensures Columns(header).Ok?
    ensures Upload(header, sheet, cats, books) == Ok(Ingest.MonthlySalesUpload(sheet, cats, books))
  {
    var names := ["TITLE_Itemflat", "ISBN"];
    SheetHeaderFacts(header);
    MergesOk(header);
    MergedIsbn(header);
    DropKeeps(BookLabels(header), names);
    FinishedOk(Where(BookLabels(header), Unlisted(names)));
    assert Columns(header) == Finished(Where(BookLabels(header), Unlisted(names)));
    IsbnWidth(header);
  }
}

=== FILE: windows.dfy ===
/** The column pattern every report repeats for each window (a month, the
    trailing twelve months, a year): filter the facts to the window, group
    them by the join key and sum, left-join the totals onto the base rows and,
    usually, fill the nulls with 0. Each column is tied to `Window`, the
    reference total of the facts in the window that carry the base row's key.
    A window is a test on the fact's YEARMONTH. */
module Windows {
  import opened Wrappers
  import opened Tables
  import opened Calendar

  /** The reference: `val` added up over the facts whose YEARMONTH passes `p`
      and whose join key is `k`. */
  ghost function Window<T, K>(facts: seq<T>, ym: T -> int, p: int -> bool, key: T -> K, k: K, val: T -> real): real
  {
    SumIf(facts, x => p(ym(x)) && key(x) == k, val)
  }

  /** The window's total over all facts, whatever their key. */
  ghost function WindowTotal<T>(facts: seq<T>, ym: T -> int, p: int -> bool, val: T -> real): real
  {
    SumIf(facts, x => p(ym(x)), val)
  }

  /** The one-month window `YEARMONTH == key`. */
  function IsKey(key: int): int -> bool { y => y == key }

  /** The multi-month window `YEARMONTH.is_in(keys)`. */
  function InKeys(keys: seq<int>): int -> bool { y => y in keys }

  /** A zero-filled window column for the base row whose join key is `k`. */
  function Cell<T, K(==)>(facts: seq<T>, ym: T -> int, p: int -> bool, key: T -> K, val: T -> real, k: K): (v: real)
    ensures v == Window(facts, ym, p, key, k, val)
  {
    var inWindow := x => p(ym(x));
    WindowSum(facts, inWindow, key, k, val);
    SumIfExt(facts, x => inWindow(x) && key(x) == k, x => p(ym(x)) && key(x) == k, val);
    JoinFill(GroupSum(Where(facts, inWindow), key, val), k)
  }

  /** The same column left without `fill_null`: null exactly when no fact in
      the window carries the key. */
  function NullableCell<T, K(==)>(facts: seq<T>, ym: T -> int, p: int -> bool, key: T -> K, val: T -> real, k: K): (v: Option<real>)
    ensures v.None? <==> forall x <- facts :: !(p(ym(x)) && key(x) == k)
    ensures v.Some? ==> v.value == Window(facts, ym, p, key, k, val)
  {
    var inWindow := x => p(ym(x));
    NullableCellFacts(facts, inWindow, key, val, k);
    SumIfExt(facts, x => inWindow(x) && key(x) == k, x => p(ym(x)) && key(x) == k, val);
    Lookup(GroupSum(Where(facts, inWindow), key, val), k)
  }

  lemma NullableCellFacts<T, K>(facts: seq<T>, inWindow: T -> bool, key: T -> K, val: T -> real, k: K)
    ensures var v := Lookup(GroupSum(Where(facts, inWindow), key, val), k);
      && (v.None? <==> forall x <- facts :: !(inWindow(x) && key(x) == k))
      && (v.Some? ==> v.value == SumIf(facts, x => inWindow(x) && key(x) == k, val))
  {
    var w := Where(facts, inWindow);
    GroupSumLookup(w, key, val, k);
    WhereGroupOf(facts, inWindow, key, k, val);
    ProjectMember(w, key, k);
    if k in Project(w, key) {
      var i :| 0 <= i < |w| && key(w[i]) == k;
      assert w[i] in w;
    }
  }

  /** A column left null by its join and filled with 0 later is the
      zero-filled column. */
  lemma FilledCell<T, K>(facts: seq<T>, ym: T -> int, p: int -> bool, key: T -> K, val: T -> real, k: K)
    ensures NullableCell(facts, ym, p, key, val, k).GetOr(0.0) == Window(facts, ym, p, key, k, val)
  {
    if NullableCell(facts, ym, p, key, val, k).None? {
      var sel := x => p(ym(x)) && key(x) == k;
      SumIfNone(facts, sel, val);
      WindowAsSumIf(facts, ym, p, key, k, val, sel);
    }
  }

  /** One zero-filled column per month key, in the order of the keys. */
  function MonthCells<T, K(==)>(facts: seq<T>, ym: T -> int, key: T -> K, val: T -> real, keys: seq<int>, k: K): (r: seq<real>)
    ensures |r| == |keys|
    ensures forall i :: 0 <= i < |keys| ==> r[i] == Window(facts, ym, IsKey(keys[i]), key, k, val)
  {
    seq(|keys|, i requires 0 <= i < |keys| => Cell(facts, ym, IsKey(keys[i]), key, val, k))
  }

  /** The column over several distinct months equals the sum of the one-month
      columns over the same months, for every base row: the rolling column is
      the sum of the monthly columns. */
  lemma SpanIsSumOfMonths<T, K>(facts: seq<T>, ym: T -> int, key: T -> K, val: T -> real, keys: seq<int>, k: K)
    requires NoDup(keys)
    ensures Window(facts, ym, InKeys(keys), key, k, val) == Total(MonthCells(facts, ym, key, val, keys, k))
  {
    SumIfSplitKeys(facts, ym, keys, key, k, val);
    SumIfExt(facts, x => InKeys(keys)(ym(x)) && key(x) == k, x => ym(x) in keys && key(x) == k, val);
    var cells := MonthCells(facts, ym, key, val, keys, k);
    forall i | 0 <= i < |keys|
      ensures SumIf(facts, x => ym(x) == keys[i] && key(x) == k, val) == cells[i]
    {
      SumIfExt(facts, x => ym(x) == keys[i] && key(x) == k, x => IsKey(keys[i])(ym(x)) && key(x) == k, val);
    }
    SumMatches(keys, j => SumIf(facts, x => ym(x) == j && key(x) == k, val), cells, Ident);
  }

  /** Window totals through any selection that agrees with the window's
      own test. */
  lemma WindowAsSumIf<T, K>(facts: seq<T>, ym: T -> int, p: int -> bool, key: T -> K, k: K, val: T -> real, sel: T -> bool)
    requires forall x <- facts :: sel(x) == (p(ym(x)) && key(x) == k)
    ensures Window(facts, ym, p, key, k, val) == SumIf(facts, sel, val)
  {
    SumIfExt(facts, x => p(ym(x)) && key(x) == k, sel, val);
  }

  /** A window's total through any selection that agrees with its test. */
  lemma WindowTotalAsSumIf<T>(facts: seq<T>, ym: T -> int, p: int -> bool, val: T -> real, sel: T -> bool)
    requires forall x <- facts :: sel(x) == p(ym(x))
    ensures WindowTotal(facts, ym, p, val) == SumIf(facts, sel, val)
  {
    SumIfExt(facts, x => p(ym(x)), sel, val);
  }

  /** The column as a function of the join key. */
  ghost function WindowBy<T, K>(facts: seq<T>, ym: T -> int, p: int -> bool, key: T -> K, val: T -> real): K -> real
  {
    k => Window(facts, ym, p, key, k, val)
  }

  /** Reporting a window once per distinct join key, over keys that cover
      every fact, adds up to the window's total over all facts: the column
      total is conserved. */
  lemma WindowOverKeys<T, K>(facts: seq<T>, ym: T -> int, p: int -> bool, key: T -> K, val: T -> real, ks: seq<K>)
    requires NoDup(ks)
    requires forall x <- facts :: key(x) in ks
    ensures Sum(ks, WindowBy(facts, ym, p, key, val)) == WindowTotal(facts, ym, p, val)
  {
    SumOverKeys(facts, x => p(ym(x)), key, ks, val);
    WindowKeys(facts, ym, p, key, val, ks);
  }

  lemma {:induction false} WindowKeys<T, K>(facts: seq<T>, ym: T -> int, p: int -> bool, key: T -> K, val: T -> real, ks: seq<K>)
    ensures Sum(ks, WindowBy(facts, ym, p, key, val)) == SumKeys(facts, x => p(ym(x)), key, ks, val)
    decreases |ks|
  {
    if ks != [] {
      WindowKeys(facts, ym, p, key, val, ks[1..]);
      var sel := x => p(ym(x));
      SumIfExt(facts, x => p(ym(x)) && key(x) == ks[0], x => sel(x) && key(x) == ks[0], val);
    }
  }

  /** A window over a single fact in range holds that fact's value. */
  lemma WindowTotalOne<T>(x: T, ym: T -> int, p: int -> bool, val: T -> real)
    requires p(ym(x))
    ensures WindowTotal([x], ym, p, val) == val(x)
  {
    var sel := y => p(ym(y));
    assert sel(x);
    assert SumIf([x][1..], sel, val) == 0.0;
    assert SumIf([x], sel, val) == val(x);
  }

  /** Filtering the facts to those `keep` accepts leaves a key's window
      unchanged when every fact of the key is kept, and empties it when none
      is. */
  lemma FilteredWindow<T, K>(facts: seq<T>, keep: T -> bool, ym: T -> int, p: int -> bool, key: T -> K, k: K, val: T -> real)
    ensures (forall x <- facts :: key(x) == k ==> keep(x)) ==>
              Window(Where(facts, keep), ym, p, key, k, val) == Window(facts, ym, p, key, k, val)
    ensures (forall x <- facts :: key(x) == k ==> !keep(x)) ==>
              Window(Where(facts, keep), ym, p, key, k, val) == 0.0
  {
    var f := Where(facts, keep);
    var sel := x => p(ym(x)) && key(x) == k;
    WindowAsSumIf(f, ym, p, key, k, val, sel);
    if forall x <- facts :: key(x) == k ==> keep(x) {
      WhereSumIfAs(facts, keep, sel, sel, val);
      WindowAsSumIf(facts, ym, p, key, k, val, sel);
    }
    if forall x <- facts :: key(x) == k ==> !keep(x) {
      assert forall x <- f :: !sel(x);
      SumIfNone(f, sel, val);
    }
  }

  /** A window's total over the kept facts is the total of the facts that
      are both in the window and kept. */
  lemma FilteredTotal<T>(facts: seq<T>, keep: T -> bool, ym: T -> int, p: int -> bool, val: T -> real, sel: T -> bool)
    requires forall x <- facts :: sel(x) == (p(ym(x)) && keep(x))
    ensures WindowTotal(Where(facts, keep), ym, p, val) == SumIf(facts, sel, val)
  {
    var inWindow := x => p(ym(x));
    WindowTotalAsSumIf(Where(facts, keep), ym, p, val, inWindow);
    WhereSumIfAs(facts, keep, inWindow, sel, val);
  }

  /** The trailing window's keys are pairwise distinct. */
  lemma TrailingNoDup(year: int, month: int)
    requires ValidMonth(month)
    ensures NoDup(TrailingKeys(year, month))
    ensures NoDup(FourMonthKeys(year, month))
  {
    TrailingKeysShape(year, month);
  }

  /** Window totals only depend on which facts the window and key select. */
  lemma WindowExt<T, K>(facts: seq<T>, ym: T -> int, p: int -> bool, q: int -> bool, key: T -> K, k: K, val: T -> real)
    requires forall x <- facts :: p(ym(x)) == q(ym(x))
    ensures Window(facts, ym, p, key, k, val) == Window(facts, ym, q, key, k, val)
  {
    SumIfExt(facts, x => p(ym(x)) && key(x) == k, x => q(ym(x)) && key(x) == k, val);
  }
}

=== FILE: wrappers.dfy ===
/** Failure-compatible wrappers used across the model: a nullable cell is an
    `Option`, an aborting step is a `Result`. */
module Wrappers {

  /** A table cell that may be null. */
  datatype Option<+T> = None | Some(value: T) {

    /** The cell's value, or `default` when the cell is null (a `fill_null`). */
    function GetOr(default: T): T {
      match this
      case Some(v) => v
      case None => default
    }
  }

  /** The outcome of a step that can abort the run. */
  datatype Result<+T, +E> = Ok(value: T) | Err(error: E)
}
